=== FILE: README.md ===
# diffx diff engine in Dafny

This project models the diff engine of diffx, an XML-aware diff library written in Java,
minus parsing and rendering, and proves properties of the model. Every operation works on
lists of tokens (start tags, end tags, attributes, text, ignorable space and a few others),
and a diff is a list of operations that report each token as a MATCH, an INS(ertion) or a
DEL(etion). A diff handler is modelled as the list of operations it receives.

The modules follow the library's packages:

- `Tokens`, `Outcomes`: the token model, the equality the algorithms compare tokens with
  (end tags by name and URI, any two ignorable spaces equal) and its hash, and the
  `Option`/`Result` types standing for `null` and for thrown exceptions.
- `Operations`, `Actions`: the edit-script algebra. `Generate` rebuilds either side of a
  diff, `Flip` swaps the two sides, `Apply` turns one side into the other, and `Aligns`
  states that a list of operations is a diff of `a` into `b`.
- `CommonSubsequence`: a reference definition of the longest common subsequence (LCS) and
  the recurrences the dynamic-programming algorithms rely on.
- `Hirschberg`: the linear-space LCS diff (`HirschbergAlgorithm2`), proved to emit a diff with
  as many matches as the LCS.
- `Matrices`, `MatrixXml`: the LCS matrix (forward and inverse) and the XML-aware matrix walk
  guarded by the element state, with its size threshold.
- `Nesting`, `ElementStates`, `ElementStackFilters`: the stack of open elements with the
  operator each was opened with, and the strict nesting a diff must keep.
- `PostXmlFixers`, `CoalescingFilters`: the post-passes that balance buffered insertions and
  deletions and that merge adjacent text per operator.
- `TokenSlicing`, `TextOnly`, `Patience`: the common prefix and suffix slicers, the text-only
  diff wrapper, and the patience diff with its unique anchors and longest increasing chain.
- `Namespaces`, `Sequences`, `SequenceFoldings`, `WhitespaceStrippers`: the URI-to-prefix map,
  the well-formedness, depth and text-folding helpers, element folding and whitespace
  stripping.

Java `int` arithmetic is modelled explicitly where it can overflow: hash codes wrap with
`Tokens.Wrap32`, and the size guard of the matrix algorithm is modelled as written
(`MatrixXml.TooManyAsWritten`, which wraps) next to the corrected guard on the true product
(`MatrixXml.TooMany`), which `MatrixXml.ProcessDiff` and `MatrixXml.Diff` use (see
Findings). Everywhere else integers are unbounded because lengths stay far below 2^31.

## Model

| member | source | states |
|---|---|---|
| Actions.Expand | src/main/java/org/pageseeder/diffx/action/Actions.java:58-67 | an action expands into exactly one operation per token, each carrying the action's operator, tokens in order |
| Actions.ToOperations | src/main/java/org/pageseeder/diffx/action/Actions.java:58-67 | the operation list has one entry per token of all the actions |
| Actions.GenerateAgrees | src/main/java/org/pageseeder/diffx/action/Actions.java:41-51 | generating a side from actions (MATCH with INS forward, MATCH with DEL backward) gives the same tokens as generating it from their atomic operations |
| Actions.Flip | src/main/java/org/pageseeder/diffx/action/Actions.java:74-80 | flipping keeps the number of actions and flips each one in place: same tokens, INS and DEL swapped, MATCH kept |
| Actions.FlipToOperations | src/main/java/org/pageseeder/diffx/action/Actions.java:58-80 | flipping actions and then expanding them equals expanding and then flipping every operation |
| Actions.FlipAgrees | src/main/java/org/pageseeder/diffx/action/Actions.java:41-80 | the new side of the flipped actions is the old side of the original ones and vice versa |
| Actions.ApplyAgrees | src/main/java/org/pageseeder/diffx/action/Actions.java:100-126 | action-level apply (MATCH copies a block of input, INS adds its tokens, DEL skips) gives the same outcome as operation-level apply on the expansion, failure included |
| Actions.Apply | src/main/java/org/pageseeder/diffx/action/Actions.java:100-126 | apply succeeds exactly when the MATCH and DEL tokens of the actions consume the whole input, and every failure is an illegal-argument error |
| Actions.ApplyRoundTrip | src/main/java/org/pageseeder/diffx/action/Actions.java:74-126 | applying actions to their old side yields their new side, and applying the flipped actions to the new side yields the old side |
| Actions.ApplicableFromPrefix | src/main/java/org/pageseeder/diffx/action/Actions.java:140-164 | the applicability walk from positions i and j succeeds iff the old-side tokens are related to a prefix of a from i and the new-side tokens to a prefix of b from j |
| Actions.IsApplicable | src/main/java/org/pageseeder/diffx/action/Actions.java:140-164 | isApplicable holds exactly when the old side the actions generate is equal to a prefix of the first input and the new side to a prefix of the second |
| Actions.EmptyScriptApplicable | src/main/java/org/pageseeder/diffx/action/Actions.java:140-164 | full consumption is not required: the empty list of actions is applicable to any two inputs |
| Operations.Generate | src/main/java/org/pageseeder/diffx/action/Operations.java:50-60 | the generated side has as many tokens as there are MATCH operations plus INS (forward) or DEL (backward) operations |
| Operations.GenerateConcat | src/main/java/org/pageseeder/diffx/action/Operations.java:50-60 | generation keeps order: the side generated by a concatenation is the concatenation of the sides |
| Operations.Flip | src/main/java/org/pageseeder/diffx/action/Operations.java:73-79 | flipping keeps the length and flips each operation in place |
| Operations.GenerateFlip | src/main/java/org/pageseeder/diffx/action/Operations.java:50-79 | flipping swaps the two generated sides and swaps the INS and DEL counts, keeping the MATCH count |
| Operations.FlipFlip | src/main/java/org/pageseeder/diffx/action/Operations.java:73-79 | flipping twice gives the operations back |
| Operations.ApplyFromOutcome | src/main/java/org/pageseeder/diffx/action/Operations.java:114-139 | apply from position i succeeds exactly when i plus the MATCH and DEL count reaches the input's end, and then emits one token per MATCH or INS |
| Operations.Apply | src/main/java/org/pageseeder/diffx/action/Operations.java:114-139 | apply succeeds exactly when the MATCH and DEL operations consume the whole input, and then outputs one token per MATCH and INS operation |
| Operations.ApplyRoundTrip | src/main/java/org/pageseeder/diffx/action/Operations.java:50-139 | applying operations to their old side yields their new side; applying the flipped operations to the new side yields the old side |
| Operations.AlignsReconstructs | src/main/java/org/pageseeder/diffx/action/Operations.java:50-60 | a diff of a into b that carries b's tokens generates b exactly forward, a up to the token equality backward, and consumes all of a and produces all of b |
| Operations.AlignsReconstructsKeepA | src/main/java/org/pageseeder/diffx/action/Operations.java:50-60 | a diff that carries a's tokens generates a exactly backward and b up to the token equality forward |
| Operations.AlignsFlip | src/main/java/org/pageseeder/diffx/action/Operations.java:73-79 | the flip of a diff of a into b is a diff of b into a under the converse relation |
| Operations.AlignsConcat | src/main/java/org/pageseeder/diffx/action/Operations.java:50-60 | diffs of consecutive pieces concatenate into a diff of the concatenated inputs |
| Operations.AlignsSplit | src/main/java/org/pageseeder/diffx/action/Operations.java:50-60 | a diff cut anywhere is a diff of the consumed and produced prefixes followed by a diff of the remaining suffixes |
| Tokens.EndOf | src/main/java/org/pageseeder/diffx/token/impl/XMLEndElement.java:72-110 | the end tag built for a start tag is an end token that matches that start tag |
| Tokens.Equals | src/main/java/org/pageseeder/diffx/token/impl/IgnorableSpaceToken.java:86-105 | token equality is exactly the equality of normal forms, the forms that blank the characters of every ignorable space and the closing tag of every folded element, so two ignorable spaces are equal whatever their characters and an end tag equals exactly the end tags with its URI and name |
| Tokens.IsWhitespace | src/main/java/org/pageseeder/diffx/token/TextToken.java:88-96 | only text tokens are whitespace, and a text token without characters always is |
| Tokens.EqualsReflexive | src/main/java/org/pageseeder/diffx/token/impl/XMLEndElement.java:125-132 | token equality relates every token to itself |
| Tokens.EqualsSymmetric | src/main/java/org/pageseeder/diffx/token/impl/XMLEndElement.java:125-132 | token equality is symmetric |
| Tokens.EqualsTransitive | src/main/java/org/pageseeder/diffx/token/impl/XMLEndElement.java:125-132 | token equality is transitive, so it is an equivalence the diff algorithms can rely on |
| Tokens.Wrap32 | src/main/java/org/pageseeder/diffx/token/impl/XMLEndElement.java:112-115 | reduction to a Java int: the result is a 32-bit value congruent to the input modulo 2^32, and 32-bit values are unchanged |
| Tokens.StringHash | src/main/java/org/pageseeder/diffx/token/impl/XMLStartElement.java:158-159 | the Java string hash (31 times the hash so far plus the next UTF-16 code unit) is always a 32-bit value |
| Tokens.CodeUnits | src/main/java/org/pageseeder/diffx/token/impl/XMLStartElement.java:158-159 | a character below U+10000 is one code unit, itself; any other is a high and a low surrogate that decode back to it |
| Tokens.StringHashAppend | src/main/java/org/pageseeder/diffx/token/impl/XMLStartElement.java:158-159 | appending a character takes one step of the string hash, or two steps, one per surrogate, outside the basic plane |
| Tokens.StringHashSurrogatePair | src/main/java/org/pageseeder/diffx/token/impl/XMLStartElement.java:158-159 | U+1F600 is the surrogate pair D83D DE00 and hashes to 1772899, as a Java string does |
| Tokens.StartHash | src/main/java/org/pageseeder/diffx/token/impl/XMLStartElement.java:154-161 | the start tag hash, built from 107 and the URI and name hashes with 32-bit wrap-around, is a 32-bit value |
| Tokens.HashCode | src/main/java/org/pageseeder/diffx/token/impl/XMLEndElement.java:112-115 | start tags, end tags and ignorable spaces have a hash code (ignorable spaces 71, end tags 89 plus the start tag hash) and it is a 32-bit value |
| Tokens.HashCodeConsistent | src/main/java/org/pageseeder/diffx/token/impl/XMLEndElement.java:112-132 | equal tokens have equal hash codes, and every hash code is a 32-bit value |
| Tokens.StartEndHashesDiffer | src/main/java/org/pageseeder/diffx/token/impl/XMLEndElement.java:112-132 | a start tag never equals its end tag, and their hash codes always differ because the shift by 89 cannot wrap back |
| Hirschberg.AllAsAligns | src/main/java/org/pageseeder/diffx/algorithm/HirschbergAlgorithm2.java:218-232 | deleting every token of a is a diff of a into the empty list, inserting every token of b is a diff of the empty list into b, both without a match |
| Hirschberg.FirstMatch | src/main/java/org/pageseeder/diffx/algorithm/HirschbergAlgorithm2.java:235-243 | the scan finds the least index of b equal to the single token, or reports that none is |
| Hirschberg.SingleDiffCorrect | src/main/java/org/pageseeder/diffx/algorithm/HirschbergAlgorithm2.java:234-264 | the one-token case (inserts around the first match, or all inserts then the delete) is a diff of [x] into b with the most matches possible |
| Hirschberg.AlgorithmB | src/main/java/org/pageseeder/diffx/algorithm/HirschbergAlgorithm2.java:111-141 | the forward pass yields, for every prefix of b, the length of the longest common subsequence of a with that prefix |
| Hirschberg.NextRow | src/main/java/org/pageseeder/diffx/algorithm/HirschbergAlgorithm2.java:120-138 | one forward row turns the LCS lengths for a[..i-1] into those for a[..i], against every prefix of b |
| Hirschberg.AlgorithmBRev | src/main/java/org/pageseeder/diffx/algorithm/HirschbergAlgorithm2.java:156-186 | the backward pass yields, for every suffix of b, the length of the longest common subsequence of a with that suffix |
| Hirschberg.NextRowRev | src/main/java/org/pageseeder/diffx/algorithm/HirschbergAlgorithm2.java:165-183 | one backward row turns the LCS lengths for a suffix of a into those for the suffix one token longer, against every suffix of b |
| Hirschberg.CellRev | src/main/java/org/pageseeder/diffx/algorithm/HirschbergAlgorithm2.java:169-178 | one backward cell, from its diagonal, lower and right neighbours, is the LCS length of its two suffixes |
| Hirschberg.FindK | src/main/java/org/pageseeder/diffx/algorithm/HirschbergAlgorithm2.java:191-202 | findK returns the first column whose sum of forward and backward lengths is largest, and column 0 when every sum is 0 |
| Hirschberg.FindKMaximises | src/main/java/org/pageseeder/diffx/algorithm/HirschbergAlgorithm2.java:191-203 | the column findK picks maximises the sum of the LCS of the first half with b[..j] and of the second half with b[j..] |
| Hirschberg.EmitAll | src/main/java/org/pageseeder/diffx/algorithm/HirschbergAlgorithm2.java:218-232 | the loops for an empty side emit one operation per token with the given operator, in order |
| Hirschberg.MatchSingle | src/main/java/org/pageseeder/diffx/algorithm/HirschbergAlgorithm2.java:234-264 | the loop for a single token of a emits exactly the one-token diff, keeping the from or to token on the match as configured |
| Hirschberg.AlgorithmC | src/main/java/org/pageseeder/diffx/algorithm/HirschbergAlgorithm2.java:217-277 | algorithmC emits a diff of a into b with as many matches as the longest common subsequence, and takes the delete-all, insert-all and one-token branches exactly when the source does |
| Hirschberg.FindSplit | src/main/java/org/pageseeder/diffx/algorithm/HirschbergAlgorithm2.java:266-273 | the two passes and findK give a column of b where the two halves' LCS lengths sum to their maximum |
| Hirschberg.BestSplit | src/main/java/org/pageseeder/diffx/algorithm/HirschbergAlgorithm2.java:266-276 | splitting a at m/2 and b at the chosen column loses nothing: the two halves' LCS lengths add up to the LCS of a and b |
| Hirschberg.Halves | src/main/java/org/pageseeder/diffx/algorithm/HirschbergAlgorithm2.java:266-276 | the two recursive calls together emit an optimal diff of a into b |
| Hirschberg.Diff | src/main/java/org/pageseeder/diffx/algorithm/HirschbergAlgorithm2.java:87-93 | the diff generates the to list exactly and the from list up to the equality (the other way round with preferFrom), and no diff of the two lists has more matches |
| CommonSubsequence.UpperBound | src/main/java/org/pageseeder/diffx/algorithm/HirschbergAlgorithm2.java:217-277 | no diff of a into b has more matches than the length of the longest common subsequence |
| CommonSubsequence.BackStep | src/main/java/org/pageseeder/diffx/algorithm/HirschbergAlgorithm2.java:124-132 | the forward recurrence holds: extending both lists by one token adds one when the tokens are equal and takes the larger neighbour otherwise |
| CommonSubsequence.FrontStep | src/main/java/org/pageseeder/diffx/algorithm/HirschbergAlgorithm2.java:169-178 | the backward recurrence holds: prefixing both lists by one token adds one when the tokens are equal and takes the larger neighbour otherwise |
| CommonSubsequence.PrefixCell | src/main/java/org/pageseeder/diffx/algorithm/HirschbergAlgorithm2.java:124-132 | the cell computed by the forward loop from its three neighbours is the LCS length of the two prefixes |
| CommonSubsequence.SuffixCell | src/main/java/org/pageseeder/diffx/algorithm/HirschbergAlgorithm2.java:169-178 | the cell computed by the backward loop from its three neighbours is the LCS length of the two suffixes |
| CommonSubsequence.HirschbergSplit | src/main/java/org/pageseeder/diffx/algorithm/HirschbergAlgorithm2.java:266-276 | a column of b that maximises the two halves' summed LCS lengths splits the LCS of a1 + a2 and b exactly |
| CommonSubsequence.SingleToken | src/main/java/org/pageseeder/diffx/algorithm/HirschbergAlgorithm2.java:234-250 | the LCS of one token with b is 1 when some token of b equals it and 0 otherwise |
| CommonSubsequence.CommonPrefixLcs | src/main/java/org/pageseeder/diffx/core/TextOnlyProcessor.java:170-183 | a common prefix of n equal tokens adds exactly n to the LCS of what follows it |
| CommonSubsequence.CommonSuffixLcs | src/main/java/org/pageseeder/diffx/core/TextOnlyProcessor.java:185-200 | a common suffix of n equal tokens adds exactly n to the LCS of what precedes it |
| Matrices.Matrix.Set | src/main/java/org/pageseeder/diffx/algorithm/Matrix.java:39-46 | set writes one cell and leaves every other cell, the dimensions, the direction and the storage unchanged |
| Matrices.Matrix.IncrementPath | src/main/java/org/pageseeder/diffx/algorithm/Matrix.java:58-66 | incrementPath sets the cell to one more than its diagonal neighbour, which is (i+1, j+1) for an inverse matrix and (i-1, j-1) for a forward one |
| Matrices.Matrix.IncrementByMaxPath | src/main/java/org/pageseeder/diffx/algorithm/Matrix.java:68-76 | incrementByMaxPath sets the cell to the larger of its two neighbours in the direction the matrix is filled |
| Matrices.Matrix.Step | src/main/java/org/pageseeder/diffx/algorithm/Matrix.java:78-116 | exactly one of isGreaterX, isGreaterY and isSameXY holds at every cell, so a walk testing them in that order always picks a direction |
| Matrices.Matrix.Size | src/main/java/org/pageseeder/diffx/algorithm/Matrix.java:136-141 | size is the product of the two lengths when that fits a Java int, and is always a 32-bit value |
| Matrices.Setup | src/main/java/org/pageseeder/diffx/algorithm/Matrix.java:31-37 | setup gives a width by height matrix of zeros with the requested direction and storage |
| Matrices.Compute | src/main/java/org/pageseeder/diffx/algorithm/MatrixProcessor.java:83-106 | the forward matrix holds in cell (i, j) the LCS length of first[..i] and second[..j], its corner is the LCS of the two lists, and short storage is chosen only when every cell fits a short |
| Matrices.FillRow | src/main/java/org/pageseeder/diffx/algorithm/MatrixProcessor.java:89-104 | one pass of the outer loop completes row i while keeping the rows already filled |
| Matrices.FillCell | src/main/java/org/pageseeder/diffx/algorithm/MatrixProcessor.java:92-101 | one cell of the forward loop: zero on the border, otherwise the LCS length of the two prefixes, with every cell already filled kept |
| Matrices.ComputeInverse | src/main/java/org/pageseeder/diffx/algorithm/MatrixProcessor.java:108-131 | the inverse matrix holds in cell (i, j) the LCS length of first[i..] and second[j..], and its origin is the LCS of the two lists |
| Matrices.FillInverseColumn | src/main/java/org/pageseeder/diffx/algorithm/MatrixProcessor.java:114-129 | one pass of the outer backward loop completes column i while keeping the ones already filled |
| Matrices.FillInverseCell | src/main/java/org/pageseeder/diffx/algorithm/MatrixProcessor.java:117-126 | one cell of the backward loop: zero on the far border, otherwise the LCS length of the two suffixes |
| ElementStates.ElementState.EnsureCapacity | src/main/java/org/pageseeder/diffx/algorithm/ElementState.java:90-107 | growing keeps the open elements; it does nothing when the capacity suffices and otherwise grows to the larger of one and a half times plus one and the requested capacity |
| ElementStates.ElementState.Current | src/main/java/org/pageseeder/diffx/algorithm/ElementState.java:192-197 | the current element is the innermost open one, and there is none exactly when the stack is empty |
| ElementStates.ElementState.CurrentChange | src/main/java/org/pageseeder/diffx/algorithm/ElementState.java:204-209 | the current change is the operator the innermost element was opened with, and there is none exactly when the stack is empty |
| ElementStates.ElementState.MatchCurrent | src/main/java/org/pageseeder/diffx/algorithm/ElementState.java:220-227 | matchCurrent holds exactly when the token is an end tag whose URI and name are those of the innermost open element |
| ElementStates.ElementState.IsAllowed | src/main/java/org/pageseeder/diffx/algorithm/ElementState.java:262-270 | isAllowed holds exactly when the token is not an end tag or closes the innermost open element under the operator it was opened with, and an allowed end tag matches the current element |
| ElementStates.ElementState.HasPriorityOver | src/main/java/org/pageseeder/diffx/algorithm/ElementState.java:284-288 | only an attribute has priority, only over a token that is not an attribute, so priority never holds both ways, and never with no element open |
| ElementStates.ElementState.Push | src/main/java/org/pageseeder/diffx/algorithm/ElementState.java:298-303 | push puts the start tag with its operator on top of the stack |
| ElementStates.ElementState.Pop | src/main/java/org/pageseeder/diffx/algorithm/ElementState.java:310-316 | pop removes and returns the innermost element, and returns nothing from an empty stack, leaving it as it is |
| ElementStates.ElementState.Handle | src/main/java/org/pageseeder/diffx/algorithm/ElementState.java:239-246 | a start tag is pushed with its operator, an end tag pops, and any other token leaves the state unchanged |
| ElementStates.ElementState.Get | src/main/java/org/pageseeder/diffx/algorithm/ElementState.java:329-332 | get returns the element at an index below the size, and fails with an index-out-of-bounds error otherwise |
| ElementStates.ElementState.RemoveAsWritten | src/main/java/org/pageseeder/diffx/algorithm/ElementState.java:345-354 | remove as written shifts the elements above the index down but leaves the operators where they were |
| ElementStates.ElementState.Remove | src/main/java/org/pageseeder/diffx/algorithm/ElementState.java:345-354 | remove takes the element at the index out of the stack, operator and all, and fails with an index-out-of-bounds error outside the stack |
| ElementStates.ElementState.Clear | src/main/java/org/pageseeder/diffx/algorithm/ElementState.java:360-366 | clear empties the stack and keeps the capacity |
| ElementStates.New | src/main/java/org/pageseeder/diffx/algorithm/ElementState.java:69-74 | a state with a non-negative initial capacity is empty with that capacity; a negative capacity is an illegal-argument error |
| ElementStates.Empty | src/main/java/org/pageseeder/diffx/algorithm/ElementState.java:79-81 | the default state is empty with the default capacity |
| ElementStates.IndexOf | src/main/java/org/pageseeder/diffx/algorithm/ElementState.java:150-161 | indexOf returns the first position holding the element, and -1 exactly when no open position holds it |
| ElementStates.LastIndexOf | src/main/java/org/pageseeder/diffx/algorithm/ElementState.java:172-183 | lastIndexOf returns the last position holding the element, and -1 exactly when no open position holds it |
| ElementStates.Contains | src/main/java/org/pageseeder/diffx/algorithm/ElementState.java:136-138 | contains holds exactly when some open element is the given start tag |
| ElementStates.AllowedIsStrict | src/main/java/org/pageseeder/diffx/algorithm/ElementState.java:262-270 | isAllowed holds exactly when the operation keeps the strict nesting of the open elements, and handling it then gives the stack the nesting expects |
| ElementStates.RemoveAsWrittenLosesOperator | src/main/java/org/pageseeder/diffx/algorithm/ElementState.java:345-354 | removing the bottom of two elements as written leaves the top element paired with the removed element's operator |
| ElementStates.HandleTracksReplay | src/main/java/org/pageseeder/diffx/algorithm/ElementState.java:239-246 | feeding a strictly nested run of operations leaves exactly the stack the nesting replay computes |
| ElementStackFilters.Filter.Depth | src/main/java/org/pageseeder/diffx/algorithm/ElementStackFilter.java:66-68 | the depth is zero exactly when no element is open |
| ElementStackFilters.Filter.Current | src/main/java/org/pageseeder/diffx/algorithm/ElementStackFilter.java:85-87 | the current element is the innermost open one, and there is none exactly when the stack is empty |
| ElementStackFilters.Filter.MatchCurrent | src/main/java/org/pageseeder/diffx/algorithm/ElementStackFilter.java:141-145 | matchCurrent holds exactly when the end tag of that start tag, under that operator, closes the innermost open element |
| ElementStackFilters.Filter.IsAllowed | src/main/java/org/pageseeder/diffx/algorithm/ElementStackFilter.java:123-129 | isAllowed holds exactly when the token is not an end tag or closes the innermost open element under its operator |
| ElementStackFilters.Filter.HasPriorityOver | src/main/java/org/pageseeder/diffx/algorithm/ElementStackFilter.java:159-163 | only an attribute has priority, only over a token that is not an attribute, so priority never holds both ways, and never with no element open |
| ElementStackFilters.Filter.Handle | src/main/java/org/pageseeder/diffx/algorithm/ElementStackFilter.java:99-107 | every operation is forwarded before the stack changes, so the target has it even when the call raises; a start tag pushes, an end tag pops, other tokens leave the stack, and an end tag on an empty stack raises a no-such-element error and leaves the stack as it was |
| ElementStackFilters.HandleAllForwards | src/main/java/org/pageseeder/diffx/algorithm/ElementStackFilter.java:99-107 | over a run of operations the target receives a prefix of them: all of them when nothing is raised, and up to and including the one that raised otherwise |
| ElementStackFilters.Filter.Clear | src/main/java/org/pageseeder/diffx/algorithm/ElementStackFilter.java:169-171 | clear empties the stack and forwards nothing |
| ElementStackFilters.Fresh | src/main/java/org/pageseeder/diffx/algorithm/ElementStackFilter.java:58-61 | a new filter has no open element and has forwarded nothing |
| ElementStackFilters.HandleAllTracksReplay | src/main/java/org/pageseeder/diffx/algorithm/ElementStackFilter.java:99-107 | a strictly nested run of operations never fails, is forwarded unchanged, and leaves the stack the nesting replay computes |
| ElementStackFilters.AgreesWithElementState | src/main/java/org/pageseeder/diffx/algorithm/ElementStackFilter.java:123-163 | over the same open elements, the filter and the element state agree on isAllowed and on hasPriorityOver |
| MatrixXml.DefaultConfig | src/main/java/org/pageseeder/diffx/algorithm/MatrixXMLAlgorithm.java:40-52 | a new algorithm slices its inputs and uses the default threshold |
| MatrixXml.TooManyAsWritten | src/main/java/org/pageseeder/diffx/algorithm/MatrixXMLAlgorithm.java:137-138 | the guard as written compares the product wrapped to an int, which is the true comparison whenever the product fits an int |
| MatrixXml.TooMany | src/main/java/org/pageseeder/diffx/algorithm/MatrixXMLAlgorithm.java:137-138 | the size guard compares the true product of the two lengths with the threshold, and agrees with the 32-bit product the source computes whenever that product does not overflow |
| MatrixXml.TooManyOverflows | src/main/java/org/pageseeder/diffx/algorithm/MatrixXMLAlgorithm.java:137-138 | two lists of 65536 tokens pass the guard as written, because the product wraps to 0, but are rejected by the true product |
| MatrixXml.IsDiffComputableAsWritten | src/main/java/org/pageseeder/diffx/algorithm/MatrixXMLAlgorithm.java:78-83 | isDiffComputable as written is exactly the refusal guard of processDiff applied to the sliced lengths |
| MatrixXml.IsDiffComputable | src/main/java/org/pageseeder/diffx/algorithm/MatrixXMLAlgorithm.java:78-83 | the intended isDiffComputable is the negation of the version as written whenever the product fits an int |
| MatrixXml.IsDiffComputableAgreesWithDiff | src/main/java/org/pageseeder/diffx/algorithm/MatrixXMLAlgorithm.java:78-130 | with the sliced-off counts and both middles non-empty, the intended isDiffComputable is false exactly when diff refuses |
| MatrixXml.IsDiffComputableInverted | src/main/java/org/pageseeder/diffx/algorithm/MatrixXMLAlgorithm.java:78-83 | as written, isDiffComputable holds exactly when the sliced diff is too large; the corrected test holds exactly when it is not |
| MatrixXml.IsDiffComputableCounterexample | src/main/java/org/pageseeder/diffx/algorithm/MatrixXMLAlgorithm.java:78-83 | a one-token against one-token diff, far below the threshold, is reported not computable as written and computable once corrected |
| MatrixXml.Choose | src/main/java/org/pageseeder/diffx/algorithm/MatrixXMLAlgorithm.java:150-266 | each step of the walk picks an operation the element state allows: an insert of the first list's token, a delete of the second's, or a match of two equal tokens; a match is taken whenever the two moves are equivalent and it is allowed |
| MatrixXml.MainWalk | src/main/java/org/pageseeder/diffx/algorithm/MatrixXMLAlgorithm.java:145-270 | the matrix walk emits a diff of the consumed prefixes, strictly nested from the initial open elements, with the element state fed every operation |
| MatrixXml.Advance | src/main/java/org/pageseeder/diffx/algorithm/MatrixXMLAlgorithm.java:150-270 | an insert moves along the first list, a delete along the second and a match along both, and the operations still form a diff of the prefixes |
| MatrixXml.FinishOff | src/main/java/org/pageseeder/diffx/algorithm/MatrixXMLAlgorithm.java:272-287 | after the walk the rest of the first list is inserted and then the rest of the second deleted, feeding the element state |
| MatrixXml.ProcessDiff | src/main/java/org/pageseeder/diffx/algorithm/MatrixXMLAlgorithm.java:132-288 | processDiff fails with an illegal-argument error exactly when the true product of the two lengths exceeds the threshold (the corrected guard, see Findings); otherwise it emits a diff of the two lists whose walked part is strictly nested and whose rest inserts then deletes what remains |
| MatrixXml.Diff | src/main/java/org/pageseeder/diffx/algorithm/MatrixXMLAlgorithm.java:86-130 | the diff generates the first list exactly and the second up to token equality, never has more matches than their LCS, handles an empty side by deleting then inserting everything, and fails exactly when both lists and both middles left by the slicer are non-empty and the middles need more comparisons than the threshold (counted as a true product); the handler has received the whole diff on success and, on failure, the MATCH operations of the sliced start, which are sent before the middle is refused |
| MatrixXml.StartSentBeforeRefusal | src/main/java/org/pageseeder/diffx/algorithm/MatrixXMLAlgorithm.java:111-138 | with slicing on and a threshold of 0, `a b` against `a c` slices one common start token off and refuses the one-token middles, so the handler is left with MATCH of `a` |
| MatrixXml.EqualListsSliceAway | src/main/java/org/pageseeder/diffx/algorithm/MatrixXMLAlgorithm.java:86-130 | two equal one-token lists slice down to empty middles, so diff does not refuse them even with a threshold of 0, though the unsliced lists exceed it |
| MatrixXml.TailAligns | src/main/java/org/pageseeder/diffx/algorithm/MatrixXMLAlgorithm.java:92-101 | inserting all of one list and then deleting all of the other is a diff of the two |
| MatrixXml.SwapEmptyTail | src/main/java/org/pageseeder/diffx/algorithm/MatrixXMLAlgorithm.java:120-122 | when either sliced middle is empty, deleting the one and inserting the other is a diff of the two middles |
| MatrixXml.SlicesJoin | src/main/java/org/pageseeder/diffx/algorithm/MatrixXMLAlgorithm.java:116-126 | the common start as matches, a diff of the middles and the common end as matches make a diff of the whole lists |
| MatrixXml.FewerComparisons | src/main/java/org/pageseeder/diffx/algorithm/MatrixXMLAlgorithm.java:78-83 | the size guard is monotone: slicing shorter lists never turns an acceptable diff into a rejected one |
| PostXmlFixers.Fresh | src/main/java/org/pageseeder/diffx/handler/PostXMLFixer.java:47-79 | a new fixer has no open element, nothing queued and nothing sent |
| PostXmlFixers.Send | src/main/java/org/pageseeder/diffx/handler/PostXMLFixer.java:172-181 | send reports the operation to the target, records it as the last one, and keeps the output strictly nested when an end tag closes the innermost element |
| PostXmlFixers.SendMatchingEnd | src/main/java/org/pageseeder/diffx/handler/PostXMLFixer.java:160-166 | the replacement end tag closes the innermost open element with its own operator, and nothing is sent when none is open |
| PostXmlFixers.SendDeletion | src/main/java/org/pageseeder/diffx/handler/PostXMLFixer.java:114-134 | the first queued deletion is sent and dequeued, and nothing owed to the target is lost |
| PostXmlFixers.SendInsertion | src/main/java/org/pageseeder/diffx/handler/PostXMLFixer.java:116-134 | the first queued insertion is sent and dequeued, and nothing owed to the target is lost |
| PostXmlFixers.ReplaceDeletion | src/main/java/org/pageseeder/diffx/handler/PostXMLFixer.java:118-121 | a deleted end tag that does not close the innermost element is replaced by the matching end and the error flag is set |
| PostXmlFixers.ReplaceInsertion | src/main/java/org/pageseeder/diffx/handler/PostXMLFixer.java:122-125 | an inserted end tag that does not close the innermost element is replaced by the matching end and the error flag is set |
| PostXmlFixers.FlushDeletedAttributes | src/main/java/org/pageseeder/diffx/handler/PostXMLFixer.java:102-104 | the deleted attributes at the head of the queue are sent first, leaving a queue that does not start with an attribute |
| PostXmlFixers.FlushInsertedAttributes | src/main/java/org/pageseeder/diffx/handler/PostXMLFixer.java:105-107 | the inserted attributes at the head of the queue are sent next, leaving a queue that does not start with an attribute |
| PostXmlFixers.FlushOne | src/main/java/org/pageseeder/diffx/handler/PostXMLFixer.java:111-135 | one pass of the alternation sends or replaces exactly one queued token, sets the error flag exactly when it had to replace an end tag, and keeps the output nested |
| PostXmlFixers.FlushTurn | src/main/java/org/pageseeder/diffx/handler/PostXMLFixer.java:98-136 | one turn of the flush loop dequeues at least one token and keeps the output nested |
| PostXmlFixers.FlushChanges | src/main/java/org/pageseeder/diffx/handler/PostXMLFixer.java:97-137 | flushing empties both queues, keeps the output strictly nested and loses no start tag, attribute or text |
| PostXmlFixers.Handle | src/main/java/org/pageseeder/diffx/handler/PostXMLFixer.java:81-95 | a deletion or an insertion is only queued; a match flushes both queues first, and the token is owed to the target under its operator; after the flush a MATCH token is sent as is unless it is an end tag that does not close the innermost element under MATCH, in which case the innermost element's own end tag is sent under its operator instead (nothing when no element is open) and the error flag is left as the flush set it |
| PostXmlFixers.SendMatch | src/main/java/org/pageseeder/diffx/handler/PostXMLFixer.java:89-93 | once the queues are flushed, a MATCH token is sent as is unless it is an end tag not closing the innermost element under MATCH, which is replaced by that element's own end tag; the queues and the error flag are untouched and the output stays strictly nested |
| PostXmlFixers.MatchStart | src/main/java/org/pageseeder/diffx/handler/PostXMLFixer.java:153-157 | an end tag matches exactly when it closes the innermost open element and that element was opened under the given operator; never when nothing is open |
| PostXmlFixers.MatchEndReplaced | src/main/java/org/pageseeder/diffx/handler/PostXMLFixer.java:89-91 | after a matched `<a>`, a matched `</b>` is replaced by `</a>`, leaving nothing open and no error flagged |
| PostXmlFixers.CloseAll | src/main/java/org/pageseeder/diffx/handler/PostXMLFixer.java:187-189 | at the end every element still open is closed, innermost first, with no other token added |
| PostXmlFixers.End | src/main/java/org/pageseeder/diffx/handler/PostXMLFixer.java:183-190 | ending flushes the queues and closes what is open, so everything owed reaches the target and nothing stays open |
| PostXmlFixers.FeedInvariant | src/main/java/org/pageseeder/diffx/handler/PostXMLFixer.java:81-181 | after any run of operations the output sent so far is strictly nested, and the sent and queued tokens are, per operator, exactly the tokens received other than end tags |
| PostXmlFixers.Fixes | src/main/java/org/pageseeder/diffx/handler/PostXMLFixer.java:81-190 | whatever the input, the target receives a balanced, strictly nested list that keeps every start tag, attribute and text token of each operator, in order |
| CoalescingFilters.CoalesceText | src/main/java/org/pageseeder/diffx/handler/CoalescingFilter.java:114-123 | coalescing a run of text gives one text token with the run's characters in order, and a run of one token gives that token back |
| CoalescingFilters.Fresh | src/main/java/org/pageseeder/diffx/handler/CoalescingFilter.java:42-56 | a new filter has nothing buffered and has sent nothing |
| CoalescingFilters.FlushBuffer | src/main/java/org/pageseeder/diffx/handler/CoalescingFilter.java:95-99 | the main buffer goes out as one text event under the current operator, appended to what was sent, and nothing owed is lost |
| CoalescingFilters.FlushAlt | src/main/java/org/pageseeder/diffx/handler/CoalescingFilter.java:100-104 | with the main buffer empty, the alternate buffer goes out as one text event under the opposite operator, and the target then holds everything owed |
| CoalescingFilters.FlushText | src/main/java/org/pageseeder/diffx/handler/CoalescingFilter.java:94-105 | flushing sends the main buffer and then the alternate one, so the target holds every character owed, and no two adjacent text events share an operator |
| CoalescingFilters.Accumulate | src/main/java/org/pageseeder/diffx/handler/CoalescingFilter.java:75-77 | text under the current operator is only buffered, and the owed stream grows by its characters |
| CoalescingFilters.Restart | src/main/java/org/pageseeder/diffx/handler/CoalescingFilter.java:79-83 | a change between MATCH and a change flushes both buffers and starts a new buffer under the new operator |
| CoalescingFilters.Alternate | src/main/java/org/pageseeder/diffx/handler/CoalescingFilter.java:84-87 | text under the opposite change operator goes to the alternate buffer |
| CoalescingFilters.HandleText | src/main/java/org/pageseeder/diffx/handler/CoalescingFilter.java:74-89 | every text token is owed to the target under its operator, whichever branch buffers it |
| CoalescingFilters.Handle | src/main/java/org/pageseeder/diffx/handler/CoalescingFilter.java:58-66 | any other token flushes the buffers and is sent after them, so it is the last event the target holds |
| CoalescingFilters.End | src/main/java/org/pageseeder/diffx/handler/CoalescingFilter.java:68-72 | ending flushes both buffers, so the target holds every character and token owed, with text coalesced |
| CoalescingFilters.FeedInvariant | src/main/java/org/pageseeder/diffx/handler/CoalescingFilter.java:58-105 | after any run of events, the sent and buffered text together are, per operator, the characters and tokens received |
| CoalescingFilters.Coalesces | src/main/java/org/pageseeder/diffx/handler/CoalescingFilter.java:58-105 | the target receives, per operator, the same characters and tokens in the same order, and no two adjacent text events share an operator |
| CoalescingFilters.CoalesceAsWritten | src/main/java/org/pageseeder/diffx/handler/CoalescingFilter.java:132-139 | as written, a list of at most one token is returned as it is, the early return; what a longer list loses is shown by CoalescingFilters.CoalesceAsWrittenDropsText |
| CoalescingFilters.Coalesce | src/main/java/org/pageseeder/diffx/handler/CoalescingFilter.java:132-139 | a list of at most one token is returned as it is, the early return; what a longer list becomes is stated by CoalescingFilters.CoalesceKeepsContent |
| CoalescingFilters.CoalesceAsWrittenDropsText | src/main/java/org/pageseeder/diffx/handler/CoalescingFilter.java:132-139 | as written, coalescing two text tokens returns nothing, because the filter is never ended; with the end call it returns the one merged token |
| CoalescingFilters.CoalesceKeepsContent | src/main/java/org/pageseeder/diffx/handler/CoalescingFilter.java:132-139 | coalesce keeps the characters and the other tokens in order and leaves no two adjacent text tokens |
| CoalescingFilters.AllMatch | src/main/java/org/pageseeder/diffx/handler/CoalescingFilter.java:136-137 | a list fed as matches comes out as matches only |
| TokenSlicing.ComputeStart | src/main/java/org/pageseeder/diffx/sequence/TokenListSlicer.java:96-124 | the common start is a prefix of equal tokens that ends at depth 0 or 1, and no longer common prefix ends at such a depth |
| TokenSlicing.SliceEnd | src/main/java/org/pageseeder/diffx/sequence/TokenListSlicer.java:137-165 | the common end is a suffix of equal tokens, not overlapping the start, that begins at depth 0 or 1, and no longer one does |
| TokenSlicing.Analyze | src/main/java/org/pageseeder/diffx/sequence/TokenListSlicer.java:81-85 | the start and end counts are common to both lists, do not overlap, cut at shallow depths, and are the longest such counts, so the lists determine them |
| TokenSlicing.SubSequence | src/main/java/org/pageseeder/diffx/sequence/TokenListSlicer.java:232-240 | the middle is exactly what remains between the common start and the common end |
| TokenSlicing.HandleStart | src/main/java/org/pageseeder/diffx/sequence/TokenListSlicer.java:177-181 | the common start is reported as matches that generate it on both sides |
| TokenSlicing.HandleEnd | src/main/java/org/pageseeder/diffx/sequence/TokenListSlicer.java:193-199 | the common end is reported as matches that generate it on both sides |
| TextOnly.ComputeStart | src/main/java/org/pageseeder/diffx/core/TextOnlyProcessor.java:170-183 | the common prefix is as long as possible: the tokens after it differ |
| TextOnly.SliceEnd | src/main/java/org/pageseeder/diffx/core/TextOnlyProcessor.java:185-200 | the common suffix does not overlap the prefix and is as long as possible |
| TextOnly.Analyze | src/main/java/org/pageseeder/diffx/core/TextOnlyProcessor.java:164-168 | the prefix and suffix counts are common, maximal, and do not overlap |
| TextOnly.DiffMiddle | src/main/java/org/pageseeder/diffx/core/TextOnlyProcessor.java:82-90 | the middle is diffed optimally, and an empty side gives insert-all then delete-all |
| TextOnly.Diff | src/main/java/org/pageseeder/diffx/core/TextOnlyProcessor.java:59-103 | the diff generates both lists exactly, has as many matches as their LCS, starts with a match when the first tokens agree, and handles an empty side by inserting then deleting everything |
| TextOnly.SlicesAlign | src/main/java/org/pageseeder/diffx/core/TextOnlyProcessor.java:76-100 | the prefix as matches, a diff of the middle and the suffix as matches make a diff of the whole lists |
| TextOnly.SlicesLcs | src/main/java/org/pageseeder/diffx/core/TextOnlyProcessor.java:68-100 | slicing off the common prefix and suffix loses nothing: the LCS of the lists is the prefix, the middle's LCS and the suffix |
| Namespaces.Empty | src/main/java/org/pageseeder/diffx/xml/NamespaceSet.java:44-45 | a new set maps no prefix |
| Namespaces.Single | src/main/java/org/pageseeder/diffx/xml/NamespaceSet.java:50-53 | a set made from one namespace maps its prefix to its URI and nothing else |
| Namespaces.NoNamespace | src/main/java/org/pageseeder/diffx/xml/NamespaceSet.java:63-65 | the default set maps the empty prefix to the empty URI |
| Namespaces.GetPrefix | src/main/java/org/pageseeder/diffx/xml/NamespaceSet.java:219-222 | getPrefix returns the prefix bound to the URI, and nothing when none is |
| Namespaces.GetUri | src/main/java/org/pageseeder/diffx/xml/NamespaceSet.java:231-234 | getUri returns the URI bound to the prefix, and nothing when none is |
| Namespaces.PrefixUriInverse | src/main/java/org/pageseeder/diffx/xml/NamespaceSet.java:219-234 | getPrefix and getUri are inverse: a prefix found for a URI maps back to that URI and vice versa |
| Namespaces.SizeCountsPrefixes | src/main/java/org/pageseeder/diffx/xml/NamespaceSet.java:177-180 | size counts the bound prefixes, which equals the number of bound URIs |
| Namespaces.Clear | src/main/java/org/pageseeder/diffx/xml/NamespaceSet.java:168-172 | clear removes every binding |
| Namespaces.AutoprefixInjective | src/main/java/org/pageseeder/diffx/xml/NamespaceSet.java:99-106 | the generated prefixes differ for different counters |
| Namespaces.NextFree | src/main/java/org/pageseeder/diffx/xml/NamespaceSet.java:83-87 | the generated prefix is free and is the first free one in the order the loop tries them |
| Namespaces.ActualPrefix | src/main/java/org/pageseeder/diffx/xml/NamespaceSet.java:83-87 | the prefix used is the requested one when free, and otherwise a fresh generated one |
| Namespaces.Add | src/main/java/org/pageseeder/diffx/xml/NamespaceSet.java:79-94 | a URI already bound is left alone; a new one is bound to its prefix, or to a fresh prefix when that is taken, keeping one prefix per URI and one URI per prefix |
| Namespaces.AddKeeps | src/main/java/org/pageseeder/diffx/xml/NamespaceSet.java:79-94 | adding never removes or changes an existing binding |
| Namespaces.Unmap | src/main/java/org/pageseeder/diffx/xml/NamespaceSet.java:144-156 | the URI is rebound to the requested prefix; a namespace that held the prefix under another URI is returned and loses its binding; bindings using neither the URI nor the prefix are kept |
| Namespaces.Replace | src/main/java/org/pageseeder/diffx/xml/NamespaceSet.java:144-163 | a namespace already present changes nothing; otherwise the URI's previous namespace is returned, the URI gets the requested prefix, a displaced namespace comes back under a fresh prefix unless its URI is the empty one, and every other binding is kept |
| Namespaces.AddAll | src/main/java/org/pageseeder/diffx/xml/NamespaceSet.java:191-193 | adding every namespace of another set keeps the existing bindings and binds each of its URIs |
| Namespaces.Rebuilds | src/main/java/org/pageseeder/diffx/xml/NamespaceSet.java:191-193 | adding all of a set's namespaces to an empty set rebuilds that set |
| Namespaces.Merge | src/main/java/org/pageseeder/diffx/xml/NamespaceSet.java:262-267 | merging two sets binds every URI of either, and keeps the bindings of the first |
| Sequences.NameStep | src/main/java/org/pageseeder/diffx/sequence/Sequences.java:54-62 | a start tag pushes its name; an end tag succeeds only when it names the innermost open element, and then pops it; other tokens change nothing |
| Sequences.IsWellFormedAsWritten | src/main/java/org/pageseeder/diffx/sequence/Sequences.java:48-65 | as written, the check rejects a missing sequence and accepts a sequence exactly when it holds no start or end tag |
| Sequences.IsWellFormedRejectsElement | src/main/java/org/pageseeder/diffx/sequence/Sequences.java:48-65 | a single empty element is well formed but is rejected by the check as written |
| Sequences.IsWellFormed | src/main/java/org/pageseeder/diffx/sequence/Sequences.java:48-65 | with the pop, the check accepts exactly the sequences whose end tags each close the innermost open element by name and that leave nothing open |
| Sequences.NoneStaysNone | src/main/java/org/pageseeder/diffx/sequence/Sequences.java:57-61 | once an end tag fails the name check, no later token can make the sequence well formed |
| Sequences.StrictNestingIsWellFormed | src/main/java/org/pageseeder/diffx/sequence/Sequences.java:48-65 | a sequence that nests strictly has, at every point, the names of the strictly open elements as its open names |
| Sequences.BalancedIsWellFormed | src/main/java/org/pageseeder/diffx/sequence/Sequences.java:48-65 | a balanced, strictly nested sequence is well formed |
| Sequences.GetMaxDepth | src/main/java/org/pageseeder/diffx/sequence/Sequences.java:77-91 | getMaxDepth is the largest depth (start tags minus end tags) over all prefixes of the sequence, never below 0 |
| Sequences.GetMaxElementContent | src/main/java/org/pageseeder/diffx/sequence/Sequences.java:102-118 | getMaxElementContent is the largest count of non-tag tokens since the last start tag, taken at an end tag, or 0 |
| Sequences.FlushRun | src/main/java/org/pageseeder/diffx/sequence/Sequences.java:134-139 | a buffered run of one text token is written as it is, and a longer run as one text-list token |
| Sequences.FoldTextAsWritten | src/main/java/org/pageseeder/diffx/sequence/Sequences.java:127-144 | foldText as written leaves no two text tokens side by side and never ends in text; it is a prefix of the corrected result, and equal to it when the input ends in a non-text token |
| Sequences.FoldText | src/main/java/org/pageseeder/diffx/sequence/Sequences.java:127-144 | foldText with the final flush keeps every character and every other token in order and leaves no two text tokens side by side |
| Sequences.FoldTextAsWrittenDropsTail | src/main/java/org/pageseeder/diffx/sequence/Sequences.java:127-144 | as written, a sequence ending in text loses that text; with the final flush it is kept |
| Sequences.FoldStateShape | src/main/java/org/pageseeder/diffx/sequence/Sequences.java:127-144 | the fold loop buffers only text, never writes two text tokens side by side, and always writes a tag last |
| Sequences.FoldStateLayout | src/main/java/org/pageseeder/diffx/sequence/Sequences.java:127-144 | what the loop has written plus what it still buffers spells out the input read so far |
| Sequences.FoldTextKeepsFolded | src/main/java/org/pageseeder/diffx/sequence/Sequences.java:127-144 | a sequence with no two adjacent text tokens is left unchanged |
| SequenceFoldings.ForElements | src/main/java/org/pageseeder/diffx/xml/SequenceFolding.java:43-50 | forElements keeps exactly the non-null, non-empty names, each once |
| SequenceFoldings.ForElementsKeepsDistinct | src/main/java/org/pageseeder/diffx/xml/SequenceFolding.java:43-50 | a list of distinct non-empty names is kept as it is, in order |
| SequenceFoldings.Fold | src/main/java/org/pageseeder/diffx/xml/SequenceFolding.java:79-86 | fold leaves no foldable start tag in its output, and its output unfolded is a prefix of its input unfolded |
| SequenceFoldings.StarIsAName | src/main/java/org/pageseeder/diffx/xml/SequenceFolding.java:88-92 | only forAllElements folds every element; a list holding "*" folds only elements named "*" |
| SequenceFoldings.AddKeepsShape | src/main/java/org/pageseeder/diffx/xml/SequenceFolding.java:112-132 | each added token keeps the processor's shape: folders open only for foldable elements, and no foldable start tag left unfolded in them |
| SequenceFoldings.Add | src/main/java/org/pageseeder/diffx/xml/SequenceFolding.java:112-132 | adding a token never loses or reorders content: the written tokens and open folders, unfolded, grow by exactly that token |
| SequenceFoldings.Seal | src/main/java/org/pageseeder/diffx/xml/SequenceFolding.java:119-127 | the matching end tag seals the innermost folder into one element token, which goes to the enclosing folder or to the output |
| SequenceFoldings.RunKeepsContents | src/main/java/org/pageseeder/diffx/xml/SequenceFolding.java:63-70 | after any input the processor's contents, unfolded, are the input unfolded, and its shape holds |
| SequenceFoldings.RunWithoutFoldable | src/main/java/org/pageseeder/diffx/xml/SequenceFolding.java:63-70 | without a foldable start tag every token is written as it is |
| SequenceFoldings.FoldShortcutAgrees | src/main/java/org/pageseeder/diffx/xml/SequenceFolding.java:63-64 | with an empty element list fold returns its input, the same as running the processor with nothing to fold |
| SequenceFoldings.RunTracksNesting | src/main/java/org/pageseeder/diffx/xml/SequenceFolding.java:112-132 | on strictly nested input the open folders are exactly the open elements that are foldable, in order |
| SequenceFoldings.BalancedFoldKeepsContents | src/main/java/org/pageseeder/diffx/xml/SequenceFolding.java:63-132 | on balanced input no folder is left open, the folded output unfolds to the input unfolded, and no foldable start tag is left in it |
| SequenceFoldings.FoldNamedExample | src/main/java/org/pageseeder/diffx/xml/SequenceFolding.java:63-132 | folding "b" in a, b, end b, end a gives start a, one element b, end a |
| SequenceFoldings.FoldAllExample | src/main/java/org/pageseeder/diffx/xml/SequenceFolding.java:63-132 | folding every element of the same input gives one element a holding one element b |
| SequenceFoldings.FoldDropsUnclosed | src/main/java/org/pageseeder/diffx/xml/SequenceFolding.java:112-140 | a foldable element that is never closed stays in its folder and is not part of the output |
| Patience.PrefixIsLongest | src/main/java/org/pageseeder/diffx/algorithm/PatienceAlgorithm.java:98-103 | the common prefix holds equal tokens at every position, and the tokens just after it differ |
| Patience.SuffixIsLongest | src/main/java/org/pageseeder/diffx/algorithm/PatienceAlgorithm.java:113-118 | the common suffix holds equal tokens at every position, and the tokens just before it differ |
| Patience.CommonPrefix | src/main/java/org/pageseeder/diffx/algorithm/PatienceAlgorithm.java:98-103 | the prefix loop stops at the longest common prefix |
| Patience.CommonSuffix | src/main/java/org/pageseeder/diffx/algorithm/PatienceAlgorithm.java:113-118 | the suffix loop stops at the longest common suffix |
| Patience.Candidates | src/main/java/org/pageseeder/diffx/algorithm/PatienceAlgorithm.java:172-185 | the candidate matches are exactly the tokens occurring once in each range, at their positions, sorted by their position in a |
| Patience.LowerBound | src/main/java/org/pageseeder/diffx/algorithm/PatienceAlgorithm.java:215-227 | lowerBound returns the first position among the sorted values whose value is at least the target |
| Patience.Place | src/main/java/org/pageseeder/diffx/algorithm/PatienceAlgorithm.java:196-203 | placing a match keeps the tails strictly increasing and links it to a predecessor with a smaller b position |
| Patience.LongestIncreasingByB | src/main/java/org/pageseeder/diffx/algorithm/PatienceAlgorithm.java:189-213 | the result is a non-empty chain of the given matches, in their order, with strictly increasing b positions |
| Patience.UniqueAnchors | src/main/java/org/pageseeder/diffx/algorithm/PatienceAlgorithm.java:147-187 | every anchor is a token occurring once in each range, anchors increase in both ranges, and there are none exactly when no token occurs once in each |
| Patience.AnchorStep | src/main/java/org/pageseeder/diffx/algorithm/PatienceAlgorithm.java:132-136 | a diff of the gap before an anchor followed by the anchor's match extends a diff of the ranges up to it |
| Patience.Anchored | src/main/java/org/pageseeder/diffx/algorithm/PatienceAlgorithm.java:126-139 | diffing between consecutive anchors and matching each anchor gives a diff of the whole middle |
| Patience.DiffMiddle | src/main/java/org/pageseeder/diffx/algorithm/PatienceAlgorithm.java:113-144 | after the prefix, the middle is diffed and the common suffix is emitted last as matches |
| Patience.JoinHead | src/main/java/org/pageseeder/diffx/algorithm/PatienceAlgorithm.java:98-106 | the common prefix as matches followed by a diff of the rest is a diff of the whole ranges |
| Patience.JoinTail | src/main/java/org/pageseeder/diffx/algorithm/PatienceAlgorithm.java:142-144 | a diff of the middle followed by the common suffix as matches is a diff of the ranges |
| Patience.DiffPart | src/main/java/org/pageseeder/diffx/algorithm/PatienceAlgorithm.java:85-96 | an empty a range gives insertions of all of b, an empty b range deletions of all of a, and the result is always a diff |
| Patience.DiffRange | src/main/java/org/pageseeder/diffx/algorithm/PatienceAlgorithm.java:82-145 | diffRange emits a diff of a into b that starts with the common prefix as matches and ends with the common suffix of the rest as matches |
| Patience.Diff | src/main/java/org/pageseeder/diffx/algorithm/PatienceAlgorithm.java:78-80 | the diff generates the to list exactly and the from list up to the equality, with at least as many matches as the common prefix |
| WhitespaceStrippers.ElementsToIgnore | src/main/java/org/pageseeder/diffx/util/WhitespaceStripper.java:161-167 | the ignore set holds exactly the start tags with the namespace's URI and one of the names |
| WhitespaceStrippers.ElementsToIgnoreByName | src/main/java/org/pageseeder/diffx/util/WhitespaceStripper.java:59-70 | names given without a namespace are ignored under the empty URI |
| WhitespaceStrippers.Strip | src/main/java/org/pageseeder/diffx/util/WhitespaceStripper.java:134-156 | strip fails with a no-such-element error exactly when an end tag finds nothing open, and otherwise keeps every token except whitespace text whose innermost open element is ignored |
| WhitespaceStrippers.FailureStays | src/main/java/org/pageseeder/diffx/util/WhitespaceStripper.java:144-146 | once an end tag meets an empty context, strip fails whatever follows |
| WhitespaceStrippers.KeptIsSubsequence | src/main/java/org/pageseeder/diffx/util/WhitespaceStripper.java:137-155 | the stripped list is an order-preserving subsequence of the input |
| WhitespaceStrippers.KeptDropsOnlyWhitespace | src/main/java/org/pageseeder/diffx/util/WhitespaceStripper.java:147-149 | only whitespace text is dropped: the tokens other than whitespace text are all kept, in order |
| WhitespaceStrippers.KeptKeepsNonText | src/main/java/org/pageseeder/diffx/util/WhitespaceStripper.java:141-146 | every start tag, end tag and other non-text token is kept, in order |
| WhitespaceStrippers.KeptSameContext | src/main/java/org/pageseeder/diffx/util/WhitespaceStripper.java:141-146 | stripping leaves the element nesting as it was |
| WhitespaceStrippers.KeptIdempotent | src/main/java/org/pageseeder/diffx/util/WhitespaceStripper.java:134-156 | stripping a stripped list changes nothing |
| WhitespaceStrippers.KeptNothingIgnored | src/main/java/org/pageseeder/diffx/util/WhitespaceStripper.java:55-57 | with an empty ignore set, stripping keeps the list as it is |
| WhitespaceStrippers.StripNothingIgnored | src/main/java/org/pageseeder/diffx/util/WhitespaceStripper.java:143-148 | with an empty ignore set, strip returns its input unless an end tag finds nothing open |
| WhitespaceStrippers.InnermostDecides | src/main/java/org/pageseeder/diffx/util/WhitespaceStripper.java:141-149 | only the innermost open element decides: whitespace directly inside an ignored element is dropped, inside a kept child it stays, after the child closes it is dropped again, and after the ignored element closes it is kept |
| WhitespaceStrippers.UnmatchedEndFails | src/main/java/org/pageseeder/diffx/util/WhitespaceStripper.java:144-146 | an end tag with no open element makes strip fail |

## Left out

- Parsing, loading and rendering (SAX, DOM and StAX loaders, formatters, XML writers) are not part of this model; the model starts from token lists.
- The `start`/`end` calls that diff handlers receive, `Operations.handle` and `Actions.handle`, are not modelled: a handler is the list of operations it receives, so forwarding in order is what the list is.
- Patience.DiffMiddle: the fallback used when a range has no unique anchor is `MyersGreedyAlgorithm`, which is not part of this model; the Hirschberg model stands in for it, so the result is a diff but its matches are not claimed to be those Myers would find.
- TextOnly.DiffMiddle: the algorithm the text-only processor delegates the middle to (Kumar-Rangan and the others) is not part of this model; the Hirschberg model stands in for it.
- Tokens.StringHash: Dafny strings hold Unicode scalar values, so a Java string with an unpaired surrogate cannot be written down; every other string is hashed over the same UTF-16 code units as in Java.
- Patience.UniqueIn: the source counts occurrences in a `HashMap`, that is by `hashCode` and `equals`; the model counts them with Dafny's `==` on the item type, which is the same relation wherever `equals` is structural (start and end tags compare URI and name, all a `StartTag` holds; text compares characters). Ignorable spaces with different characters are one key to the source and two here, so an ignorable space the source sees twice can be taken as a unique anchor by the model.
- Patience.Candidates: counts occurrences with `==` where the source uses `equals` and `hashCode`, as under `Patience.UniqueIn`.
- Patience.UniqueAnchors: counts occurrences with `==` where the source uses `equals` and `hashCode`, as under `Patience.UniqueIn`; the chain it returns comes from `Patience.LongestIncreasingByB` and is proved increasing in both ranges, not longest.
- TextOnly.ComputeStart: the slicer compares items with `equals`; the model compares them with `==`, the same relation where `equals` is structural and finer for ignorable spaces, where the model's common prefix and suffix can be shorter than the source's.
- TextOnly.SliceEnd: compares items with `==` where the slicer uses `equals`, as under `TextOnly.ComputeStart`; the common suffix can be shorter than the source's for ignorable spaces.
- Patience.LongestIncreasingByB: proves the result is an increasing chain of the given matches, not that it is a longest one.
- Patience.Diff: states that the to side is generated and the from side is matched up to the equality, and counts at least the common prefix as matches; it does not claim the number of matches is optimal, which the source does not promise either.
- Hash map iteration order in `NamespaceSet.addAll` and `merge` is a parameter: the caller passes the enumeration of the namespaces.
- `Namespace.getCommon` (the table of well-known prefixes) is not part of this model; it is a `common` map parameter.
- `Namespaces.AddKeeps`, `Namespaces.Merge`: namespaces are compared by URI and prefix; object identity is not modelled.
- The `Matrix` implementations (`MatrixInt`, `MatrixShort` and their inverse variants) are not part of this model; the forward `incrementPath` is taken to read the cell at (i-1, j-1), the one the forward fill order has already written, while the interface only documents the inverse direction.
- Matrices.Compute: short and int storage are both modelled as unbounded cells; the contract states that every value fits a short whenever short storage is chosen.
- `ElementStackFilter` pops with `Deque.pop`, which throws on an empty stack; this is modelled as a no-such-element error the call reports after forwarding the token (`ElementStackFilters.Handled`), not as control flow through the caller.
- `SequenceFolding` does not write out folders left open at the end of the input; the model does the same, and `SequenceFoldings.FoldDropsUnclosed` states it.
- `CharactersTokenBase` and `TextListToken` are not part of this model: a text token of each kind compares with tokens of its own kind by its characters, and a text list is a token holding its text tokens.
- Tokens.Equals: `TextToken.equals` (TextToken.java:108-113) treats any two text tokens with the same value as equal, whatever their classes; the model compares text tokens only within a kind, so a `Text`, a `TextList` and an `IgnorableSpace` with the same characters are unequal to each other here. Whether the concrete text classes override that default is not visible in this model's sources.
- `ExtendedWhitespaceStripper`, the other diff algorithms (Myers, Guano, Kumar-Rangan, the first Hirschberg and the progressive and histogram algorithms), the processors other than the text-only one, and the configuration classes are out of scope.
- Thread safety, `release` and `toString` are not modelled.

## Findings

| source | as written | input that shows it | evidently intended | confidence | as-written member | corrected member |
|---|---|---|---|---|---|---|
| src/main/java/org/pageseeder/diffx/sequence/Sequences.java:55-64 | `isWellFormed` pushes start tags but never pops on an end tag, so only sequences without any element are accepted | `<a></a>`: a start tag and its end tag | pop the start tag once its end tag has been checked | high, not executed | Sequences.IsWellFormedAsWritten, Sequences.IsWellFormedRejectsElement | Sequences.IsWellFormed |
| src/main/java/org/pageseeder/diffx/sequence/Sequences.java:130-143 | `foldText` writes buffered text only when a non-text token follows, so trailing text is lost | one text token `a` | flush the buffer after the loop | high, not executed | Sequences.FoldTextAsWritten, Sequences.FoldTextAsWrittenDropsTail | Sequences.FoldText |
| src/main/java/org/pageseeder/diffx/algorithm/MatrixXMLAlgorithm.java:78-83 | `isDiffComputable` returns true when the matrix is larger than the threshold | one token against one token, default threshold | return true when the matrix is within the threshold | high, not executed | MatrixXml.IsDiffComputableAsWritten, MatrixXml.IsDiffComputableCounterexample | MatrixXml.IsDiffComputable, MatrixXml.IsDiffComputableInverted |
| src/main/java/org/pageseeder/diffx/algorithm/MatrixXMLAlgorithm.java:137-138 | `lengthA * lengthB` is an `int` product and wraps around | two lists of 65536 tokens: the product wraps to 0 and passes the guard | compare the true product (for example as a `long`) | high, not executed | MatrixXml.TooManyAsWritten, MatrixXml.TooManyOverflows | MatrixXml.TooMany, MatrixXml.ProcessDiff, MatrixXml.Diff |
| src/main/java/org/pageseeder/diffx/algorithm/ElementState.java:345-354 | `remove` shifts `openElements` down but not `openChanges`, so the elements above the index are paired with the wrong operators | stack `a` (MATCH), `b` (INS); remove index 0 | shift `openChanges` along with `openElements` | high, not executed | ElementStates.ElementState.RemoveAsWritten, ElementStates.RemoveAsWrittenLosesOperator | ElementStates.ElementState.Remove |
| src/main/java/org/pageseeder/diffx/handler/CoalescingFilter.java:132-139 | `coalesce` feeds the filter but never calls `end`, so text after the last non-text token is never flushed | two text tokens `a`, `b` | call `end` on the filter before returning | high, not executed | CoalescingFilters.CoalesceAsWritten, CoalescingFilters.CoalesceAsWrittenDropsText | CoalescingFilters.Coalesce, CoalescingFilters.CoalesceKeepsContent |

=== FILE: actions.dfy ===
/**
 * Edit scripts made of actions (`Action`, `Actions` in the source): an action is one
 * operator applied to a run of tokens. Every operation here is related to its
 * single-token counterpart in `Operations` through `ToOperations`.
 */
module Actions {
  import opened Outcomes
  import opened Tokens
  import Operations

  /** One operator applied to a run of tokens. */
  datatype Action<T> = Action(op: Operator, tokens: seq<T>) {
    /** The same tokens with INS and DEL swapped. */
    function Flip(): (r: Action<T>)
      ensures r.tokens == tokens && r.op == op.Flip()
    {
      Action(op.Flip(), tokens)
    }
  }

  /** The total number of tokens carried by the actions. */
  function TokenCount<T>(actions: seq<Action<T>>): nat {
    if |actions| == 0 then 0 else |actions[0].tokens| + TokenCount(actions[1..])
  }

  /** The single-token operations of one action, in token order. */
  function Expand<T>(a: Action<T>): (r: seq<Operations.Operation<T>>)
    ensures |r| == |a.tokens|
    ensures forall k :: 0 <= k < |r| ==> r[k].op == a.op && r[k].token == a.tokens[k]
  {
    seq(|a.tokens|, k requires 0 <= k < |a.tokens| => Operations.Operation(a.op, a.tokens[k]))
  }

  /** `Actions.toOperations`: one operation per token, keeping operator and order. */
  function ToOperations<T>(actions: seq<Action<T>>): (r: seq<Operations.Operation<T>>)
    ensures |r| == TokenCount(actions)
  {
    if |actions| == 0 then [] else Expand(actions[0]) + ToOperations(actions[1..])
  }

  /** `Actions.generate`: the tokens of the MATCH and INS actions forward, of MATCH and DEL backward. */
  function Generate<T>(actions: seq<Action<T>>, forward: bool): seq<T>
  {
    if |actions| == 0 then []
    else
      var a := actions[0];
      (if a.op == MATCH || (forward && a.op == INS) || (!forward && a.op == DEL) then a.tokens else [])
      + Generate(actions[1..], forward)
  }

  lemma {:induction false} GenerateExpand<T>(a: Action<T>, forward: bool)
    ensures Operations.Generate(Expand(a), forward)
         == if a.op == MATCH || (forward && a.op == INS) || (!forward && a.op == DEL) then a.tokens else []
    decreases |a.tokens|
  {
    if |a.tokens| > 0 {
      var a' := Action(a.op, a.tokens[1..]);
      assert Expand(a)[1..] == Expand(a');
      GenerateExpand(a', forward);
      if a.op == MATCH || (forward && a.op == INS) || (!forward && a.op == DEL) {
        assert a.tokens == [a.tokens[0]] + a'.tokens;
      }
    }
  }

  /** Generating from actions agrees with generating from their single-token operations. */
  lemma {:induction false} GenerateAgrees<T>(actions: seq<Action<T>>, forward: bool)
    ensures Generate(actions, forward) == Operations.Generate(ToOperations(actions), forward)
    decreases |actions|
  {
    if |actions| > 0 {
      GenerateAgrees(actions[1..], forward);
      Operations.GenerateConcat(Expand(actions[0]), ToOperations(actions[1..]), forward);
      GenerateExpand(actions[0], forward);
    }
  }

  /** `Actions.flip`: every action flipped, in the same order. */
  function Flip<T>(actions: seq<Action<T>>): (r: seq<Action<T>>)
    ensures |r| == |actions|
    ensures forall i :: 0 <= i < |actions| ==> r[i] == actions[i].Flip()
  {
    if |actions| == 0 then [] else [actions[0].Flip()] + Flip(actions[1..])
  }

  lemma {:induction false} FlipToOperations<T>(actions: seq<Action<T>>)
    ensures ToOperations(Flip(actions)) == Operations.Flip(ToOperations(actions))
    decreases |actions|
  {
    if |actions| > 0 {
      FlipToOperations(actions[1..]);
      assert Flip(actions)[1..] == Flip(actions[1..]);
      var x, y := Expand(actions[0]), ToOperations(actions[1..]);
      assert Operations.Flip(x + y) == Operations.Flip(x) + Operations.Flip(y);
      assert Expand(Flip(actions)[0]) == Operations.Flip(x);
    }
  }

  /** Flipping actions flips their operations, so generation swaps sides. */
  lemma {:induction false} FlipAgrees<T>(actions: seq<Action<T>>, forward: bool)
    ensures ToOperations(Flip(actions)) == Operations.Flip(ToOperations(actions))
    ensures Generate(Flip(actions), forward) == Generate(actions, !forward)
  {
    FlipToOperations(actions);
    GenerateAgrees(Flip(actions), forward);
    GenerateAgrees(actions, !forward);
    Operations.GenerateFlip(ToOperations(actions), forward);
  }

  /**
   * The loop of `Actions.apply` from input position `i`: MATCH copies the next `count`
   * input tokens (a sub-list beyond the input is an IndexOutOfBoundsException, reported
   * as IllegalArgumentException), INS appends its tokens, DEL skips `count` input tokens
   * unchecked; finishing anywhere but at the end of the input is an IllegalArgumentException.
   */
  function ApplyFrom<T>(input: seq<T>, actions: seq<Action<T>>, i: nat): Result<seq<T>>
    decreases |actions|
  {
    if |actions| == 0 then
      if i == |input| then Success([]) else Failure(IllegalArgument)
    else
      var a := actions[0];
      var count := |a.tokens|;
      match a.op
      case MATCH =>
        if i + count <= |input| then
          match ApplyFrom(input, actions[1..], i + count)
          case Success(rest) => Success(input[i..i + count] + rest)
          case Failure(e) => Failure(e)
        else Failure(IllegalArgument)
      case INS =>
        (match ApplyFrom(input, actions[1..], i)
         case Success(rest) => Success(a.tokens + rest)
         case Failure(e) => Failure(e))
      case DEL => ApplyFrom(input, actions[1..], i + count)
  }

  /**
   * `Actions.apply`: succeeds exactly when the MATCH and DEL tokens of the actions consume
   * the whole input; every failure is an IllegalArgumentException.
   */
  function Apply<T>(input: seq<T>, actions: seq<Action<T>>): (r: Result<seq<T>>)
    ensures r.Success? <==> Operations.Consumed(ToOperations(actions)) == |input|
    ensures r.Failure? ==> r.error == IllegalArgument
  {
    ApplyAgrees(input, actions, 0);
    Operations.ApplyFromOutcome(input, ToOperations(actions), 0);
    OperationsApplyFailure(input, ToOperations(actions), 0);
    ApplyFrom(input, actions, 0)
  }

  /** Every failure of either apply is an IllegalArgumentException. */
  lemma {:induction false} OperationsApplyFailure<T>(input: seq<T>, ops: seq<Operations.Operation<T>>, i: nat)
    ensures Operations.ApplyFrom(input, ops, i).Failure? ==> Operations.ApplyFrom(input, ops, i).error == IllegalArgument
    decreases |ops|
  {
    if |ops| > 0 {
      OperationsApplyFailure(input, ops[1..], i + if ops[0].op == INS then 0 else 1);
    }
  }

  /** Applying the operations of one action, followed by `rest`, from position `i`. */
  lemma {:induction false} ApplyExpand<T>(input: seq<T>, a: Action<T>, rest: seq<Operations.Operation<T>>, i: nat)
    ensures Operations.ApplyFrom(input, Expand(a) + rest, i) ==
      match a.op
      case MATCH =>
        if i + |a.tokens| <= |input| then
          match Operations.ApplyFrom(input, rest, i + |a.tokens|)
          case Success(r) => Success(input[i..i + |a.tokens|] + r)
          case Failure(e) => Failure(e)
        else Failure(IllegalArgument)
      case INS =>
        (match Operations.ApplyFrom(input, rest, i)
         case Success(r) => Success(a.tokens + r)
         case Failure(e) => Failure(e))
      case DEL => Operations.ApplyFrom(input, rest, i + |a.tokens|)
    decreases |a.tokens|
  {
    if |a.tokens| == 0 {
      assert Expand(a) + rest == rest;
      assert a.tokens == [];
      if a.op == INS {
        match Operations.ApplyFrom(input, rest, i) {
          case Success(r) => assert a.tokens + r == r;
          case Failure(e) =>
        }
      } else if i <= |input| {
        assert input[i..i] == [];
        match Operations.ApplyFrom(input, rest, i) {
          case Success(r) => assert input[i..i] + r == r;
          case Failure(e) =>
        }
      } else if a.op == MATCH {
        OperationsApplyFailure(input, rest, i);
        OperationsApplyOverrun(input, rest, i);
        assert Operations.ApplyFrom(input, Expand(a) + rest, i) == Failure(IllegalArgument);
      }
    } else {
      var a' := Action(a.op, a.tokens[1..]);
      var ops := Expand(a) + rest;
      assert ops[0] == Operations.Operation(a.op, a.tokens[0]);
      assert ops[1..] == Expand(a') + rest;
      ApplyExpand(input, a', rest, i + if a.op == INS then 0 else 1);
      match a.op
      case MATCH =>
        if i < |input| && i + |a.tokens| <= |input| {
          assert input[i..i + |a.tokens|] == [input[i]] + input[i + 1..i + 1 + |a'.tokens|];
          match Operations.ApplyFrom(input, rest, i + |a.tokens|) {
            case Success(r) =>
              assert input[i..i + |a.tokens|] + r == [input[i]] + (input[i + 1..i + 1 + |a'.tokens|] + r);
            case Failure(e) =>
          }
        }
      case INS =>
        assert a.tokens == [a.tokens[0]] + a'.tokens;
        match Operations.ApplyFrom(input, rest, i) {
          case Success(r) =>
            assert a.tokens + r == [a.tokens[0]] + (a'.tokens + r);
          case Failure(e) =>
        }
      case DEL =>
    }
  }

  /** Single-token apply never succeeds once its position has passed the end of the input. */
  lemma {:induction false} OperationsApplyOverrun<T>(input: seq<T>, ops: seq<Operations.Operation<T>>, i: nat)
    requires i > |input|
    ensures Operations.ApplyFrom(input, ops, i).Failure?
    decreases |ops|
  {
    if |ops| > 0 {
      OperationsApplyOverrun(input, ops[1..], i + if ops[0].op == INS then 0 else 1);
    }
  }

  /** Applying actions agrees with applying their single-token operations, failures included. */
  lemma {:induction false} ApplyAgrees<T>(input: seq<T>, actions: seq<Action<T>>, i: nat)
    ensures ApplyFrom(input, actions, i) == Operations.ApplyFrom(input, ToOperations(actions), i)
    decreases |actions|
  {
    if |actions| > 0 {
      ApplyExpand(input, actions[0], ToOperations(actions[1..]), i);
      ApplyAgrees(input, actions[1..], i + if actions[0].op == INS then 0 else |actions[0].tokens|);
      if actions[0].op != INS {
        ApplyAgrees(input, actions[1..], i + |actions[0].tokens|);
      } else {
        ApplyAgrees(input, actions[1..], i);
      }
    }
  }

  /** apply succeeds exactly when MATCH and DEL actions consume the whole input, and it then rebuilds the new side. */
  lemma ApplyRoundTrip<T>(actions: seq<Action<T>>)
    ensures Apply(Generate(actions, false), actions) == Success(Generate(actions, true))
    ensures Apply(Generate(actions, true), Flip(actions)) == Success(Generate(actions, false))
  {
    var ops := ToOperations(actions);
    GenerateAgrees(actions, false);
    GenerateAgrees(actions, true);
    ApplyAgrees(Generate(actions, false), actions, 0);
    Operations.ApplyRoundTrip(ops);
    FlipAgrees(actions, false);
    ApplyAgrees(Generate(actions, true), Flip(actions), 0);
    GenerateAgrees(Flip(actions), true);
  }

  // Applicability -----------------------------------------------------------------

  /**
   * The per-token loop of `Actions.isApplicable` from positions `i` of `a` and `j` of `b`:
   * a MATCH token must be `eq` to both next tokens, a DEL token to the next token of `a`,
   * an INS token to the next token of `b`. Reaching the end of the script is success,
   * whatever is left of either input.
   */
  predicate ApplicableFrom<T>(eq: (T, T) -> bool, a: seq<T>, b: seq<T>, ops: seq<Operations.Operation<T>>, i: nat, j: nat)
    decreases |ops|
  {
    if |ops| == 0 then true
    else
      var t := ops[0].token;
      match ops[0].op
      case MATCH =>
        i < |a| && eq(t, a[i]) && j < |b| && eq(t, b[j]) && ApplicableFrom(eq, a, b, ops[1..], i + 1, j + 1)
      case DEL => i < |a| && eq(t, a[i]) && ApplicableFrom(eq, a, b, ops[1..], i + 1, j)
      case INS => j < |b| && eq(t, b[j]) && ApplicableFrom(eq, a, b, ops[1..], i, j + 1)
  }

  /**
   * `Actions.isApplicable`, with `eq` standing for the tokens' `equals`: the old side the
   * actions generate is `eq` to a prefix of `a` and the new side to a prefix of `b`.
   */
  predicate IsApplicable<T>(eq: (T, T) -> bool, a: seq<T>, b: seq<T>, actions: seq<Action<T>>)
    ensures IsApplicable(eq, a, b, actions) <==>
              PrefixUnder(eq, Generate(actions, false), a) && PrefixUnder(eq, Generate(actions, true), b)
  {
    ApplicableFromPrefix(eq, a, b, ToOperations(actions), 0, 0);
    GenerateAgrees(actions, false);
    GenerateAgrees(actions, true);
    assert a[0..] == a && b[0..] == b;
    ApplicableFrom(eq, a, b, ToOperations(actions), 0, 0)
  }

  /** `s` is position by position `eq` to the first |s| tokens of `t`. */
  predicate PrefixUnder<T>(eq: (T, T) -> bool, s: seq<T>, t: seq<T>) {
    |s| <= |t| && forall k :: 0 <= k < |s| ==> eq(s[k], t[k])
  }

  lemma {:induction false} ApplicableFromPrefix<T>(eq: (T, T) -> bool, a: seq<T>, b: seq<T>,
                                                  ops: seq<Operations.Operation<T>>, i: nat, j: nat)
    requires i <= |a| && j <= |b|
    ensures ApplicableFrom(eq, a, b, ops, i, j) <==>
              PrefixUnder(eq, Operations.Generate(ops, false), a[i..]) && PrefixUnder(eq, Operations.Generate(ops, true), b[j..])
    decreases |ops|
  {
    if |ops| > 0 {
      var o := ops[0];
      var gA, gB := Operations.Generate(ops, false), Operations.Generate(ops, true);
      var rA, rB := Operations.Generate(ops[1..], false), Operations.Generate(ops[1..], true);
      match o.op
      case MATCH =>
        assert gA == [o.token] + rA && gB == [o.token] + rB;
        if i < |a| && j < |b| {
          ApplicableFromPrefix(eq, a, b, ops[1..], i + 1, j + 1);
          PrefixCons(eq, o.token, rA, a[i..]);
          PrefixCons(eq, o.token, rB, b[j..]);
          assert a[i..][1..] == a[i + 1..] && b[j..][1..] == b[j + 1..];
        }
      case DEL =>
        assert gA == [o.token] + rA && gB == rB;
        if i < |a| {
          ApplicableFromPrefix(eq, a, b, ops[1..], i + 1, j);
          PrefixCons(eq, o.token, rA, a[i..]);
          assert a[i..][1..] == a[i + 1..];
        }
      case INS =>
        assert gA == rA && gB == [o.token] + rB;
        if j < |b| {
          ApplicableFromPrefix(eq, a, b, ops[1..], i, j + 1);
          PrefixCons(eq, o.token, rB, b[j..]);
          assert b[j..][1..] == b[j + 1..];
        }
    }
  }

  lemma PrefixCons<T>(eq: (T, T) -> bool, x: T, s: seq<T>, t: seq<T>)
    ensures PrefixUnder(eq, [x] + s, t) <==> |t| > 0 && eq(x, t[0]) && PrefixUnder(eq, s, t[1..])
  {
    if |t| > 0 && eq(x, t[0]) && PrefixUnder(eq, s, t[1..]) {
      forall k | 0 <= k < |[x] + s| ensures eq(([x] + s)[k], t[k]) {
        if k > 0 {
          assert ([x] + s)[k] == s[k - 1] && t[k] == t[1..][k - 1];
        }
      }
    }
    if PrefixUnder(eq, [x] + s, t) {
      assert eq(([x] + s)[0], t[0]);
      forall k | 0 <= k < |s| ensures eq(s[k], t[1..][k]) {
        assert ([x] + s)[k + 1] == s[k];
      }
    }
  }

  /** An applicable script may leave input unconsumed: the empty script is applicable to anything. */
  lemma EmptyScriptApplicable<T>(eq: (T, T) -> bool, a: seq<T>, b: seq<T>)
    ensures IsApplicable(eq, a, b, [])
  {
  }
}

=== FILE: coalescing_filter.dfy ===
/**
 * `CoalescingFilter`: a diff handler that merges consecutive text tokens reported with
 * the same operator into one text token. While a run of inserted text (or deleted text)
 * is being buffered, text with the opposite operator goes to a second buffer and is
 * released after the first, under its own operator. Any other token releases both
 * buffers and is forwarded unchanged.
 */
module CoalescingFilters {
  import opened Tokens
  import opened Operations
  import opened Nesting

  /** Every token of the list is a text token (`List<TextToken>` in the source). */
  predicate AllText(ts: seq<Token>) {
    forall i :: 0 <= i < |ts| ==> ts[i].IsText()
  }

  /**
   * coalesceText: a single token is returned as it is; any other list gives a new
   * characters token holding the concatenation of the characters, "" for no token.
   */
  function CoalesceText(ts: seq<Token>): (r: Token)
    requires AllText(ts)
    ensures r.IsText()
    ensures Characters(r) == ConcatCharacters(ts)
    ensures |ts| == 1 ==> r == ts[0]
    ensures |ts| != 1 ==> r == Text(ConcatCharacters(ts))
  {
    if |ts| == 1 then
      assert ts[..0] == [];
      ts[0]
    else Text(ConcatCharacters(ts))
  }

  lemma ConcatCharactersAppend(ts: seq<Token>, t: Token)
    ensures ConcatCharacters(ts + [t]) == ConcatCharacters(ts) + Characters(t)
  {
    assert (ts + [t])[..|ts|] == ts;
  }

  // What a stream of events says, per operator -------------------------------------------

  /** One character of text, or a token that is not text, as seen from one side of the diff. */
  datatype Item = Char(c: char) | Mark(e: Event)

  function Chars(s: string): (r: seq<Item>)
    ensures |r| == |s| && forall i :: 0 <= i < |s| ==> r[i] == Char(s[i])
  {
    seq(|s|, i requires 0 <= i < |s| => Char(s[i]))
  }

  lemma CharsConcat(s: string, t: string)
    ensures Chars(s + t) == Chars(s) + Chars(t)
  {
  }

  /** What one event contributes for operator `o`: its characters when it is text under `o`, itself when it is not text. */
  function Piece(e: Event, o: Operator): seq<Item> {
    if !e.token.IsText() then [Mark(e)]
    else if e.op == o then Chars(Characters(e.token))
    else []
  }

  /**
   * The stream of a list of events under operator `o`: the characters of its text under
   * `o`, with every non-text event in its place. Coalescing text must keep every stream.
   */
  function Stream(events: seq<Event>, o: Operator): seq<Item> {
    if |events| == 0 then []
    else Stream(events[..|events| - 1], o) + Piece(events[|events| - 1], o)
  }

  lemma StreamAppend(events: seq<Event>, e: Event, o: Operator)
    ensures Stream(events + [e], o) == Stream(events, o) + Piece(e, o)
  {
    assert (events + [e])[..|events|] == events;
  }

  /** The last event is text reported under `p`. */
  predicate EndsWithText(events: seq<Event>, p: Operator) {
    |events| > 0 && events[|events| - 1].token.IsText() && events[|events| - 1].op == p
  }

  /** No two adjacent text events carry the same operator: every run was merged. */
  predicate Coalesced(events: seq<Event>) {
    forall i :: 0 < i < |events| && events[i - 1].token.IsText() && events[i].token.IsText() ==> events[i - 1].op != events[i].op
  }

  /** Every event carries MATCH. */
  predicate OnlyMatch(events: seq<Event>) {
    forall i :: 0 <= i < |events| ==> events[i].op == MATCH
  }

  // The filter ---------------------------------------------------------------------------

  /**
   * The filter's state: the text buffered under `current`, the alternate buffer (text
   * under the opposite operator), the operator of the buffer, and what the target received.
   */
  datatype Coalescer = Coalescer(buffer: seq<Token>, alt: seq<Token>, current: Operator, output: seq<Event>)

  /** A new filter: empty buffers, current operator MATCH. */
  function Fresh(): (f: Coalescer)
    ensures Ready(f) && f.output == []
  {
    Coalescer([], [], MATCH, [])
  }

  /** Both buffers hold text only; the alternate buffer is empty under MATCH. */
  predicate Valid(f: Coalescer) {
    AllText(f.buffer) && AllText(f.alt) && (f.current == MATCH ==> f.alt == [])
  }

  /**
   * Between two calls: valid, the output coalesced, and the buffered run can still be
   * emitted without repeating the operator of the last text event sent.
   */
  predicate Ready(f: Coalescer) {
    && Valid(f)
    && Coalesced(f.output)
    && (f.buffer == [] ==> !EndsWithText(f.output, MATCH) && !EndsWithText(f.output, INS) && !EndsWithText(f.output, DEL))
    && (f.buffer != [] ==> !EndsWithText(f.output, f.current))
  }

  /** The characters still buffered for operator `o`. */
  function Pending(f: Coalescer, o: Operator): seq<Item> {
    (if o == f.current then Chars(ConcatCharacters(f.buffer)) else [])
    + (if f.current != MATCH && o == f.current.Flip() then Chars(ConcatCharacters(f.alt)) else [])
  }

  /** Everything the filter owes its target under `o`: what it sent, then what it buffered. */
  function Owed(f: Coalescer, o: Operator): seq<Item> {
    Stream(f.output, o) + Pending(f, o)
  }

  /** Sends a run of buffered text to the target as one token. */
  function SendRun(output: seq<Event>, op: Operator, ts: seq<Token>): (r: seq<Event>)
    requires AllText(ts) && ts != []
    ensures |r| == |output| + 1 && r[..|output|] == output && EndsWithText(r, op)
    ensures forall o :: Stream(r, o) == Stream(output, o) + (if o == op then Chars(ConcatCharacters(ts)) else [])
    ensures Coalesced(output) && !EndsWithText(output, op) ==> Coalesced(r)
  {
    var e := Operation(op, CoalesceText(ts));
    var r := output + [e];
    forall o ensures Stream(r, o) == Stream(output, o) + Piece(e, o) {
      StreamAppend(output, e, o);
    }
    assert r[..|output|] == output;
    r
  }

  /** The first half of flushText: the buffer, under the current operator. */
  function FlushBuffer(f: Coalescer): (r: Coalescer)
    requires Valid(f)
    ensures Valid(r) && r.buffer == [] && r.alt == f.alt && r.current == f.current
    ensures forall o :: Owed(r, o) == Owed(f, o)
    ensures |f.output| <= |r.output| && r.output[..|f.output|] == f.output
    ensures f.buffer == [] ==> r == f
    ensures f.buffer != [] ==> EndsWithText(r.output, f.current)
    ensures Ready(f) ==> Coalesced(r.output)
    ensures f.current == MATCH && OnlyMatch(f.output) ==> OnlyMatch(r.output)
  {
    if f.buffer != [] then f.(output := SendRun(f.output, f.current, f.buffer), buffer := []) else f
  }

  /** The second half of flushText: the alternate buffer, under the opposite operator. */
  function FlushAlt(f: Coalescer): (r: Coalescer)
    requires Valid(f) && f.buffer == []
    ensures Valid(r) && r.buffer == [] && r.alt == [] && r.current == f.current
    ensures forall o :: Stream(r.output, o) == Owed(f, o)
    ensures |f.output| <= |r.output| && r.output[..|f.output|] == f.output
    ensures f.alt == [] ==> r == f
    ensures f.alt != [] ==> f.current != MATCH && EndsWithText(r.output, f.current.Flip())
    ensures Coalesced(f.output) && (f.alt != [] ==> !EndsWithText(f.output, f.current.Flip())) ==> Coalesced(r.output)
  {
    if f.alt != [] then f.(output := SendRun(f.output, f.current.Flip(), f.alt), alt := []) else f
  }

  /**
   * flushText: the buffer is sent as one token under the current operator, then the
   * alternate buffer as one token under the opposite operator. The current operator stays.
   */
  function FlushText(f: Coalescer): (r: Coalescer)
    requires Valid(f)
    ensures Valid(r) && r.buffer == [] && r.alt == [] && r.current == f.current
    ensures forall o :: Stream(r.output, o) == Owed(f, o)
    ensures |f.output| <= |r.output| && r.output[..|f.output|] == f.output
    ensures f.buffer == [] && f.alt == [] ==> r.output == f.output
    ensures Ready(f) ==> Coalesced(r.output)
    ensures Ready(f) && (f.buffer != [] || f.alt != []) ==>
              EndsWithText(r.output, f.current) || (f.current != MATCH && EndsWithText(r.output, f.current.Flip()))
    ensures f.current == MATCH && OnlyMatch(f.output) ==> OnlyMatch(r.output)
  {
    var g := FlushBuffer(f);
    assert f.current != MATCH ==> f.current.Flip() != f.current;
    FlushAlt(g)
  }

  /** handleText when the operator is the current one: the token joins the buffer. */
  function Accumulate(f: Coalescer, t: Token): (r: Coalescer)
    requires Valid(f) && t.IsText()
    ensures Valid(r)
    ensures forall o :: Owed(r, o) == Owed(f, o) + Piece(Operation(f.current, t), o)
    ensures Ready(f) ==> Ready(r)
  {
    AccumulateOwes(f, t);
    f.(buffer := f.buffer + [t])
  }

  /** A token added to the buffer is owed under the current operator, after what was owed before. */
  lemma AccumulateOwes(f: Coalescer, t: Token)
    requires Valid(f) && t.IsText()
    ensures forall o :: Owed(f.(buffer := f.buffer + [t]), o) == Owed(f, o) + Piece(Operation(f.current, t), o)
  {
    var r := f.(buffer := f.buffer + [t]);
    var tail := Chars(Characters(t));
    ConcatCharactersAppend(f.buffer, t);
    CharsConcat(ConcatCharacters(f.buffer), Characters(t));
    forall o ensures Owed(r, o) == Owed(f, o) + Piece(Operation(f.current, t), o) {
      if o == f.current {
        assert f.current != MATCH ==> f.current.Flip() != f.current;
        assert Pending(f, o) == Chars(ConcatCharacters(f.buffer)) + [];
        assert Pending(r, o) == Chars(ConcatCharacters(f.buffer)) + tail + [];
        assert Piece(Operation(f.current, t), o) == tail;
        assert Owed(r, o) == Stream(f.output, o) + (Chars(ConcatCharacters(f.buffer)) + tail + []);
      } else {
        assert Pending(r, o) == Pending(f, o);
        assert Piece(Operation(f.current, t), o) == [];
        assert Owed(f, o) + [] == Owed(f, o);
      }
    }
  }

  /** handleText on a change to or from MATCH: flush, then start a new buffer under the new operator. */
  function Restart(f: Coalescer, op: Operator, t: Token): (r: Coalescer)
    requires Valid(f) && t.IsText() && op != f.current && (f.current == MATCH || op == MATCH)
    ensures Valid(r)
    ensures forall o :: Owed(r, o) == Owed(f, o) + Piece(Operation(op, t), o)
    ensures Ready(f) ==> Ready(r)
  {
    var g := FlushText(f);
    RestartOwes(g, f, op, t);
    RestartReady(g, f, op, t);
    g.(current := op, buffer := [t])
  }

  /** After the flush, the new buffer owes exactly the new token. */
  lemma RestartOwes(g: Coalescer, f: Coalescer, op: Operator, t: Token)
    requires Valid(f) && t.IsText() && g.buffer == [] && g.alt == []
    requires forall o :: Stream(g.output, o) == Owed(f, o)
    ensures forall o :: Owed(g.(current := op, buffer := [t]), o) == Owed(f, o) + Piece(Operation(op, t), o)
  {
    var r := g.(current := op, buffer := [t]);
    assert ConcatCharacters([t]) == Characters(t) by { ConcatCharactersAppend([], t); }
    forall o ensures Owed(r, o) == Owed(f, o) + Piece(Operation(op, t), o) {
      assert Pending(r, o) == (if o == op then Chars(Characters(t)) else []);
      assert Piece(Operation(op, t), o) == (if o == op then Chars(Characters(t)) else []);
    }
  }

  /** The flushed output does not end with text under the new operator. */
  lemma RestartReady(g: Coalescer, f: Coalescer, op: Operator, t: Token)
    requires Valid(f) && t.IsText() && op != f.current && (f.current == MATCH || op == MATCH)
    requires g == FlushText(f)
    ensures Ready(f) ==> Ready(g.(current := op, buffer := [t]))
  {
    if Ready(f) {
      assert f.current != MATCH ==> f.current.Flip() != MATCH;
      assert !EndsWithText(g.output, op);
    }
  }

  /** handleText for INS against DEL (or the reverse): the token joins the alternate buffer. */
  function Alternate(f: Coalescer, op: Operator, t: Token): (r: Coalescer)
    requires Valid(f) && t.IsText() && op != f.current && f.current != MATCH && op != MATCH
    ensures Valid(r)
    ensures forall o :: Owed(r, o) == Owed(f, o) + Piece(Operation(op, t), o)
    ensures Ready(f) ==> Ready(r)
  {
    AlternateOwes(f, op, t);
    f.(alt := f.alt + [t])
  }

  /** A token added to the alternate buffer is owed under the opposite operator, after what was owed before. */
  lemma AlternateOwes(f: Coalescer, op: Operator, t: Token)
    requires Valid(f) && t.IsText() && op != f.current && f.current != MATCH && op != MATCH
    ensures forall o :: Owed(f.(alt := f.alt + [t]), o) == Owed(f, o) + Piece(Operation(op, t), o)
  {
    var r := f.(alt := f.alt + [t]);
    var tail := Chars(Characters(t));
    ConcatCharactersAppend(f.alt, t);
    CharsConcat(ConcatCharacters(f.alt), Characters(t));
    assert op == f.current.Flip();
    forall o ensures Owed(r, o) == Owed(f, o) + Piece(Operation(op, t), o) {
      if o == op {
        assert Pending(f, o) == [] + Chars(ConcatCharacters(f.alt));
        assert Pending(r, o) == [] + (Chars(ConcatCharacters(f.alt)) + tail);
        assert Piece(Operation(op, t), o) == tail;
        assert Owed(r, o) == Stream(f.output, o) + ([] + (Chars(ConcatCharacters(f.alt)) + tail));
      } else {
        assert Pending(r, o) == Pending(f, o);
        assert Piece(Operation(op, t), o) == [];
        assert Owed(f, o) + [] == Owed(f, o);
      }
    }
  }

  /** handleText: same operator, buffered; a change to or from MATCH flushes first; INS against DEL goes to the alternate buffer. */
  function HandleText(f: Coalescer, op: Operator, t: Token): (r: Coalescer)
    requires Valid(f) && t.IsText()
    ensures Valid(r)
    ensures forall o :: Owed(r, o) == Owed(f, o) + Piece(Operation(op, t), o)
    ensures Ready(f) ==> Ready(r)
  {
    if f.current == op then Accumulate(f, t)
    else if f.current == MATCH || op == MATCH then Restart(f, op, t)
    else Alternate(f, op, t)
  }

  /** handle: text goes to handleText; any other token flushes the text, then is forwarded unchanged. */
  function Handle(f: Coalescer, op: Operator, t: Token): (r: Coalescer)
    requires Valid(f)
    ensures Valid(r)
    ensures forall o :: Owed(r, o) == Owed(f, o) + Piece(Operation(op, t), o)
    ensures !t.IsText() ==> r.buffer == [] && r.alt == [] && r.output[|r.output| - 1] == Operation(op, t)
    ensures Ready(f) ==> Ready(r)
    ensures op == MATCH && f.current == MATCH && OnlyMatch(f.output) ==> r.current == MATCH && OnlyMatch(r.output)
  {
    if t.IsText() then HandleText(f, op, t)
    else
      var g := FlushText(f);
      var e := Operation(op, t);
      forall o ensures Stream(g.output + [e], o) == Stream(g.output, o) + Piece(e, o) {
        StreamAppend(g.output, e, o);
      }
      g.(output := g.output + [e])
  }

  /** end: the remaining text is flushed (the target's own end is outside the model). */
  function End(f: Coalescer): (r: Coalescer)
    requires Valid(f)
    ensures r.buffer == [] && r.alt == []
    ensures forall o :: Stream(r.output, o) == Owed(f, o)
    ensures Ready(f) ==> Coalesced(r.output)
  {
    FlushText(f)
  }

  /** A fresh filter fed the events in order. */
  function Feed(events: seq<Event>): (r: Coalescer)
    ensures Valid(r)
  {
    if |events| == 0 then Fresh()
    else
      var e := events[|events| - 1];
      Handle(Feed(events[..|events| - 1]), e.op, e.token)
  }

  /** While fed, the filter stays ready, and sent plus buffered text is exactly what it was given, per operator. */
  lemma {:induction false} FeedInvariant(events: seq<Event>)
    ensures Ready(Feed(events))
    ensures forall o :: Owed(Feed(events), o) == Stream(events, o)
    decreases |events|
  {
    if |events| > 0 {
      var init, e := events[..|events| - 1], events[|events| - 1];
      FeedInvariant(init);
      assert events == init + [e];
      forall o ensures Owed(Feed(events), o) == Stream(events, o) {
        StreamAppend(init, e, o);
      }
    }
  }

  /**
   * After end, the target has received every character under the operator it was
   * reported with, and every non-text token, each in its place, and no two adjacent text
   * tokens share an operator.
   */
  lemma Coalesces(events: seq<Event>)
    ensures forall o :: Stream(End(Feed(events)).output, o) == Stream(events, o)
    ensures Coalesced(End(Feed(events)).output)
  {
    FeedInvariant(events);
  }

  // The static coalesce ------------------------------------------------------------------

  /** Handles every token under MATCH. */
  function FeedMatches(tokens: seq<Token>): (r: Coalescer)
    ensures Valid(r)
  {
    Feed(AllAsMatch(tokens))
  }

  function AllAsMatch(tokens: seq<Token>): (r: seq<Event>)
    ensures |r| == |tokens| && forall i :: 0 <= i < |tokens| ==> r[i] == Operation(MATCH, tokens[i])
  {
    seq(|tokens|, i requires 0 <= i < |tokens| => Operation(MATCH, tokens[i]))
  }

  function TokensOf(events: seq<Event>): (r: seq<Token>)
    ensures |r| == |events| && forall i :: 0 <= i < |events| ==> r[i] == events[i].token
  {
    seq(|events|, i requires 0 <= i < |events| => events[i].token)
  }

  /**
   * coalesce as written: at most one token is returned unchanged; otherwise the tokens are
   * fed to a filter under MATCH, but the filter is never flushed, so text still buffered
   * at the end is lost.
   */
  function CoalesceAsWritten(tokens: seq<Token>): (r: seq<Token>)
    ensures |tokens| <= 1 ==> r == tokens
  {
    if |tokens| <= 1 then tokens else TokensOf(FeedMatches(tokens).output)
  }

  /** The corrected coalesce: the filter is flushed once every token is handled. */
  function Coalesce(tokens: seq<Token>): (r: seq<Token>)
    ensures |tokens| <= 1 ==> r == tokens
  {
    if |tokens| <= 1 then tokens else TokensOf(End(FeedMatches(tokens)).output)
  }

  /** Two text tokens: the version as written returns nothing, the corrected one their concatenation. */
  lemma CoalesceAsWrittenDropsText()
    ensures CoalesceAsWritten([Text("a"), Text("b")]) == []
    ensures Coalesce([Text("a"), Text("b")]) == [Text("ab")]
  {
    var ts := [Text("a"), Text("b")];
    var es := AllAsMatch(ts);
    assert es[..1] == [Operation(MATCH, Text("a"))];
    assert [Operation(MATCH, Text("a"))][..0] == [];
    assert Feed(es) == Coalescer([Text("a"), Text("b")], [], MATCH, []);
    assert ConcatCharacters(ts) == "ab" by {
      assert ts[..1] == [Text("a")];
      assert [Text("a")][..0] == [];
    }
  }

  /**
   * The corrected coalesce keeps the characters of the text under MATCH and every other
   * token in its place, and returns no two adjacent text tokens.
   */
  lemma CoalesceKeepsContent(tokens: seq<Token>)
    requires |tokens| > 1
    ensures Stream(AllAsMatch(Coalesce(tokens)), MATCH) == Stream(AllAsMatch(tokens), MATCH)
    ensures forall i :: 0 < i < |Coalesce(tokens)| ==> !(Coalesce(tokens)[i - 1].IsText() && Coalesce(tokens)[i].IsText())
  {
    var events := AllAsMatch(tokens);
    var out := End(Feed(events)).output;
    var c := TokensOf(out);
    assert Coalesce(tokens) == c;
    Coalesces(events);
    AllMatch(events);
    assert AllAsMatch(c) == out by {
      forall i | 0 <= i < |out| ensures AllAsMatch(c)[i] == out[i] {
        assert out[i].op == MATCH;
      }
    }
    forall i | 0 < i < |c| ensures !(c[i - 1].IsText() && c[i].IsText()) {
      assert out[i - 1].op == MATCH && out[i].op == MATCH;
    }
  }

  /** A filter fed only MATCH events sends only MATCH events. */
  lemma {:induction false} AllMatch(events: seq<Event>)
    requires OnlyMatch(events)
    ensures Feed(events).current == MATCH && OnlyMatch(Feed(events).output)
    ensures OnlyMatch(End(Feed(events)).output)
    decreases |events|
  {
    if |events| > 0 {
      AllMatch(events[..|events| - 1]);
    }
  }
}

=== FILE: element_stack_filter.dfy ===
/**
 * `ElementStackFilter`: a handler that forwards every operation to its target and
 * tracks the open elements, with their operators, on a stack.
 */
module ElementStackFilters {
  import opened Outcomes
  import opened Tokens
  import opened Operations
  import opened Nesting
  import ElementStates

  /**
   * The filter: its stack of open elements (innermost last) and what its target has
   * received so far.
   */
  datatype Filter = Filter(elements: seq<Opened>, forwarded: seq<Event>) {
    /** depth: the number of open elements. */
    function Depth(): (r: nat)
      ensures r == 0 <==> IsEmpty()
    {
      |elements|
    }

    predicate IsEmpty() { elements == [] }

    /** current: the innermost open element with its operator, or null. */
    function Current(): (r: Option<Opened>)
      ensures r.Some? <==> !IsEmpty()
      ensures r.Some? ==> r.value == elements[|elements| - 1]
    {
      if IsEmpty() then None else Some(Top(elements))
    }

    /**
     * handle: forwards first; then a start tag is pushed with its operator and an end tag
     * pops the innermost element. Popping an empty stack is a NoSuchElementException,
     * raised after the target has the token, with the stack left as it was.
     */
    function Handle(op: Operator, token: Token): (r: Handled)
      ensures r.filter.forwarded == forwarded + [Operation(op, token)]
      ensures r.raised.Some? <==> token.End? && IsEmpty()
      ensures r.raised.Some? ==> r.raised.value == NoSuchElement && r.filter.elements == elements
      ensures r.raised.None? && token.Start? ==> r.filter.elements == elements + [Operation(op, token.tag)]
      ensures r.raised.None? && token.End? ==> r.filter.elements == elements[..|elements| - 1]
      ensures r.raised.None? && !token.Start? && !token.End? ==> r.filter.elements == elements
    {
      var sent := forwarded + [Operation(op, token)];
      match token
      case Start(tag) => Handled(Filter(elements + [Operation(op, tag)], sent), None)
      case End(_) =>
        if IsEmpty() then Handled(Filter(elements, sent), Some(NoSuchElement))
        else Handled(Filter(elements[..|elements| - 1], sent), None)
      case _ => Handled(Filter(elements, sent), None)
    }

    /** matchCurrent: the innermost element was opened by `start` under `op`. */
    predicate MatchCurrent(op: Operator, start: StartTag)
      ensures MatchCurrent(op, start) <==> Closes(elements, Operation(op, End(start)))
    {
      match Current()
      case None => false
      case Some(current) => op == current.op && start == current.token
    }

    /** isAllowed: anything but an end tag; an end tag when it closes the innermost element under its operator. */
    predicate IsAllowed(op: Operator, token: Token)
      ensures IsAllowed(op, token) <==> !token.End? || Closes(elements, Operation(op, token))
    {
      if !token.End? then true
      else MatchCurrent(op, token.open)
    }

    /** hasPriorityOver: an attribute goes before anything else while an element is open. */
    predicate HasPriorityOver(token1: Token, token2: Token)
      ensures HasPriorityOver(token1, token2) ==> token1.Attribute? && !token2.Attribute?
      ensures IsEmpty() ==> !HasPriorityOver(token1, token2)
    {
      token1.Attribute? && !token2.Attribute? && !IsEmpty()
    }

    /** clear: no open element remains; what was forwarded stays forwarded. */
    function Clear(): (r: Filter)
      ensures r.IsEmpty() && r.forwarded == forwarded
    {
      Filter([], forwarded)
    }
  }

  /** The filter after a call, and the exception the call raised after forwarding, if any. */
  datatype Handled = Handled(filter: Filter, raised: Option<Error>)

  /** A filter in front of a target that has received nothing. */
  function Fresh(): (r: Filter)
    ensures r.IsEmpty() && r.forwarded == []
  {
    Filter([], [])
  }

  /** Handles the events in order, stopping at the first exception. */
  function HandleAll(f: Filter, events: seq<Event>): Handled
    decreases |events|
  {
    if |events| == 0 then Handled(f, None)
    else
      var h := f.Handle(events[0].op, events[0].token);
      if h.raised.Some? then h else HandleAll(h.filter, events[1..])
  }

  lemma {:induction false} HandleAllAppend(f: Filter, events: seq<Event>, e: Event)
    ensures HandleAll(f, events + [e]) ==
              var h := HandleAll(f, events);
              if h.raised.Some? then h else h.filter.Handle(e.op, e.token)
    decreases |events|
  {
    if |events| == 0 {
      assert events + [e] == [e];
    } else {
      assert (events + [e])[1..] == events[1..] + [e];
      var h := f.Handle(events[0].op, events[0].token);
      if h.raised.None? {
        HandleAllAppend(h.filter, events[1..], e);
      }
    }
  }

  /**
   * The target receives a prefix of the events, ending with the one that raised: all of
   * them when nothing is raised, and at least the first one otherwise.
   */
  lemma {:induction false} HandleAllForwards(f: Filter, events: seq<Event>)
    ensures var h := HandleAll(f, events);
            && h.filter.forwarded <= f.forwarded + events
            && (h.raised.None? ==> h.filter.forwarded == f.forwarded + events)
            && (|events| > 0 ==> |h.filter.forwarded| > |f.forwarded|)
            && f.forwarded <= h.filter.forwarded
    decreases |events|
  {
    if |events| > 0 {
      var h := f.Handle(events[0].op, events[0].token);
      assert f.forwarded + events == h.filter.forwarded + events[1..];
      if h.raised.None? {
        HandleAllForwards(h.filter, events[1..]);
      }
    }
  }

  /**
   * A stream the strict replay accepts never makes the filter fail; the filter forwards it
   * unchanged and its stack ends as the replay's stack.
   */
  lemma {:induction false} HandleAllTracksReplay(events: seq<Event>)
    requires Replay(events).Some?
    ensures HandleAll(Fresh(), events).raised.None?
    ensures HandleAll(Fresh(), events).filter.elements == Replay(events).value
    ensures HandleAll(Fresh(), events).filter.forwarded == events
    decreases |events|
  {
    if |events| > 0 {
      var init := events[..|events| - 1];
      var e := events[|events| - 1];
      assert init + [e] == events;
      ReplayAppend(init, e);
      HandleAllTracksReplay(init);
      HandleAllAppend(Fresh(), init, e);
    }
  }

  /** The filter and `ElementState` agree on what is allowed whenever they hold the same stack. */
  lemma AgreesWithElementState(f: Filter, s: ElementStates.ElementState, op: Operator, token: Token, other: Token)
    requires s.Valid() && s.Stack() == f.elements
    ensures f.IsAllowed(op, token) <==> s.IsAllowed(op, token)
    ensures f.HasPriorityOver(token, other) <==> s.HasPriorityOver(token, other)
  {
    if token.End? && |f.elements| > 0 {
      assert s.Current() == Some(Top(f.elements).token);
    }
  }
}

=== FILE: element_state.dfy ===
/**
 * `ElementState`: the stack of open elements with the operator each was opened under,
 * kept in two parallel arrays with spare capacity. The XML matrix walk consults it to
 * decide whether an end tag may be emitted under a given operator.
 */
module ElementStates {
  import opened Outcomes
  import opened Tokens
  import opened Operations
  import opened Nesting

  /** The default capacity of `new ElementState()`. */
  const DEFAULT_CAPACITY: nat := 12

  /**
   * The two arrays (unused slots are `None`, Java's null) and the number of open elements.
   */
  datatype ElementState = ElementState(openElements: seq<Option<StartTag>>, openChanges: seq<Option<Operator>>, size: nat) {
    predicate Valid() {
      && |openElements| == |openChanges|
      && size <= |openElements|
      && (forall i :: 0 <= i < size ==> openElements[i].Some?)
      && (forall i :: 0 <= i < size ==> openChanges[i].Some?)
    }

    function Capacity(): nat { |openElements| }

    /** The open elements, outermost first, each with its operator. */
    function Stack(): (s: seq<Opened>)
      requires Valid()
      ensures |s| == size
      ensures forall i :: 0 <= i < size ==> s[i] == Operation(openChanges[i].value, openElements[i].value)
    {
      seq(size, i requires 0 <= i < size && Valid() => Operation(openChanges[i].value, openElements[i].value))
    }

    predicate IsEmpty() { size == 0 }

    /** ensureCapacity: grows both arrays to at least `minCapacity`, by half again plus one when it grows. */
    function EnsureCapacity(minCapacity: int): (r: ElementState)
      requires Valid()
      ensures r.Valid() && r.size == size && r.Stack() == Stack()
      ensures r.Capacity() >= minCapacity && r.Capacity() >= Capacity()
      ensures minCapacity <= Capacity() ==> r == this
      ensures minCapacity > Capacity() ==> r.Capacity() == Max(Capacity() * 3 / 2 + 1, minCapacity)
    {
      if minCapacity > Capacity() then
        var newCapacity := Max(Capacity() * 3 / 2 + 1, minCapacity);
        ElementState(
          seq(newCapacity, i requires 0 <= i < newCapacity => if i < size then openElements[i] else None),
          seq(newCapacity, i requires 0 <= i < newCapacity => if i < size then openChanges[i] else None),
          size)
      else this
    }

    /** current: the innermost open element, or null. */
    function Current(): (r: Option<StartTag>)
      requires Valid()
      ensures r.Some? <==> size > 0
      ensures r.Some? ==> r.value == Top(Stack()).token
    {
      if !IsEmpty() then openElements[size - 1] else None
    }

    /** currentChange: the operator of the innermost open element, or null. */
    function CurrentChange(): (r: Option<Operator>)
      requires Valid()
      ensures r.Some? <==> size > 0
      ensures r.Some? ==> r.value == Top(Stack()).op
    {
      if !IsEmpty() then openChanges[size - 1] else None
    }

    /** matchCurrent: the token is an end tag that matches the innermost open element. */
    predicate MatchCurrent(token: Token)
      requires Valid()
      ensures MatchCurrent(token) <==> token.End? && size > 0 && MatchesStart(token.open, Some(Top(Stack()).token))
    {
      if IsEmpty() then false
      else if !token.End? then false
      else MatchesStart(token.open, Current())
    }

    /**
     * isAllowed: anything but an end tag is allowed; an end tag only when it matches the
     * innermost open element and comes with the operator that element was opened under.
     */
    predicate IsAllowed(op: Operator, token: Token)
      requires Valid()
      ensures IsAllowed(op, token) <==> !token.End? || Closes(Stack(), Operation(op, token))
      ensures token.End? && IsAllowed(op, token) ==> MatchCurrent(token)
    {
      if !token.End? then true
      else if IsEmpty() then false
      else MatchesStart(token.open, Current()) && openChanges[size - 1] == Some(op)
    }

    /** hasPriorityOver: an attribute goes before anything else while an element is open. */
    predicate HasPriorityOver(token1: Token, token2: Token)
      ensures HasPriorityOver(token1, token2) ==> token1.Attribute? && !token2.Attribute?
      ensures IsEmpty() ==> !HasPriorityOver(token1, token2)
    {
      token1.Attribute? && !token2.Attribute? && !IsEmpty()
    }

    /** push: opens an element, growing the arrays when full. */
    function Push(token: StartTag, op: Operator): (r: ElementState)
      requires Valid()
      ensures r.Valid() && r.Stack() == Stack() + [Operation(op, token)]
    {
      var grown := EnsureCapacity(size + 1);
      ElementState(grown.openElements[size := Some(token)], grown.openChanges[size := Some(op)], size + 1)
    }

    /** pop: closes the innermost element and returns it; on an empty stack returns null and changes nothing. */
    function Pop(): (r: (ElementState, Option<StartTag>))
      requires Valid()
      ensures r.0.Valid()
      ensures size == 0 ==> r == (this, None)
      ensures size > 0 ==> r.0.Stack() == Stack()[..size - 1] && r.1 == Some(Top(Stack()).token)
    {
      if size > 0 then (ElementState(openElements, openChanges, size - 1), openElements[size - 1])
      else (this, None)
    }

    /** handle: a start tag opens an element under its operator, an end tag closes one, anything else is ignored. */
    function Handle(op: Operator, token: Token): (r: ElementState)
      requires Valid()
      ensures r.Valid()
      ensures token.Start? ==> r.Stack() == Stack() + [Operation(op, token.tag)]
      ensures token.End? ==> r.Stack() == if size > 0 then Stack()[..size - 1] else Stack()
      ensures !token.Start? && !token.End? ==> r == this
    {
      match token
      case Start(tag) => Push(tag, op)
      case End(_) => Pop().0
      case _ => this
    }

    /** get: the open element at `index`; an index outside [0, size) is an IndexOutOfBoundsException. */
    function Get(index: int): (r: Result<StartTag>)
      requires Valid()
      ensures r.Success? <==> 0 <= index < size
      ensures r.Success? ==> r.value == Stack()[index].token
      ensures r.Failure? ==> r.error == IndexOutOfBounds
    {
      if index >= size then Failure(IndexOutOfBounds)
      else if index < 0 then Failure(IndexOutOfBounds)
      else Success(openElements[index].value)
    }

    /**
     * remove as written: shifts the later open elements left and shrinks the stack, but
     * leaves `openChanges` in place, so later elements take the operators of earlier ones.
     */
    function RemoveAsWritten(index: int): (r: Result<(ElementState, StartTag)>)
      requires Valid()
      ensures r.Success? <==> 0 <= index < size
      ensures r.Success? ==> r.value.0.Valid() && r.value.0.size == size - 1 && r.value.1 == Stack()[index].token
      ensures r.Success? ==> forall i :: 0 <= i < size - 1 ==>
                r.value.0.Stack()[i].token == (if i < index then Stack()[i].token else Stack()[i + 1].token)
      ensures r.Success? ==> forall i :: 0 <= i < size - 1 ==> r.value.0.Stack()[i].op == Stack()[i].op
    {
      if index >= size || index < 0 then Failure(IndexOutOfBounds)
      else
        var shifted := openElements[..index] + openElements[index + 1..size] + [None] + openElements[size..];
        var removed := ElementState(shifted, openChanges, size - 1);
        forall i | 0 <= i < size - 1
          ensures shifted[i] == (if i < index then openElements[i] else openElements[i + 1])
          ensures shifted[i].Some?
        {
          if i >= index {
            assert openElements[i + 1].Some?;
          }
        }
        assert removed.Valid();
        forall i | 0 <= i < size - 1
          ensures removed.Stack()[i].token == (if i < index then Stack()[i].token else Stack()[i + 1].token)
        {
          assert removed.Stack()[i].token == shifted[i].value;
          if i >= index {
            assert Stack()[i + 1].token == openElements[i + 1].value;
          }
        }
        assert forall i :: 0 <= i < size - 1 ==> removed.Stack()[i].op == Stack()[i].op;
        Success((removed, openElements[index].value))
    }

    /** remove, shifting both arrays: the stack loses exactly the element at `index`. */
    function Remove(index: int): (r: Result<(ElementState, StartTag)>)
      requires Valid()
      ensures r.Success? <==> 0 <= index < size
      ensures r.Failure? ==> r.error == IndexOutOfBounds
      ensures r.Success? ==> r.value.0.Valid() && r.value.1 == Stack()[index].token
      ensures r.Success? ==> r.value.0.Stack() == Stack()[..index] + Stack()[index + 1..]
    {
      if index >= size || index < 0 then Failure(IndexOutOfBounds)
      else
        var elements := openElements[..index] + openElements[index + 1..size] + [None] + openElements[size..];
        var changes := openChanges[..index] + openChanges[index + 1..size] + [None] + openChanges[size..];
        var r := ElementState(elements, changes, size - 1);
        assert r.Stack() == Stack()[..index] + Stack()[index + 1..] by {
          assert forall i :: 0 <= i < size - 1 ==>
            r.Stack()[i] == (Stack()[..index] + Stack()[index + 1..])[i];
        }
        Success((r, openElements[index].value))
    }

    /** clear: no open element remains; the capacity stays. */
    function Clear(): (r: ElementState)
      requires Valid()
      ensures r.Valid() && r.Stack() == [] && r.Capacity() == Capacity()
    {
      ElementState(seq(|openElements|, i requires 0 <= i < |openElements| => if i < size then None else openElements[i]),
                   openChanges, 0)
    }
  }

  function Max(x: int, y: int): int { if x < y then y else x }

  /** `new ElementState(initialCapacity)`: a negative capacity is an IllegalArgumentException. */
  function New(initialCapacity: int): (r: Result<ElementState>)
    ensures r.Success? <==> initialCapacity >= 0
    ensures r.Failure? ==> r.error == IllegalArgument
    ensures r.Success? ==> r.value.Valid() && r.value.Stack() == [] && r.value.Capacity() == initialCapacity
  {
    if initialCapacity < 0 then Failure(IllegalArgument)
    else Success(ElementState(seq(initialCapacity, _ => None), seq(initialCapacity, _ => None), 0))
  }

  /** `new ElementState()`. */
  function Empty(): (r: ElementState)
    ensures r.Valid() && r.Stack() == [] && r.Capacity() == DEFAULT_CAPACITY
  {
    ElementState(seq(DEFAULT_CAPACITY, _ => None), seq(DEFAULT_CAPACITY, _ => None), 0)
  }

  /** indexOf: the first position of `element` among the open elements, or -1; null is never found. */
  method IndexOf(s: ElementState, element: Option<StartTag>) returns (r: int)
    requires s.Valid()
    ensures -1 <= r < s.size
    ensures r == -1 <==> forall i :: 0 <= i < s.size ==> s.openElements[i] != element
    ensures r >= 0 ==> s.openElements[r] == element && forall i :: 0 <= i < r ==> s.openElements[i] != element
  {
    var i := 0;
    while i < s.size
      invariant 0 <= i <= s.size
      invariant forall k :: 0 <= k < i ==> s.openElements[k] != element
    {
      if s.openElements[i] == element {
        return i;
      }
      i := i + 1;
    }
    return -1;
  }

  /** lastIndexOf: the last position of `element` among the open elements, or -1. */
  method LastIndexOf(s: ElementState, element: Option<StartTag>) returns (r: int)
    requires s.Valid()
    ensures -1 <= r < s.size
    ensures r == -1 <==> forall i :: 0 <= i < s.size ==> s.openElements[i] != element
    ensures r >= 0 ==> s.openElements[r] == element && forall i :: r < i < s.size ==> s.openElements[i] != element
  {
    var i := s.size - 1;
    while i >= 0
      invariant -1 <= i < s.size
      invariant forall k :: i < k < s.size ==> s.openElements[k] != element
    {
      if s.openElements[i] == element {
        return i;
      }
      i := i - 1;
    }
    return -1;
  }

  /** contains: indexOf finds the element. */
  method Contains(s: ElementState, element: StartTag) returns (r: bool)
    requires s.Valid()
    ensures r <==> exists i :: 0 <= i < s.size && s.Stack()[i].token == element
  {
    var k := IndexOf(s, Some(element));
    r := k >= 0;
    if !r {
      assert forall i :: 0 <= i < s.size ==> s.Stack()[i].token != element by {
        forall i | 0 <= i < s.size ensures s.Stack()[i].token != element {
          assert s.openElements[i] != Some(element);
        }
      }
    } else {
      assert s.Stack()[k].token == element;
    }
  }

  /**
   * isAllowed is exactly the strict replay's acceptance of the next event, and an allowed
   * event moves the stack the way the strict replay does.
   */
  lemma AllowedIsStrict(s: ElementState, op: Operator, token: Token)
    requires s.Valid()
    ensures s.IsAllowed(op, token) <==> StrictStep(s.Stack(), Operation(op, token)).Some?
    ensures s.IsAllowed(op, token) ==> StrictStep(s.Stack(), Operation(op, token)).value == s.Handle(op, token).Stack()
  {
  }

  /** The counterexample to remove as written: after removing the outer of two elements, the remaining one has the wrong operator. */
  lemma RemoveAsWrittenLosesOperator(a: StartTag, b: StartTag)
    ensures var s := ElementState([Some(a), Some(b)], [Some(MATCH), Some(INS)], 2);
            && s.Valid() && s.Stack() == [Operation(MATCH, a), Operation(INS, b)]
            && s.RemoveAsWritten(0).Success?
            && s.RemoveAsWritten(0).value.0.CurrentChange() == Some(MATCH)
            && s.Remove(0).Success?
            && s.Remove(0).value.0.CurrentChange() == Some(INS)
  {
    var s := ElementState([Some(a), Some(b)], [Some(MATCH), Some(INS)], 2);
    assert s.Stack() == [Operation(MATCH, a), Operation(INS, b)];
  }

  /** Feeding a stream to the state tracks the strict replay from its stack whenever the replay succeeds. */
  lemma {:induction false} HandleTracksReplay(events: seq<Event>, s: ElementState)
    requires s.Valid()
    requires ReplayFrom(s.Stack(), events).Some?
    ensures HandleAll(s, events).Stack() == ReplayFrom(s.Stack(), events).value
    decreases |events|
  {
    if |events| > 0 {
      var init := events[..|events| - 1];
      assert init + [events[|events| - 1]] == events;
      ReplayFromAppend(s.Stack(), init, events[|events| - 1]);
      HandleTracksReplay(init, s);
      HandleAllAppend(s, init, events[|events| - 1]);
    }
  }

  /** The state after handling every event in order. */
  function HandleAll(s: ElementState, events: seq<Event>): (r: ElementState)
    requires s.Valid()
    ensures r.Valid()
    decreases |events|
  {
    if |events| == 0 then s else HandleAll(s.Handle(events[0].op, events[0].token), events[1..])
  }

  lemma {:induction false} HandleAllConcat(s: ElementState, e1: seq<Event>, e2: seq<Event>)
    requires s.Valid()
    ensures HandleAll(s, e1 + e2) == HandleAll(HandleAll(s, e1), e2)
    decreases |e1|
  {
    if |e1| > 0 {
      assert (e1 + e2)[0] == e1[0] && (e1 + e2)[1..] == e1[1..] + e2;
      HandleAllConcat(s.Handle(e1[0].op, e1[0].token), e1[1..], e2);
    } else {
      assert e1 + e2 == e2;
    }
  }

  lemma {:induction false} HandleAllAppend(s: ElementState, events: seq<Event>, e: Event)
    requires s.Valid()
    ensures HandleAll(s, events + [e]) == HandleAll(s, events).Handle(e.op, e.token)
    decreases |events|
  {
    if |events| > 0 {
      assert (events + [e])[1..] == events[1..] + [e];
      HandleAllAppend(s.Handle(events[0].op, events[0].token), events[1..], e);
    } else {
      assert events + [e] == [e];
    }
  }
}

=== FILE: hirschberg.dfy ===
/**
 * `HirschbergAlgorithm2`: Hirschberg's linear-space LCS diff. Algorithm B computes the
 * last row of the LCS table for a prefix, its reverse variant the last row for suffixes,
 * `findK` picks the split of `to` and algorithm C recurses on both halves.
 * Sub-lists with offsets are modelled as slices; the handler as the returned list of operations.
 */
module Hirschberg {
  import opened Outcomes
  import opened Tokens
  import opened Operations
  import opened CommonSubsequence

  /** Every token of `s` under the same operator, in order. */
  function AllAs<T>(op: Operator, s: seq<T>): (r: seq<Operation<T>>)
    ensures |r| == |s| && forall i :: 0 <= i < |s| ==> r[i] == Operation(op, s[i])
  {
    seq(|s|, i requires 0 <= i < |s| => Operation(op, s[i]))
  }

  /** Deleting all of `a` is the only diff of `a` into nothing; inserting all of `b` the only one of nothing into `b`. */
  lemma {:induction false} AllAsAligns<T>(eq: (T, T) -> bool, s: seq<T>, keepA: bool)
    ensures Aligns(eq, AllAs(DEL, s), s, [], keepA) && Count(AllAs(DEL, s), MATCH) == 0
    ensures Aligns(eq, AllAs(INS, s), [], s, keepA) && Count(AllAs(INS, s), MATCH) == 0
    decreases |s|
  {
    if |s| > 0 {
      assert AllAs(DEL, s)[1..] == AllAs(DEL, s[1..]);
      assert AllAs(INS, s)[1..] == AllAs(INS, s[1..]);
      AllAsAligns(eq, s[1..], keepA);
    }
  }

  /** The position of the first token of `b` that `x` is related to. */
  function FirstMatch<T>(eq: (T, T) -> bool, x: T, b: seq<T>): (r: Option<nat>)
    ensures r.Some? ==> r.value < |b| && eq(x, b[r.value]) && forall j :: 0 <= j < r.value ==> !eq(x, b[j])
    ensures r.None? ==> forall j :: 0 <= j < |b| ==> !eq(x, b[j])
  {
    if |b| == 0 then None
    else if eq(x, b[0]) then Some(0)
    else match FirstMatch(eq, x, b[1..])
      case None => None
      case Some(j) => Some(j + 1)
  }

  /**
   * The diff algorithm C emits for a one-token `from`: the first related token of `to` is
   * matched and the others inserted; with no related token, all of `to` is inserted and
   * the token deleted.
   */
  function SingleDiff<T>(eq: (T, T) -> bool, x: T, b: seq<T>, preferFrom: bool): seq<Operation<T>>
  {
    match FirstMatch(eq, x, b)
    case None => AllAs(INS, b) + [Operation(DEL, x)]
    case Some(j) => AllAs(INS, b[..j]) + [Operation(MATCH, if preferFrom then x else b[j])] + AllAs(INS, b[j + 1..])
  }

  lemma SingleDiffCorrect<T>(eq: (T, T) -> bool, x: T, b: seq<T>, preferFrom: bool)
    ensures Aligns(eq, SingleDiff(eq, x, b, preferFrom), [x], b, preferFrom)
    ensures Count(SingleDiff(eq, x, b, preferFrom), MATCH) == Lcs(eq, [x], b)
  {
    SingleToken(eq, x, b);
    match FirstMatch(eq, x, b)
    case None => SingleDiffUnmatched(eq, x, b, preferFrom);
    case Some(j) => SingleDiffMatched(eq, x, b, j, preferFrom);
  }

  /** Inserting all of `b` and deleting `x` is a diff of `[x]` into `b` without matches. */
  lemma SingleDiffUnmatched<T>(eq: (T, T) -> bool, x: T, b: seq<T>, preferFrom: bool)
    ensures Aligns(eq, AllAs(INS, b) + [Operation(DEL, x)], [x], b, preferFrom)
    ensures Count(AllAs(INS, b) + [Operation(DEL, x)], MATCH) == 0
  {
    var d := [Operation(DEL, x)];
    AllAsAligns(eq, b, preferFrom);
    assert d[1..] == [];
    assert Aligns(eq, d, [x], [], preferFrom);
    AlignsConcat(eq, AllAs(INS, b), d, [], [x], b, [], preferFrom);
    CountConcat(AllAs(INS, b), d, MATCH);
    assert [] + [x] == [x] && b + [] == b;
  }

  /** Matching `x` with a related `b[j]` and inserting the rest of `b` is a diff of `[x]` into `b` with one match. */
  lemma SingleDiffMatched<T>(eq: (T, T) -> bool, x: T, b: seq<T>, j: nat, preferFrom: bool)
    requires j < |b| && eq(x, b[j])
    ensures var ops := AllAs(INS, b[..j]) + [Operation(MATCH, if preferFrom then x else b[j])] + AllAs(INS, b[j + 1..]);
            Aligns(eq, ops, [x], b, preferFrom) && Count(ops, MATCH) == 1
  {
    var m := [Operation(MATCH, if preferFrom then x else b[j])];
    var before, after := AllAs(INS, b[..j]), AllAs(INS, b[j + 1..]);
    AllAsAligns(eq, b[..j], preferFrom);
    AllAsAligns(eq, b[j + 1..], preferFrom);
    assert m[1..] == [];
    assert [x][0] == x && [x][1..] == [];
    assert Aligns(eq, m, [x], [b[j]], preferFrom);
    AlignsConcat(eq, before, m, [], [x], b[..j], [b[j]], preferFrom);
    assert [] + [x] == [x];
    AlignsConcat(eq, before + m, after, [x], [], b[..j] + [b[j]], b[j + 1..], preferFrom);
    CountConcat(before, m, MATCH);
    CountConcat(before + m, after, MATCH);
    assert [x] + [] == [x];
    assert b[..j] + [b[j]] + b[j + 1..] == b;
    assert Count(m, MATCH) == 1;
  }

  /** algorithmB: `out[j]` is the LCS length of `a` and the first `j` tokens of `b`. */
  method AlgorithmB<T>(eq: (T, T) -> bool, a: seq<T>, b: seq<T>) returns (out: seq<int>)
    ensures |out| == |b| + 1
    ensures forall j :: 0 <= j <= |b| ==> out[j] == Lcs(eq, a, b[..j])
  {
    var n := |b|;
    var prev := seq(n + 1, _ => 0);
    var i := 1;
    while i <= |a|
      invariant 1 <= i <= |a| + 1
      invariant |prev| == n + 1
      invariant forall j :: 0 <= j <= n ==> prev[j] == Lcs(eq, a[..i - 1], b[..j])
    {
      prev := NextRow(eq, a, b, i, prev);
      i := i + 1;
    }
    assert a[..|a|] == a;
    out := prev;
  }

  /** One pass of the outer loop of algorithmB: the row for `a[..i]` from the row for `a[..i - 1]`. */
  method NextRow<T>(eq: (T, T) -> bool, a: seq<T>, b: seq<T>, i: nat, prev: seq<int>) returns (curr: seq<int>)
    requires 1 <= i <= |a| && |prev| == |b| + 1
    requires forall j :: 0 <= j <= |b| ==> prev[j] == Lcs(eq, a[..i - 1], b[..j])
    ensures |curr| == |b| + 1
    ensures forall j :: 0 <= j <= |b| ==> curr[j] == Lcs(eq, a[..i], b[..j])
  {
    var n := |b|;
    curr := [0];
    var ai := a[i - 1];
    var j := 1;
    while j <= n
      invariant 1 <= j <= n + 1
      invariant |curr| == j
      invariant forall q :: 0 <= q < j ==> curr[q] == Lcs(eq, a[..i], b[..q])
    {
      var bj := b[j - 1];
      PrefixCell(eq, a, b, i, j, prev[j - 1], prev[j], curr[j - 1]);
      if eq(ai, bj) {
        curr := curr + [prev[j - 1] + 1];
      } else {
        var left, up := curr[j - 1], prev[j];
        curr := curr + [Max(left, up)];
      }
      j := j + 1;
    }
  }

  /** algorithmBRev: `out[idx]` is the LCS length of `a` and the last `idx` tokens of `b`. */
  method AlgorithmBRev<T>(eq: (T, T) -> bool, a: seq<T>, b: seq<T>) returns (out: seq<int>)
    ensures |out| == |b| + 1
    ensures forall idx :: 0 <= idx <= |b| ==> out[idx] == Lcs(eq, a, b[|b| - idx..])
  {
    var n := |b|;
    var prev := seq(n + 1, _ => 0);
    var done := 0;
    while done < |a|
      invariant 0 <= done <= |a|
      invariant |prev| == n + 1
      invariant forall idx :: 0 <= idx <= n ==> prev[idx] == Lcs(eq, a[|a| - done..], b[n - idx..])
    {
      assert a[|a| - done - 1..][1..] == a[|a| - done..];
      prev := NextRowRev(eq, a[|a| - done - 1..], b, prev);
      done := done + 1;
    }
    assert a[0..] == a;
    out := prev;
  }

  /** One pass of the outer loop of algorithmBRev: the row for a suffix `x` of `a` from the row for `x[1..]`. */
  method NextRowRev<T>(eq: (T, T) -> bool, x: seq<T>, b: seq<T>, prev: seq<int>) returns (curr: seq<int>)
    requires |x| > 0 && |prev| == |b| + 1
    requires forall idx :: 0 <= idx <= |b| ==> prev[idx] == Lcs(eq, x[1..], b[|b| - idx..])
    ensures |curr| == |b| + 1
    ensures forall idx :: 0 <= idx <= |b| ==> curr[idx] == Lcs(eq, x, b[|b| - idx..])
  {
    var n := |b|;
    curr := [0];
    var idx := 1;
    while idx <= n
      invariant 1 <= idx <= n + 1
      invariant |curr| == idx
      invariant forall q :: 0 <= q < idx ==> curr[q] == Lcs(eq, x, b[n - q..])
    {
      var j := n - idx;
      assert n - (idx - 1) == j + 1;
      var v := CellRev(eq, x, b, j, prev[idx - 1], prev[idx], curr[idx - 1]);
      curr := curr + [v];
      idx := idx + 1;
    }
  }

  /** One cell of algorithmBRev: the diagonal plus one for related tokens, else the larger neighbour. */
  method CellRev<T>(eq: (T, T) -> bool, x: seq<T>, b: seq<T>, j: nat, diag: int, down: int, right: int) returns (v: int)
    requires |x| > 0 && j < |b|
    requires diag == Lcs(eq, x[1..], b[j + 1..])
    requires down == Lcs(eq, x[1..], b[j..]) && right == Lcs(eq, x, b[j + 1..])
    ensures v == Lcs(eq, x, b[j..])
  {
    SuffixCell(eq, x, b, 0, j, diag, down, right);
    assert x[0..] == x;
    if eq(x[0], b[j]) {
      v := diag + 1;
    } else {
      v := Max(right, down);
      assert Max(right, down) == Max(down, right);
    }
  }

  /**
   * findK: the first split `j` with the greatest positive `l1[j] + l2[n - j]`, or 0 when
   * no sum is positive (the running maximum starts at 0 and only a strictly greater sum moves it).
   */
  method FindK(l1: seq<int>, l2: seq<int>, n: nat) returns (k: nat)
    requires |l1| > n && |l2| > n
    ensures k <= n
    ensures forall j :: 0 <= j <= n ==> l1[j] + l2[n - j] <= Max(0, l1[k] + l2[n - k])
    ensures forall j :: 0 <= j < k ==> l1[j] + l2[n - j] < l1[k] + l2[n - k]
    ensures k > 0 ==> l1[k] + l2[n - k] > 0
  {
    var m := 0;
    k := 0;
    var j := 0;
    while j <= n
      invariant 0 <= j <= n + 1 && k <= n && (k < j || k == 0)
      invariant j == 0 ==> m == 0 && k == 0
      invariant j > 0 ==> m == Max(0, l1[k] + l2[n - k])
      invariant k > 0 ==> m == l1[k] + l2[n - k] && m > 0
      invariant forall q :: 0 <= q < j ==> l1[q] + l2[n - q] <= m
      invariant forall q :: 0 <= q < k ==> l1[q] + l2[n - q] < m
    {
      var s := l1[j] + l2[n - j];
      if m < s {
        m := s;
        k := j;
      }
      j := j + 1;
    }
  }

  /** The loops of algorithm C that emit every token of `s` under one operator. */
  method EmitAll<T>(op: Operator, s: seq<T>) returns (ops: seq<Operation<T>>)
    ensures ops == AllAs(op, s)
  {
    ops := [];
    var i := 0;
    while i < |s|
      invariant 0 <= i <= |s| && ops == AllAs(op, s[..i])
    {
      ops := ops + [Operation(op, s[i])];
      i := i + 1;
    }
    assert s[..|s|] == s;
  }

  /** The one-token case of algorithm C: a linear search for the first related token of `b`. */
  method MatchSingle<T>(eq: (T, T) -> bool, a0: T, b: seq<T>, preferFrom: bool) returns (ops: seq<Operation<T>>)
    ensures ops == SingleDiff(eq, a0, b, preferFrom)
  {
    var n := |b|;
    var matchIndex := -1;
    var j := 0;
    while j < n
      invariant 0 <= j <= n
      invariant matchIndex == -1 ==> forall q :: 0 <= q < j ==> !eq(a0, b[q])
      invariant matchIndex != -1 ==> FirstMatch(eq, a0, b) == Some(matchIndex)
    {
      if eq(a0, b[j]) {
        matchIndex := j;
        break;
      }
      j := j + 1;
    }
    if matchIndex == -1 {
      var ins := EmitAll(INS, b);
      ops := ins + [Operation(DEL, a0)];
    } else {
      var bm := b[matchIndex];
      var before := EmitAll(INS, b[..matchIndex]);
      var after := EmitAll(INS, b[matchIndex + 1..]);
      ops := before + [Operation(MATCH, if preferFrom then a0 else bm)] + after;
    }
  }

  /** The split findK chooses from the rows of algorithm B and its reverse variant maximises the LCS sum. */
  lemma FindKMaximises<T>(eq: (T, T) -> bool, a1: seq<T>, a2: seq<T>, b: seq<T>, k: nat, l1: seq<int>, l2: seq<int>)
    requires k <= |b| && |l1| == |b| + 1 && |l2| == |b| + 1
    requires forall j :: 0 <= j <= |b| ==> l1[j] == Lcs(eq, a1, b[..j])
    requires forall idx :: 0 <= idx <= |b| ==> l2[idx] == Lcs(eq, a2, b[|b| - idx..])
    requires forall j :: 0 <= j <= |b| ==> l1[j] + l2[|b| - j] <= Max(0, l1[k] + l2[|b| - k])
    ensures forall j :: 0 <= j <= |b| ==> Lcs(eq, a1, b[..j]) + Lcs(eq, a2, b[j..]) <= Lcs(eq, a1, b[..k]) + Lcs(eq, a2, b[k..])
  {
    var n := |b|;
    assert l2[n - k] == Lcs(eq, a2, b[k..]) by {
      assert n - (n - k) == k;
    }
    forall j | 0 <= j <= n
      ensures Lcs(eq, a1, b[..j]) + Lcs(eq, a2, b[j..]) <= Lcs(eq, a1, b[..k]) + Lcs(eq, a2, b[k..])
    {
      assert n - (n - j) == j;
      assert l2[n - j] == Lcs(eq, a2, b[j..]);
      assert l1[j] + l2[n - j] <= Max(0, l1[k] + l2[n - k]);
    }
  }

  /** The halves algorithm C recurses on combine into an optimal diff when the split attains the LCS. */
  lemma CombineHalves<T>(eq: (T, T) -> bool, a: seq<T>, h: nat, b: seq<T>, k: nat,
                         ops1: seq<Operation<T>>, ops2: seq<Operation<T>>, preferFrom: bool)
    requires h <= |a| && k <= |b|
    requires Lcs(eq, a[..h], b[..k]) + Lcs(eq, a[h..], b[k..]) == Lcs(eq, a, b)
    requires Aligns(eq, ops1, a[..h], b[..k], preferFrom) && Count(ops1, MATCH) == Lcs(eq, a[..h], b[..k])
    requires Aligns(eq, ops2, a[h..], b[k..], preferFrom) && Count(ops2, MATCH) == Lcs(eq, a[h..], b[k..])
    ensures Aligns(eq, ops1 + ops2, a, b, preferFrom)
    ensures Count(ops1 + ops2, MATCH) == Lcs(eq, a, b)
  {
    JoinHalves(eq, a[..h], a[h..], b, k, ops1, ops2, preferFrom);
    assert a[..h] + a[h..] == a;
  }

  /** Two diffs of the halves, at split `k` of `b`, concatenate into a diff of the whole with the matches of both. */
  lemma JoinHalves<T>(eq: (T, T) -> bool, a1: seq<T>, a2: seq<T>, b: seq<T>, k: nat,
                      ops1: seq<Operation<T>>, ops2: seq<Operation<T>>, preferFrom: bool)
    requires k <= |b|
    requires Aligns(eq, ops1, a1, b[..k], preferFrom) && Aligns(eq, ops2, a2, b[k..], preferFrom)
    ensures Aligns(eq, ops1 + ops2, a1 + a2, b, preferFrom)
    ensures Count(ops1 + ops2, MATCH) == Count(ops1, MATCH) + Count(ops2, MATCH)
  {
    AlignsConcat(eq, ops1, ops2, a1, a2, b[..k], b[k..], preferFrom);
    assert b[..k] + b[k..] == b;
    CountConcat(ops1, ops2, MATCH);
  }

  /**
   * algorithmC: a diff of `a` (from) into `b` (to) whose matches form a longest common
   * subsequence; MATCH carries the `to` token unless `preferFrom`.
   */
  method AlgorithmC<T>(eq: (T, T) -> bool, a: seq<T>, b: seq<T>, preferFrom: bool) returns (ops: seq<Operation<T>>)
    ensures Aligns(eq, ops, a, b, preferFrom)
    ensures Count(ops, MATCH) == Lcs(eq, a, b)
    ensures |b| == 0 ==> ops == AllAs(DEL, a)
    ensures |a| == 0 && |b| > 0 ==> ops == AllAs(INS, b)
    ensures |a| == 1 && |b| > 0 ==> ops == SingleDiff(eq, a[0], b, preferFrom)
    decreases |a|, 1
  {
    var m, n := |a|, |b|;
    if n == 0 {
      ops := EmitAll(DEL, a);
      AllAsAligns(eq, a, preferFrom);
    } else if m == 0 {
      ops := EmitAll(INS, b);
      AllAsAligns(eq, b, preferFrom);
    } else if m == 1 {
      ops := MatchSingle(eq, a[0], b, preferFrom);
      assert [a[0]] == a;
      SingleDiffCorrect(eq, a[0], b, preferFrom);
    } else {
      ops := Halves(eq, a, b, preferFrom);
    }
  }

  /** findK over the rows of algorithm B for `a1` and of its reverse variant for `a2`: a split maximising the LCS sum. */
  method FindSplit<T>(eq: (T, T) -> bool, a1: seq<T>, a2: seq<T>, b: seq<T>) returns (k: nat)
    ensures k <= |b|
    ensures forall j :: 0 <= j <= |b| ==> Lcs(eq, a1, b[..j]) + Lcs(eq, a2, b[j..]) <= Lcs(eq, a1, b[..k]) + Lcs(eq, a2, b[k..])
  {
    var l1 := AlgorithmB(eq, a1, b);
    var l2 := AlgorithmBRev(eq, a2, b);
    k := FindK(l1, l2, |b|);
    FindKMaximises(eq, a1, a2, b, k, l1, l2);
  }

  /**
   * The split of `b` algorithm C recurses on, for the halves `a[..h]` and `a[h..]`. It is
   * Hirschberg's: the LCS of the halves with the two parts of `b` add up to that of `a` and `b`.
   */
  method BestSplit<T>(eq: (T, T) -> bool, a: seq<T>, h: nat, b: seq<T>) returns (k: nat)
    requires h <= |a|
    ensures k <= |b|
    ensures Lcs(eq, a[..h], b[..k]) + Lcs(eq, a[h..], b[k..]) == Lcs(eq, a, b)
  {
    k := FindSplit(eq, a[..h], a[h..], b);
    HirschbergSplitAt(eq, a, h, b, k);
  }

  /** The general case of algorithm C: split `a` in half, find the best split of `b`, and recurse on both halves. */
  method Halves<T>(eq: (T, T) -> bool, a: seq<T>, b: seq<T>, preferFrom: bool) returns (ops: seq<Operation<T>>)
    requires |a| >= 2 && |b| > 0
    ensures Aligns(eq, ops, a, b, preferFrom)
    ensures Count(ops, MATCH) == Lcs(eq, a, b)
    decreases |a|, 0
  {
    var h := |a| / 2;
    var k := BestSplit(eq, a, h, b);
    var ops1 := OptimalPart(eq, a[..h], b[..k], preferFrom);
    var ops2 := OptimalPart(eq, a[h..], b[k..], preferFrom);
    CombineHalves(eq, a, h, b, k, ops1, ops2, preferFrom);
    ops := ops1 + ops2;
  }

  /** Algorithm C on a part of the input, seen through its optimality contract alone. */
  method OptimalPart<T>(eq: (T, T) -> bool, a: seq<T>, b: seq<T>, preferFrom: bool) returns (ops: seq<Operation<T>>)
    ensures Aligns(eq, ops, a, b, preferFrom)
    ensures Count(ops, MATCH) == Lcs(eq, a, b)
    decreases |a|, 2
  {
    ops := AlgorithmC(eq, a, b, preferFrom);
  }

  /**
   * diff: the diff reconstructs both inputs (the kept side exactly, the other up to `eq`)
   * and no diff of the same inputs has more matches.
   */
  method Diff<T>(eq: (T, T) -> bool, from: seq<T>, to: seq<T>, preferFrom: bool) returns (ops: seq<Operation<T>>)
    ensures !preferFrom ==> Generate(ops, true) == to && Similar(eq, from, Generate(ops, false))
    ensures preferFrom ==> Generate(ops, false) == from && Similar(eq, Generate(ops, true), to)
    ensures Count(ops, MATCH) == Lcs(eq, from, to)
    ensures forall other :: Aligns(eq, other, from, to, preferFrom) ==> Count(other, MATCH) <= Count(ops, MATCH)
  {
    ops := AlgorithmC(eq, from, to, preferFrom);
    if preferFrom {
      AlignsReconstructsKeepA(eq, ops, from, to);
    } else {
      AlignsReconstructs(eq, ops, from, to);
    }
    forall other | Aligns(eq, other, from, to, preferFrom) ensures Count(other, MATCH) <= Count(ops, MATCH) {
      UpperBound(eq, other, from, to, preferFrom);
    }
  }
}

=== FILE: lcs.dfy ===
/**
 * The longest-common-subsequence length that every LCS-based diff in the library
 * computes, and its characterisation as the best number of matches over all diffs.
 * The recurrences proved here are the ones the dynamic-programming rows rely on.
 */
module CommonSubsequence {
  import opened Tokens
  import opened Operations

  function Max(x: int, y: int): (r: int)
    ensures r >= x && r >= y && (r == x || r == y)
  {
    if x < y then y else x
  }

  /** The length of a longest common subsequence of `a` and `b`, tokens being related by `eq(a[i], b[j])`. */
  function Lcs<T>(eq: (T, T) -> bool, a: seq<T>, b: seq<T>): (r: nat)
    ensures r <= |a| && r <= |b|
    decreases |a| + |b|
  {
    if |a| == 0 || |b| == 0 then 0
    else
      Max(Max(if eq(a[0], b[0]) then 1 + Lcs(eq, a[1..], b[1..]) else 0, Lcs(eq, a[1..], b)),
          Lcs(eq, a, b[1..]))
  }

  /** A diff of `a` into `b` whose number of matches is the LCS length. */
  ghost function Optimal<T>(eq: (T, T) -> bool, a: seq<T>, b: seq<T>, keepA: bool): (ops: seq<Operation<T>>)
    ensures Aligns(eq, ops, a, b, keepA)
    ensures Count(ops, MATCH) == Lcs(eq, a, b)
    decreases |a| + |b|
  {
    if |a| == 0 && |b| == 0 then []
    else if |a| == 0 then
      var ops := [Operation(INS, b[0])] + Optimal(eq, a, b[1..], keepA);
      assert ops[1..] == Optimal(eq, a, b[1..], keepA);
      ops
    else if |b| == 0 then
      var ops := [Operation(DEL, a[0])] + Optimal(eq, a[1..], b, keepA);
      assert ops[1..] == Optimal(eq, a[1..], b, keepA);
      ops
    else if eq(a[0], b[0]) && Lcs(eq, a, b) == 1 + Lcs(eq, a[1..], b[1..]) then
      var ops := [Operation(MATCH, if keepA then a[0] else b[0])] + Optimal(eq, a[1..], b[1..], keepA);
      assert ops[1..] == Optimal(eq, a[1..], b[1..], keepA);
      ops
    else if Lcs(eq, a, b) == Lcs(eq, a[1..], b) then
      var ops := [Operation(DEL, a[0])] + Optimal(eq, a[1..], b, keepA);
      assert ops[1..] == Optimal(eq, a[1..], b, keepA);
      ops
    else
      var ops := [Operation(INS, b[0])] + Optimal(eq, a, b[1..], keepA);
      assert ops[1..] == Optimal(eq, a, b[1..], keepA);
      ops
  }

  /** No diff of `a` into `b` has more matches than the LCS length. */
  lemma {:induction false} UpperBound<T>(eq: (T, T) -> bool, ops: seq<Operation<T>>, a: seq<T>, b: seq<T>, keepA: bool)
    requires Aligns(eq, ops, a, b, keepA)
    ensures Count(ops, MATCH) <= Lcs(eq, a, b)
    decreases |ops|
  {
    if |ops| > 0 {
      match ops[0].op
      case MATCH => UpperBound(eq, ops[1..], a[1..], b[1..], keepA);
      case DEL => UpperBound(eq, ops[1..], a[1..], b, keepA);
      case INS => UpperBound(eq, ops[1..], a, b[1..], keepA);
    }
  }

  /** Diffs of two pieces concatenate, so LCS lengths add up to at most that of the concatenations. */
  lemma ConcatLowerBound<T>(eq: (T, T) -> bool, a1: seq<T>, a2: seq<T>, b1: seq<T>, b2: seq<T>)
    ensures Lcs(eq, a1, b1) + Lcs(eq, a2, b2) <= Lcs(eq, a1 + a2, b1 + b2)
  {
    var s1, s2 := Optimal(eq, a1, b1, false), Optimal(eq, a2, b2, false);
    AlignsConcat(eq, s1, s2, a1, a2, b1, b2, false);
    CountConcat(s1, s2, MATCH);
    UpperBound(eq, s1 + s2, a1 + a2, b1 + b2, false);
  }

  /** Removing the last operation of a diff leaves a diff of the inputs without their consumed last tokens. */
  lemma LastStep<T>(eq: (T, T) -> bool, ops: seq<Operation<T>>, a: seq<T>, b: seq<T>, keepA: bool)
    returns (init: seq<Operation<T>>)
    requires Aligns(eq, ops, a, b, keepA) && |ops| > 0
    ensures Count(ops, MATCH) == Count(init, MATCH) + (if ops[|ops| - 1].op == MATCH then 1 else 0)
    ensures ops[|ops| - 1].op == MATCH ==>
              |a| > 0 && |b| > 0 && eq(a[|a| - 1], b[|b| - 1]) && Aligns(eq, init, a[..|a| - 1], b[..|b| - 1], keepA)
    ensures ops[|ops| - 1].op == DEL ==> |a| > 0 && Aligns(eq, init, a[..|a| - 1], b, keepA)
    ensures ops[|ops| - 1].op == INS ==> |b| > 0 && Aligns(eq, init, a, b[..|b| - 1], keepA)
  {
    init := ops[..|ops| - 1];
    var last := [ops[|ops| - 1]];
    assert ops == init + last;
    AlignsSplit(eq, init, last, a, b, keepA);
    CountConcat(init, last, MATCH);
    var c, d := Consumed(init), Produced(init);
    var a', b' := a[c..], b[d..];
    assert Aligns(eq, last, a', b', keepA);
    assert last[1..] == [];
    match last[0].op
    case MATCH =>
      assert |a'| == 1 && |b'| == 1;
      assert a[..|a| - 1] == a[..c] && b[..|b| - 1] == b[..d];
    case DEL =>
      assert |a'| == 1 && |b'| == 0;
      assert a[..|a| - 1] == a[..c] && b == b[..d];
    case INS =>
      assert |a'| == 0 && |b'| == 1;
      assert a == a[..c] && b[..|b| - 1] == b[..d];
  }

  /** Appending a token to `b` raises the LCS length by at most one. */
  lemma {:induction false} DominanceBack<T>(eq: (T, T) -> bool, a: seq<T>, b: seq<T>, y: T)
    ensures Lcs(eq, a, b + [y]) <= Lcs(eq, a, b) + 1
    decreases |a|
  {
    if |a| > 0 {
      var ops := Optimal(eq, a, b + [y], false);
      var init := LastStep(eq, ops, a, b + [y], false);
      var a' := a[..|a| - 1];
      assert a == a' + [a[|a| - 1]];
      ConcatLowerBound(eq, a', [a[|a| - 1]], b, []);
      assert b + [] == b;
      match ops[|ops| - 1].op
      case MATCH =>
        assert (b + [y])[..|b + [y]| - 1] == b;
        UpperBound(eq, init, a', b, false);
      case DEL =>
        UpperBound(eq, init, a', b + [y], false);
        DominanceBack(eq, a', b, y);
      case INS =>
        assert (b + [y])[..|b + [y]| - 1] == b;
        UpperBound(eq, init, a, b, false);
    }
  }

  /** Appending a token to `a` raises the LCS length by at most one. */
  lemma {:induction false} DominanceBackA<T>(eq: (T, T) -> bool, a: seq<T>, x: T, b: seq<T>)
    ensures Lcs(eq, a + [x], b) <= Lcs(eq, a, b) + 1
    decreases |b|
  {
    if |b| > 0 {
      var ops := Optimal(eq, a + [x], b, false);
      var init := LastStep(eq, ops, a + [x], b, false);
      var b' := b[..|b| - 1];
      assert b == b' + [b[|b| - 1]];
      ConcatLowerBound(eq, a, [], b', [b[|b| - 1]]);
      assert a + [] == a;
      match ops[|ops| - 1].op
      case MATCH =>
        assert (a + [x])[..|a + [x]| - 1] == a;
        UpperBound(eq, init, a, b', false);
      case DEL =>
        assert (a + [x])[..|a + [x]| - 1] == a;
        UpperBound(eq, init, a, b, false);
      case INS =>
        UpperBound(eq, init, a + [x], b', false);
        DominanceBackA(eq, a, x, b');
    }
  }

  /**
   * The recurrence on prefixes that algorithm B fills its rows with: a match extends
   * the diagonal, otherwise the better of the left and upper neighbours is kept.
   */
  lemma BackStep<T>(eq: (T, T) -> bool, a: seq<T>, x: T, b: seq<T>, y: T)
    ensures Lcs(eq, a + [x], b + [y]) ==
              if eq(x, y) then Lcs(eq, a, b) + 1 else Max(Lcs(eq, a, b + [y]), Lcs(eq, a + [x], b))
  {
    BackStepLower(eq, a, x, b, y);
    BackStepUpper(eq, a, x, b, y);
  }

  /** The lower bounds of the recurrence, by extending optimal diffs. */
  lemma BackStepLower<T>(eq: (T, T) -> bool, a: seq<T>, x: T, b: seq<T>, y: T)
    ensures eq(x, y) ==> Lcs(eq, a + [x], b + [y]) >= Lcs(eq, a, b) + 1
    ensures Lcs(eq, a + [x], b + [y]) >= Lcs(eq, a, b + [y])
    ensures Lcs(eq, a + [x], b + [y]) >= Lcs(eq, a + [x], b)
  {
    assert Lcs(eq, [x], [y]) == (if eq(x, y) then 1 else 0);
    ConcatLowerBound(eq, a, [x], b, [y]);
    ConcatLowerBound(eq, a, [x], b + [y], []);
    ConcatLowerBound(eq, a + [x], [], b, [y]);
    assert (b + [y]) + [] == b + [y] && (a + [x]) + [] == a + [x];
  }

  /** The upper bound of the recurrence, by the last operation of an optimal diff. */
  lemma BackStepUpper<T>(eq: (T, T) -> bool, a: seq<T>, x: T, b: seq<T>, y: T)
    ensures Lcs(eq, a + [x], b + [y]) <=
              if eq(x, y) then Lcs(eq, a, b) + 1 else Max(Lcs(eq, a, b + [y]), Lcs(eq, a + [x], b))
  {
    if eq(x, y) {
      DominanceBack(eq, a, b, y);
      DominanceBackA(eq, a, x, b);
    }
    var ops := Optimal(eq, a + [x], b + [y], false);
    var init := LastStep(eq, ops, a + [x], b + [y], false);
    assert (a + [x])[..|a + [x]| - 1] == a && (b + [y])[..|b + [y]| - 1] == b;
    match ops[|ops| - 1].op
    case MATCH => UpperBound(eq, init, a, b, false);
    case DEL => UpperBound(eq, init, a, b + [y], false);
    case INS => UpperBound(eq, init, a + [x], b, false);
  }

  /** Prepending a token to `b` raises the LCS length by at most one. */
  lemma {:induction false} DominanceFront<T>(eq: (T, T) -> bool, a: seq<T>, y: T, b: seq<T>)
    ensures Lcs(eq, a, [y] + b) <= Lcs(eq, a, b) + 1
    decreases |a|
  {
    if |a| > 0 {
      assert ([y] + b)[0] == y && ([y] + b)[1..] == b;
      DominanceFront(eq, a[1..], y, b);
      if |b| == 0 {
        assert Lcs(eq, a[1..], b) == 0;
      }
    }
  }

  /** Prepending a token to `a` raises the LCS length by at most one. */
  lemma {:induction false} DominanceFrontA<T>(eq: (T, T) -> bool, x: T, a: seq<T>, b: seq<T>)
    ensures Lcs(eq, [x] + a, b) <= Lcs(eq, a, b) + 1
    decreases |b|
  {
    if |b| > 0 {
      assert ([x] + a)[0] == x && ([x] + a)[1..] == a;
      DominanceFrontA(eq, x, a, b[1..]);
      if |a| == 0 {
        assert Lcs(eq, a, b[1..]) == 0;
      }
    }
  }

  /** The recurrence on suffixes that the reverse variant of algorithm B fills its rows with. */
  lemma FrontStep<T>(eq: (T, T) -> bool, x: T, a: seq<T>, y: T, b: seq<T>)
    ensures Lcs(eq, [x] + a, [y] + b) ==
              if eq(x, y) then Lcs(eq, a, b) + 1 else Max(Lcs(eq, a, [y] + b), Lcs(eq, [x] + a, b))
  {
    assert ([x] + a)[0] == x && ([x] + a)[1..] == a;
    assert ([y] + b)[0] == y && ([y] + b)[1..] == b;
    if eq(x, y) {
      DominanceFront(eq, a, y, b);
      DominanceFrontA(eq, x, a, b);
    }
  }

  /** A common prefix of `n` agreeing tokens contributes exactly `n` to the LCS length. */
  lemma {:induction false} CommonPrefixLcs<T>(eq: (T, T) -> bool, a: seq<T>, b: seq<T>, n: nat)
    requires n <= |a| && n <= |b|
    requires forall k :: 0 <= k < n ==> eq(a[k], b[k])
    ensures Lcs(eq, a, b) == n + Lcs(eq, a[n..], b[n..])
    decreases n
  {
    if n > 0 {
      assert [a[0]] + a[1..] == a && [b[0]] + b[1..] == b;
      FrontStep(eq, a[0], a[1..], b[0], b[1..]);
      CommonPrefixLcs(eq, a[1..], b[1..], n - 1);
      assert a[1..][n - 1..] == a[n..] && b[1..][n - 1..] == b[n..];
    }
  }

  /** A common suffix of `n` agreeing tokens contributes exactly `n` to the LCS length. */
  lemma {:induction false} CommonSuffixLcs<T>(eq: (T, T) -> bool, a: seq<T>, b: seq<T>, n: nat)
    requires n <= |a| && n <= |b|
    requires forall i :: |a| - n <= i < |a| ==> eq(a[i], b[i - |a| + |b|])
    ensures Lcs(eq, a, b) == n + Lcs(eq, a[..|a| - n], b[..|b| - n])
    decreases n
  {
    if n > 0 {
      var a', b' := a[..|a| - 1], b[..|b| - 1];
      assert eq(a[|a| - 1], b[(|a| - 1) - |a| + |b|]);
      assert a' + [a[|a| - 1]] == a && b' + [b[|b| - 1]] == b;
      LastMatch(eq, a', a[|a| - 1], b', b[|b| - 1], a, b);
      SuffixShrinks(eq, a, b, a', b', n);
      CommonSuffixLcs(eq, a', b', n - 1);
      assert a'[..|a'| - (n - 1)] == a[..|a| - n] && b'[..|b'| - (n - 1)] == b[..|b| - n];
    } else {
      assert a[..|a|] == a && b[..|b|] == b;
    }
  }

  /** Related last tokens: the LCS length is one more than without them. */
  lemma LastMatch<T>(eq: (T, T) -> bool, a': seq<T>, x: T, b': seq<T>, y: T, a: seq<T>, b: seq<T>)
    requires a == a' + [x] && b == b' + [y] && eq(x, y)
    ensures Lcs(eq, a, b) == Lcs(eq, a', b') + 1
  {
    BackStep(eq, a', x, b', y);
  }

  /** A common suffix of `n` tokens leaves one of `n - 1` once the last tokens are dropped. */
  lemma SuffixShrinks<T>(eq: (T, T) -> bool, a: seq<T>, b: seq<T>, a': seq<T>, b': seq<T>, n: nat)
    requires 0 < n <= |a| && n <= |b| && a' == a[..|a| - 1] && b' == b[..|b| - 1]
    requires forall i :: |a| - n <= i < |a| ==> eq(a[i], b[i - |a| + |b|])
    ensures forall i :: |a'| - (n - 1) <= i < |a'| ==> eq(a'[i], b'[i - |a'| + |b'|])
  {
    forall i | |a'| - (n - 1) <= i < |a'| ensures eq(a'[i], b'[i - |a'| + |b'|]) {
      assert a'[i] == a[i];
    }
  }

  /** Some split of `b` carries an optimal diff of `a1 + a2` as a diff of `a1` and one of `a2`. */
  lemma SplitUpperBound<T>(eq: (T, T) -> bool, a1: seq<T>, a2: seq<T>, b: seq<T>) returns (k: nat)
    ensures k <= |b|
    ensures Lcs(eq, a1 + a2, b) <= Lcs(eq, a1, b[..k]) + Lcs(eq, a2, b[k..])
  {
    var ops := Optimal(eq, a1 + a2, b, false);
    AlignsCounts(eq, ops, a1 + a2, b, false);
    var p := SplitAtConsumed(ops, |a1|);
    var s1, s2 := ops[..p], ops[p..];
    assert ops == s1 + s2;
    AlignsSplit(eq, s1, s2, a1 + a2, b, false);
    k := Produced(s1);
    assert (a1 + a2)[..|a1|] == a1 && (a1 + a2)[|a1|..] == a2;
    UpperBound(eq, s1, a1, b[..k], false);
    UpperBound(eq, s2, a2, b[k..], false);
    CountConcat(s1, s2, MATCH);
  }

  /**
   * Hirschberg's split: a split point of `b` that maximises the LCS of `a1` with the
   * prefix plus that of `a2` with the suffix attains the LCS of `a1 + a2` with `b`.
   */
  lemma HirschbergSplit<T>(eq: (T, T) -> bool, a1: seq<T>, a2: seq<T>, b: seq<T>, k: nat)
    requires k <= |b|
    requires forall j :: 0 <= j <= |b| ==> Lcs(eq, a1, b[..j]) + Lcs(eq, a2, b[j..]) <= Lcs(eq, a1, b[..k]) + Lcs(eq, a2, b[k..])
    ensures Lcs(eq, a1, b[..k]) + Lcs(eq, a2, b[k..]) == Lcs(eq, a1 + a2, b)
  {
    var best := SplitUpperBound(eq, a1, a2, b);
    var atBest := Lcs(eq, a1, b[..best]) + Lcs(eq, a2, b[best..]);
    assert atBest <= Lcs(eq, a1, b[..k]) + Lcs(eq, a2, b[k..]);
    SplitLowerBound(eq, a1, a2, b, k);
  }

  /** Every split of `b` gives at most the LCS of `a1 + a2` with `b`. */
  lemma SplitLowerBound<T>(eq: (T, T) -> bool, a1: seq<T>, a2: seq<T>, b: seq<T>, k: nat)
    requires k <= |b|
    ensures Lcs(eq, a1, b[..k]) + Lcs(eq, a2, b[k..]) <= Lcs(eq, a1 + a2, b)
  {
    ConcatLowerBound(eq, a1, a2, b[..k], b[k..]);
    assert b[..k] + b[k..] == b;
  }

  /** Hirschberg's split, for the two halves of one sequence cut at `h`. */
  lemma HirschbergSplitAt<T>(eq: (T, T) -> bool, a: seq<T>, h: nat, b: seq<T>, k: nat)
    requires h <= |a| && k <= |b|
    requires forall j :: 0 <= j <= |b| ==> Lcs(eq, a[..h], b[..j]) + Lcs(eq, a[h..], b[j..]) <= Lcs(eq, a[..h], b[..k]) + Lcs(eq, a[h..], b[k..])
    ensures Lcs(eq, a[..h], b[..k]) + Lcs(eq, a[h..], b[k..]) == Lcs(eq, a, b)
  {
    HirschbergSplit(eq, a[..h], a[h..], b, k);
    RejoinHalves(eq, a, h, b);
  }

  lemma RejoinHalves<T>(eq: (T, T) -> bool, a: seq<T>, h: nat, b: seq<T>)
    requires h <= |a|
    ensures Lcs(eq, a[..h] + a[h..], b) == Lcs(eq, a, b)
  {
    assert a[..h] + a[h..] == a;
  }

  /** A single token has a common subsequence of length one with `b` exactly when it is related to some token of `b`. */
  lemma {:induction false} SingleToken<T>(eq: (T, T) -> bool, x: T, b: seq<T>)
    ensures Lcs(eq, [x], b) == (if exists j :: 0 <= j < |b| && eq(x, b[j]) then 1 else 0)
    decreases |b|
  {
    if |b| > 0 {
      assert [x][1..] == [];
      SingleToken(eq, x, b[1..]);
      if exists j :: 0 <= j < |b[1..]| && eq(x, b[1..][j]) {
        var j :| 0 <= j < |b[1..]| && eq(x, b[1..][j]);
        assert eq(x, b[j + 1]);
      }
      if exists j :: 0 <= j < |b| && eq(x, b[j]) {
        var j :| 0 <= j < |b| && eq(x, b[j]);
        if j > 0 {
          assert eq(x, b[1..][j - 1]);
        }
      }
    }
  }

  /**
   * One cell of a table over prefixes: the LCS of `a[..i]` and `b[..j]` from those of the
   * diagonal, upper (`a[..i-1]`, `b[..j]`) and left (`a[..i]`, `b[..j-1]`) neighbours.
   */
  lemma PrefixCell<T>(eq: (T, T) -> bool, a: seq<T>, b: seq<T>, i: nat, j: nat, diag: int, up: int, left: int)
    requires 1 <= i <= |a| && 1 <= j <= |b|
    requires diag == Lcs(eq, a[..i - 1], b[..j - 1])
    requires up == Lcs(eq, a[..i - 1], b[..j]) && left == Lcs(eq, a[..i], b[..j - 1])
    ensures (if eq(a[i - 1], b[j - 1]) then diag + 1 else Max(left, up)) == Lcs(eq, a[..i], b[..j])
  {
    BackStep(eq, a[..i - 1], a[i - 1], b[..j - 1], b[j - 1]);
    assert a[..i - 1] + [a[i - 1]] == a[..i] && b[..j - 1] + [b[j - 1]] == b[..j];
  }

  /**
   * One cell of a table over suffixes: the LCS of `a[i..]` and `b[j..]` from those of the
   * diagonal, lower (`a[i+1..]`, `b[j..]`) and right (`a[i..]`, `b[j+1..]`) neighbours.
   */
  lemma SuffixCell<T>(eq: (T, T) -> bool, a: seq<T>, b: seq<T>, i: nat, j: nat, diag: int, down: int, right: int)
    requires i < |a| && j < |b|
    requires diag == Lcs(eq, a[i + 1..], b[j + 1..])
    requires down == Lcs(eq, a[i + 1..], b[j..]) && right == Lcs(eq, a[i..], b[j + 1..])
    ensures (if eq(a[i], b[j]) then diag + 1 else Max(down, right)) == Lcs(eq, a[i..], b[j..])
  {
    FrontStep(eq, a[i], a[i + 1..], b[j], b[j + 1..]);
    assert [a[i]] + a[i + 1..] == a[i..] && [b[j]] + b[j + 1..] == b[j..];
  }
}

=== FILE: matrix.dfy ===
/**
 * The LCS matrix (`Matrix`) and how `MatrixProcessor` fills it. A forward matrix holds at
 * (i, j) the LCS length of the first i tokens of each sequence and is filled from the top
 * left; an inverse matrix holds that of the tokens from i and j on and is filled from the
 * bottom right. Only the inverse matrix is walked by the XML algorithm.
 */
module Matrices {
  import opened Tokens
  import opened CommonSubsequence

  /** `Short.MAX_VALUE`. */
  const SHORT_MAX: int := 32767

  /** Cell storage: the short implementations or the int ones. */
  datatype Storage = ShortCells | IntCells

  /** Which way a matrix walk moves from a cell. */
  datatype Direction = AlongX | AlongY | Either | Lost

  /** Values indexed by column `i` and row `j`; `cells[i][j]`. */
  datatype Matrix = Matrix(cells: seq<seq<int>>, inverse: bool, storage: Storage) {
    predicate Valid() {
      |cells| > 0 && |cells[0]| > 0 && forall i :: 0 <= i < |cells| ==> |cells[i]| == |cells[0]|
    }

    /** lengthX: the number of columns. */
    function LengthX(): nat { |cells| }

    /** lengthY: the number of rows. */
    function LengthY(): nat requires Valid() { |cells[0]| }

    predicate InRange(i: int, j: int) requires Valid() {
      0 <= i < LengthX() && 0 <= j < LengthY()
    }

    function Get(i: int, j: int): int
      requires Valid() && InRange(i, j)
    {
      cells[i][j]
    }

    /** set: one cell changes, every other cell and the dimensions stay. */
    function Set(i: int, j: int, x: int): (r: Matrix)
      requires Valid() && InRange(i, j)
      ensures r.Valid() && r.LengthX() == LengthX() && r.LengthY() == LengthY()
      ensures r.inverse == inverse && r.storage == storage
      ensures r.Get(i, j) == x
      ensures forall p, q :: InRange(p, q) && (p != i || q != j) ==> r.Get(p, q) == Get(p, q)
    {
      Matrix(cells[i := cells[i][j := x]], inverse, storage)
    }

    /**
     * incrementPath: the cell becomes one more than its diagonal predecessor, (i-1, j-1) in
     * a forward matrix, (i+1, j+1) in an inverse one.
     */
    function IncrementPath(i: int, j: int): (r: Matrix)
      requires Valid() && InRange(i, j)
      requires if inverse then InRange(i + 1, j + 1) else InRange(i - 1, j - 1)
      ensures r == Set(i, j, if inverse then Get(i + 1, j + 1) + 1 else Get(i - 1, j - 1) + 1)
    {
      if inverse then Set(i, j, Get(i + 1, j + 1) + 1) else Set(i, j, Get(i - 1, j - 1) + 1)
    }

    /**
     * incrementByMaxPath: the cell becomes the greater of its two axis predecessors,
     * (i-1, j) and (i, j-1) forward, (i+1, j) and (i, j+1) inverse.
     */
    function IncrementByMaxPath(i: int, j: int): (r: Matrix)
      requires Valid() && InRange(i, j)
      requires if inverse then InRange(i + 1, j) && InRange(i, j + 1) else InRange(i - 1, j) && InRange(i, j - 1)
      ensures inverse ==> r == Set(i, j, Max(Get(i + 1, j), Get(i, j + 1)))
      ensures !inverse ==> r == Set(i, j, Max(Get(i - 1, j), Get(i, j - 1)))
    {
      if inverse then Set(i, j, Max(Get(i + 1, j), Get(i, j + 1)))
      else Set(i, j, Max(Get(i - 1, j), Get(i, j - 1)))
    }

    /** isGreaterX: moving to column i+1 keeps more of the common subsequence than moving to row j+1. */
    predicate IsGreaterX(i: int, j: int)
      requires Valid() && InRange(i + 1, j) && InRange(i, j + 1)
    {
      Get(i + 1, j) > Get(i, j + 1)
    }

    /** isGreaterY: moving to row j+1 keeps more than moving to column i+1. */
    predicate IsGreaterY(i: int, j: int)
      requires Valid() && InRange(i + 1, j) && InRange(i, j + 1)
    {
      Get(i + 1, j) < Get(i, j + 1)
    }

    /** isSameXY: both moves keep as much. */
    predicate IsSameXY(i: int, j: int)
      requires Valid() && InRange(i + 1, j) && InRange(i, j + 1)
    {
      Get(i + 1, j) == Get(i, j + 1)
    }

    /**
     * The test chain of the matrix walk. Exactly one of the three tests holds at any cell,
     * so the walk never gets lost.
     */
    function Step(i: int, j: int): (d: Direction)
      requires Valid() && InRange(i + 1, j) && InRange(i, j + 1)
      ensures d != Lost
      ensures d == AlongX <==> IsGreaterX(i, j)
      ensures d == AlongY <==> IsGreaterY(i, j)
      ensures d == Either <==> IsSameXY(i, j)
      ensures IsGreaterX(i, j) ==> !IsGreaterY(i, j) && !IsSameXY(i, j)
      ensures IsGreaterY(i, j) ==> !IsSameXY(i, j)
    {
      if IsGreaterX(i, j) then AlongX
      else if IsGreaterY(i, j) then AlongY
      else if IsSameXY(i, j) then Either
      else Lost
    }

    /** size: lengthX times lengthY, as a Java int. */
    function Size(): (r: int)
      requires Valid()
      ensures IsInt32(r)
      ensures IsInt32(LengthX() * LengthY()) ==> r == LengthX() * LengthY()
    {
      Wrap32(LengthX() * LengthY())
    }

    /** getLCSLength: the corner cell where the whole of both sequences is accounted for. */
    function LcsLength(): int
      requires Valid()
    {
      if inverse then Get(0, 0) else Get(LengthX() - 1, LengthY() - 1)
    }
  }

  /** setup: a zero matrix of the given width and height. */
  function Setup(width: nat, height: nat, inverse: bool, storage: Storage): (m: Matrix)
    requires width > 0 && height > 0
    ensures m.Valid() && m.LengthX() == width && m.LengthY() == height
    ensures m.inverse == inverse && m.storage == storage
    ensures forall i, j :: m.InRange(i, j) ==> m.Get(i, j) == 0
  {
    Matrix(seq(width, _ => seq(height, _ => 0)), inverse, storage)
  }

  /** getMatrix: int cells once a dimension plus one exceeds `Short.MAX_VALUE`, short cells otherwise. */
  function StorageFor(length1: nat, length2: nat): Storage {
    if length1 + 1 > SHORT_MAX || length2 + 1 > SHORT_MAX then IntCells else ShortCells
  }

  /** Values a matrix of the given storage can hold; an LCS length never exceeds either length, so short cells suffice. */
  predicate Fits(storage: Storage, x: int) {
    match storage
    case ShortCells => -SHORT_MAX - 1 <= x <= SHORT_MAX
    case IntCells => IsInt32(x)
  }

  /** compute: the forward matrix, cell (i, j) holding the LCS length of `first[..i]` and `second[..j]`. */
  method Compute<T>(eq: (T, T) -> bool, first: seq<T>, second: seq<T>) returns (m: Matrix)
    ensures m.Valid() && m.LengthX() == |first| + 1 && m.LengthY() == |second| + 1
    ensures !m.inverse && m.storage == StorageFor(|first|, |second|)
    ensures forall i, j :: 0 <= i <= |first| && 0 <= j <= |second| ==> m.Get(i, j) == Lcs(eq, first[..i], second[..j])
    ensures m.LcsLength() == Lcs(eq, first, second)
    ensures m.storage == ShortCells ==> forall i, j :: m.InRange(i, j) ==> Fits(ShortCells, m.Get(i, j))
  {
    var length1, length2 := |first|, |second|;
    m := Setup(length1 + 1, length2 + 1, false, StorageFor(length1, length2));
    var i := 0;
    while i < length1 + 1
      invariant 0 <= i <= length1 + 1
      invariant m.Valid() && m.LengthX() == length1 + 1 && m.LengthY() == length2 + 1
      invariant !m.inverse && m.storage == StorageFor(length1, length2)
      invariant forall p, q :: 0 <= p < i && 0 <= q <= length2 ==> m.Get(p, q) == Lcs(eq, first[..p], second[..q])
    {
      m := FillRow(eq, first, second, m, i);
      i := i + 1;
    }
    assert m.Get(length1, length2) == Lcs(eq, first[..length1], second[..length2]);
    assert first[..length1] == first && second[..length2] == second;
  }

  /** One step of compute: zero on the first row and column, else the prefix recurrence. */
  method FillCell<T>(eq: (T, T) -> bool, first: seq<T>, second: seq<T>, m: Matrix, i: nat, j: nat) returns (r: Matrix)
    requires m.Valid() && m.LengthX() == |first| + 1 && m.LengthY() == |second| + 1 && !m.inverse
    requires i <= |first| && j <= |second|
    requires forall p, q :: 0 <= p < i && 0 <= q <= |second| ==> m.Get(p, q) == Lcs(eq, first[..p], second[..q])
    requires forall q :: 0 <= q < j ==> m.Get(i, q) == Lcs(eq, first[..i], second[..q])
    ensures r.Valid() && r.LengthX() == m.LengthX() && r.LengthY() == m.LengthY()
    ensures !r.inverse && r.storage == m.storage
    ensures forall p, q :: 0 <= p < i && 0 <= q <= |second| ==> r.Get(p, q) == Lcs(eq, first[..p], second[..q])
    ensures forall q :: 0 <= q <= j ==> r.Get(i, q) == Lcs(eq, first[..i], second[..q])
  {
    if i == 0 || j == 0 {
      r := m.Set(i, j, 0);
    } else {
      PrefixCell(eq, first, second, i, j, m.Get(i - 1, j - 1), m.Get(i - 1, j), m.Get(i, j - 1));
      if eq(first[i - 1], second[j - 1]) {
        r := m.IncrementPath(i, j);
      } else {
        r := m.IncrementByMaxPath(i, j);
      }
    }
  }

  /** One row of compute, filled from the first column on. */
  method FillRow<T>(eq: (T, T) -> bool, first: seq<T>, second: seq<T>, m: Matrix, i: nat) returns (r: Matrix)
    requires m.Valid() && m.LengthX() == |first| + 1 && m.LengthY() == |second| + 1 && !m.inverse
    requires i <= |first|
    requires forall p, q :: 0 <= p < i && 0 <= q <= |second| ==> m.Get(p, q) == Lcs(eq, first[..p], second[..q])
    ensures r.Valid() && r.LengthX() == m.LengthX() && r.LengthY() == m.LengthY()
    ensures !r.inverse && r.storage == m.storage
    ensures forall p, q :: 0 <= p <= i && 0 <= q <= |second| ==> r.Get(p, q) == Lcs(eq, first[..p], second[..q])
  {
    r := m;
    var j := 0;
    while j < |second| + 1
      invariant 0 <= j <= |second| + 1
      invariant r.Valid() && r.LengthX() == m.LengthX() && r.LengthY() == m.LengthY()
      invariant !r.inverse && r.storage == m.storage
      invariant forall p, q :: 0 <= p < i && 0 <= q <= |second| ==> r.Get(p, q) == Lcs(eq, first[..p], second[..q])
      invariant forall q :: 0 <= q < j ==> r.Get(i, q) == Lcs(eq, first[..i], second[..q])
    {
      r := FillCell(eq, first, second, r, i, j);
      j := j + 1;
    }
  }

  /** One step of computeInverse: zero on the borders past either sequence, else the suffix recurrence. */
  method FillInverseCell<T>(eq: (T, T) -> bool, first: seq<T>, second: seq<T>, m: Matrix, i: nat, j: nat) returns (r: Matrix)
    requires m.Valid() && m.LengthX() == |first| + 1 && m.LengthY() == |second| + 1 && m.inverse
    requires i <= |first| && j <= |second|
    requires forall p, q :: i < p <= |first| && 0 <= q <= |second| ==> m.Get(p, q) == Lcs(eq, first[p..], second[q..])
    requires forall q :: j < q <= |second| ==> m.Get(i, q) == Lcs(eq, first[i..], second[q..])
    ensures r.Valid() && r.LengthX() == m.LengthX() && r.LengthY() == m.LengthY()
    ensures r.inverse && r.storage == m.storage
    ensures forall p, q :: i < p <= |first| && 0 <= q <= |second| ==> r.Get(p, q) == Lcs(eq, first[p..], second[q..])
    ensures forall q :: j <= q <= |second| ==> r.Get(i, q) == Lcs(eq, first[i..], second[q..])
  {
    if i >= |first| || j >= |second| {
      r := m.Set(i, j, 0);
    } else {
      SuffixCell(eq, first, second, i, j, m.Get(i + 1, j + 1), m.Get(i + 1, j), m.Get(i, j + 1));
      if eq(first[i], second[j]) {
        r := m.IncrementPath(i, j);
      } else {
        r := m.IncrementByMaxPath(i, j);
      }
    }
  }

  /** One column of computeInverse, filled from the last row up. */
  method FillInverseColumn<T>(eq: (T, T) -> bool, first: seq<T>, second: seq<T>, m: Matrix, i: nat) returns (r: Matrix)
    requires m.Valid() && m.LengthX() == |first| + 1 && m.LengthY() == |second| + 1 && m.inverse
    requires i <= |first|
    requires forall p, q :: i < p <= |first| && 0 <= q <= |second| ==> m.Get(p, q) == Lcs(eq, first[p..], second[q..])
    ensures r.Valid() && r.LengthX() == m.LengthX() && r.LengthY() == m.LengthY()
    ensures r.inverse && r.storage == m.storage
    ensures forall p, q :: i <= p <= |first| && 0 <= q <= |second| ==> r.Get(p, q) == Lcs(eq, first[p..], second[q..])
  {
    r := m;
    var j := |second|;
    while j >= 0
      invariant -1 <= j <= |second|
      invariant r.Valid() && r.LengthX() == m.LengthX() && r.LengthY() == m.LengthY()
      invariant r.inverse && r.storage == m.storage
      invariant forall p, q :: i < p <= |first| && 0 <= q <= |second| ==> r.Get(p, q) == Lcs(eq, first[p..], second[q..])
      invariant forall q :: j < q <= |second| ==> r.Get(i, q) == Lcs(eq, first[i..], second[q..])
    {
      r := FillInverseCell(eq, first, second, r, i, j);
      j := j - 1;
    }
  }

  /** computeInverse: the inverse matrix, cell (i, j) holding the LCS length of `first[i..]` and `second[j..]`. */
  method ComputeInverse<T>(eq: (T, T) -> bool, first: seq<T>, second: seq<T>) returns (m: Matrix)
    ensures m.Valid() && m.LengthX() == |first| + 1 && m.LengthY() == |second| + 1
    ensures m.inverse && m.storage == StorageFor(|first|, |second|)
    ensures forall i, j :: 0 <= i <= |first| && 0 <= j <= |second| ==> m.Get(i, j) == Lcs(eq, first[i..], second[j..])
    ensures m.LcsLength() == Lcs(eq, first, second)
    ensures m.storage == ShortCells ==> forall i, j :: m.InRange(i, j) ==> Fits(ShortCells, m.Get(i, j))
  {
    var length1, length2 := |first|, |second|;
    m := Setup(length1 + 1, length2 + 1, true, StorageFor(length1, length2));
    var i := length1;
    while i >= 0
      invariant -1 <= i <= length1
      invariant m.Valid() && m.LengthX() == length1 + 1 && m.LengthY() == length2 + 1
      invariant m.inverse && m.storage == StorageFor(length1, length2)
      invariant forall p, q :: i < p <= length1 && 0 <= q <= length2 ==> m.Get(p, q) == Lcs(eq, first[p..], second[q..])
    {
      m := FillInverseColumn(eq, first, second, m, i);
      i := i - 1;
    }
    assert m.Get(0, 0) == Lcs(eq, first[0..], second[0..]);
    assert first[0..] == first && second[0..] == second;
  }
}

=== FILE: matrix_xml.dfy ===
/**
 * `MatrixXMLAlgorithm`: the XML-aware diff. It slices the common start and end, fills an
 * inverse LCS matrix for the rest and walks it from the top left, taking a move only when
 * the element state allows the token it would emit. Tokens of the first list are
 * reported as INS and tokens of the second as DEL; a MATCH reports the first list's token.
 */
module MatrixXml {
  import opened Outcomes
  import opened Tokens
  import opened Operations
  import opened CommonSubsequence
  import opened Nesting
  import opened Matrices
  import ElementStates
  import TokenSlicing
  import Hirschberg

  /** `DEFAULT_THRESHOLD`: at most 64 million token comparisons. */
  const DEFAULT_THRESHOLD: int := 64000000

  /** Whether to slice the common start and end, and the comparison budget. */
  datatype Config = Config(slice: bool, threshold: int)

  function DefaultConfig(): (c: Config)
    ensures c.slice && c.threshold == DEFAULT_THRESHOLD
  {
    Config(true, DEFAULT_THRESHOLD)
  }

  /**
   * The guard of processDiff as written: `lengthA * lengthB > threshold` on Java ints,
   * where the product wraps around.
   */
  function TooManyAsWritten(lengthA: int, lengthB: int, threshold: int): (r: bool)
    ensures IsInt32(lengthA * lengthB) ==> (r <==> lengthA * lengthB > threshold)
  {
    Wrap32(lengthA * lengthB) > threshold
  }

  /** The guard as intended: the true number of comparisons exceeds the budget. */
  function TooMany(lengthA: int, lengthB: int, threshold: int): (r: bool)
    ensures IsInt32(lengthA * lengthB) ==> r == TooManyAsWritten(lengthA, lengthB, threshold)
  {
    lengthA * lengthB > threshold
  }

  /** Two lists of 65536 tokens wrap the product to 0, so the written guard lets 2^32 comparisons through. */
  lemma TooManyOverflows()
    ensures !TooManyAsWritten(65536, 65536, DEFAULT_THRESHOLD)
    ensures TooMany(65536, 65536, DEFAULT_THRESHOLD)
  {
    assert 65536 * 65536 == TWO_TO_THE_32;
    assert Wrap32(TWO_TO_THE_32) == 0;
  }

  /**
   * isDiffComputable as written, from the number of sliced-off tokens: true when the
   * remaining matrix is LARGER than the threshold.
   */
  function IsDiffComputableAsWritten(cfg: Config, lengthA: int, lengthB: int, common: int): (r: bool)
    ensures r <==> TooManyAsWritten(lengthA - common, lengthB - common, cfg.threshold)
  {
    Wrap32((lengthA - common) * (lengthB - common)) > cfg.threshold
  }

  /** isDiffComputable as intended: the remaining matrix fits the budget. */
  function IsDiffComputable(cfg: Config, lengthA: int, lengthB: int, common: int): (r: bool)
    ensures IsInt32((lengthA - common) * (lengthB - common)) ==> (r <==> !IsDiffComputableAsWritten(cfg, lengthA, lengthB, common))
  {
    !TooMany(lengthA - common, lengthB - common, cfg.threshold)
  }

  /**
   * As written, isDiffComputable says "computable" exactly when processDiff would refuse
   * (within int range); the intended version agrees with processDiff.
   */
  lemma IsDiffComputableInverted(cfg: Config, lengthA: int, lengthB: int, common: int)
    requires IsInt32((lengthA - common) * (lengthB - common))
    ensures IsDiffComputableAsWritten(cfg, lengthA, lengthB, common) <==> TooMany(lengthA - common, lengthB - common, cfg.threshold)
    ensures IsDiffComputable(cfg, lengthA, lengthB, common) <==> !TooMany(lengthA - common, lengthB - common, cfg.threshold)
  {
  }

  /** One token of each, nothing in common: as written, not "computable", though processDiff takes it. */
  lemma IsDiffComputableCounterexample()
    ensures !IsDiffComputableAsWritten(DefaultConfig(), 1, 1, 0)
    ensures !TooMany(1, 1, DEFAULT_THRESHOLD)
    ensures IsDiffComputable(DefaultConfig(), 1, 1, 0)
  {
  }

  // Growing a diff of (a, b) by one step.

  lemma ExtendIns(ops: seq<Event>, a: seq<Token>, b: seq<Token>, x: Token)
    requires Aligns(Equals, ops, a, b, false)
    ensures Aligns(Equals, ops + [Operation(INS, x)], a, b + [x], false)
  {
    assert Aligns(Equals, [Operation(INS, x)], [], [x], false) by {
      assert [Operation(INS, x)][1..] == [] && [x][1..] == [];
    }
    AlignsConcat(Equals, ops, [Operation(INS, x)], a, [], b, [x], false);
    assert a + [] == a;
  }

  lemma ExtendDel(ops: seq<Event>, a: seq<Token>, b: seq<Token>, y: Token)
    requires Aligns(Equals, ops, a, b, false)
    ensures Aligns(Equals, ops + [Operation(DEL, y)], a + [y], b, false)
  {
    assert Aligns(Equals, [Operation(DEL, y)], [y], [], false) by {
      assert [Operation(DEL, y)][1..] == [] && [y][1..] == [];
    }
    AlignsConcat(Equals, ops, [Operation(DEL, y)], a, [y], b, [], false);
    assert b + [] == b;
  }

  lemma ExtendMatch(ops: seq<Event>, a: seq<Token>, b: seq<Token>, y: Token, x: Token)
    requires Aligns(Equals, ops, a, b, false) && Equals(x, y)
    ensures Aligns(Equals, ops + [Operation(MATCH, x)], a + [y], b + [x], false)
  {
    EqualsSymmetric(x, y);
    assert Aligns(Equals, [Operation(MATCH, x)], [y], [x], false) by {
      assert [Operation(MATCH, x)][1..] == [] && [x][1..] == [] && [y][1..] == [];
    }
    AlignsConcat(Equals, ops, [Operation(MATCH, x)], a, [y], b, [x], false);
  }

  /** Handling an allowed event keeps the element state on the strict replay. */
  lemma StrictExtend(stack0: seq<Opened>, ops: seq<Event>, s: ElementStates.ElementState, e: Event)
    requires s.Valid() && ReplayFrom(stack0, ops) == Some(s.Stack())
    requires s.IsAllowed(e.op, e.token)
    ensures ReplayFrom(stack0, ops + [e]) == Some(s.Handle(e.op, e.token).Stack())
  {
    ReplayFromAppend(stack0, ops, e);
    ElementStates.AllowedIsStrict(s, e.op, e.token);
  }

  /** The element state after a further event, with the history it has been fed. */
  lemma FedExtend(s0: ElementStates.ElementState, ops: seq<Event>, e: Event)
    requires s0.Valid()
    ensures ElementStates.HandleAll(s0, ops + [e]) == ElementStates.HandleAll(s0, ops).Handle(e.op, e.token)
  {
    ElementStates.HandleAllAppend(s0, ops, e);
  }

  /**
   * One step of the walk at a cell whose test chain gave `d`: the operation to emit, or
   * None to stop. INS reports the first list's token, DEL the second's, MATCH the first's.
   */
  function Choose(d: Direction, es: ElementStates.ElementState, tokenA: Token, tokenB: Token): (r: Option<Event>)
    requires es.Valid()
    ensures r.Some? ==> es.IsAllowed(r.value.op, r.value.token)
    ensures r.Some? ==> r.value == Operation(INS, tokenA) || r.value == Operation(DEL, tokenB)
                        || (r.value == Operation(MATCH, tokenA) && Equals(tokenA, tokenB))
    ensures d == Lost ==> r == None
    ensures Equals(tokenA, tokenB) && es.IsAllowed(MATCH, tokenA) && d == Either ==> r == Some(Operation(MATCH, tokenA))
  {
    match d
    case AlongX =>
      // we can only insert or delete, priority to insert
      if es.IsAllowed(INS, tokenA) && !es.HasPriorityOver(tokenB, tokenA) then Some(Operation(INS, tokenA))
      else if Equals(tokenA, tokenB) && es.IsAllowed(MATCH, tokenA) then Some(Operation(MATCH, tokenA))
      else if es.IsAllowed(DEL, tokenB) then Some(Operation(DEL, tokenB))
      else None
    case AlongY =>
      // we can only insert or delete, priority to delete
      if es.IsAllowed(DEL, tokenB) && !es.HasPriorityOver(tokenA, tokenB) then Some(Operation(DEL, tokenB))
      else if Equals(tokenA, tokenB) && es.IsAllowed(MATCH, tokenA) then Some(Operation(MATCH, tokenA))
      else if es.IsAllowed(INS, tokenA) then Some(Operation(INS, tokenA))
      else None
    case Either =>
      if Equals(tokenA, tokenB) && es.IsAllowed(MATCH, tokenA) then Some(Operation(MATCH, tokenA))
      else if es.IsAllowed(INS, tokenA) && !(tokenB.Attribute? && !tokenA.Attribute?) then Some(Operation(INS, tokenA))
      else if es.IsAllowed(DEL, tokenB) && !(tokenA.Attribute? && !tokenB.Attribute?) then Some(Operation(DEL, tokenB))
      else None
    case Lost => None
  }

  /**
   * The main loop of processDiff: walks the inverse matrix from (0, 0) until either list
   * is used up or no move is allowed. Every step is one the element state allowed, so the
   * operations replay strictly from the state's initial stack; the state has been fed each.
   */
  method MainWalk(m: Matrix, first: seq<Token>, second: seq<Token>, s0: ElementStates.ElementState)
    returns (ops: seq<Event>, state: ElementStates.ElementState, i: nat, j: nat)
    requires m.Valid() && m.LengthX() == |first| + 1 && m.LengthY() == |second| + 1
    requires s0.Valid()
    ensures i <= |first| && j <= |second|
    ensures Aligns(Equals, ops, second[..j], first[..i], false)
    ensures state.Valid() && state == ElementStates.HandleAll(s0, ops)
    ensures ReplayFrom(s0.Stack(), ops) == Some(state.Stack())
  {
    i, j := 0, 0;
    state := s0;
    ops := [];
    assert ElementStates.HandleAll(s0, []) == s0;
    while i < |first| && j < |second|
      invariant 0 <= i <= |first| && 0 <= j <= |second|
      invariant Aligns(Equals, ops, second[..j], first[..i], false)
      invariant state.Valid() && state == ElementStates.HandleAll(s0, ops)
      invariant ReplayFrom(s0.Stack(), ops) == Some(state.Stack())
      decreases |first| - i + |second| - j
    {
      var tokenA, tokenB := first[i], second[j];
      var choice := Choose(m.Step(i, j), state, tokenA, tokenB);
      if choice.None? {
        break;
      }
      var next := choice.value;
      i, j := Advance(ops, second, first, i, j, next);
      StrictExtend(s0.Stack(), ops, state, next);
      FedExtend(s0, ops, next);
      ops := ops + [next];
      state := state.Handle(next.op, next.token);
    }
  }

  /** Where a step leaves the walk: INS moves along the first list, DEL along the second, MATCH along both. */
  method Advance(ops: seq<Event>, second: seq<Token>, first: seq<Token>, i: nat, j: nat, next: Event)
    returns (i': nat, j': nat)
    requires i < |first| && j < |second|
    requires Aligns(Equals, ops, second[..j], first[..i], false)
    requires next == Operation(INS, first[i]) || next == Operation(DEL, second[j])
             || (next == Operation(MATCH, first[i]) && Equals(first[i], second[j]))
    ensures i' <= |first| && j' <= |second|
    ensures i' == i + (if next.op == DEL then 0 else 1) && j' == j + (if next.op == INS then 0 else 1)
    ensures Aligns(Equals, ops + [next], second[..j'], first[..i'], false)
  {
    assert first[..i + 1] == first[..i] + [first[i]] && second[..j + 1] == second[..j] + [second[j]];
    if next.op == INS {
      ExtendIns(ops, second[..j], first[..i], first[i]);
      i', j' := i + 1, j;
    } else if next.op == DEL {
      ExtendDel(ops, second[..j], first[..i], second[j]);
      i', j' := i, j + 1;
    } else {
      ExtendMatch(ops, second[..j], first[..i], second[j], first[i]);
      i', j' := i + 1, j + 1;
    }
  }

  /** The two finishing loops: the rest of the first list as INS, then the rest of the second as DEL. */
  method FinishOff(first: seq<Token>, second: seq<Token>, i: nat, j: nat, s0: ElementStates.ElementState)
    returns (ops: seq<Event>, state: ElementStates.ElementState)
    requires i <= |first| && j <= |second| && s0.Valid()
    ensures ops == Hirschberg.AllAs(INS, first[i..]) + Hirschberg.AllAs(DEL, second[j..])
    ensures state.Valid() && state == ElementStates.HandleAll(s0, ops)
  {
    var inserted, s1 := EmitAll(INS, first[i..], s0);
    var deleted, s2 := EmitAll(DEL, second[j..], s1);
    ElementStates.HandleAllConcat(s0, inserted, deleted);
    ops := inserted + deleted;
    state := s2;
  }

  /** One of the two closing loops: every token reported under `op`, in order, each one fed to the element state. */
  method EmitAll(op: Operator, tokens: seq<Token>, s0: ElementStates.ElementState)
    returns (ops: seq<Event>, state: ElementStates.ElementState)
    requires s0.Valid()
    ensures ops == Hirschberg.AllAs(op, tokens)
    ensures state.Valid() && state == ElementStates.HandleAll(s0, ops)
  {
    ops := [];
    state := s0;
    assert ElementStates.HandleAll(s0, []) == s0;
    var k := 0;
    while k < |tokens|
      invariant 0 <= k <= |tokens|
      invariant ops == Hirschberg.AllAs(op, tokens[..k])
      invariant state.Valid() && state == ElementStates.HandleAll(s0, ops)
    {
      FedExtend(s0, ops, Operation(op, tokens[k]));
      AllAsStep(op, tokens, k);
      state := state.Handle(op, tokens[k]);
      ops := ops + [Operation(op, tokens[k])];
      k := k + 1;
    }
    assert tokens[..k] == tokens;
  }

  /** Turning one more token of the list into an operation appends that operation. */
  lemma AllAsStep(op: Operator, tokens: seq<Token>, k: nat)
    requires k < |tokens|
    ensures Hirschberg.AllAs(op, tokens[..k + 1]) == Hirschberg.AllAs(op, tokens[..k]) + [Operation(op, tokens[k])]
  {
    assert tokens[..k + 1] == tokens[..k] + [tokens[k]];
  }

  /** What processDiff hands on: the operations, the element state after them, and how many came from the walk. */
  datatype Processed = Processed(ops: seq<Event>, state: ElementStates.ElementState, walked: nat)

  /**
   * processDiff: refuses (IllegalArgumentException) when the comparisons would exceed the
   * threshold, otherwise walks the inverse matrix and finishes off both lists.
   */
  method ProcessDiff(cfg: Config, first: seq<Token>, second: seq<Token>, s0: ElementStates.ElementState)
    returns (r: Result<Processed>)
    requires s0.Valid()
    ensures r.Failure? <==> TooMany(|first|, |second|, cfg.threshold)
    ensures r.Failure? ==> r.error == IllegalArgument
    ensures r.Success? ==> Aligns(Equals, r.value.ops, second, first, false)
    ensures r.Success? ==> r.value.state.Valid() && r.value.state == ElementStates.HandleAll(s0, r.value.ops)
    ensures r.Success? ==> var p := r.value;
              && p.walked <= |p.ops|
              && ReplayFrom(s0.Stack(), p.ops[..p.walked]).Some?
              && Produced(p.ops[..p.walked]) <= |first| && Consumed(p.ops[..p.walked]) <= |second|
              && p.ops[p.walked..] == Hirschberg.AllAs(INS, first[Produced(p.ops[..p.walked])..])
                                      + Hirschberg.AllAs(DEL, second[Consumed(p.ops[..p.walked])..])
  {
    if TooMany(|first|, |second|, cfg.threshold) {
      return Failure(IllegalArgument);
    }
    var m := ComputeInverse(Equals, first, second);
    var main, s1, i, j := MainWalk(m, first, second, s0);
    var tail, s2 := FinishOff(first, second, i, j, s1);
    WalkJoins(first, second, main, tail, i, j);
    ElementStates.HandleAllConcat(s0, main, tail);
    return Success(Processed(main + tail, s2, |main|));
  }

  /** The walk up to (i, j), then the tail that finishes off both lists, is a diff of the whole lists. */
  lemma WalkJoins(first: seq<Token>, second: seq<Token>, main: seq<Event>, tail: seq<Event>, i: nat, j: nat)
    requires i <= |first| && j <= |second|
    requires Aligns(Equals, main, second[..j], first[..i], false)
    requires tail == Hirschberg.AllAs(INS, first[i..]) + Hirschberg.AllAs(DEL, second[j..])
    ensures Aligns(Equals, main + tail, second, first, false)
    ensures Produced(main) == i && Consumed(main) == j
    ensures (main + tail)[..|main|] == main && (main + tail)[|main|..] == tail
  {
    AlignsReconstructs(Equals, main, second[..j], first[..i]);
    TailAligns(first[i..], second[j..]);
    AlignsConcat(Equals, main, tail, second[..j], second[j..], first[..i], first[i..], false);
    assert second[..j] + second[j..] == second && first[..i] + first[i..] == first;
  }

  /** Inserting all of `b` then deleting all of `a` is a diff of `a` into `b`. */
  lemma TailAligns(b: seq<Token>, a: seq<Token>)
    ensures Aligns(Equals, Hirschberg.AllAs(INS, b) + Hirschberg.AllAs(DEL, a), a, b, false)
  {
    Hirschberg.AllAsAligns(Equals, b, false);
    Hirschberg.AllAsAligns(Equals, a, false);
    AlignsConcat(Equals, Hirschberg.AllAs(INS, b), Hirschberg.AllAs(DEL, a), [], a, b, [], false);
    assert [] + a == a && b + [] == b;
  }

  /** Matching a common run, reporting the first list's tokens, is a diff of the run. */
  lemma {:induction false} MatchRunAligns(a: seq<Token>, b: seq<Token>)
    requires |a| == |b|
    requires forall k :: 0 <= k < |a| ==> Equals(a[k], b[k])
    ensures Aligns(Equals, Hirschberg.AllAs(MATCH, b), a, b, false)
    decreases |a|
  {
    if |a| > 0 {
      assert Hirschberg.AllAs(MATCH, b)[1..] == Hirschberg.AllAs(MATCH, b[1..]);
      MatchRunAligns(a[1..], b[1..]);
    }
  }

  /** Fewer tokens on each side never need more comparisons. */
  lemma FewerComparisons(a: nat, b: nat, a': nat, b': nat, threshold: int)
    requires a' <= a && b' <= b
    ensures TooMany(a', b', threshold) ==> TooMany(a, b, threshold)
  {
    assert a' * b' <= a * b' <= a * b by {
      MulMonotone(a', a, b');
      MulMonotone(b', b, a);
    }
  }

  lemma MulMonotone(x: nat, y: nat, k: nat)
    requires x <= y
    ensures x * k <= y * k && k * x <= k * y
  {
  }

  /**
   * diff: with an empty side, DEL of all the second list then INS of all the first;
   * otherwise, with slicing, MATCH of the common start, the middle (DEL then INS when one
   * side of it is empty, else processDiff) and MATCH of the common end. The element
   * state starts empty and is fed every operation. The result is a diff of the second
   * list into the first; it is refused only when the middle is over the threshold.
   * `sent` is what the handler has received: the whole diff, or, when the middle is
   * refused, the MATCH operations of the sliced start that were sent before the error.
   */
  method Diff(cfg: Config, first: seq<Token>, second: seq<Token>) returns (r: Result<seq<Event>>, sent: seq<Event>)
    ensures |first| == 0 || |second| == 0 ==>
              r == Success(Hirschberg.AllAs(DEL, second) + Hirschberg.AllAs(INS, first))
    ensures r.Success? ==> Aligns(Equals, r.value, second, first, false)
    ensures r.Success? ==> Generate(r.value, true) == first && Similar(Equals, second, Generate(r.value, false))
    ensures r.Success? ==> Count(r.value, MATCH) <= Lcs(Equals, second, first)
    ensures r.Failure? ==> r.error == IllegalArgument && TooMany(|first|, |second|, cfg.threshold)
    ensures forall s: nat, e: nat :: SlicedAs(cfg, first, second, s, e) ==>
              (r.Failure? <==> MiddleTooMany(cfg, first, second, s, e))
    ensures r.Success? ==> sent == r.value
    ensures r.Failure? ==> forall s: nat, e: nat :: SlicedAs(cfg, first, second, s, e) ==>
              s <= |first| && sent == TokenSlicing.HandleStart(first, s)
  {
    var ops: seq<Event>;
    if |first| == 0 || |second| == 0 {
      ops := Hirschberg.AllAs(DEL, second) + Hirschberg.AllAs(INS, first);
      SwapEmptyTail(first, second);
      AlignsReconstructs(Equals, ops, second, first);
      UpperBound(Equals, ops, second, first, false);
      return Success(ops), ops;
    }
    var startCount, endCount := 0, 0;
    if cfg.slice {
      startCount, endCount := TokenSlicing.Analyze(first, second);
    }
    SlicedAsUnique(cfg, first, second, startCount, endCount);
    r, sent := DiffSliced(cfg, first, second, startCount, endCount);
    if r.Success? {
      AlignsReconstructs(Equals, r.value, second, first);
      UpperBound(Equals, r.value, second, first, false);
    }
  }

  /**
   * The non-empty case of diff once the common start and end are known: MATCH of the
   * start, the middle and MATCH of the end, or processDiff on the whole lists when
   * nothing is sliced. It fails exactly when processDiff is reached and refuses, after
   * sending the MATCH operations of the sliced start.
   */
  method DiffSliced(cfg: Config, first: seq<Token>, second: seq<Token>, startCount: nat, endCount: nat)
    returns (r: Result<seq<Event>>, sent: seq<Event>)
    requires |first| > 0 && |second| > 0
    requires TokenSlicing.AgreeUpTo(first, second, startCount) && TokenSlicing.AgreeAtEnd(first, second, endCount)
    requires startCount + endCount <= |first| && startCount + endCount <= |second|
    ensures r.Success? ==> Aligns(Equals, r.value, second, first, false)
    ensures r.Failure? ==> r.error == IllegalArgument && TooMany(|first|, |second|, cfg.threshold)
    ensures r.Failure? <==> MiddleTooMany(cfg, first, second, startCount, endCount)
    ensures r.Success? ==> sent == r.value
    ensures r.Failure? ==> sent == TokenSlicing.HandleStart(first, startCount)
  {
    if startCount + endCount > 0 {
      r, sent := DiffAround(cfg, first, second, startCount, endCount);
    } else {
      var processed := ProcessDiff(cfg, first, second, ElementStates.Empty());
      if processed.Failure? {
        return Failure(processed.error), [];
      }
      return Success(processed.value.ops), processed.value.ops;
    }
  }

  /**
   * MATCH of the sliced start, the middle, and MATCH of the sliced end. The start is
   * sent before the middle is diffed, so a refused middle leaves it sent.
   */
  method DiffAround(cfg: Config, first: seq<Token>, second: seq<Token>, startCount: nat, endCount: nat)
    returns (r: Result<seq<Event>>, sent: seq<Event>)
    requires TokenSlicing.AgreeUpTo(first, second, startCount) && TokenSlicing.AgreeAtEnd(first, second, endCount)
    requires startCount + endCount <= |first| && startCount + endCount <= |second|
    ensures r.Success? ==> Aligns(Equals, r.value, second, first, false)
    ensures r.Failure? ==> r.error == IllegalArgument && TooMany(|first|, |second|, cfg.threshold)
    ensures r.Failure? <==> MiddleTooMany(cfg, first, second, startCount, endCount)
    ensures r.Success? ==> sent == r.value
    ensures r.Failure? ==> sent == TokenSlicing.HandleStart(first, startCount)
  {
    var prefix := TokenSlicing.HandleStart(first, startCount);
    var suffix := TokenSlicing.HandleEnd(first, endCount);
    var estate := ElementStates.HandleAll(ElementStates.Empty(), prefix);
    var middle := SlicedMiddle(cfg, first, second, startCount, endCount, estate);
    if middle.Failure? {
      MiddleTooManyWhole(cfg, first, second, startCount, endCount);
      return Failure(middle.error), prefix;
    }
    SlicesJoin(first, second, startCount, endCount, middle.value);
    r := Success(prefix + middle.value + suffix);
    sent := r.value;
  }

  /** The middle left between the sliced start and end, diffed as `Middle` does. */
  method SlicedMiddle(cfg: Config, first: seq<Token>, second: seq<Token>, startCount: nat, endCount: nat,
                      estate: ElementStates.ElementState)
    returns (r: Result<seq<Event>>)
    requires estate.Valid()
    requires startCount + endCount <= |first| && startCount + endCount <= |second|
    ensures r.Success? ==> Aligns(Equals, r.value, TokenSlicing.SubSequence(second, startCount, endCount),
                                  TokenSlicing.SubSequence(first, startCount, endCount), false)
    ensures r.Failure? <==> MiddleTooMany(cfg, first, second, startCount, endCount)
    ensures r.Failure? ==> r.error == IllegalArgument
  {
    var firstSub := TokenSlicing.SubSequence(first, startCount, endCount);
    var secondSub := TokenSlicing.SubSequence(second, startCount, endCount);
    r := Middle(cfg, firstSub, secondSub, estate);
  }

  /** The middle of a sliced diff: DEL then INS when one side is empty, otherwise processDiff. */
  method Middle(cfg: Config, firstSub: seq<Token>, secondSub: seq<Token>, estate: ElementStates.ElementState)
    returns (r: Result<seq<Event>>)
    requires estate.Valid()
    ensures r.Success? ==> Aligns(Equals, r.value, secondSub, firstSub, false)
    ensures r.Failure? <==> |firstSub| > 0 && |secondSub| > 0 && TooMany(|firstSub|, |secondSub|, cfg.threshold)
    ensures r.Failure? ==> r.error == IllegalArgument
  {
    if |firstSub| == 0 || |secondSub| == 0 {
      SwapEmptyTail(firstSub, secondSub);
      return Success(Hirschberg.AllAs(DEL, secondSub) + Hirschberg.AllAs(INS, firstSub));
    }
    var processed := ProcessDiff(cfg, firstSub, secondSub, estate);
    if processed.Failure? {
      return Failure(processed.error);
    }
    return Success(processed.value.ops);
  }

  /** The counts diff slices off: the slicer's when slicing is on, none otherwise. */
  ghost predicate SlicedAs(cfg: Config, first: seq<Token>, second: seq<Token>, s: nat, e: nat) {
    if cfg.slice then TokenSlicing.IsStart(first, second, s) && TokenSlicing.IsEnd(first, second, s, e)
    else s == 0 && e == 0
  }

  /**
   * When diff refuses, given the sliced counts: both lists and both middles are non-empty
   * (otherwise processDiff is never reached) and the middles need too many comparisons.
   */
  predicate MiddleTooMany(cfg: Config, first: seq<Token>, second: seq<Token>, s: nat, e: nat) {
    && s + e < |first| && s + e < |second|
    && TooMany(|first| - s - e, |second| - s - e, cfg.threshold)
  }

  /** Middles too large for the threshold come from whole lists too large for it. */
  lemma MiddleTooManyWhole(cfg: Config, first: seq<Token>, second: seq<Token>, s: nat, e: nat)
    requires MiddleTooMany(cfg, first, second, s, e)
    ensures TooMany(|first|, |second|, cfg.threshold)
  {
    FewerComparisons(|first|, |second|, |first| - s - e, |second| - s - e, cfg.threshold);
  }

  /**
   * Two equal one-token lists slice down to nothing, so diff succeeds on them even with a
   * threshold of 0: the whole lists would be too many comparisons, the middles are not.
   */
  lemma EqualListsSliceAway()
    ensures SlicedAs(Config(true, 0), [Text("a")], [Text("a")], 1, 0)
    ensures !MiddleTooMany(Config(true, 0), [Text("a")], [Text("a")], 1, 0)
    ensures TooMany(1, 1, 0)
  {
    assert [Text("a")][..1] == [Text("a")] && [Text("a")][..0] == [];
  }

  /**
   * `<a/>b` against `<a/>c` with a threshold of 0: the common start `a` is sliced off, the
   * one-token middles are refused, and the handler has already received MATCH of `a`.
   */
  lemma StartSentBeforeRefusal()
    ensures SlicedAs(Config(true, 0), [Text("a"), Text("b")], [Text("a"), Text("c")], 1, 0)
    ensures MiddleTooMany(Config(true, 0), [Text("a"), Text("b")], [Text("a"), Text("c")], 1, 0)
    ensures TokenSlicing.HandleStart([Text("a"), Text("b")], 1) == [Operation(MATCH, Text("a"))]
  {
    var first, second := [Text("a"), Text("b")], [Text("a"), Text("c")];
    assert first[..1] == second[..1] == [Text("a")];
  }

  /**
   * With the counts analyze would slice off, the intended isDiffComputable answers whether
   * diff succeeds: it is false exactly when both middles are non-empty and too large.
   */
  lemma IsDiffComputableAgreesWithDiff(cfg: Config, first: seq<Token>, second: seq<Token>, s: nat, e: nat)
    requires s + e < |first| && s + e < |second|
    ensures IsDiffComputable(cfg, |first|, |second|, s + e) <==> !MiddleTooMany(cfg, first, second, s, e)
  {
  }

  /** The sliced counts are determined by the configuration and the two lists. */
  lemma SlicedAsUnique(cfg: Config, first: seq<Token>, second: seq<Token>, startCount: nat, endCount: nat)
    requires SlicedAs(cfg, first, second, startCount, endCount)
    ensures forall s: nat, e: nat :: SlicedAs(cfg, first, second, s, e) ==> s == startCount && e == endCount
  {
    forall s: nat, e: nat | SlicedAs(cfg, first, second, s, e)
      ensures s == startCount && e == endCount
    {
      if cfg.slice {
        TokenSlicing.SlicingUnique(first, second, s, e, startCount, endCount);
      }
    }
  }

  /** The sliced start and end are runs of agreeing tokens: matched around a diff of the middles, they make a diff of the whole. */
  lemma SlicesJoin(first: seq<Token>, second: seq<Token>, startCount: nat, endCount: nat, middle: seq<Event>)
    requires TokenSlicing.AgreeUpTo(first, second, startCount) && TokenSlicing.AgreeAtEnd(first, second, endCount)
    requires startCount + endCount <= |first| && startCount + endCount <= |second|
    requires Aligns(Equals, middle, TokenSlicing.SubSequence(second, startCount, endCount),
                    TokenSlicing.SubSequence(first, startCount, endCount), false)
    ensures Aligns(Equals, TokenSlicing.HandleStart(first, startCount) + middle + TokenSlicing.HandleEnd(first, endCount),
                   second, first, false)
  {
    var prefix := TokenSlicing.HandleStart(first, startCount);
    var suffix := TokenSlicing.HandleEnd(first, endCount);
    var firstSub := TokenSlicing.SubSequence(first, startCount, endCount);
    var secondSub := TokenSlicing.SubSequence(second, startCount, endCount);
    PrefixAligns(first, second, startCount);
    SuffixAligns(first, second, endCount);
    AlignsConcat(Equals, prefix, middle, second[..startCount], secondSub, first[..startCount], firstSub, false);
    AlignsConcat(Equals, prefix + middle, suffix, second[..startCount] + secondSub, second[|second| - endCount..],
                 first[..startCount] + firstSub, first[|first| - endCount..], false);
  }

  /** With one side empty, DEL-then-INS and INS-then-DEL are both diffs, the only ones. */
  lemma SwapEmptyTail(firstSub: seq<Token>, secondSub: seq<Token>)
    requires |firstSub| == 0 || |secondSub| == 0
    ensures Aligns(Equals, Hirschberg.AllAs(DEL, secondSub) + Hirschberg.AllAs(INS, firstSub), secondSub, firstSub, false)
  {
    if |firstSub| == 0 {
      assert Hirschberg.AllAs(INS, firstSub) == [];
      Hirschberg.AllAsAligns(Equals, secondSub, false);
      assert Hirschberg.AllAs(DEL, secondSub) + [] == Hirschberg.AllAs(DEL, secondSub);
    } else {
      assert Hirschberg.AllAs(DEL, secondSub) == [];
      Hirschberg.AllAsAligns(Equals, firstSub, false);
      assert [] + Hirschberg.AllAs(INS, firstSub) == Hirschberg.AllAs(INS, firstSub);
    }
  }

  lemma PrefixAligns(first: seq<Token>, second: seq<Token>, n: nat)
    requires TokenSlicing.AgreeUpTo(first, second, n)
    ensures Aligns(Equals, TokenSlicing.HandleStart(first, n), second[..n], first[..n], false)
  {
    MatchRunAligns(second[..n], first[..n]);
  }

  lemma SuffixAligns(first: seq<Token>, second: seq<Token>, n: nat)
    requires TokenSlicing.AgreeAtEnd(first, second, n)
    ensures Aligns(Equals, TokenSlicing.HandleEnd(first, n), second[|second| - n..], first[|first| - n..], false)
  {
    var x, y := first[|first| - n..], second[|second| - n..];
    forall k | 0 <= k < n ensures Equals(y[k], x[k]) {
      assert x[k] == first[|first| - n + k];
      EqualsSymmetric(first[|first| - n + k], second[|first| - n + k - |first| + |second|]);
    }
    MatchRunAligns(y, x);
  }
}

=== FILE: namespace_set.dfy ===
/**
 * `NamespaceSet`: the namespaces of a document, kept as a bijection between namespace
 * URIs and prefixes. Adding a URI whose prefix is taken picks a fresh prefix; replacing
 * a mapping moves a displaced namespace to a fresh prefix.
 *
 * The table of common namespaces the source loads from a resource (`Namespace.getCommon`)
 * is a parameter `common`, from URI to its usual prefix. The order in which a hash map
 * hands out its entries is a parameter too: an enumeration of the set being copied.
 */
module Namespaces {
  import opened Outcomes

  /** A namespace declaration: URI and prefix. */
  datatype Namespace = Namespace(uri: string, prefix: string)

  /** The URI of the null namespace (`XMLConstants.NULL_NS_URI`). */
  const NULL_NS_URI: string := ""

  /** The null namespace under the default prefix. */
  const NO_NAMESPACE: Namespace := Namespace(NULL_NS_URI, "")

  /** The two maps of the source: URI to prefix, and prefix to URI. */
  datatype NamespaceSet = NamespaceSet(byUri: map<string, string>, byPrefix: map<string, string>)

  /** Each map is the inverse of the other: one prefix per URI and one URI per prefix. */
  predicate Valid(s: NamespaceSet) {
    && (forall u :: u in s.byUri ==> s.byUri[u] in s.byPrefix && s.byPrefix[s.byUri[u]] == u)
    && (forall p :: p in s.byPrefix ==> s.byPrefix[p] in s.byUri && s.byUri[s.byPrefix[p]] == p)
  }

  /** A new, empty set. */
  function Empty(): (r: NamespaceSet)
    ensures Valid(r) && Size(r) == 0
  {
    NamespaceSet(map[], map[])
  }

  /** A set holding one namespace. */
  function Single(ns: Namespace): (r: NamespaceSet)
    ensures Valid(r) && Size(r) == 1 && Contains(r, ns)
  {
    NamespaceSet(map[ns.uri := ns.prefix], map[ns.prefix := ns.uri])
  }

  /** noNamespace: the set holding only the null namespace. */
  function NoNamespace(): (r: NamespaceSet)
    ensures Valid(r) && Size(r) == 1 && GetUri(r, "") == Some(NULL_NS_URI)
  {
    Single(NO_NAMESPACE)
  }

  /** size: the number of URIs. */
  function Size(s: NamespaceSet): nat {
    |s.byUri|
  }

  /** contains: the URI is mapped to this very prefix. */
  predicate Contains(s: NamespaceSet, ns: Namespace) {
    ns.uri in s.byUri && s.byUri[ns.uri] == ns.prefix
  }

  /** getPrefix: the prefix of a URI, None when it is not mapped. */
  function GetPrefix(s: NamespaceSet, uri: string): (r: Option<string>)
    ensures r.Some? <==> uri in s.byUri
  {
    if uri in s.byUri then Some(s.byUri[uri]) else None
  }

  /** getUri: the URI of a prefix, None when it is not mapped. */
  function GetUri(s: NamespaceSet, prefix: string): (r: Option<string>)
    ensures r.Some? <==> prefix in s.byPrefix
  {
    if prefix in s.byPrefix then Some(s.byPrefix[prefix]) else None
  }

  /** getPrefix and getUri undo each other on a valid set. */
  lemma PrefixUriInverse(s: NamespaceSet, uri: string, prefix: string)
    requires Valid(s)
    ensures GetPrefix(s, uri) == Some(prefix) <==> GetUri(s, prefix) == Some(uri)
  {
  }

  /** In a valid set there are as many prefixes as URIs, so the size counts either. */
  lemma {:induction false} SizeCountsPrefixes(s: NamespaceSet)
    requires Valid(s)
    ensures |s.byPrefix| == Size(s)
    decreases |s.byUri|
  {
    if |s.byUri| > 0 {
      var u :| u in s.byUri;
      var p := s.byUri[u];
      var t := NamespaceSet(s.byUri - {u}, s.byPrefix - {p});
      assert Valid(t);
      SizeCountsPrefixes(t);
    }
  }

  /** clear: nothing is mapped any more. */
  function Clear(s: NamespaceSet): (r: NamespaceSet)
    ensures Valid(r) && Size(r) == 0
    ensures forall u :: GetPrefix(r, u) == None
    ensures forall p :: GetUri(r, p) == None
  {
    Empty()
  }

  // Fresh prefixes -------------------------------------------------------------------------

  function Digit(d: nat): (c: char)
    requires d < 10
  {
    ('0' as int + d) as char
  }

  /** The decimal digits of a number, as `String.valueOf` writes them. */
  function Decimal(n: nat): (r: string)
    ensures |r| > 0
  {
    if n < 10 then [Digit(n)] else Decimal(n / 10) + [Digit(n % 10)]
  }

  /** Different numbers are written differently. */
  lemma {:induction false} DecimalInjective(m: nat, n: nat)
    requires Decimal(m) == Decimal(n)
    ensures m == n
  {
    var dm, dn := Decimal(m), Decimal(n);
    assert dm[|dm| - 1] == dn[|dn| - 1];
    assert m % 10 == n % 10;
    if m >= 10 && n >= 10 {
      assert Decimal(m / 10) == dm[..|dm| - 1] == dn[..|dn| - 1] == Decimal(n / 10);
      DecimalInjective(m / 10, n / 10);
    }
  }

  lemma SuffixInjective(p: string, m: nat, n: nat)
    requires p + Decimal(m) == p + Decimal(n)
    ensures m == n
  {
    assert (p + Decimal(m))[|p|..] == Decimal(m);
    assert (p + Decimal(n))[|p|..] == Decimal(n);
    DecimalInjective(m, n);
  }

  /**
   * autoprefix: the prefix tried after `count` clashes. A non-empty prefix gets the count
   * appended; the default prefix becomes the URI's common prefix (with the count appended
   * after the first try) or "ns" followed by the count.
   */
  function Autoprefix(uri: string, prefix: string, count: nat, common: map<string, string>): string {
    if prefix == "" then
      if uri in common then (if count == 0 then common[uri] else common[uri] + Decimal(count))
      else "ns" + Decimal(count)
    else prefix + Decimal(count)
  }

  /** No prefix is tried twice. */
  lemma AutoprefixInjective(uri: string, prefix: string, m: nat, n: nat, common: map<string, string>)
    requires Autoprefix(uri, prefix, m, common) == Autoprefix(uri, prefix, n, common)
    ensures m == n
  {
    if prefix == "" && uri in common {
      var c := common[uri];
      if m != 0 && n != 0 {
        SuffixInjective(c, m, n);
      }
    } else if prefix == "" {
      SuffixInjective("ns", m, n);
    } else {
      SuffixInjective(prefix, m, n);
    }
  }

  /** The prefixes tried after fewer than `count` clashes. */
  function Tried(uri: string, prefix: string, count: nat, common: map<string, string>): set<string> {
    set k | 0 <= k < count :: Autoprefix(uri, prefix, k, common)
  }

  lemma {:induction false} TriedSize(uri: string, prefix: string, count: nat, common: map<string, string>)
    ensures |Tried(uri, prefix, count, common)| == count
  {
    if count > 0 {
      var c := count - 1;
      TriedSize(uri, prefix, c, common);
      TriedSnoc(uri, prefix, c, common);
      NotTriedYet(uri, prefix, c, common);
    }
  }

  /** One more clash, one more prefix tried. */
  lemma TriedSnoc(uri: string, prefix: string, c: nat, common: map<string, string>)
    ensures Tried(uri, prefix, c + 1, common) == Tried(uri, prefix, c, common) + {Autoprefix(uri, prefix, c, common)}
  {
  }

  /** The next try is none of the earlier ones. */
  lemma NotTriedYet(uri: string, prefix: string, c: nat, common: map<string, string>)
    ensures Autoprefix(uri, prefix, c, common) !in Tried(uri, prefix, c, common)
  {
    if Autoprefix(uri, prefix, c, common) in Tried(uri, prefix, c, common) {
      var k :| 0 <= k < c && Autoprefix(uri, prefix, k, common) == Autoprefix(uri, prefix, c, common);
      AutoprefixInjective(uri, prefix, k, c, common);
    }
  }

  lemma SubsetSize(a: set<string>, b: set<string>)
    requires a <= b
    ensures |a| <= |b|
  {
    assert b == a + (b - a);
  }

  /**
   * The clash loop of add: the number of the first autoprefix, from `count` on, that is
   * not a used prefix. It exists because the tries are all different and finitely many
   * prefixes are used.
   */
  function NextFree(used: set<string>, uri: string, prefix: string, common: map<string, string>, count: nat): (k: nat)
    requires Tried(uri, prefix, count, common) <= used
    ensures count <= k && Autoprefix(uri, prefix, k, common) !in used
    ensures forall j :: count <= j < k ==> Autoprefix(uri, prefix, j, common) in used
    decreases |used| - count
  {
    TriedSize(uri, prefix, count, common);
    SubsetSize(Tried(uri, prefix, count, common), used);
    var c := Autoprefix(uri, prefix, count, common);
    if c !in used then count
    else
      TriedSnoc(uri, prefix, count, common);
      TriedSize(uri, prefix, count + 1, common);
      SubsetSize(Tried(uri, prefix, count + 1, common), used);
      NextFree(used, uri, prefix, common, count + 1)
  }

  /** The prefix add settles on: the requested one when free, else the first free autoprefix. */
  function ActualPrefix(used: set<string>, uri: string, prefix: string, common: map<string, string>): (r: string)
    ensures r !in used
    ensures prefix !in used ==> r == prefix
    ensures prefix in used ==> exists k :: r == Autoprefix(uri, prefix, k, common)
  {
    if prefix !in used then prefix
    else Autoprefix(uri, prefix, NextFree(used, uri, prefix, common, 0), common)
  }

  // Operations -----------------------------------------------------------------------------

  /**
   * add(uri, prefix): false and no change when the URI is mapped already; otherwise the
   * URI is mapped to the prefix, or to a fresh one when the prefix is taken, and true.
   */
  function Add(s: NamespaceSet, uri: string, prefix: string, common: map<string, string>): (r: (bool, NamespaceSet))
    ensures r.0 <==> uri !in s.byUri
    ensures !r.0 ==> r.1 == s
    ensures r.0 ==> uri in r.1.byUri && r.1.byUri[uri] !in s.byPrefix
                    && r.1.byUri == s.byUri[uri := r.1.byUri[uri]]
                    && r.1.byPrefix == s.byPrefix[r.1.byUri[uri] := uri]
    ensures r.0 && prefix !in s.byPrefix ==> r.1.byUri[uri] == prefix
    ensures Valid(s) ==> Valid(r.1)
  {
    if uri in s.byUri then (false, s)
    else
      var p := ActualPrefix(s.byPrefix.Keys, uri, prefix, common);
      (true, NamespaceSet(s.byUri[uri := p], s.byPrefix[p := uri]))
  }

  /** Adding keeps every existing mapping, maps the URI, and adds no other URI. */
  lemma AddKeeps(s: NamespaceSet, ns: Namespace, common: map<string, string>)
    requires Valid(s)
    ensures var r := Add(s, ns.uri, ns.prefix, common).1;
      && r.byUri.Keys == s.byUri.Keys + {ns.uri}
      && (forall u :: u in s.byUri ==> r.byUri[u] == s.byUri[u])
      && Size(r) == Size(s) + (if ns.uri in s.byUri then 0 else 1)
  {
  }

  /**
   * The first steps of replace, for a namespace not in the set: the URI is mapped to the
   * prefix, its former prefix is dropped, and the namespace that held the prefix, if any,
   * is removed. Also returns that namespace.
   */
  function Unmap(s: NamespaceSet, ns: Namespace): (r: (NamespaceSet, Option<Namespace>))
    ensures r.1 == (if ns.prefix in s.byPrefix && !(ns.uri in s.byUri && s.byUri[ns.uri] == ns.prefix)
                    then Some(Namespace(s.byPrefix[ns.prefix], ns.prefix)) else None)
    ensures Valid(s) && !Contains(s, ns) ==> Valid(r.0) && Contains(r.0, ns)
    ensures Valid(s) && !Contains(s, ns) ==> r.0.byUri.Keys == s.byUri.Keys + {ns.uri} - (if r.1.Some? then {r.1.value.uri} else {})
    ensures Valid(s) && !Contains(s, ns) ==> r.1.Some? ==> r.1.value.uri != ns.uri && r.1.value.uri in s.byUri
    ensures Valid(s) ==> forall u :: u in s.byUri && u != ns.uri && s.byUri[u] != ns.prefix ==> u in r.0.byUri && r.0.byUri[u] == s.byUri[u]
  {
    var previous := if ns.uri in s.byUri then Some(Namespace(ns.uri, s.byUri[ns.uri])) else None;
    var byUri1 := s.byUri[ns.uri := ns.prefix];
    var byPrefix1 := if previous.Some? then s.byPrefix - {previous.value.prefix} else s.byPrefix;
    var matching := if ns.prefix in byPrefix1 then Some(Namespace(byPrefix1[ns.prefix], ns.prefix)) else None;
    var byPrefix2 := byPrefix1[ns.prefix := ns.uri];
    var byUri2 := if matching.Some? then byUri1 - {matching.value.uri} else byUri1;
    (NamespaceSet(byUri2, byPrefix2), matching)
  }

  /**
   * replace: when the namespace is in the set already, it is returned and nothing
   * changes. Otherwise the URI is mapped to the prefix, its former prefix is dropped, a
   * namespace that held the prefix is removed and, unless it is the null namespace, added
   * again (under a fresh prefix); the URI's former namespace is returned, if any.
   */
  function Replace(s: NamespaceSet, ns: Namespace, common: map<string, string>): (r: (Option<Namespace>, NamespaceSet))
    ensures Contains(s, ns) ==> r == (Some(ns), s)
    ensures !Contains(s, ns) ==> r.0 == (if ns.uri in s.byUri then Some(Namespace(ns.uri, s.byUri[ns.uri])) else None)
    ensures Valid(s) ==> Valid(r.1) && Contains(r.1, ns) && GetUri(r.1, ns.prefix) == Some(ns.uri)
    ensures Valid(s) ==> forall u :: u in s.byUri && u != ns.uri && s.byUri[u] != ns.prefix ==> u in r.1.byUri && r.1.byUri[u] == s.byUri[u]
    ensures Valid(s) ==> forall u :: u in s.byUri && u != ns.uri && s.byUri[u] == ns.prefix ==> (u in r.1.byUri <==> u != NULL_NS_URI)
    ensures Valid(s) ==> r.1.byUri.Keys <= s.byUri.Keys + {ns.uri}
  {
    if Contains(s, ns) then (Some(ns), s)
    else
      var previous := if ns.uri in s.byUri then Some(Namespace(ns.uri, s.byUri[ns.uri])) else None;
      var (t, matching) := Unmap(s, ns);
      if matching.Some? && matching.value.uri != NULL_NS_URI then
        (previous, Add(t, matching.value.uri, matching.value.prefix, common).1)
      else (previous, t)
  }

  /** The URIs of a list of namespaces. */
  function Uris(nss: seq<Namespace>): (r: set<string>)
    ensures forall i :: 0 <= i < |nss| ==> nss[i].uri in r
    ensures forall u :: u in r ==> exists i :: 0 <= i < |nss| && nss[i].uri == u
  {
    if |nss| == 0 then {} else Uris(nss[..|nss| - 1]) + {nss[|nss| - 1].uri}
  }

  /** The namespaces of a list, added in order. */
  function AddAll(s: NamespaceSet, nss: seq<Namespace>, common: map<string, string>): (r: NamespaceSet)
    ensures Valid(s) ==> Valid(r)
    ensures r.byUri.Keys == s.byUri.Keys + Uris(nss)
    ensures forall u :: u in s.byUri ==> r.byUri[u] == s.byUri[u]
  {
    if |nss| == 0 then s
    else
      var last := nss[|nss| - 1];
      Add(AddAll(s, nss[..|nss| - 1], common), last.uri, last.prefix, common).1
  }

  /** The list holds every namespace of the set once, in some order: how a hash map hands out its entries. */
  predicate Enumerates(s: NamespaceSet, nss: seq<Namespace>) {
    && (forall i :: 0 <= i < |nss| ==> Contains(s, nss[i]))
    && (forall i, j :: 0 <= i < j < |nss| ==> nss[i].uri != nss[j].uri)
    && s.byUri.Keys == Uris(nss)
  }

  /** The part of a valid set whose URIs are in `us`. */
  function Restrict(s: NamespaceSet, us: set<string>): NamespaceSet {
    NamespaceSet(
      map u | u in s.byUri && u in us :: s.byUri[u],
      map p | p in s.byPrefix && s.byPrefix[p] in us :: s.byPrefix[p])
  }

  /** Adding a namespace of a valid set to a part of it that lacks its URI gives the part with that URI. */
  lemma RestrictAdd(s: NamespaceSet, us: set<string>, ns: Namespace, common: map<string, string>)
    requires Valid(s) && Contains(s, ns) && ns.uri !in us
    ensures Add(Restrict(s, us), ns.uri, ns.prefix, common).1 == Restrict(s, us + {ns.uri})
  {
    var t := Restrict(s, us);
    assert ns.prefix !in t.byPrefix;
    var r := Add(t, ns.uri, ns.prefix, common).1;
    assert r.byUri == Restrict(s, us + {ns.uri}).byUri;
    assert r.byPrefix == Restrict(s, us + {ns.uri}).byPrefix;
  }

  /** In a list without repeated URIs, no namespace shares its URI with an earlier one. */
  lemma NotEarlier(nss: seq<Namespace>, k: nat)
    requires forall i, j :: 0 <= i < j < |nss| ==> nss[i].uri != nss[j].uri
    requires 0 < k <= |nss|
    ensures nss[k - 1].uri !in Uris(nss[..k - 1])
  {
    var init := nss[..k - 1];
    forall i | 0 <= i < |init| ensures init[i].uri != nss[k - 1].uri {
      assert init[i] == nss[i];
    }
  }

  /** Adding the namespaces of a valid set one by one to an empty set rebuilds it exactly. */
  lemma {:induction false} AddAllRebuilds(s: NamespaceSet, nss: seq<Namespace>, common: map<string, string>, k: nat)
    requires Valid(s) && Enumerates(s, nss) && k <= |nss|
    ensures AddAll(Empty(), nss[..k], common) == Restrict(s, Uris(nss[..k]))
  {
    if k > 0 {
      var init, ns := nss[..k - 1], nss[k - 1];
      AddAllRebuilds(s, nss, common, k - 1);
      PrefixSnoc(nss, k);
      NotEarlier(nss, k);
      RestrictAdd(s, Uris(init), ns, common);
    } else {
      assert Restrict(s, {}) == Empty();
    }
  }

  /** The first `k` namespaces: the first `k - 1` and one more, for adding and for their URIs. */
  lemma PrefixSnoc(nss: seq<Namespace>, k: nat)
    requires 0 < k <= |nss|
    ensures forall t: NamespaceSet, common: map<string, string> {:trigger AddAll(t, nss[..k], common)} ::
              AddAll(t, nss[..k], common) == Add(AddAll(t, nss[..k - 1], common), nss[k - 1].uri, nss[k - 1].prefix, common).1
    ensures Uris(nss[..k]) == Uris(nss[..k - 1]) + {nss[k - 1].uri}
  {
    assert nss[..k][..k - 1] == nss[..k - 1] && nss[..k][k - 1] == nss[k - 1];
  }

  lemma Rebuilds(s: NamespaceSet, nss: seq<Namespace>, common: map<string, string>)
    requires Valid(s) && Enumerates(s, nss)
    ensures AddAll(Empty(), nss, common) == s
  {
    AddAllRebuilds(s, nss, common, |nss|);
    assert nss[..|nss|] == nss;
    RestrictAll(s);
  }

  lemma RestrictAll(s: NamespaceSet)
    requires Valid(s)
    ensures Restrict(s, s.byUri.Keys) == s
  {
    var r := Restrict(s, s.byUri.Keys);
    assert r.byUri.Keys == s.byUri.Keys;
    assert r.byPrefix.Keys == s.byPrefix.Keys;
    assert r.byUri == s.byUri;
    assert r.byPrefix == s.byPrefix;
  }

  /**
   * merge: a new set holding the namespaces of both; where a URI is in both, the prefix
   * of the first set is kept, and the first set's namespaces all keep their prefixes.
   */
  function Merge(a: NamespaceSet, b: NamespaceSet, enumA: seq<Namespace>, enumB: seq<Namespace>, common: map<string, string>): (r: NamespaceSet)
    requires Valid(a) && Valid(b) && Enumerates(a, enumA) && Enumerates(b, enumB)
    ensures Valid(r)
    ensures r.byUri.Keys == a.byUri.Keys + b.byUri.Keys
    ensures forall ns :: Contains(a, ns) ==> Contains(r, ns)
  {
    Rebuilds(a, enumA, common);
    AddAll(AddAll(Empty(), enumA, common), enumB, common)
  }
}

=== FILE: nesting.dfy ===
/**
 * Replaying a stream of diff events against the stack of open elements. A start tag
 * opens an element under the operator it was reported with; an end tag closes the
 * innermost one. The strict replay also demands that the end tag matches that element
 * and carries the same operator: a stream that replays strictly to the empty stack is
 * well nested on both sides of the diff.
 */
module Nesting {
  import opened Outcomes
  import opened Tokens
  import opened Operations

  /** One operator applied to one token, as a diff handler receives it. */
  type Event = Operation<Token>

  /** An open element and the operator its start tag was reported with. */
  type Opened = Operation<StartTag>

  /** The innermost open element. */
  function Top(stack: seq<Opened>): Opened
    requires |stack| > 0
  {
    stack[|stack| - 1]
  }

  /** An end tag closes the innermost open element when it matches its start tag and operator. */
  predicate Closes(stack: seq<Opened>, e: Event) {
    e.token.End? && |stack| > 0 && Top(stack).op == e.op && MatchesStart(e.token.open, Some(Top(stack).token))
  }

  /** One strict step: push on a start tag, pop on a closing end tag, fail on any other end tag. */
  function StrictStep(stack: seq<Opened>, e: Event): (r: Option<seq<Opened>>)
    ensures e.token.Start? ==> r == Some(stack + [Operation(e.op, e.token.tag)])
    ensures e.token.End? ==> (r.Some? <==> Closes(stack, e)) && (r.Some? ==> r.value == stack[..|stack| - 1])
    ensures !e.token.Start? && !e.token.End? ==> r == Some(stack)
  {
    match e.token
    case Start(tag) => Some(stack + [Operation(e.op, tag)])
    case End(_) => if Closes(stack, e) then Some(stack[..|stack| - 1]) else None
    case _ => Some(stack)
  }

  /** The stack after replaying the stream on `stack`, if every end tag closed the innermost element. */
  function ReplayFrom(stack: seq<Opened>, events: seq<Event>): Option<seq<Opened>> {
    if |events| == 0 then Some(stack)
    else match ReplayFrom(stack, events[..|events| - 1])
      case None => None
      case Some(s) => StrictStep(s, events[|events| - 1])
  }

  lemma ReplayFromAppend(stack: seq<Opened>, events: seq<Event>, e: Event)
    ensures ReplayFrom(stack, events + [e]) ==
              match ReplayFrom(stack, events) case None => None case Some(s) => StrictStep(s, e)
  {
    assert (events + [e])[..|events|] == events;
  }

  /** The stack of open elements after the whole stream, replayed from no open element. */
  function Replay(events: seq<Event>): Option<seq<Opened>> {
    ReplayFrom([], events)
  }

  lemma ReplayAppend(events: seq<Event>, e: Event)
    ensures Replay(events + [e]) == match Replay(events) case None => None case Some(s) => StrictStep(s, e)
  {
    ReplayFromAppend([], events, e);
  }

  /** Every element that was opened was closed, in order, on the same side of the diff. */
  predicate Balanced(events: seq<Event>) {
    Replay(events) == Some([])
  }
}

=== FILE: operations.dfy ===
/**
 * Single-token edit operations (`Operation`, `Operations` in the source): generating either
 * side of a diff, flipping it, applying it to an input, and the alignment relation that
 * states when a list of operations is a diff of two sequences.
 */
module Operations {
  import opened Outcomes
  import opened Tokens

  /** One operator applied to one token. */
  datatype Operation<T> = Operation(op: Operator, token: T) {
    /** The same token with INS and DEL swapped. */
    function Flip(): (r: Operation<T>)
      ensures r.token == token && r.op == op.Flip()
    {
      Operation(op.Flip(), token)
    }
  }

  /** Whether an operation contributes to the generated side: MATCH always, INS forward, DEL backward. */
  predicate Keeps<T>(o: Operation<T>, forward: bool) {
    o.op == MATCH || (forward && o.op == INS) || (!forward && o.op == DEL)
  }

  /** The number of operations carrying the given operator. */
  function Count<T>(ops: seq<Operation<T>>, op: Operator): (r: nat)
    ensures r <= |ops|
  {
    if |ops| == 0 then 0 else (if ops[0].op == op then 1 else 0) + Count(ops[1..], op)
  }

  lemma {:induction false} CountConcat<T>(s1: seq<Operation<T>>, s2: seq<Operation<T>>, op: Operator)
    ensures Count(s1 + s2, op) == Count(s1, op) + Count(s2, op)
    decreases |s1|
  {
    if |s1| > 0 {
      assert (s1 + s2)[0] == s1[0] && (s1 + s2)[1..] == s1[1..] + s2;
      CountConcat(s1[1..], s2, op);
    } else {
      assert s1 + s2 == s2;
    }
  }

  /**
   * `Operations.generate`: the tokens of the new side (MATCH and INS) when `forward`,
   * of the old side (MATCH and DEL) otherwise, in order.
   */
  function Generate<T>(ops: seq<Operation<T>>, forward: bool): (r: seq<T>)
    ensures |r| == Count(ops, MATCH) + Count(ops, if forward then INS else DEL)
  {
    if |ops| == 0 then []
    else (if Keeps(ops[0], forward) then [ops[0].token] else []) + Generate(ops[1..], forward)
  }

  lemma Associative<U>(x: seq<U>, y: seq<U>, z: seq<U>)
    ensures (x + y) + z == x + (y + z)
  {
  }

  lemma {:induction false} GenerateConcat<T>(s1: seq<Operation<T>>, s2: seq<Operation<T>>, forward: bool)
    ensures Generate(s1 + s2, forward) == Generate(s1, forward) + Generate(s2, forward)
    decreases |s1|
  {
    if |s1| > 0 {
      assert (s1 + s2)[0] == s1[0] && (s1 + s2)[1..] == s1[1..] + s2;
      GenerateConcat(s1[1..], s2, forward);
      var head := if Keeps(s1[0], forward) then [s1[0].token] else [];
      assert Generate(s1 + s2, forward) == head + Generate(s1[1..] + s2, forward);
      assert Generate(s1, forward) == head + Generate(s1[1..], forward);
      Associative(head, Generate(s1[1..], forward), Generate(s2, forward));
    } else {
      assert s1 + s2 == s2;
    }
  }

  /** `Operations.flip`: every operation flipped, in the same order. */
  function Flip<T>(ops: seq<Operation<T>>): (r: seq<Operation<T>>)
    ensures |r| == |ops|
    ensures forall i :: 0 <= i < |ops| ==> r[i] == ops[i].Flip()
  {
    if |ops| == 0 then [] else [ops[0].Flip()] + Flip(ops[1..])
  }

  /** Flipping a diff swaps the sides it generates. */
  lemma {:induction false} GenerateFlip<T>(ops: seq<Operation<T>>, forward: bool)
    ensures Generate(Flip(ops), forward) == Generate(ops, !forward)
    ensures Count(Flip(ops), MATCH) == Count(ops, MATCH)
    ensures Count(Flip(ops), INS) == Count(ops, DEL) && Count(Flip(ops), DEL) == Count(ops, INS)
    decreases |ops|
  {
    if |ops| > 0 {
      assert Flip(ops)[1..] == Flip(ops[1..]);
      GenerateFlip(ops[1..], forward);
    }
  }

  /** Flipping twice gives the operations back. */
  lemma FlipFlip<T>(ops: seq<Operation<T>>)
    ensures Flip(Flip(ops)) == ops
  {
    assert forall i :: 0 <= i < |ops| ==> Flip(Flip(ops))[i] == ops[i] by {
      forall i | 0 <= i < |ops| ensures Flip(Flip(ops))[i] == ops[i] {
        FlipInvolutive(ops[i].op);
      }
    }
  }

  /**
   * The loop of `Operations.apply` from input position `i`: MATCH copies the next input
   * token, INS emits its own token, DEL skips an input token. Running past the input, or
   * finishing anywhere but at its end, is an IllegalArgumentException.
   */
  function ApplyFrom<T>(input: seq<T>, ops: seq<Operation<T>>, i: nat): Result<seq<T>>
    decreases |ops|
  {
    if |ops| == 0 then
      if i == |input| then Success([]) else Failure(IllegalArgument)
    else
      match ops[0].op
      case MATCH =>
        if i < |input| then
          match ApplyFrom(input, ops[1..], i + 1)
          case Success(rest) => Success([input[i]] + rest)
          case Failure(e) => Failure(e)
        else Failure(IllegalArgument)
      case INS =>
        (match ApplyFrom(input, ops[1..], i)
         case Success(rest) => Success([ops[0].token] + rest)
         case Failure(e) => Failure(e))
      case DEL => ApplyFrom(input, ops[1..], i + 1)
  }

  /**
   * `Operations.apply`: applies the operations to the whole input. It succeeds exactly when
   * the MATCH and DEL operations consume the whole input, and then emits one token per
   * MATCH and INS operation.
   */
  function Apply<T>(input: seq<T>, ops: seq<Operation<T>>): (r: Result<seq<T>>)
    ensures r.Success? <==> Consumed(ops) == |input|
    ensures r.Success? ==> |r.value| == Count(ops, MATCH) + Count(ops, INS)
  {
    ApplyFromOutcome(input, ops, 0);
    ApplyFrom(input, ops, 0)
  }

  /** The number of input tokens the operations consume (MATCH and DEL). */
  function Consumed<T>(ops: seq<Operation<T>>): nat {
    Count(ops, MATCH) + Count(ops, DEL)
  }

  /** The number of output tokens the operations produce (MATCH and INS). */
  function Produced<T>(ops: seq<Operation<T>>): nat {
    Count(ops, MATCH) + Count(ops, INS)
  }

  lemma {:induction false} ApplyFromOutcome<T>(input: seq<T>, ops: seq<Operation<T>>, i: nat)
    ensures ApplyFrom(input, ops, i).Success? <==> i + Consumed(ops) == |input|
    ensures ApplyFrom(input, ops, i).Success? ==>
              |ApplyFrom(input, ops, i).value| == Count(ops, MATCH) + Count(ops, INS)
    decreases |ops|
  {
    if |ops| > 0 {
      ApplyFromOutcome(input, ops[1..], i + if ops[0].op == INS then 0 else 1);
    }
  }

  lemma {:induction false} ApplyFromGenerated<T>(ops: seq<Operation<T>>, prefix: seq<T>)
    ensures ApplyFrom(prefix + Generate(ops, false), ops, |prefix|) == Success(Generate(ops, true))
    decreases |ops|
  {
    if |ops| > 0 {
      var input := prefix + Generate(ops, false);
      var o := ops[0];
      assert (prefix + [o.token]) + Generate(ops[1..], false) == prefix + ([o.token] + Generate(ops[1..], false));
      if o.op == MATCH {
        assert input == (prefix + [o.token]) + Generate(ops[1..], false);
        assert input[|prefix|] == o.token;
        ApplyFromGenerated(ops[1..], prefix + [o.token]);
        assert Generate(ops, true) == [o.token] + Generate(ops[1..], true);
      } else if o.op == DEL {
        assert input == (prefix + [o.token]) + Generate(ops[1..], false);
        ApplyFromGenerated(ops[1..], prefix + [o.token]);
        assert Generate(ops, true) == Generate(ops[1..], true);
      } else {
        assert input == prefix + Generate(ops[1..], false);
        ApplyFromGenerated(ops[1..], prefix);
      }
    }
  }

  /** Applying a diff to its old side yields its new side; applying the flipped diff to the new side yields the old one. */
  lemma ApplyRoundTrip<T>(ops: seq<Operation<T>>)
    ensures Apply(Generate(ops, false), ops) == Success(Generate(ops, true))
    ensures Apply(Generate(ops, true), Flip(ops)) == Success(Generate(ops, false))
  {
    ApplyForward(ops);
    ApplyForward(Flip(ops));
    GenerateFlip(ops, false);
    GenerateFlip(ops, true);
  }

  /** Applying a diff to the old side it generates yields the new side it generates. */
  lemma ApplyForward<T>(ops: seq<Operation<T>>)
    ensures Apply(Generate(ops, false), ops) == Success(Generate(ops, true))
  {
    ApplyFromGenerated(ops, []);
    assert [] + Generate(ops, false) == Generate(ops, false);
  }

  // Alignment of a diff with its two inputs ------------------------------------------

  /** `s` and `t` have the same length and, position by position, are identical or related by `eq`. */
  ghost predicate Similar<T>(eq: (T, T) -> bool, s: seq<T>, t: seq<T>) {
    |s| == |t| && forall i :: 0 <= i < |s| ==> s[i] == t[i] || eq(s[i], t[i])
  }

  /**
   * `ops` is a diff of `a` (old) into `b` (new) under `eq`: DEL consumes the next token of
   * `a`, INS the next token of `b`, MATCH one of each, which must be `eq`. A MATCH carries
   * the token of `b`, or of `a` when `keepA`.
   */
  ghost predicate Aligns<T>(eq: (T, T) -> bool, ops: seq<Operation<T>>, a: seq<T>, b: seq<T>, keepA: bool)
    decreases |ops|
  {
    if |ops| == 0 then |a| == 0 && |b| == 0
    else match ops[0].op
      case MATCH =>
        && |a| > 0 && |b| > 0 && eq(a[0], b[0])
        && ops[0].token == (if keepA then a[0] else b[0])
        && Aligns(eq, ops[1..], a[1..], b[1..], keepA)
      case DEL => |a| > 0 && ops[0].token == a[0] && Aligns(eq, ops[1..], a[1..], b, keepA)
      case INS => |b| > 0 && ops[0].token == b[0] && Aligns(eq, ops[1..], a, b[1..], keepA)
  }

  /**
   * Reconstruction: a diff that keeps the tokens of `b` on MATCH generates `b` exactly
   * forward, and backward a sequence `eq`-similar to `a` (exactly `a` when `eq` is equality).
   */
  lemma {:induction false} AlignsReconstructs<T>(eq: (T, T) -> bool, ops: seq<Operation<T>>, a: seq<T>, b: seq<T>)
    requires Aligns(eq, ops, a, b, false)
    ensures Generate(ops, true) == b
    ensures Similar(eq, a, Generate(ops, false))
    ensures Consumed(ops) == |a| && Count(ops, MATCH) + Count(ops, INS) == |b|
  {
    GeneratesKept(eq, ops, a, b, false);
    GeneratesOther(eq, ops, a, b, false);
    AlignsCounts(eq, ops, a, b, false);
  }

  /** The mirror image: keeping the tokens of `a` generates `a` exactly backward. */
  lemma {:induction false} AlignsReconstructsKeepA<T>(eq: (T, T) -> bool, ops: seq<Operation<T>>, a: seq<T>, b: seq<T>)
    requires Aligns(eq, ops, a, b, true)
    ensures Generate(ops, false) == a
    ensures Similar(eq, Generate(ops, true), b)
    ensures Consumed(ops) == |a| && Count(ops, MATCH) + Count(ops, INS) == |b|
  {
    GeneratesKept(eq, ops, a, b, true);
    GeneratesOther(eq, ops, a, b, true);
    AlignsCounts(eq, ops, a, b, true);
  }

  /** The side whose tokens the matches carry is generated exactly. */
  lemma {:induction false} GeneratesKept<T>(eq: (T, T) -> bool, ops: seq<Operation<T>>, a: seq<T>, b: seq<T>, keepA: bool)
    requires Aligns(eq, ops, a, b, keepA)
    ensures Generate(ops, !keepA) == if keepA then a else b
    decreases |ops|
  {
    if |ops| > 0 {
      var head := if Keeps(ops[0], !keepA) then [ops[0].token] else [];
      assert Generate(ops, !keepA) == head + Generate(ops[1..], !keepA);
      match ops[0].op
      case MATCH =>
        GeneratesKept(eq, ops[1..], a[1..], b[1..], keepA);
        if keepA {
          assert [a[0]] + a[1..] == a;
        } else {
          assert [b[0]] + b[1..] == b;
        }
      case DEL =>
        GeneratesKept(eq, ops[1..], a[1..], b, keepA);
        if keepA {
          assert [a[0]] + a[1..] == a;
        } else {
          assert head == [];
        }
      case INS =>
        GeneratesKept(eq, ops[1..], a, b[1..], keepA);
        if keepA {
          assert head == [];
        } else {
          assert [b[0]] + b[1..] == b;
        }
    }
  }

  /** The other side is generated up to `eq`: each matched token stands for its partner. */
  lemma {:induction false} GeneratesOther<T>(eq: (T, T) -> bool, ops: seq<Operation<T>>, a: seq<T>, b: seq<T>, keepA: bool)
    requires Aligns(eq, ops, a, b, keepA)
    ensures keepA ==> Similar(eq, Generate(ops, true), b)
    ensures !keepA ==> Similar(eq, a, Generate(ops, false))
    decreases |ops|
  {
    if |ops| > 0 {
      var head := if Keeps(ops[0], keepA) then [ops[0].token] else [];
      var rest := Generate(ops[1..], keepA);
      assert Generate(ops, keepA) == head + rest;
      match ops[0].op
      case MATCH =>
        GeneratesOther(eq, ops[1..], a[1..], b[1..], keepA);
        SimilarCons(eq, keepA, a, b, head + rest, rest);
      case DEL =>
        GeneratesOther(eq, ops[1..], a[1..], b, keepA);
        if !keepA {
          SimilarCons(eq, keepA, a, b, head + rest, rest);
        }
      case INS =>
        GeneratesOther(eq, ops[1..], a, b[1..], keepA);
        if keepA {
          SimilarCons(eq, keepA, a, b, head + rest, rest);
        }
    }
  }

  /** One more token in front, equal or `eq`-related to its partner, keeps the sides similar. */
  lemma SimilarCons<T>(eq: (T, T) -> bool, keepA: bool, a: seq<T>, b: seq<T>, g: seq<T>, rest: seq<T>)
    requires |g| > 0 && g[1..] == rest
    requires keepA ==> |b| > 0 && (g[0] == b[0] || eq(g[0], b[0])) && Similar(eq, rest, b[1..])
    requires !keepA ==> |a| > 0 && (a[0] == g[0] || eq(a[0], g[0])) && Similar(eq, a[1..], rest)
    ensures keepA ==> Similar(eq, g, b)
    ensures !keepA ==> Similar(eq, a, g)
  {
    if keepA {
      forall i | 0 < i < |g| ensures g[i] == b[i] || eq(g[i], b[i]) {
        assert g[i] == rest[i - 1] && b[i] == b[1..][i - 1];
      }
    } else {
      forall i | 0 < i < |g| ensures a[i] == g[i] || eq(a[i], g[i]) {
        assert g[i] == rest[i - 1] && a[i] == a[1..][i - 1];
      }
    }
  }

  /** Plain equality, as a relation to diff under. */
  predicate Same<T(==)>(x: T, y: T) { x == y }

  /** With equality as `eq`, similar sequences are equal. */
  lemma SimilarUnderEquality<T>(s: seq<T>, t: seq<T>)
    requires Similar(Same, s, t)
    ensures s == t
  {
  }

  /** A diff of `a` into `b`, flipped, is a diff of `b` into `a` under the converse relation. */
  lemma {:induction false} AlignsFlip<T>(eq: (T, T) -> bool, ops: seq<Operation<T>>, a: seq<T>, b: seq<T>, keepA: bool)
    requires Aligns(eq, ops, a, b, keepA)
    ensures Aligns((x: T, y: T) => eq(y, x), Flip(ops), b, a, !keepA)
    decreases |ops|
  {
    if |ops| > 0 {
      assert Flip(ops)[1..] == Flip(ops[1..]);
      match ops[0].op
      case MATCH => AlignsFlip(eq, ops[1..], a[1..], b[1..], keepA);
      case DEL => AlignsFlip(eq, ops[1..], a[1..], b, keepA);
      case INS => AlignsFlip(eq, ops[1..], a, b[1..], keepA);
    }
  }

  /** Diffs of consecutive pieces concatenate into a diff of the concatenations. */
  lemma {:induction false} AlignsConcat<T>(eq: (T, T) -> bool, s1: seq<Operation<T>>, s2: seq<Operation<T>>,
                                           a1: seq<T>, a2: seq<T>, b1: seq<T>, b2: seq<T>, keepA: bool)
    requires Aligns(eq, s1, a1, b1, keepA) && Aligns(eq, s2, a2, b2, keepA)
    ensures Aligns(eq, s1 + s2, a1 + a2, b1 + b2, keepA)
    decreases |s1|
  {
    if |s1| > 0 {
      assert (s1 + s2)[1..] == s1[1..] + s2;
      match s1[0].op
      case MATCH =>
        assert (a1 + a2)[1..] == a1[1..] + a2 && (b1 + b2)[1..] == b1[1..] + b2;
        AlignsConcat(eq, s1[1..], s2, a1[1..], a2, b1[1..], b2, keepA);
      case DEL =>
        assert (a1 + a2)[1..] == a1[1..] + a2;
        AlignsConcat(eq, s1[1..], s2, a1[1..], a2, b1, b2, keepA);
      case INS =>
        assert (b1 + b2)[1..] == b1[1..] + b2;
        AlignsConcat(eq, s1[1..], s2, a1, a2, b1[1..], b2, keepA);
    } else {
      assert a1 + a2 == a2 && b1 + b2 == b2 && s1 + s2 == s2;
    }
  }

  /** A diff splits at any point into diffs of the consumed prefixes and the remaining suffixes. */
  lemma AlignsSplit<T>(eq: (T, T) -> bool, s1: seq<Operation<T>>, s2: seq<Operation<T>>,
                       a: seq<T>, b: seq<T>, keepA: bool)
    requires Aligns(eq, s1 + s2, a, b, keepA)
    ensures Consumed(s1) <= |a| && Produced(s1) <= |b|
    ensures Aligns(eq, s1, a[..Consumed(s1)], b[..Produced(s1)], keepA)
    ensures Aligns(eq, s2, a[Consumed(s1)..], b[Produced(s1)..], keepA)
  {
    SplitHead(eq, s1, s2, a, b, keepA);
    SplitTail(eq, s1, s2, a, b, keepA);
  }

  lemma {:induction false} SplitHead<T>(eq: (T, T) -> bool, s1: seq<Operation<T>>, s2: seq<Operation<T>>,
                                        a: seq<T>, b: seq<T>, keepA: bool)
    requires Aligns(eq, s1 + s2, a, b, keepA)
    ensures Consumed(s1) <= |a| && Produced(s1) <= |b|
    ensures Aligns(eq, s1, a[..Consumed(s1)], b[..Produced(s1)], keepA)
    decreases |s1|
  {
    if |s1| == 0 {
      assert s1 + s2 == s2;
      AlignsCounts(eq, s2, a, b, keepA);
    } else {
      var o := s1[0];
      assert (s1 + s2)[0] == o && (s1 + s2)[1..] == s1[1..] + s2;
      var a' := if o.op == INS then a else a[1..];
      var b' := if o.op == DEL then b else b[1..];
      SplitHead(eq, s1[1..], s2, a', b', keepA);
      CountsCons(s1);
      SplitStep(a, a', Consumed(s1[1..]), o.op != INS);
      SplitStep(b, b', Produced(s1[1..]), o.op != DEL);
    }
  }

  lemma {:induction false} SplitTail<T>(eq: (T, T) -> bool, s1: seq<Operation<T>>, s2: seq<Operation<T>>,
                                        a: seq<T>, b: seq<T>, keepA: bool)
    requires Aligns(eq, s1 + s2, a, b, keepA)
    ensures Consumed(s1) <= |a| && Produced(s1) <= |b|
    ensures Aligns(eq, s2, a[Consumed(s1)..], b[Produced(s1)..], keepA)
    decreases |s1|
  {
    if |s1| == 0 {
      assert s1 + s2 == s2;
      assert a[0..] == a && b[0..] == b;
      AlignsCounts(eq, s2, a, b, keepA);
    } else {
      var o := s1[0];
      assert (s1 + s2)[0] == o && (s1 + s2)[1..] == s1[1..] + s2;
      var a' := if o.op == INS then a else a[1..];
      var b' := if o.op == DEL then b else b[1..];
      SplitTail(eq, s1[1..], s2, a', b', keepA);
      CountsCons(s1);
      SplitStep(a, a', Consumed(s1[1..]), o.op != INS);
      SplitStep(b, b', Produced(s1[1..]), o.op != DEL);
    }
  }

  /** The first operation consumes one token unless it is INS, and produces one unless it is DEL. */
  lemma CountsCons<T>(ops: seq<Operation<T>>)
    requires |ops| > 0
    ensures Consumed(ops) == Consumed(ops[1..]) + (if ops[0].op != INS then 1 else 0)
    ensures Produced(ops) == Produced(ops[1..]) + (if ops[0].op != DEL then 1 else 0)
  {
  }

  /** Slicing facts for one step of `AlignsSplit`. */
  lemma SplitStep<T>(x: seq<T>, x': seq<T>, k: nat, dropped: bool)
    requires x' == if dropped then (if |x| > 0 then x[1..] else x) else x
    requires dropped ==> |x| > 0
    requires k <= |x'|
    ensures dropped ==> x'[..k] == x[..k + 1][1..] && x'[k..] == x[k + 1..]
    ensures !dropped ==> x'[..k] == x[..k] && x'[k..] == x[k..]
  {
  }

  /** A diff consumes all of `a` and produces all of `b`. */
  lemma {:induction false} AlignsCounts<T>(eq: (T, T) -> bool, ops: seq<Operation<T>>, a: seq<T>, b: seq<T>, keepA: bool)
    requires Aligns(eq, ops, a, b, keepA)
    ensures Consumed(ops) == |a| && Produced(ops) == |b|
    decreases |ops|
  {
    if |ops| > 0 {
      match ops[0].op
      case MATCH => AlignsCounts(eq, ops[1..], a[1..], b[1..], keepA);
      case DEL => AlignsCounts(eq, ops[1..], a[1..], b, keepA);
      case INS => AlignsCounts(eq, ops[1..], a, b[1..], keepA);
    }
  }

  /** Any number of consumed tokens up to the total is reached after some prefix of the operations. */
  lemma {:induction false} SplitAtConsumed<T>(ops: seq<Operation<T>>, c: nat) returns (p: nat)
    requires c <= Consumed(ops)
    ensures p <= |ops| && Consumed(ops[..p]) == c
    decreases |ops|
  {
    if c == 0 {
      p := 0;
      assert ops[..0] == [];
    } else {
      var step := if ops[0].op == INS then 0 else 1;
      var p' := SplitAtConsumed(ops[1..], c - step);
      p := p' + 1;
      assert ops[..p] == [ops[0]] + ops[1..][..p'];
      CountConcat([ops[0]], ops[1..][..p'], MATCH);
      CountConcat([ops[0]], ops[1..][..p'], DEL);
    }
  }

  /** Any number of produced tokens up to the total is reached after some prefix of the operations. */
  lemma {:induction false} SplitAtProduced<T>(ops: seq<Operation<T>>, c: nat) returns (p: nat)
    requires c <= Produced(ops)
    ensures p <= |ops| && Produced(ops[..p]) == c
    decreases |ops|
  {
    if c == 0 {
      p := 0;
      assert ops[..0] == [];
    } else {
      var step := if ops[0].op == DEL then 0 else 1;
      var p' := SplitAtProduced(ops[1..], c - step);
      p := p' + 1;
      assert ops[..p] == [ops[0]] + ops[1..][..p'];
      CountConcat([ops[0]], ops[1..][..p'], MATCH);
      CountConcat([ops[0]], ops[1..][..p'], INS);
    }
  }
}

=== FILE: outcomes.dfy ===
/**
 * Failure-carrying values used throughout the model.
 *
 * The Java code signals misuse with exceptions and absence with `null`; the model returns
 * an `Option` where the source returns a possibly-null reference and a `Result` where the
 * source may throw.
 */
module Outcomes {

  /** A value that may be absent (a Java `null`). */
  datatype Option<+T> = None | Some(value: T)

  /** The exceptions the modelled code can throw. */
  datatype Error =
    | IllegalArgument       // java.lang.IllegalArgumentException
    | IndexOutOfBounds      // IndexOutOfBoundsException and ArrayIndexOutOfBoundsException
    | NoSuchElement         // java.util.NoSuchElementException (pop on an empty deque)

  /** Either a value or the exception that was thrown instead. */
  datatype Result<+T> = Success(value: T) | Failure(error: Error)
}

=== FILE: patience.dfy ===
/**
 * `Patience`: the patience diff. It matches the common prefix and the common suffix. Then
 * it anchors the middle on the tokens that occur exactly once on each side, keeping a
 * longest chain of them whose positions increase on both sides, and diffs the gaps between
 * anchors recursively. With no anchor it falls back to another diff algorithm.
 */
module Patience {
  import opened Tokens
  import opened Operations
  import Hirschberg

  // Common prefix and suffix ---------------------------------------------------------------

  /** The length of the longest common prefix of `a` and `b` under `eq`. */
  function Prefix<T>(eq: (T, T) -> bool, a: seq<T>, b: seq<T>): (r: nat)
    ensures r <= |a| && r <= |b|
  {
    if |a| == 0 || |b| == 0 || !eq(a[0], b[0]) then 0 else 1 + Prefix(eq, a[1..], b[1..])
  }

  /** The common prefix agrees position by position, and stops at the first disagreement. */
  lemma {:induction false} PrefixIsLongest<T>(eq: (T, T) -> bool, a: seq<T>, b: seq<T>)
    ensures forall k :: 0 <= k < Prefix(eq, a, b) ==> eq(a[k], b[k])
    ensures Prefix(eq, a, b) < |a| && Prefix(eq, a, b) < |b| ==> !eq(a[Prefix(eq, a, b)], b[Prefix(eq, a, b)])
    decreases |a|
  {
    if |a| > 0 && |b| > 0 && eq(a[0], b[0]) {
      PrefixIsLongest(eq, a[1..], b[1..]);
    }
  }

  /** The length of the longest common suffix of `a` and `b` under `eq`. */
  function Suffix<T>(eq: (T, T) -> bool, a: seq<T>, b: seq<T>): (r: nat)
    ensures r <= |a| && r <= |b|
  {
    if |a| == 0 || |b| == 0 || !eq(a[|a| - 1], b[|b| - 1]) then 0
    else 1 + Suffix(eq, a[..|a| - 1], b[..|b| - 1])
  }

  /** The common suffix agrees position by position from the end, and stops at the first disagreement. */
  lemma {:induction false} SuffixIsLongest<T>(eq: (T, T) -> bool, a: seq<T>, b: seq<T>)
    ensures forall k :: |a| - Suffix(eq, a, b) <= k < |a| ==> eq(a[k], b[k - |a| + |b|])
    ensures var r := Suffix(eq, a, b); r < |a| && r < |b| ==> !eq(a[|a| - 1 - r], b[|b| - 1 - r])
    decreases |a|
  {
    if |a| > 0 && |b| > 0 && eq(a[|a| - 1], b[|b| - 1]) {
      var a', b' := a[..|a| - 1], b[..|b| - 1];
      SuffixIsLongest(eq, a', b');
      var r := Suffix(eq, a', b');
      forall k | |a| - 1 - r <= k < |a| - 1 ensures eq(a[k], b[k - |a| + |b|]) {
        assert a'[k] == a[k] && b'[k - |a'| + |b'|] == b[k - |a| + |b|];
      }
    }
  }

  /** The relation holds between a token and itself, as it does for a relation consistent with `equals`. */
  ghost predicate Reflexive<T(!new)>(eq: (T, T) -> bool) {
    forall x :: eq(x, x)
  }

  /** The prefix loop of diffRange. */
  method CommonPrefix<T>(eq: (T, T) -> bool, a: seq<T>, b: seq<T>) returns (prefix: nat)
    ensures prefix == Prefix(eq, a, b)
    ensures forall k :: 0 <= k < prefix ==> eq(a[k], b[k])
  {
    prefix := 0;
    var maxPrefix := if |a| < |b| then |a| else |b|;
    while prefix < maxPrefix && eq(a[prefix], b[prefix])
      invariant prefix <= maxPrefix
      invariant forall k :: 0 <= k < prefix ==> eq(a[k], b[k])
    {
      prefix := prefix + 1;
    }
    PrefixIsLongest(eq, a, b);
  }

  /** The suffix loop of diffRange. */
  method CommonSuffix<T>(eq: (T, T) -> bool, a: seq<T>, b: seq<T>) returns (suffix: nat)
    ensures suffix == Suffix(eq, a, b)
    ensures forall k :: |a| - suffix <= k < |a| ==> eq(a[k], b[k - |a| + |b|])
  {
    suffix := 0;
    var maxSuffix := if |a| < |b| then |a| else |b|;
    while suffix < maxSuffix && eq(a[|a| - 1 - suffix], b[|b| - 1 - suffix])
      invariant suffix <= maxSuffix
      invariant forall k :: |a| - suffix <= k < |a| ==> eq(a[k], b[k - |a| + |b|])
    {
      suffix := suffix + 1;
    }
    SuffixIsLongest(eq, a, b);
  }

  /** Matching position by position is a diff. */
  lemma {:induction false} AllMatchAligns<T>(eq: (T, T) -> bool, a: seq<T>, b: seq<T>)
    requires |a| == |b| && forall k :: 0 <= k < |a| ==> eq(a[k], b[k])
    ensures Aligns(eq, Hirschberg.AllAs(MATCH, b), a, b, false)
    decreases |b|
  {
    if |b| > 0 {
      assert Hirschberg.AllAs(MATCH, b)[1..] == Hirschberg.AllAs(MATCH, b[1..]);
      AllMatchAligns(eq, a[1..], b[1..]);
    }
  }

  /** Matching the last `q` tokens, when they agree from the end, is a diff of them. */
  lemma SuffixAligns<T>(eq: (T, T) -> bool, a: seq<T>, b: seq<T>, q: nat)
    requires q <= |a| && q <= |b|
    requires forall k :: |a| - q <= k < |a| ==> eq(a[k], b[k - |a| + |b|])
    ensures Aligns(eq, Hirschberg.AllAs(MATCH, b[|b| - q..]), a[|a| - q..], b[|b| - q..], false)
  {
    var x, y := a[|a| - q..], b[|b| - q..];
    forall k | 0 <= k < q ensures eq(x[k], y[k]) {
      assert x[k] == a[|a| - q + k] && y[k] == b[(|a| - q + k) - |a| + |b|];
    }
    AllMatchAligns(eq, x, y);
  }

  // Unique anchors -------------------------------------------------------------------------

  /** A position in each range. */
  datatype Match = Match(aIndex: nat, bIndex: nat)

  /** The token occurs exactly once. */
  predicate UniqueIn<T(==)>(s: seq<T>, x: T) {
    multiset(s)[x] == 1
  }

  /** Two positions holding the same token are one position, or the token occurs twice. */
  lemma Twice<T>(s: seq<T>, i: nat, j: nat)
    requires i < |s| && j < |s| && s[i] == s[j]
    ensures i == j || multiset(s)[s[i]] >= 2
  {
    if i < j {
      assert s == s[..i] + [s[i]] + s[i + 1..j] + [s[j]] + s[j + 1..];
    } else if j < i {
      assert s == s[..j] + [s[j]] + s[j + 1..i] + [s[i]] + s[i + 1..];
    }
  }

  /** The first position of a token. */
  function IndexOf<T(==)>(s: seq<T>, x: T): (r: nat)
    requires x in s
    ensures r < |s| && s[r] == x
    ensures forall k :: 0 <= k < r ==> s[k] != x
  {
    if s[0] == x then 0 else 1 + IndexOf(s[1..], x)
  }

  /** A token that occurs once is found only at its first position. */
  lemma UniquePosition<T>(s: seq<T>, x: T)
    requires UniqueIn(s, x)
    ensures x in s
    ensures forall j :: 0 <= j < |s| && s[j] == x ==> j == IndexOf(s, x)
  {
    assert x in multiset(s);
    forall j | 0 <= j < |s| && s[j] == x ensures j == IndexOf(s, x) {
      Twice(s, j, IndexOf(s, x));
    }
  }

  /** An anchor: the same token at both positions, occurring exactly once in each range. */
  predicate IsAnchor<T(==)>(a: seq<T>, b: seq<T>, m: Match) {
    && m.aIndex < |a| && m.bIndex < |b| && a[m.aIndex] == b[m.bIndex]
    && UniqueIn(a, a[m.aIndex]) && UniqueIn(b, b[m.bIndex])
  }

  /** The anchors among the first `n` positions of `a`, in the order of `a`. */
  function Candidates<T(==)>(a: seq<T>, b: seq<T>, n: nat): (r: seq<Match>)
    requires n <= |a|
    ensures forall m :: m in r <==> IsAnchor(a, b, m) && m.aIndex < n
    ensures forall k :: 0 < k < |r| ==> r[k - 1].aIndex < r[k].aIndex
    ensures forall k :: 0 <= k < |r| ==> r[k].aIndex < n
  {
    if n == 0 then []
    else
      var r := Candidates(a, b, n - 1);
      var x := a[n - 1];
      if UniqueIn(a, x) && UniqueIn(b, x) then
        UniquePosition(b, x);
        UniquePosition(a, x);
        r + [Match(n - 1, IndexOf(b, x))]
      else r
  }

  /** lowerBound: the least position in the sorted prefix whose value is at least the target. */
  method LowerBound(values: seq<int>, length: nat, target: int) returns (lo: nat)
    requires length <= |values|
    requires forall j, k :: 0 <= j < k < length ==> values[j] <= values[k]
    ensures lo <= length
    ensures forall k :: 0 <= k < lo ==> values[k] < target
    ensures forall k :: lo <= k < length ==> values[k] >= target
  {
    lo := 0;
    var hi := length;
    while lo < hi
      invariant lo <= hi <= length
      invariant forall k :: 0 <= k < lo ==> values[k] < target
      invariant forall k :: hi <= k < length ==> values[k] >= target
      decreases hi - lo
    {
      var mid := (lo + hi) / 2;
      if values[mid] < target {
        lo := mid + 1;
      } else {
        hi := mid;
      }
    }
  }

  /**
   * longestIncreasingByB: patience sorting over the B positions. The chain it returns is
   * taken from the matches in their order (`positions` says where), with B positions
   * strictly increasing.
   */
  method LongestIncreasingByB(matches: seq<Match>) returns (lis: seq<Match>, positions: seq<nat>)
    requires |matches| > 0
    ensures |lis| > 0 && |positions| == |lis|
    ensures forall k :: 0 <= k < |lis| ==> positions[k] < |matches| && lis[k] == matches[positions[k]]
    ensures forall k :: 0 < k < |lis| ==> positions[k - 1] < positions[k]
    ensures forall k :: 0 < k < |lis| ==> lis[k - 1].bIndex < lis[k].bIndex
  {
    var n := |matches|;
    var tails: seq<int> := [];
    var tailsIndex: seq<nat> := [];
    var prev: seq<int> := [];
    var i := 0;
    while i < n
      invariant 0 <= i <= n
      invariant |tails| == |tailsIndex| && |prev| == i
      invariant i > 0 ==> |tails| > 0
      invariant forall j, k :: 0 <= j < k < |tails| ==> tails[j] < tails[k]
      invariant forall k :: 0 <= k < |tails| ==> tailsIndex[k] < i && tails[k] == matches[tailsIndex[k]].bIndex
      invariant forall j :: 0 <= j < i ==>
                  prev[j] == -1 || (0 <= prev[j] < j && matches[prev[j]].bIndex < matches[j].bIndex)
    {
      var before;
      tails, tailsIndex, before := Place(matches, i, tails, tailsIndex);
      prev := prev + [before];
      i := i + 1;
    }
    var idx: int := tailsIndex[|tails| - 1];
    lis, positions := [], [];
    while idx >= 0
      invariant -1 <= idx < n
      invariant |positions| == |lis|
      invariant forall k :: 0 <= k < |lis| ==> positions[k] < n && lis[k] == matches[positions[k]]
      invariant forall k :: 0 < k < |lis| ==> positions[k - 1] < positions[k]
      invariant forall k :: 0 < k < |lis| ==> lis[k - 1].bIndex < lis[k].bIndex
      invariant |lis| > 0 && idx >= 0 ==> idx < positions[0] && matches[idx].bIndex < lis[0].bIndex
      invariant idx < 0 ==> |lis| > 0
      decreases idx + 1
    {
      lis := [matches[idx]] + lis;
      positions := [idx] + positions;
      idx := prev[idx];
    }
  }

  /**
   * One pass of the first loop of longestIncreasingByB: the match goes on the leftmost pile
   * whose top is not below it, or on a new pile, and remembers the top of the pile to its left.
   */
  method Place(matches: seq<Match>, i: nat, tails: seq<int>, tailsIndex: seq<nat>)
    returns (tails': seq<int>, tailsIndex': seq<nat>, before: int)
    requires i < |matches| && |tails| == |tailsIndex|
    requires forall j, k :: 0 <= j < k < |tails| ==> tails[j] < tails[k]
    requires forall k :: 0 <= k < |tails| ==> tailsIndex[k] < i && tails[k] == matches[tailsIndex[k]].bIndex
    ensures |tails'| == |tailsIndex'| > 0
    ensures forall j, k :: 0 <= j < k < |tails'| ==> tails'[j] < tails'[k]
    ensures forall k :: 0 <= k < |tails'| ==> tailsIndex'[k] < i + 1 && tails'[k] == matches[tailsIndex'[k]].bIndex
    ensures before == -1 || (0 <= before < i && matches[before].bIndex < matches[i].bIndex)
  {
    var b := matches[i].bIndex;
    var pos := LowerBound(tails, |tails|, b);
    before := if pos > 0 then tailsIndex[pos - 1] else -1;
    if pos == |tails| {
      tails' := tails + [b];
      tailsIndex' := tailsIndex + [i];
    } else {
      tails' := tails[pos := b];
      tailsIndex' := tailsIndex[pos := i];
      forall j, k | 0 <= j < k < |tails'| ensures tails'[j] < tails'[k] {
        if j == pos {
          assert b <= tails[pos] < tails[k];
        }
      }
    }
  }

  /**
   * uniqueAnchors: a chain of anchors, in the order of `a`, whose positions also increase
   * in `b` (the source picks a longest one); empty exactly when the ranges have no anchor at all.
   */
  method UniqueAnchors<T(==)>(a: seq<T>, b: seq<T>) returns (anchors: seq<Match>)
    ensures forall k :: 0 <= k < |anchors| ==> IsAnchor(a, b, anchors[k])
    ensures forall k :: 0 < k < |anchors| ==>
              anchors[k - 1].aIndex < anchors[k].aIndex && anchors[k - 1].bIndex < anchors[k].bIndex
    ensures |anchors| == 0 <==> forall m :: !IsAnchor(a, b, m)
  {
    var matches := Candidates(a, b, |a|);
    if |matches| == 0 {
      return [];
    }
    assert IsAnchor(a, b, matches[0]);
    var positions;
    anchors, positions := LongestIncreasingByB(matches);
    forall k | 0 < k < |anchors| ensures anchors[k - 1].aIndex < anchors[k].aIndex {
      Ascending(matches, positions[k - 1], positions[k]);
    }
  }

  /** In a list sorted strictly by A position, a later entry has a larger A position. */
  lemma {:induction false} Ascending(matches: seq<Match>, i: nat, j: nat)
    requires i < j < |matches|
    requires forall k :: 0 < k < |matches| ==> matches[k - 1].aIndex < matches[k].aIndex
    ensures matches[i].aIndex < matches[j].aIndex
    decreases j - i
  {
    if i + 1 < j {
      Ascending(matches, i + 1, j);
    }
  }

  // diffRange ------------------------------------------------------------------------------

  /** One anchor: the diff so far, the diff of the gap before the anchor, then the anchor matched. */
  lemma AnchorStep<T>(eq: (T, T) -> bool, ops: seq<Operation<T>>, gap: seq<Operation<T>>,
                      a: seq<T>, b: seq<T>, aPos: nat, bPos: nat, i: nat, j: nat)
    requires aPos <= i < |a| && bPos <= j < |b| && eq(a[i], b[j])
    requires Aligns(eq, ops, a[..aPos], b[..bPos], false)
    requires Aligns(eq, gap, a[aPos..i], b[bPos..j], false)
    ensures Aligns(eq, ops + gap + [Operation(MATCH, b[j])], a[..i + 1], b[..j + 1], false)
  {
    AlignsConcat(eq, ops, gap, a[..aPos], a[aPos..i], b[..bPos], b[bPos..j], false);
    assert a[..aPos] + a[aPos..i] == a[..i] && b[..bPos] + b[bPos..j] == b[..j];
    var one := [Operation(MATCH, b[j])];
    assert Aligns(eq, one, [a[i]], [b[j]], false) by {
      assert one[1..] == [] && [a[i]][1..] == [] && [b[j]][1..] == [];
    }
    AlignsConcat(eq, ops + gap, one, a[..i], [a[i]], b[..j], [b[j]], false);
    assert a[..i] + [a[i]] == a[..i + 1];
    assert b[..j] + [b[j]] == b[..j + 1];
  }

  /** The anchored middle: each gap diffed recursively, each anchor matched, then the rest. */
  method Anchored<T(==,!new)>(eq: (T, T) -> bool, a: seq<T>, b: seq<T>, anchors: seq<Match>) returns (ops: seq<Operation<T>>)
    requires Reflexive(eq)
    requires |anchors| > 0
    requires forall k :: 0 <= k < |anchors| ==> IsAnchor(a, b, anchors[k])
    requires forall k :: 0 < k < |anchors| ==>
               anchors[k - 1].aIndex < anchors[k].aIndex && anchors[k - 1].bIndex < anchors[k].bIndex
    ensures Aligns(eq, ops, a, b, false)
    decreases |a| + |b|, 0
  {
    var aPos, bPos := 0, 0;
    ops := [];
    var k := 0;
    assert a[..0] == [] && b[..0] == [];
    while k < |anchors|
      invariant 0 <= k <= |anchors|
      invariant aPos <= |a| && bPos <= |b|
      invariant k == 0 ==> aPos == 0 && bPos == 0
      invariant k > 0 ==> aPos == anchors[k - 1].aIndex + 1 && bPos == anchors[k - 1].bIndex + 1
      invariant Aligns(eq, ops, a[..aPos], b[..bPos], false)
    {
      var m := anchors[k];
      var gap := DiffPart(eq, a[aPos..m.aIndex], b[bPos..m.bIndex]);
      AnchorStep(eq, ops, gap, a, b, aPos, bPos, m.aIndex, m.bIndex);
      ops := ops + gap + [Operation(MATCH, b[m.bIndex])];
      aPos, bPos := m.aIndex + 1, m.bIndex + 1;
      k := k + 1;
    }
    var tail := DiffPart(eq, a[aPos..], b[bPos..]);
    AlignsConcat(eq, ops, tail, a[..aPos], a[aPos..], b[..bPos], b[bPos..], false);
    assert a[..aPos] + a[aPos..] == a && b[..bPos] + b[bPos..] == b;
    ops := ops + tail;
  }

  /** The part of diffRange after the common prefix, on two non-empty ranges. */
  method DiffMiddle<T(==,!new)>(eq: (T, T) -> bool, a: seq<T>, b: seq<T>) returns (ops: seq<Operation<T>>)
    requires Reflexive(eq)
    requires |a| > 0 && |b| > 0
    ensures Aligns(eq, ops, a, b, false)
    ensures var q := Suffix(eq, a, b); q <= |ops| && ops[|ops| - q..] == Hirschberg.AllAs(MATCH, b[|b| - q..])
    decreases |a| + |b|, 1
  {
    var suffix := CommonSuffix(eq, a, b);
    var aMid, bMid := a[..|a| - suffix], b[..|b| - suffix];
    var bTail := b[|b| - suffix..];
    var mid;
    if |aMid| == 0 || |bMid| == 0 {
      mid := DiffPart(eq, aMid, bMid);
    } else {
      var anchors := UniqueAnchors(aMid, bMid);
      if |anchors| == 0 {
        mid := Hirschberg.AlgorithmC(eq, aMid, bMid, false);
      } else {
        mid := Anchored(eq, aMid, bMid, anchors);
      }
    }
    ops := mid + Hirschberg.AllAs(MATCH, bTail);
    JoinTail(eq, a, b, suffix, mid);
  }

  /** A diff of what precedes the common suffix, followed by matches of the suffix, ends on those matches. */
  lemma JoinTail<T>(eq: (T, T) -> bool, a: seq<T>, b: seq<T>, q: nat, mid: seq<Operation<T>>)
    requires q <= |a| && q <= |b|
    requires forall k :: |a| - q <= k < |a| ==> eq(a[k], b[k - |a| + |b|])
    requires Aligns(eq, mid, a[..|a| - q], b[..|b| - q], false)
    ensures Aligns(eq, mid + Hirschberg.AllAs(MATCH, b[|b| - q..]), a, b, false)
    ensures var ops := mid + Hirschberg.AllAs(MATCH, b[|b| - q..]);
            q <= |ops| && ops[|ops| - q..] == Hirschberg.AllAs(MATCH, b[|b| - q..])
  {
    var tail := Hirschberg.AllAs(MATCH, b[|b| - q..]);
    SuffixAligns(eq, a, b, q);
    AlignsConcat(eq, mid, tail, a[..|a| - q], a[|a| - q..], b[..|b| - q], b[|b| - q..], false);
    assert a[..|a| - q] + a[|a| - q..] == a && b[..|b| - q] + b[|b| - q..] == b;
    assert (mid + tail)[|mid + tail| - q..] == tail;
  }

  /** diffRange on a part of the ranges, seen through its diff contract alone. */
  method DiffPart<T(==,!new)>(eq: (T, T) -> bool, a: seq<T>, b: seq<T>) returns (ops: seq<Operation<T>>)
    requires Reflexive(eq)
    ensures Aligns(eq, ops, a, b, false)
    ensures |a| == 0 ==> ops == Hirschberg.AllAs(INS, b)
    ensures |a| > 0 && |b| == 0 ==> ops == Hirschberg.AllAs(DEL, a)
    decreases |a| + |b|, 3
  {
    ops := DiffRange(eq, a, b);
  }

  /** The common prefix comes first as matches, and the common suffix of what follows it comes last. */
  ghost predicate Framed<T>(eq: (T, T) -> bool, a: seq<T>, b: seq<T>, ops: seq<Operation<T>>) {
    var p := Prefix(eq, a, b);
    var q := Suffix(eq, a[p..], b[p..]);
    && p <= |ops| && ops[..p] == Hirschberg.AllAs(MATCH, b[..p])
    && q <= |ops| && ops[|ops| - q..] == Hirschberg.AllAs(MATCH, b[|b| - q..])
  }

  /**
   * diffRange: all insertions when `a` is empty, all deletions when `b` is; otherwise the
   * common prefix matched first, the common suffix of the rest matched last, and the middle
   * diffed on its anchors or by the fallback. The result is a diff of `a` into `b` whose
   * matches carry the tokens of `b`.
   */
  method DiffRange<T(==,!new)>(eq: (T, T) -> bool, a: seq<T>, b: seq<T>) returns (ops: seq<Operation<T>>)
    requires Reflexive(eq)
    ensures Aligns(eq, ops, a, b, false)
    ensures |a| == 0 ==> ops == Hirschberg.AllAs(INS, b)
    ensures |a| > 0 && |b| == 0 ==> ops == Hirschberg.AllAs(DEL, a)
    ensures Framed(eq, a, b, ops)
    decreases |a| + |b|, 2
  {
    if |a| == 0 {
      ops := Hirschberg.AllAs(INS, b);
      Hirschberg.AllAsAligns(eq, b, false);
      FrameEmpty(eq, a, b, ops);
      return;
    }
    if |b| == 0 {
      ops := Hirschberg.AllAs(DEL, a);
      Hirschberg.AllAsAligns(eq, a, false);
      FrameEmpty(eq, a, b, ops);
      return;
    }
    var prefix := CommonPrefix(eq, a, b);
    var head := Hirschberg.AllAs(MATCH, b[..prefix]);
    var a1, b1 := a[prefix..], b[prefix..];
    var rest;
    if |a1| == 0 || |b1| == 0 {
      rest := DiffPart(eq, a1, b1);
    } else {
      rest := DiffMiddle(eq, a1, b1);
    }
    ops := head + rest;
    JoinHead(eq, a, b, prefix, rest);
    FrameJoin(eq, a, b, head, rest, prefix, Suffix(eq, a1, b1));
  }

  /** Matches of the common prefix, followed by a diff of what follows it, make a diff of the whole. */
  lemma JoinHead<T>(eq: (T, T) -> bool, a: seq<T>, b: seq<T>, p: nat, rest: seq<Operation<T>>)
    requires p <= |a| && p <= |b|
    requires forall k :: 0 <= k < p ==> eq(a[k], b[k])
    requires Aligns(eq, rest, a[p..], b[p..], false)
    ensures Aligns(eq, Hirschberg.AllAs(MATCH, b[..p]) + rest, a, b, false)
  {
    AllMatchAligns(eq, a[..p], b[..p]);
    AlignsConcat(eq, Hirschberg.AllAs(MATCH, b[..p]), rest, a[..p], a[p..], b[..p], b[p..], false);
    assert a[..p] + a[p..] == a && b[..p] + b[p..] == b;
  }

  /** With one range empty there is neither prefix nor suffix to frame. */
  lemma FrameEmpty<T>(eq: (T, T) -> bool, a: seq<T>, b: seq<T>, ops: seq<Operation<T>>)
    requires |a| == 0 || |b| == 0
    ensures Framed(eq, a, b, ops)
  {
    assert Prefix(eq, a, b) == 0;
    assert Suffix(eq, a, b) == 0;
    assert a[0..] == a && b[0..] == b;
    assert ops[..0] == [] && ops[|ops|..] == [];
  }

  /** The matched prefix followed by a diff of the rest that ends on the common suffix is framed. */
  lemma FrameJoin<T>(eq: (T, T) -> bool, a: seq<T>, b: seq<T>, head: seq<Operation<T>>, rest: seq<Operation<T>>, p: nat, q: nat)
    requires p == Prefix(eq, a, b) && q == Suffix(eq, a[p..], b[p..])
    requires head == Hirschberg.AllAs(MATCH, b[..p])
    requires q <= |rest| && rest[|rest| - q..] == Hirschberg.AllAs(MATCH, b[p..][|b| - p - q..])
    ensures Framed(eq, a, b, head + rest)
  {
    FrameHead(head, rest);
    FrameTail(b, head, rest, p, q);
  }

  lemma FrameHead<U>(head: seq<U>, rest: seq<U>)
    ensures (head + rest)[..|head|] == head
  {
  }

  lemma FrameTail<T>(b: seq<T>, head: seq<Operation<T>>, rest: seq<Operation<T>>, p: nat, q: nat)
    requires p + q <= |b| && q <= |rest|
    requires rest[|rest| - q..] == Hirschberg.AllAs(MATCH, b[p..][|b| - p - q..])
    ensures (head + rest)[|head + rest| - q..] == Hirschberg.AllAs(MATCH, b[|b| - q..])
  {
    assert (head + rest)[|head + rest| - q..] == rest[|rest| - q..];
    assert b[|b| - q..] == b[p..][|b| - p - q..];
  }

  /** diff: a diff of `from` into `to` that generates `to` forward and, up to `eq`, `from` backward. */
  method Diff<T(==,!new)>(eq: (T, T) -> bool, from: seq<T>, to: seq<T>) returns (ops: seq<Operation<T>>)
    requires Reflexive(eq)
    ensures Generate(ops, true) == to && Similar(eq, from, Generate(ops, false))
    ensures Count(ops, MATCH) >= Prefix(eq, from, to)
  {
    ops := DiffRange(eq, from, to);
    AlignsReconstructs(eq, ops, from, to);
    var p := Prefix(eq, from, to);
    assert ops == ops[..p] + ops[p..];
    CountConcat(ops[..p], ops[p..], MATCH);
    MatchesCount(to[..p]);
  }

  /** All matches count as matches. */
  lemma {:induction false} MatchesCount<T>(b: seq<T>)
    ensures Count(Hirschberg.AllAs(MATCH, b), MATCH) == |b|
    decreases |b|
  {
    if |b| > 0 {
      var ops := Hirschberg.AllAs(MATCH, b);
      assert ops == [ops[0]] + ops[1..] && ops[1..] == Hirschberg.AllAs(MATCH, b[1..]);
      CountConcat([ops[0]], ops[1..], MATCH);
      MatchesCount(b[1..]);
    }
  }
}

=== FILE: post_xml_fixer.dfy ===
/**
 * `PostXMLFixer`: a filter that buffers runs of deletions and insertions and releases
 * them, at the next MATCH or at the end, in an order that keeps start and end tags
 * balanced. End tags it cannot place are replaced by the end tag of the innermost open
 * element, and an error is flagged.
 */
module PostXmlFixers {
  import opened Outcomes
  import opened Tokens
  import opened Operations
  import opened Nesting

  /**
   * The filter's state: open elements with their operators (innermost last), the queued
   * deletions and insertions, the last operator and token sent (None is the initial NIL
   * token, whose type is OTHER), the error flag, and what the target has received.
   */
  datatype Fixer = Fixer(
    unclosed: seq<Opened>,
    deletions: seq<Token>,
    insertions: seq<Token>,
    lastOperator: Operator,
    lastToken: Option<Token>,
    hasError: bool,
    output: seq<Event>)

  /** A new filter: nothing open or queued, last operator MATCH, last token NIL. */
  function Fresh(): (f: Fixer)
    ensures Consistent(f) && f.output == [] && f.deletions == [] && f.insertions == []
  {
    Fixer([], [], [], MATCH, None, false, [])
  }

  /** The open-element stack is what the output replays to, strictly. */
  predicate Consistent(f: Fixer) {
    Replay(f.output) == Some(f.unclosed)
  }

  /** The tokens, other than end tags, reported under `op`, in order. */
  function Project(events: seq<Event>, op: Operator): seq<Token> {
    if |events| == 0 then []
    else Project(events[..|events| - 1], op) + Kept(events[|events| - 1], op)
  }

  function Kept(e: Event, op: Operator): seq<Token> {
    if e.op == op && !e.token.End? then [e.token] else []
  }

  lemma ProjectAppend(events: seq<Event>, e: Event, op: Operator)
    ensures Project(events + [e], op) == Project(events, op) + Kept(e, op)
  {
    assert (events + [e])[..|events|] == events;
  }

  /** The tokens of a queue other than end tags, in order. */
  function NonEnd(ts: seq<Token>): seq<Token> {
    if |ts| == 0 then [] else (if ts[0].End? then [] else [ts[0]]) + NonEnd(ts[1..])
  }

  /** What is still owed to the target under `op`: the non-end tokens already sent plus those queued. */
  function Owed(f: Fixer, op: Operator): seq<Token> {
    Project(f.output, op) + (if op == DEL then NonEnd(f.deletions) else if op == INS then NonEnd(f.insertions) else [])
  }

  /** send: reports to the target, records operator and token, pushes on a start tag and pops on an end tag. */
  function Send(f: Fixer, op: Operator, t: Token): (r: Fixer)
    requires t.End? ==> |f.unclosed| > 0
    ensures r.output == f.output + [Operation(op, t)]
    ensures r.deletions == f.deletions && r.insertions == f.insertions && r.hasError == f.hasError
    ensures r.lastOperator == op && r.lastToken == Some(t)
    ensures Consistent(f) && (t.End? ==> Closes(f.unclosed, Operation(op, t))) ==> Consistent(r)
    ensures forall o :: Project(r.output, o) == Project(f.output, o) + Kept(Operation(op, t), o)
  {
    var unclosed :=
      if t.Start? then f.unclosed + [Operation(op, t.tag)]
      else if t.End? then f.unclosed[..|f.unclosed| - 1]
      else f.unclosed;
    var r := Fixer(unclosed, f.deletions, f.insertions, op, Some(t), f.hasError, f.output + [Operation(op, t)]);
    ReplayAppend(f.output, Operation(op, t));
    forall o ensures Project(r.output, o) == Project(f.output, o) + Kept(Operation(op, t), o) {
      ProjectAppend(f.output, Operation(op, t), o);
    }
    r
  }

  /** matchStart: the end tag closes the innermost open element, opened under `op`. */
  predicate MatchStart(f: Fixer, op: Operator, t: Token)
    requires t.End?
    ensures MatchStart(f, op, t) <==> Closes(f.unclosed, Operation(op, t))
    ensures |f.unclosed| == 0 ==> !MatchStart(f, op, t)
  {
    |f.unclosed| > 0 && Top(f.unclosed).op == op && MatchesStart(t.open, Some(Top(f.unclosed).token))
  }

  /** sendMatchingEndElement: closes the innermost open element under its own operator; nothing when none is open. */
  function SendMatchingEnd(f: Fixer): (r: Fixer)
    ensures r.deletions == f.deletions && r.insertions == f.insertions && r.hasError == f.hasError
    ensures |f.unclosed| == 0 ==> r == f
    ensures |f.unclosed| > 0 ==> r.output == f.output + [Operation(Top(f.unclosed).op, EndOf(Top(f.unclosed).token))]
    ensures |f.unclosed| > 0 ==> r.unclosed == f.unclosed[..|f.unclosed| - 1]
    ensures Consistent(f) ==> Consistent(r)
    ensures forall o :: Project(r.output, o) == Project(f.output, o)
  {
    if |f.unclosed| > 0 then
      var top := Top(f.unclosed);
      Send(f, top.op, EndOf(top.token))
    else f
  }

  /** Sends the head of the deletions, taking it off the queue. */
  function SendDeletion(f: Fixer): (r: Fixer)
    requires f.deletions != [] && (f.deletions[0].End? ==> |f.unclosed| > 0)
    ensures r.deletions == f.deletions[1..] && r.insertions == f.insertions && r.hasError == f.hasError
    ensures r.lastToken == Some(f.deletions[0])
    ensures Consistent(f) && (f.deletions[0].End? ==> Closes(f.unclosed, Operation(DEL, f.deletions[0]))) ==> Consistent(r)
    ensures forall o :: Owed(r, o) == Owed(f, o)
  {
    var t := f.deletions[0];
    var r := Send(f, DEL, t).(deletions := f.deletions[1..]);
    assert NonEnd(f.deletions) == (if t.End? then [] else [t]) + NonEnd(f.deletions[1..]);
    r
  }

  /** Sends the head of the insertions, taking it off the queue. */
  function SendInsertion(f: Fixer): (r: Fixer)
    requires f.insertions != [] && (f.insertions[0].End? ==> |f.unclosed| > 0)
    ensures r.insertions == f.insertions[1..] && r.deletions == f.deletions && r.hasError == f.hasError
    ensures r.lastToken == Some(f.insertions[0])
    ensures Consistent(f) && (f.insertions[0].End? ==> Closes(f.unclosed, Operation(INS, f.insertions[0]))) ==> Consistent(r)
    ensures forall o :: Owed(r, o) == Owed(f, o)
  {
    var t := f.insertions[0];
    var r := Send(f, INS, t).(insertions := f.insertions[1..]);
    assert NonEnd(f.insertions) == (if t.End? then [] else [t]) + NonEnd(f.insertions[1..]);
    r
  }

  /** A queued end tag that does not fit: the innermost element is closed instead, the error flagged, the tag dropped. */
  function ReplaceDeletion(f: Fixer): (r: Fixer)
    requires f.deletions != [] && f.deletions[0].End?
    ensures r.deletions == f.deletions[1..] && r.insertions == f.insertions && r.hasError
    ensures Consistent(f) ==> Consistent(r)
    ensures forall o :: Owed(r, o) == Owed(f, o)
  {
    assert NonEnd(f.deletions) == NonEnd(f.deletions[1..]);
    SendMatchingEnd(f.(hasError := true)).(deletions := f.deletions[1..])
  }

  function ReplaceInsertion(f: Fixer): (r: Fixer)
    requires f.insertions != [] && f.insertions[0].End?
    ensures r.insertions == f.insertions[1..] && r.deletions == f.deletions && r.hasError
    ensures Consistent(f) ==> Consistent(r)
    ensures forall o :: Owed(r, o) == Owed(f, o)
  {
    assert NonEnd(f.insertions) == NonEnd(f.insertions[1..]);
    SendMatchingEnd(f.(hasError := true)).(insertions := f.insertions[1..])
  }

  predicate IsAttribute(q: seq<Token>) { |q| > 0 && q[0].Attribute? }

  /** The deletion loop of the attribute flush: sends queued attributes at the head of the deletions. */
  function FlushDeletedAttributes(f: Fixer): (r: Fixer)
    ensures r.insertions == f.insertions && r.hasError == f.hasError
    ensures |r.deletions| <= |f.deletions| && !IsAttribute(r.deletions)
    ensures Consistent(f) ==> Consistent(r)
    ensures forall o :: Owed(r, o) == Owed(f, o)
    decreases |f.deletions|
  {
    if IsAttribute(f.deletions) then
      FlushDeletedAttributes(SendDeletion(f))
    else f
  }

  /** The insertion loop of the attribute flush. */
  function FlushInsertedAttributes(f: Fixer): (r: Fixer)
    ensures r.deletions == f.deletions && r.hasError == f.hasError
    ensures |r.insertions| <= |f.insertions| && !IsAttribute(r.insertions)
    ensures Consistent(f) ==> Consistent(r)
    ensures forall o :: Owed(r, o) == Owed(f, o)
    decreases |f.insertions|
  {
    if IsAttribute(f.insertions) then
      FlushInsertedAttributes(SendInsertion(f))
    else f
  }

  /**
   * One pass of the flush loop after the attributes: a queued end tag that closes the
   * innermost element goes first (deletions before insertions); a queued end tag that
   * does not is dropped, the innermost element is closed instead and the error flagged;
   * otherwise one token is sent, from the queue of the last operator when it has one,
   * else deletions before insertions.
   */
  function FlushOne(f: Fixer): (r: Fixer)
    requires f.deletions != [] || f.insertions != []
    ensures |r.deletions| + |r.insertions| == |f.deletions| + |f.insertions| - 1
    ensures Consistent(f) ==> Consistent(r)
    ensures forall o :: Owed(r, o) == Owed(f, o)
    ensures r.hasError <==> f.hasError || (f.deletions != [] && f.deletions[0].End? && !MatchStart(f, DEL, f.deletions[0])
                                          && (f.insertions == [] || !f.insertions[0].End? || !MatchStart(f, INS, f.insertions[0])))
                                        || (f.insertions != [] && f.insertions[0].End? && !MatchStart(f, INS, f.insertions[0])
                                          && (f.deletions == [] || !f.deletions[0].End?))
  {
    var del, ins := f.deletions, f.insertions;
    var nextDeletion: Option<Token> := if del != [] then Some(del[0]) else None;
    var nextInsertion: Option<Token> := if ins != [] then Some(ins[0]) else None;
    if nextDeletion.Some? && nextDeletion.value.End? && MatchStart(f, DEL, nextDeletion.value) then SendDeletion(f)
    else if nextInsertion.Some? && nextInsertion.value.End? && MatchStart(f, INS, nextInsertion.value) then SendInsertion(f)
    else if nextDeletion.Some? && nextDeletion.value.End? then ReplaceDeletion(f)
    else if nextInsertion.Some? && nextInsertion.value.End? then ReplaceInsertion(f)
    else if f.lastOperator == DEL && nextDeletion.Some? then SendDeletion(f)
    else if f.lastOperator == INS && nextInsertion.Some? then SendInsertion(f)
    else if nextDeletion.Some? then SendDeletion(f)
    else SendInsertion(f)
  }

  /** One turn of the flush loop: the attribute flush when the last token sent was a start tag or an attribute, then one pass. */
  function FlushTurn(f: Fixer): (r: Fixer)
    requires f.deletions != [] || f.insertions != []
    ensures |r.deletions| + |r.insertions| < |f.deletions| + |f.insertions|
    ensures Consistent(f) ==> Consistent(r)
    ensures forall o :: Owed(r, o) == Owed(f, o)
  {
    var g :=
      if f.lastToken.Some? && (f.lastToken.value.Start? || f.lastToken.value.Attribute?) then
        FlushInsertedAttributes(FlushDeletedAttributes(f))
      else f;
    if g.deletions != [] || g.insertions != [] then FlushOne(g)
    else
      // only attributes were queued, and they are all sent
      assert |g.deletions| + |g.insertions| < |f.deletions| + |f.insertions|;
      g
  }

  /** flushChanges: empties both queues. */
  function FlushChanges(f: Fixer): (r: Fixer)
    ensures r.deletions == [] && r.insertions == []
    ensures Consistent(f) ==> Consistent(r)
    ensures forall o :: Owed(r, o) == Owed(f, o)
    ensures |f.deletions| + |f.insertions| == 0 ==> r == f
    decreases |f.deletions| + |f.insertions|
  {
    if f.deletions == [] && f.insertions == [] then f
    else FlushChanges(FlushTurn(f))
  }

  /**
   * handle: DEL and INS are queued, not sent. MATCH flushes the queues, then sends the
   * token, unless it is an end tag that does not close the innermost element under
   * MATCH, which is replaced by the innermost element's own end tag (nothing is sent in
   * its place when no element is open) without raising the error flag.
   */
  function Handle(f: Fixer, op: Operator, t: Token): (r: Fixer)
    ensures op == DEL ==> r == f.(deletions := f.deletions + [t])
    ensures op == INS ==> r == f.(insertions := f.insertions + [t])
    ensures op == MATCH ==> r.deletions == [] && r.insertions == []
    ensures op == MATCH && !(t.End? && !MatchStart(FlushChanges(f), MATCH, t)) ==>
              r.output == FlushChanges(f).output + [Operation(MATCH, t)]
    ensures op == MATCH && t.End? && !MatchStart(FlushChanges(f), MATCH, t) ==>
              var g := FlushChanges(f);
              r.output == g.output + (if |g.unclosed| == 0 then [] else [Operation(Top(g.unclosed).op, EndOf(Top(g.unclosed).token))])
    ensures op == MATCH ==> r.hasError == FlushChanges(f).hasError
    ensures Consistent(f) ==> Consistent(r)
    ensures forall o :: Owed(r, o) == Owed(f, o) + Kept(Operation(op, t), o)
  {
    match op
    case DEL =>
      var r := f.(deletions := f.deletions + [t]);
      NonEndAppend(f.deletions, t);
      r
    case INS =>
      var r := f.(insertions := f.insertions + [t]);
      NonEndAppend(f.insertions, t);
      r
    case MATCH =>
      var g := FlushChanges(f);
      var r := SendMatch(g, t);
      assert forall o :: Owed(r, o) == Project(r.output, o) && Owed(g, o) == Project(g.output, o);
      r
  }

  /**
   * The send step of a MATCH, once the queues are flushed: the token as is, or, for an end
   * tag that does not close the innermost element under MATCH, that element's own end tag.
   */
  function SendMatch(g: Fixer, t: Token): (r: Fixer)
    ensures !(t.End? && !MatchStart(g, MATCH, t)) ==> r.output == g.output + [Operation(MATCH, t)]
    ensures t.End? && !MatchStart(g, MATCH, t) ==>
              r.output == g.output + (if |g.unclosed| == 0 then [] else [Operation(Top(g.unclosed).op, EndOf(Top(g.unclosed).token))])
    ensures r.deletions == g.deletions && r.insertions == g.insertions && r.hasError == g.hasError
    ensures Consistent(g) ==> Consistent(r)
    ensures forall o :: Project(r.output, o) == Project(g.output, o) + Kept(Operation(MATCH, t), o)
  {
    if t.End? && !MatchStart(g, MATCH, t) then SendMatchingEnd(g)
    else Send(g, MATCH, t)
  }

  /**
   * `<a>` matched, then a matched `</b>`: the stray end tag is not sent; `</a>` is sent
   * in its place, and the error flag stays down.
   */
  lemma MatchEndReplaced()
    ensures var f := Handle(Handle(Fresh(), MATCH, Token.Start(StartTag("", "a"))), MATCH, Token.End(StartTag("", "b")));
            f.output == [Operation(MATCH, Token.Start(StartTag("", "a"))), Operation(MATCH, Token.End(StartTag("", "a")))]
            && f.unclosed == [] && !f.hasError
  {
    var a, b := StartTag("", "a"), StartTag("", "b");
    var f0 := Fresh();
    var f1 := Send(f0, MATCH, Token.Start(a));
    assert Handle(f0, MATCH, Token.Start(a)) == f1;
    assert f1.unclosed == [Operation(MATCH, a)] && FlushChanges(f1) == f1;
    assert Handle(f1, MATCH, Token.End(b)) == SendMatchingEnd(f1);
  }

  lemma {:induction false} NonEndAppend(ts: seq<Token>, t: Token)
    ensures NonEnd(ts + [t]) == NonEnd(ts) + (if t.End? then [] else [t])
    decreases |ts|
  {
    if |ts| > 0 {
      assert (ts + [t])[1..] == ts[1..] + [t];
      NonEndAppend(ts[1..], t);
    } else {
      assert ts + [t] == [t];
    }
  }

  /** The closing loop of end(): closes every element still open, innermost first. */
  function CloseAll(f: Fixer): (r: Fixer)
    ensures r.unclosed == [] && r.deletions == f.deletions && r.insertions == f.insertions
    ensures Consistent(f) ==> Consistent(r)
    ensures forall o :: Project(r.output, o) == Project(f.output, o)
    decreases |f.unclosed|
  {
    if |f.unclosed| == 0 then f else CloseAll(SendMatchingEnd(f))
  }

  /** end(): flushes the queues, then closes every element still open. */
  function End(f: Fixer): (r: Fixer)
    ensures r.unclosed == [] && r.deletions == [] && r.insertions == []
    ensures Consistent(f) ==> Consistent(r)
    ensures forall o :: Project(r.output, o) == Owed(f, o)
  {
    CloseAll(FlushChanges(f))
  }

  /** A fresh filter fed the events in order. */
  function Feed(events: seq<Event>): (r: Fixer) {
    if |events| == 0 then Fresh()
    else Handle(Feed(events[..|events| - 1]), events[|events| - 1].op, events[|events| - 1].token)
  }

  /**
   * Whatever a fresh filter is fed, its state stays consistent, and every non-end token
   * it was given is either sent, under its own operator and in order, or still queued.
   */
  lemma {:induction false} FeedInvariant(events: seq<Event>)
    ensures Consistent(Feed(events))
    ensures forall o :: Owed(Feed(events), o) == Project(events, o)
    decreases |events|
  {
    if |events| > 0 {
      var init, e := events[..|events| - 1], events[|events| - 1];
      FeedInvariant(init);
      forall o ensures Owed(Feed(events), o) == Project(events, o) {
        assert Owed(Feed(events), o) == Owed(Feed(init), o) + Kept(e, o);
      }
    }
  }

  /**
   * The output of the filter after end() is balanced, strictly: every end tag closes the
   * innermost open element under the operator it was opened with, and none is left open.
   * No non-end token is lost, reordered or given another operator.
   */
  lemma Fixes(events: seq<Event>)
    ensures Balanced(End(Feed(events)).output)
    ensures forall o :: Project(End(Feed(events)).output, o) == Project(events, o)
  {
    FeedInvariant(events);
  }
}

=== FILE: sequence_folding.dfy ===
/**
 * `SequenceFoldings`: folding a token sequence so that every chosen element becomes one
 * element token holding its content. A foldable start tag opens a folder; the end tag that
 * matches the innermost folder seals it into an element token, which goes to the enclosing
 * folder or, at the top, to the output.
 */
module SequenceFoldings {
  import opened Outcomes
  import opened Tokens
  import opened Operations
  import opened Nesting
  import Hirschberg

  /**
   * The configuration. `All` is the shared list that `forAllElements` returns and that the
   * foldability test recognises by identity; any other list is a list of names, even one
   * that holds "*".
   */
  datatype Folding = All | Named(names: seq<string>)

  /** The names kept in order, without missing or empty names, each at its first occurrence. */
  function Distinct(names: seq<Option<string>>): (r: seq<string>)
    ensures forall x :: x in r <==> x != "" && Some(x) in names
    ensures forall i, j :: 0 <= i < j < |r| ==> r[i] != r[j]
  {
    if |names| == 0 then []
    else
      var r := Distinct(names[..|names| - 1]);
      var n := names[|names| - 1];
      assert forall x :: Some(x) in names <==> Some(x) in names[..|names| - 1] || Some(x) == n;
      if n.Some? && n.value != "" && n.value !in r then r + [n.value] else r
  }

  /** forElements: the names asked for, each once, without missing or empty ones. */
  function ForElements(names: seq<Option<string>>): (r: Folding)
    ensures r.Named?
    ensures forall x :: x in r.names <==> x != "" && Some(x) in names
    ensures forall i, j :: 0 <= i < j < |r.names| ==> r.names[i] != r.names[j]
  {
    Named(Distinct(names))
  }

  /** forAllElements: the shared list that folds every element. */
  function ForAllElements(): Folding {
    All
  }

  /** The names as the optional strings forElements receives. */
  function Given(names: seq<string>): (r: seq<Option<string>>)
    ensures |r| == |names| && forall k :: 0 <= k < |names| ==> r[k] == Some(names[k])
  {
    seq(|names|, k requires 0 <= k < |names| => Some(names[k]))
  }

  /** forElements leaves a list of distinct non-empty names as it is. */
  lemma {:induction false} ForElementsKeepsDistinct(names: seq<string>)
    requires forall k :: 0 <= k < |names| ==> names[k] != ""
    requires forall i, j :: 0 <= i < j < |names| ==> names[i] != names[j]
    ensures ForElements(Given(names)) == Named(names)
    decreases |names|
  {
    if |names| > 0 {
      var init := names[..|names| - 1];
      assert Given(names)[..|names| - 1] == Given(init);
      ForElementsKeepsDistinct(init);
      assert names[|names| - 1] !in init by {
        forall k | 0 <= k < |init| ensures init[k] != names[|names| - 1] {
          assert init[k] == names[k];
        }
      }
      assert init + [names[|names| - 1]] == names;
    }
  }

  /** Whether elements with this name are folded. */
  predicate FoldsName(f: Folding, name: string) {
    f.All? || name in f.names
  }

  /** isFoldable: a start tag whose name is folded. */
  predicate IsFoldable(f: Folding, t: Token) {
    t.Start? && FoldsName(f, t.tag.name)
  }

  /** A list holding "*" is not the shared list: it folds only elements named "*". */
  lemma StarIsAName()
    ensures !IsFoldable(ForElements([Some("*")]), Start(StartTag("", "a")))
    ensures IsFoldable(ForAllElements(), Start(StartTag("", "a")))
  {
    assert ForElements([Some("*")]).names == ["*"];
  }

  // Unfolding ------------------------------------------------------------------------------

  /** A token with every folded element written back as start tag, content and end tag. */
  function Unfold(t: Token): seq<Token>
    decreases t
  {
    match t
    case Element(start, close, content) => [Start(start)] + UnfoldAll(content) + [End(close)]
    case _ => [t]
  }

  /** The tokens unfolded, in order. */
  function UnfoldAll(ts: seq<Token>): seq<Token>
    decreases ts
  {
    if |ts| == 0 then [] else UnfoldAll(ts[..|ts| - 1]) + Unfold(ts[|ts| - 1])
  }

  lemma {:induction false} UnfoldAllAppend(ts: seq<Token>, t: Token)
    ensures UnfoldAll(ts + [t]) == UnfoldAll(ts) + Unfold(t)
  {
    assert (ts + [t])[..|ts|] == ts;
  }

  /** With no folded element in them, the tokens unfold to themselves. */
  lemma {:induction false} UnfoldAllPlain(ts: seq<Token>)
    requires forall k :: 0 <= k < |ts| ==> !ts[k].Element?
    ensures UnfoldAll(ts) == ts
    decreases |ts|
  {
    if |ts| > 0 {
      UnfoldAllPlain(ts[..|ts| - 1]);
      assert ts[..|ts| - 1] + [ts[|ts| - 1]] == ts;
    }
  }

  // The folding processor ------------------------------------------------------------------

  /** An element being folded: its start tag and the tokens collected so far. */
  datatype Folder = Folder(open: StartTag, children: seq<Token>)

  /** The output written so far and the stack of open folders, innermost last. */
  datatype Processor = Processor(tokens: seq<Token>, stack: seq<Folder>)

  /** The tokens the open folders stand for: each start tag followed by what it collected. */
  function Pending(stack: seq<Folder>): seq<Token> {
    if |stack| == 0 then []
    else Pending(stack[..|stack| - 1]) + [Start(stack[|stack| - 1].open)] + UnfoldAll(stack[|stack| - 1].children)
  }

  /** Everything the processor has seen, written back as a flat sequence. */
  function Contents(p: Processor): seq<Token> {
    UnfoldAll(p.tokens) + Pending(p.stack)
  }

  /** No foldable start tag among the tokens. */
  predicate NoFoldable(f: Folding, ts: seq<Token>) {
    forall k :: 0 <= k < |ts| ==> !IsFoldable(f, ts[k])
  }

  /** Every folder holds a foldable element, and no foldable start tag was written out or collected. */
  predicate Shaped(f: Folding, p: Processor) {
    && NoFoldable(f, p.tokens)
    && forall k :: 0 <= k < |p.stack| ==> FoldsName(f, p.stack[k].open.name) && NoFoldable(f, p.stack[k].children)
  }

  /** Folder.add on the innermost folder. */
  function AddChild(stack: seq<Folder>, t: Token): (r: seq<Folder>)
    requires |stack| > 0
    ensures |r| == |stack| && r[..|r| - 1] == stack[..|stack| - 1]
    ensures r[|r| - 1] == Folder(stack[|stack| - 1].open, stack[|stack| - 1].children + [t])
    ensures forall k :: 0 <= k < |r| ==> r[k].open == stack[k].open
    ensures Pending(r) == Pending(stack) + Unfold(t)
  {
    var last := stack[|stack| - 1];
    var r := stack[..|stack| - 1] + [Folder(last.open, last.children + [t])];
    assert r[..|r| - 1] == stack[..|stack| - 1];
    UnfoldAllAppend(last.children, t);
    r
  }

  /** Sealing the innermost folder with the end tag that matches it. */
  function Seal(p: Processor, close: StartTag): (r: Processor)
    requires |p.stack| > 0
    ensures |r.stack| == |p.stack| - 1
    ensures forall k :: 0 <= k < |r.stack| ==> r.stack[k].open == p.stack[k].open
    ensures Contents(r) == Contents(p) + [End(close)]
  {
    var current := p.stack[|p.stack| - 1];
    var rest := p.stack[..|p.stack| - 1];
    var element := Element(current.open, close, current.children);
    var held := [Start(current.open)] + UnfoldAll(current.children);
    assert Pending(p.stack) == Pending(rest) + held;
    assert Unfold(element) == held + [End(close)];
    if |rest| == 0 then
      UnfoldAllAppend(p.tokens, element);
      Processor(p.tokens + [element], rest)
    else
      var stack := AddChild(rest, element);
      assert forall k :: 0 <= k < |stack| ==> stack[k].open == rest[k].open == p.stack[k].open;
      Processor(p.tokens, stack)
  }

  /**
   * FoldingProcessor.add: a foldable start tag opens a folder; outside any folder a token
   * is written out; the end tag matching the innermost folder seals it; any other token is
   * collected by the innermost folder.
   */
  function Add(f: Folding, p: Processor, t: Token): (r: Processor)
    ensures Contents(r) == Contents(p) + Unfold(t)
    ensures |p.stack| == 0 && !IsFoldable(f, t) ==> r == Processor(p.tokens + [t], [])
  {
    if IsFoldable(f, t) then OpenFolder(p, t.tag)
    else if |p.stack| == 0 then WriteOut(p, t)
    else if t.End? && MatchesStart(t.open, Some(p.stack[|p.stack| - 1].open)) then Seal(p, t.open)
    else Processor(p.tokens, AddChild(p.stack, t))
  }

  /** A new innermost folder for a foldable start tag. */
  function OpenFolder(p: Processor, tag: StartTag): (r: Processor)
    ensures r.tokens == p.tokens && |r.stack| == |p.stack| + 1
    ensures r.stack[..|p.stack|] == p.stack && r.stack[|p.stack|] == Folder(tag, [])
    ensures Contents(r) == Contents(p) + [Start(tag)]
  {
    var r := Processor(p.tokens, p.stack + [Folder(tag, [])]);
    assert r.stack[..|p.stack|] == p.stack;
    assert UnfoldAll([]) == [];
    r
  }

  /** A token written out with no folder open. */
  function WriteOut(p: Processor, t: Token): (r: Processor)
    requires |p.stack| == 0
    ensures r.stack == [] && r.tokens == p.tokens + [t]
    ensures Contents(r) == Contents(p) + Unfold(t)
  {
    UnfoldAllAppend(p.tokens, t);
    Processor(p.tokens + [t], p.stack)
  }

  /** Adding a token keeps the processor's shape. */
  lemma {:induction false} AddKeepsShape(f: Folding, p: Processor, t: Token)
    requires Shaped(f, p)
    ensures Shaped(f, Add(f, p, t))
  {
    var n := |p.stack|;
    if IsFoldable(f, t) || n == 0 {
    } else if t.End? && MatchesStart(t.open, Some(p.stack[n - 1].open)) {
      var current := p.stack[n - 1];
      var element := Element(current.open, t.open, current.children);
      assert !IsFoldable(f, element);
      if n > 1 {
        ChildKeepsShape(f, p.stack[..n - 1], element);
      }
    } else {
      ChildKeepsShape(f, p.stack, t);
    }
  }

  /** Collecting a token that is not a foldable start tag keeps every folder's shape. */
  lemma {:induction false} ChildKeepsShape(f: Folding, stack: seq<Folder>, t: Token)
    requires |stack| > 0 && !IsFoldable(f, t)
    requires forall k :: 0 <= k < |stack| ==> FoldsName(f, stack[k].open.name) && NoFoldable(f, stack[k].children)
    ensures var r := AddChild(stack, t);
            forall k :: 0 <= k < |r| ==> FoldsName(f, r[k].open.name) && NoFoldable(f, r[k].children)
  {
    var r := AddChild(stack, t);
    forall k | 0 <= k < |r| ensures FoldsName(f, r[k].open.name) && NoFoldable(f, r[k].children) {
      if k < |r| - 1 {
        assert r[k] == r[..|r| - 1][k] == stack[k];
      }
    }
  }

  /** The processor after every token of the sequence. */
  function Run(f: Folding, s: seq<Token>): Processor {
    if |s| == 0 then Processor([], []) else Add(f, Run(f, s[..|s| - 1]), s[|s| - 1])
  }

  /**
   * fold: the input itself when no element is named, else what the processor wrote out.
   * Either way no foldable start tag is left in the output, and the output unfolded is a
   * prefix of the input unfolded: nothing is invented or reordered.
   */
  function Fold(f: Folding, s: seq<Token>): (r: seq<Token>)
    ensures NoFoldable(f, r)
    ensures UnfoldAll(r) <= UnfoldAll(s)
  {
    RunKeepsContents(f, s);
    if f.Named? && |f.names| == 0 then s else Run(f, s).tokens
  }

  /**
   * Unfolding what the processor wrote and what its open folders hold gives back the input
   * unfolded; no foldable start tag is ever written out or collected.
   */
  lemma RunKeepsContents(f: Folding, s: seq<Token>)
    ensures Contents(Run(f, s)) == UnfoldAll(s)
    ensures Shaped(f, Run(f, s))
  {
    RunContents(f, s);
    RunShaped(f, s);
  }

  lemma {:induction false} RunContents(f: Folding, s: seq<Token>)
    ensures Contents(Run(f, s)) == UnfoldAll(s)
    decreases |s|
  {
    if |s| > 0 {
      var init, t := s[..|s| - 1], s[|s| - 1];
      RunContents(f, init);
      var p := Run(f, init);
      assert Run(f, s) == Add(f, p, t);
      assert UnfoldAll(s) == UnfoldAll(init) + Unfold(t);
    }
  }

  lemma {:induction false} RunShaped(f: Folding, s: seq<Token>)
    ensures Shaped(f, Run(f, s))
    decreases |s|
  {
    if |s| > 0 {
      var init, t := s[..|s| - 1], s[|s| - 1];
      RunShaped(f, init);
      AddKeepsShape(f, Run(f, init), t);
    }
  }

  /** With nothing foldable in the input, the processor writes out every token as it comes. */
  lemma {:induction false} RunWithoutFoldable(f: Folding, s: seq<Token>)
    requires NoFoldable(f, s)
    ensures Run(f, s) == Processor(s, [])
    decreases |s|
  {
    if |s| > 0 {
      RunWithoutFoldable(f, s[..|s| - 1]);
      assert s[..|s| - 1] + [s[|s| - 1]] == s;
    }
  }

  /** The early return for an empty list gives what the processor would. */
  lemma {:induction false} FoldShortcutAgrees(s: seq<Token>)
    ensures Fold(Named([]), s) == Run(Named([]), s).tokens
    ensures Fold(ForElements([]), s) == s
  {
    RunWithoutFoldable(Named([]), s);
  }

  // Balanced input -------------------------------------------------------------------------

  /** The foldable ones among the open elements, outermost first. */
  function FoldableOpens(f: Folding, stack: seq<Opened>): (r: seq<StartTag>)
    ensures forall k :: 0 <= k < |r| ==> FoldsName(f, r[k].name)
  {
    if |stack| == 0 then []
    else FoldableOpens(f, stack[..|stack| - 1])
         + (if FoldsName(f, stack[|stack| - 1].token.name) then [stack[|stack| - 1].token] else [])
  }

  /** The start tags of the folders, outermost first. */
  function Opens(stack: seq<Folder>): (r: seq<StartTag>)
    ensures |r| == |stack| && forall k :: 0 <= k < |stack| ==> r[k] == stack[k].open
  {
    seq(|stack|, k requires 0 <= k < |stack| => stack[k].open)
  }

  /**
   * On a sequence whose end tags each close the innermost open element, the folders are
   * exactly the foldable open elements.
   */
  lemma {:induction false} RunTracksNesting(f: Folding, s: seq<Token>)
    requires Replay(Hirschberg.AllAs(MATCH, s)).Some?
    ensures Opens(Run(f, s).stack) == FoldableOpens(f, Replay(Hirschberg.AllAs(MATCH, s)).value)
    decreases |s|
  {
    if |s| > 0 {
      var init, t := s[..|s| - 1], s[|s| - 1];
      assert Hirschberg.AllAs(MATCH, s) == Hirschberg.AllAs(MATCH, init) + [Operation(MATCH, t)];
      ReplayAppend(Hirschberg.AllAs(MATCH, init), Operation(MATCH, t));
      RunTracksNesting(f, init);
      RunKeepsContents(f, init);
      var open := Replay(Hirschberg.AllAs(MATCH, init)).value;
      var p := Run(f, init);
      assert Run(f, s) == Add(f, p, t);
      if t.Start? {
        assert FoldableOpens(f, open + [Operation(MATCH, t.tag)])
            == FoldableOpens(f, open) + (if FoldsName(f, t.tag.name) then [t.tag] else []);
        if IsFoldable(f, t) {
          assert Opens(Add(f, p, t).stack) == Opens(p.stack) + [t.tag];
        } else {
          TokenKeepsFolders(f, p, t);
        }
      } else if t.End? {
        EndKeepsFolders(f, p, open, t);
      } else {
        TokenKeepsFolders(f, p, t);
      }
    }
  }

  /** A token that neither opens nor seals a folder leaves the folders' start tags alone. */
  lemma {:induction false} TokenKeepsFolders(f: Folding, p: Processor, t: Token)
    requires !IsFoldable(f, t) && !t.End?
    ensures Opens(Add(f, p, t).stack) == Opens(p.stack)
  {
    if |p.stack| > 0 {
      var r := AddChild(p.stack, t);
      assert Add(f, p, t).stack == r;
      assert r[..|r| - 1] + [r[|r| - 1]] == r;
      assert p.stack[..|p.stack| - 1] + [p.stack[|p.stack| - 1]] == p.stack;
    }
  }

  /**
   * An end tag closing the innermost open element seals the innermost folder exactly when
   * that element is foldable.
   */
  lemma {:induction false} EndKeepsFolders(f: Folding, p: Processor, open: seq<Opened>, t: Token)
    requires Shaped(f, p)
    requires Opens(p.stack) == FoldableOpens(f, open)
    requires Closes(open, Operation(MATCH, t))
    ensures Opens(Add(f, p, t).stack) == FoldableOpens(f, open[..|open| - 1])
  {
    var top := open[|open| - 1];
    var below := open[..|open| - 1];
    var n := |p.stack|;
    if FoldsName(f, top.token.name) {
      assert Opens(p.stack) == FoldableOpens(f, below) + [top.token];
      assert p.stack[n - 1].open == Opens(p.stack)[n - 1] == top.token;
      EndSealsFolder(f, p, t);
    } else {
      assert FoldableOpens(f, open) == FoldableOpens(f, below);
      if n > 0 {
        assert FoldsName(f, p.stack[n - 1].open.name);
      }
      EndPassesFolder(f, p, t);
    }
  }

  /** An end tag matching the innermost folder seals it. */
  lemma {:induction false} EndSealsFolder(f: Folding, p: Processor, t: Token)
    requires t.End? && |p.stack| > 0 && MatchesStart(t.open, Some(p.stack[|p.stack| - 1].open))
    ensures Opens(Add(f, p, t).stack) == Opens(p.stack)[..|p.stack| - 1]
  {
    var n := |p.stack|;
    assert Add(f, p, t) == Seal(p, t.open);
    SameOpens(Seal(p, t.open).stack, p.stack[..n - 1]);
  }

  /** Any other end tag leaves the folders' start tags alone. */
  lemma {:induction false} EndPassesFolder(f: Folding, p: Processor, t: Token)
    requires t.End? && (|p.stack| == 0 || !MatchesStart(t.open, Some(p.stack[|p.stack| - 1].open)))
    ensures Opens(Add(f, p, t).stack) == Opens(p.stack)
  {
    if |p.stack| > 0 {
      assert Add(f, p, t).stack == AddChild(p.stack, t);
      SameOpens(AddChild(p.stack, t), p.stack);
    }
  }

  /** Two stacks of folders with the same start tags, position by position. */
  lemma SameOpens(a: seq<Folder>, b: seq<Folder>)
    requires |a| == |b| && forall k :: 0 <= k < |a| ==> a[k].open == b[k].open
    ensures Opens(a) == Opens(b)
  {
  }

  /**
   * When every element is closed in order, nothing is left in a folder: folding writes out
   * the whole input, with no foldable start tag left at the top, and unfolding gives the
   * input back.
   */
  lemma {:induction false} BalancedFoldKeepsContents(f: Folding, s: seq<Token>)
    requires Balanced(Hirschberg.AllAs(MATCH, s))
    ensures Run(f, s).stack == []
    ensures UnfoldAll(Fold(f, s)) == UnfoldAll(s)
    ensures f.All? || |f.names| > 0 ==> NoFoldable(f, Fold(f, s))
  {
    RunTracksNesting(f, s);
    RunKeepsContents(f, s);
  }

  // The examples of the unit tests ---------------------------------------------------------

  const A := StartTag("", "a")
  const B := StartTag("", "b")

  /** `<a><b/></a>`. */
  function Nested(): seq<Token> {
    [Start(A), Start(B), End(B), End(A)]
  }

  /** Folding `b` in `<a><b/></a>` gives three tokens. */
  lemma FoldNamedExample()
    ensures Fold(ForElements([Some("b")]), Nested()) == [Start(A), Element(B, B, []), End(A)]
  {
    ForElementsB();
    FoldNamedOn(Named(["b"]), A, B);
  }

  /** forElements on the one name `b`. */
  lemma ForElementsB()
    ensures ForElements([Some("b")]) == Named(["b"])
  {
    var b := ForElements([Some("b")]);
    assert "b" in b.names;
    assert [Some("b")][..0] == [];
  }

  /** `<a><b/></a>` with `b` folded and `a` not: `a`'s tags around one `b` token. */
  lemma FoldNamedOn(f: Folding, a: StartTag, b: StartTag)
    requires !FoldsName(f, a.name) && FoldsName(f, b.name)
    ensures Run(f, [Start(a), Start(b), End(b), End(a)]).tokens == [Start(a), Element(b, b, []), End(a)]
  {
    var s1: seq<Token> := [Start(a)];
    var s2, s3, s4 := s1 + [Start(b)], s1 + [Start(b)] + [End(b)], s1 + [Start(b)] + [End(b)] + [End(a)];
    var p0 := Processor([], []);
    var p1 := Processor(s1, []);
    var p2 := Processor(s1, [Folder(b, [])]);
    var p3 := Processor(s1 + [Element(b, b, [])], []);
    RunAppend(f, [], Start(a));
    assert [] + [Start(a)] == s1;
    assert Run(f, s1) == p1;
    RunAppend(f, s1, Start(b));
    OpenStep(f, p1, b);
    assert [] + [Folder(b, [])] == [Folder(b, [])];
    assert Run(f, s2) == p2;
    RunAppend(f, s2, End(b));
    SealOuter(f, p2, b);
    assert Run(f, s3) == p3;
    RunAppend(f, s3, End(a));
    assert Run(f, s4).tokens == p3.tokens + [End(a)];
    assert s4 == [Start(a), Start(b), End(b), End(a)];
  }

  lemma RunAppend(f: Folding, s: seq<Token>, t: Token)
    ensures Run(f, s + [t]) == Add(f, Run(f, s), t)
  {
    assert (s + [t])[..|s|] == s;
  }

  /** Folding every element of `<a><b/></a>` gives one token. */
  lemma FoldAllExample()
    ensures Fold(ForAllElements(), Nested()) == [Element(A, A, [Element(B, B, [])])]
  {
    FoldAllOn(All, A, B);
  }

  /** `<a><b/></a>` with both folded: one `a` token holding one `b` token. */
  lemma FoldAllOn(f: Folding, a: StartTag, b: StartTag)
    requires FoldsName(f, a.name) && FoldsName(f, b.name)
    ensures Run(f, [Start(a), Start(b), End(b), End(a)]).tokens == [Element(a, a, [Element(b, b, [])])]
  {
    var s1: seq<Token> := [Start(a)];
    var s2, s3, s4 := s1 + [Start(b)], s1 + [Start(b)] + [End(b)], s1 + [Start(b)] + [End(b)] + [End(a)];
    var p0 := Processor([], []);
    var p1 := Processor([], [Folder(a, [])]);
    var p2 := Processor([], [Folder(a, []), Folder(b, [])]);
    var p3 := Processor([], [Folder(a, [Element(b, b, [])])]);
    RunAppend(f, [], Start(a));
    assert [] + [Start(a)] == s1;
    OpenStep(f, p0, a);
    assert [] + [Folder(a, [])] == [Folder(a, [])];
    assert Run(f, s1) == p1;
    RunAppend(f, s1, Start(b));
    OpenStep(f, p1, b);
    assert [Folder(a, [])] + [Folder(b, [])] == p2.stack;
    assert Run(f, s2) == p2;
    RunAppend(f, s2, End(b));
    SealInner(f, p2, b);
    assert [] + [Element(b, b, [])] == [Element(b, b, [])];
    assert Run(f, s3) == p3;
    RunAppend(f, s3, End(a));
    SealOuter(f, p3, a);
    assert [] + [Element(a, a, [Element(b, b, [])])] == [Element(a, a, [Element(b, b, [])])];
    assert s4 == [Start(a), Start(b), End(b), End(a)];
  }

  /** A foldable start tag pushes an empty folder. */
  lemma OpenStep(f: Folding, p: Processor, tag: StartTag)
    requires FoldsName(f, tag.name)
    ensures Add(f, p, Start(tag)) == Processor(p.tokens, p.stack + [Folder(tag, [])])
  {
  }

  /** The end tag of the only folder writes the folded element out. */
  lemma SealOuter(f: Folding, p: Processor, close: StartTag)
    requires |p.stack| == 1 && p.stack[0].open == close
    ensures Add(f, p, End(close)) == Processor(p.tokens + [Element(close, close, p.stack[0].children)], [])
  {
    assert Add(f, p, End(close)) == Seal(p, close);
  }

  /** The end tag of the inner of two folders hands the folded element to the outer one. */
  lemma SealInner(f: Folding, p: Processor, close: StartTag)
    requires |p.stack| == 2 && p.stack[1].open == close
    ensures Add(f, p, End(close)) == Processor(p.tokens,
      [Folder(p.stack[0].open, p.stack[0].children + [Element(close, close, p.stack[1].children)])])
  {
    assert Add(f, p, End(close)) == Seal(p, close);
    assert p.stack[..1] == [p.stack[0]];
  }

  /** A foldable element left open is dropped from the output. */
  lemma FoldDropsUnclosed()
    ensures Fold(ForAllElements(), [Start(A)]) == []
  {
    assert [Start(A)][..0] == [];
    assert Run(All, []) == Processor([], []);
    assert Add(All, Processor([], []), Start(A)) == OpenFolder(Processor([], []), A);
  }
}

=== FILE: sequences.dfy ===
/**
 * `Sequences`: checks and measures over a sequence of XML tokens (well-formedness, depth,
 * the largest element content) and the folding of consecutive text tokens.
 */
module Sequences {
  import opened Outcomes
  import opened Tokens
  import opened Operations
  import opened Nesting
  import Hirschberg
  import TokenSlicing

  // isWellFormed ---------------------------------------------------------------------------

  /** One step of the name check: push on a start tag, pop on an end tag with the innermost name. */
  function NameStep(open: seq<string>, t: Token): (r: Option<seq<string>>)
    ensures t.Start? ==> r == Some(open + [t.tag.name])
    ensures t.End? ==> (r.Some? <==> |open| > 0 && open[|open| - 1] == t.open.name)
    ensures t.End? && r.Some? ==> r.value == open[..|open| - 1]
    ensures !t.Start? && !t.End? ==> r == Some(open)
  {
    match t
    case Start(tag) => Some(open + [tag.name])
    case End(o) => if |open| > 0 && open[|open| - 1] == o.name then Some(open[..|open| - 1]) else None
    case _ => Some(open)
  }

  /** The names of the elements still open after the sequence, if every end tag closed the innermost one by name. */
  function OpenNames(s: seq<Token>): Option<seq<string>> {
    if |s| == 0 then Some([])
    else match OpenNames(s[..|s| - 1])
      case None => None
      case Some(open) => NameStep(open, s[|s| - 1])
  }

  /** Well-formed by name: every end tag closes the innermost open element, and none is left open. */
  predicate WellFormed(s: seq<Token>) {
    OpenNames(s) == Some([])
  }

  /** The names of the start tags, in order. */
  function StartNames(s: seq<Token>): (r: seq<string>)
    ensures |r| == 0 <==> forall k :: 0 <= k < |s| ==> !s[k].Start?
  {
    if |s| == 0 then []
    else StartNames(s[..|s| - 1]) + (if s[|s| - 1].Start? then [s[|s| - 1].tag.name] else [])
  }

  /** No start tag and no end tag. */
  predicate NoElements(s: seq<Token>) {
    forall k :: 0 <= k < |s| ==> !s[k].Start? && !s[k].End?
  }

  /**
   * isWellFormed as written: false for null; start tags are pushed, an end tag needs an
   * open element with its name on top, but nothing is ever popped, so a sequence passes
   * only when it holds no element at all.
   */
  method IsWellFormedAsWritten(sequence: Option<seq<Token>>) returns (ok: bool)
    ensures sequence.None? ==> !ok
    ensures sequence.Some? ==> (ok <==> NoElements(sequence.value))
  {
    if sequence.None? { return false; }
    var s := sequence.value;
    var open: seq<string> := [];
    var i := 0;
    while i < |s|
      invariant 0 <= i <= |s|
      invariant open == StartNames(s[..i])
      invariant |open| == 0 ==> forall k :: 0 <= k < i ==> !s[k].End?
    {
      assert s[..i + 1][..i] == s[..i];
      var t := s[i];
      if t.Start? {
        open := open + [t.tag.name];
      } else if t.End? {
        assert !NoElements(s) by { assert s[i].End?; }
        if |open| == 0 { return false; }
        if t.open.name != open[|open| - 1] { return false; }
      }
      i := i + 1;
    }
    assert s[..|s|] == s;
    ok := |open| == 0;
  }

  /** A start tag and its end tag: well formed, but rejected as written. */
  lemma IsWellFormedRejectsElement()
    ensures WellFormed([Start(StartTag("", "a")), End(StartTag("", "a"))])
    ensures !NoElements([Start(StartTag("", "a")), End(StartTag("", "a"))])
  {
    var a := StartTag("", "a");
    var s := [Start(a), End(a)];
    assert s[..1] == [Start(a)] && [Start(a)][..0] == [];
    var none: seq<string> := [];
    assert OpenNames([]) == Some(none);
    assert none + ["a"] == ["a"];
    assert NameStep(none, Start(a)) == Some(["a"]);
    assert OpenNames([Start(a)]) == Some(["a"]);
    assert OpenNames(s) == NameStep(["a"], End(a));
  }

  /** isWellFormed with the pop the check evidently intends. */
  method IsWellFormed(sequence: Option<seq<Token>>) returns (ok: bool)
    ensures ok <==> sequence.Some? && WellFormed(sequence.value)
  {
    if sequence.None? { return false; }
    var s := sequence.value;
    var open: seq<string> := [];
    var i := 0;
    while i < |s|
      invariant 0 <= i <= |s|
      invariant OpenNames(s[..i]) == Some(open)
    {
      assert s[..i + 1][..i] == s[..i];
      var t := s[i];
      if t.Start? {
        open := open + [t.tag.name];
      } else if t.End? {
        if |open| == 0 || t.open.name != open[|open| - 1] {
          NoneStaysNone(s, i + 1);
          assert s[..|s|] == s;
          return false;
        }
        open := open[..|open| - 1];
      }
      i := i + 1;
    }
    assert s[..|s|] == s;
    ok := |open| == 0;
  }

  /** Once an end tag fails to close the innermost element, the check fails for good. */
  lemma {:induction false} NoneStaysNone(s: seq<Token>, i: nat)
    requires i <= |s| && OpenNames(s[..i]).None?
    ensures OpenNames(s).None?
    decreases |s| - i
  {
    if i < |s| {
      assert s[..i + 1][..i] == s[..i];
      NoneStaysNone(s, i + 1);
    } else {
      assert s[..i] == s;
    }
  }

  /** The names of a stack of open elements. */
  function Names(stack: seq<Opened>): (r: seq<string>)
    ensures |r| == |stack| && forall k :: 0 <= k < |stack| ==> r[k] == stack[k].token.name
  {
    seq(|stack|, k requires 0 <= k < |stack| => stack[k].token.name)
  }

  /**
   * A sequence that nests strictly as a diff of matched tokens (end tags matching URI and
   * name) is well formed by name, with the same elements open.
   */
  lemma {:induction false} StrictNestingIsWellFormed(s: seq<Token>)
    requires Replay(Hirschberg.AllAs(MATCH, s)).Some?
    ensures OpenNames(s) == Some(Names(Replay(Hirschberg.AllAs(MATCH, s)).value))
    decreases |s|
  {
    if |s| > 0 {
      var init, t := s[..|s| - 1], s[|s| - 1];
      assert Hirschberg.AllAs(MATCH, s) == Hirschberg.AllAs(MATCH, init) + [Operation(MATCH, t)];
      ReplayAppend(Hirschberg.AllAs(MATCH, init), Operation(MATCH, t));
      StrictNestingIsWellFormed(init);
      var stack := Replay(Hirschberg.AllAs(MATCH, init)).value;
      if t.Start? {
        assert Names(stack + [Operation(MATCH, t.tag)]) == Names(stack) + [t.tag.name];
      } else if t.End? {
        assert Names(stack[..|stack| - 1]) == Names(stack)[..|stack| - 1];
      }
    }
  }

  /** Balanced sequences are well formed. */
  lemma BalancedIsWellFormed(s: seq<Token>)
    requires Balanced(Hirschberg.AllAs(MATCH, s))
    ensures WellFormed(s)
  {
    StrictNestingIsWellFormed(s);
  }

  // getMaxDepth and getMaxElementContent ----------------------------------------------------

  /**
   * getMaxDepth: the largest running count of start tags minus end tags over the prefixes
   * of the sequence, the empty one included.
   */
  method GetMaxDepth(s: seq<Token>) returns (max: int)
    ensures max >= 0
    ensures forall i :: 0 <= i <= |s| ==> TokenSlicing.Depth(s[..i]) <= max
    ensures exists i :: 0 <= i <= |s| && TokenSlicing.Depth(s[..i]) == max
  {
    max := 0;
    var depth := 0;
    var i := 0;
    assert TokenSlicing.Depth(s[..0]) == 0;
    while i < |s|
      invariant 0 <= i <= |s|
      invariant depth == TokenSlicing.Depth(s[..i])
      invariant max >= 0
      invariant forall k :: 0 <= k <= i ==> TokenSlicing.Depth(s[..k]) <= max
      invariant exists k :: 0 <= k <= i && TokenSlicing.Depth(s[..k]) == max
    {
      assert s[..i + 1][..i] == s[..i];
      if s[i].Start? {
        depth := depth + 1;
      } else if s[i].End? {
        depth := depth - 1;
      }
      if depth > max {
        max := depth;
      }
      i := i + 1;
    }
  }

  /** The number of tokens other than tags since the last start tag (end tags do not reset it). */
  function Run(s: seq<Token>): nat {
    if |s| == 0 then 0
    else if s[|s| - 1].Start? then 0
    else if s[|s| - 1].End? then Run(s[..|s| - 1])
    else Run(s[..|s| - 1]) + 1
  }

  /**
   * getMaxElementContent: the largest run, measured at an end tag, of tokens other than
   * tags since the last start tag; 0 when there is no end tag.
   */
  method GetMaxElementContent(s: seq<Token>) returns (max: nat)
    ensures forall j :: 0 <= j < |s| && s[j].End? ==> Run(s[..j]) <= max
    ensures max == 0 || exists j :: 0 <= j < |s| && s[j].End? && Run(s[..j]) == max
  {
    max := 0;
    var tmp := 0;
    var i := 0;
    while i < |s|
      invariant 0 <= i <= |s|
      invariant tmp == Run(s[..i])
      invariant forall j :: 0 <= j < i && s[j].End? ==> Run(s[..j]) <= max
      invariant max == 0 || exists j :: 0 <= j < i && s[j].End? && Run(s[..j]) == max
    {
      assert s[..i + 1][..i] == s[..i];
      if s[i].Start? {
        tmp := 0;
      } else if s[i].End? {
        if tmp > max {
          max := tmp;
        }
      } else {
        tmp := tmp + 1;
      }
      i := i + 1;
    }
  }

  // foldText -------------------------------------------------------------------------------

  /** A buffered run of text as it is written out: nothing, the token itself, or a text list. */
  function FlushRun(text: seq<Token>): (r: seq<Token>)
    ensures |text| <= 1 ==> r == text
    ensures |text| > 1 ==> r == [TextList(text)]
  {
    if |text| > 1 then [TextList(text)] else text
  }

  /** The loop of foldText: the tokens written so far and the text still buffered. */
  function FoldState(s: seq<Token>): (r: (seq<Token>, seq<Token>))
  {
    if |s| == 0 then ([], [])
    else
      var (out, text) := FoldState(s[..|s| - 1]);
      var t := s[|s| - 1];
      if t.IsText() then (out, text + [t])
      else (out + FlushRun(text) + [t], [])
  }

  /** foldText as written: the text buffered after the last non-text token is never written out. */
  function FoldTextAsWritten(s: seq<Token>): (r: seq<Token>)
    ensures NoAdjacentText(r)
    ensures |r| > 0 ==> !r[|r| - 1].IsText()
    ensures r <= FoldText(s)
    ensures |s| > 0 && !s[|s| - 1].IsText() ==> r == FoldText(s)
  {
    FoldStateShape(s);
    FoldState(s).0
  }

  /**
   * foldText with the final flush the loop evidently intends: every character and every
   * other token kept in order, and no two text tokens left side by side.
   */
  function FoldText(s: seq<Token>): (r: seq<Token>)
    ensures Layout(r) == Layout(s)
    ensures NoAdjacentText(r)
  {
    var (out, text) := FoldState(s);
    FoldStateShape(s);
    FoldStateLayout(s);
    FlushTail(out, text);
    out + FlushRun(text)
  }

  /** One text token after the last tag: as written it is lost. */
  lemma FoldTextAsWrittenDropsTail()
    ensures FoldTextAsWritten([Text("a")]) == []
    ensures FoldText([Text("a")]) == [Text("a")]
  {
    assert [Text("a")][..0] == [];
  }

  /** One unit of a sequence as a reader sees it: a character of text or a token that is not text. */
  datatype Unit = Letter(c: char) | Node(t: Token)

  /** The characters of a string, one unit each. */
  function Letters(s: string): seq<Unit> {
    if |s| == 0 then [] else Letters(s[..|s| - 1]) + [Letter(s[|s| - 1])]
  }

  lemma {:induction false} LettersConcat(x: string, y: string)
    ensures Letters(x + y) == Letters(x) + Letters(y)
    decreases |y|
  {
    if |y| == 0 {
      assert x + y == x;
    } else {
      var init, c := y[..|y| - 1], y[|y| - 1];
      LettersConcat(x, init);
      assert (x + y)[..|x + y| - 1] == x + init && (x + y)[|x + y| - 1] == c;
      Associative(Letters(x), Letters(init), [Letter(c)]);
    }
  }

  /** The text of a token spelled out, or the token itself when it is not text. */
  function UnitsOf(t: Token): seq<Unit> {
    if t.IsText() then Letters(Characters(t)) else [Node(t)]
  }

  /** A sequence as its reader sees it: the characters of its text, with every other token in its place. */
  function Layout(s: seq<Token>): seq<Unit> {
    if |s| == 0 then [] else Layout(s[..|s| - 1]) + UnitsOf(s[|s| - 1])
  }

  lemma {:induction false} LayoutConcat(a: seq<Token>, b: seq<Token>)
    ensures Layout(a + b) == Layout(a) + Layout(b)
    decreases |b|
  {
    if |b| == 0 {
      assert a + b == a;
    } else {
      var init, t := b[..|b| - 1], b[|b| - 1];
      assert b == init + [t];
      assert a + b == (a + init) + [t];
      calc {
        Layout(a + b);
        Layout((a + init) + [t]);
        { BufferLayout(a + init, t); }
        Layout(a + init) + UnitsOf(t);
        { LayoutConcat(a, init); }
        (Layout(a) + Layout(init)) + UnitsOf(t);
        { Associative(Layout(a), Layout(init), UnitsOf(t)); }
        Layout(a) + (Layout(init) + UnitsOf(t));
        { BufferLayout(init, t); }
        Layout(a) + Layout(b);
      }
    }
  }

  lemma {:induction false} LayoutOfText(text: seq<Token>)
    requires forall i :: 0 <= i < |text| ==> text[i].IsText()
    ensures Layout(text) == Letters(ConcatCharacters(text))
    decreases |text|
  {
    if |text| > 0 {
      var init, t := text[..|text| - 1], text[|text| - 1];
      LayoutOfText(init);
      LettersConcat(ConcatCharacters(init), Characters(t));
    }
  }

  /** No two adjacent text tokens. */
  predicate NoAdjacentText(s: seq<Token>) {
    forall i :: 0 < i < |s| ==> !(s[i - 1].IsText() && s[i].IsText())
  }

  /**
   * Flushing a buffered run after written tokens that end in a non-text token keeps the
   * layout of both and puts no two text tokens side by side.
   */
  lemma FlushTail(out: seq<Token>, text: seq<Token>)
    requires forall i :: 0 <= i < |text| ==> text[i].IsText()
    requires NoAdjacentText(out) && (|out| > 0 ==> !out[|out| - 1].IsText())
    ensures Layout(out + FlushRun(text)) == Layout(out) + Layout(text)
    ensures NoAdjacentText(out + FlushRun(text))
  {
    FlushRunLayout(text);
    LayoutConcat(out, FlushRun(text));
  }

  lemma {:induction false} FlushRunLayout(text: seq<Token>)
    requires forall i :: 0 <= i < |text| ==> text[i].IsText()
    ensures Layout(FlushRun(text)) == Layout(text)
  {
    if |text| > 1 {
      var t := TextList(text);
      calc {
        Layout(FlushRun(text));
        Layout([t]);
        { LayoutSingle(t); }
        UnitsOf(t);
        Letters(ConcatCharacters(text));
        { LayoutOfText(text); }
        Layout(text);
      }
    }
  }

  lemma {:induction false} LayoutSingle(t: Token)
    ensures Layout([t]) == UnitsOf(t)
  {
    assert [t][..0] == [];
  }

  /** One step of the fold loop. */
  lemma FoldStateStep(s: seq<Token>)
    requires |s| > 0
    ensures var (out, text) := FoldState(s[..|s| - 1]);
            var t := s[|s| - 1];
            FoldState(s) == if t.IsText() then (out, text + [t]) else (out + FlushRun(text) + [t], [])
  {
  }

  /** The fold loop buffers only text, writes no two text tokens side by side, and writes a tag last. */
  lemma {:induction false} FoldStateShape(s: seq<Token>)
    ensures forall i :: 0 <= i < |FoldState(s).1| ==> FoldState(s).1[i].IsText()
    ensures NoAdjacentText(FoldState(s).0)
    ensures |FoldState(s).0| > 0 ==> !FoldState(s).0[|FoldState(s).0| - 1].IsText()
    decreases |s|
  {
    if |s| > 0 {
      FoldStateShape(s[..|s| - 1]);
      FoldStateStep(s);
    }
  }

  /** Buffering one more text token. */
  lemma {:induction false} BufferLayout(text: seq<Token>, t: Token)
    ensures Layout(text + [t]) == Layout(text) + UnitsOf(t)
  {
    assert (text + [t])[..|text|] == text;
  }

  /** Writing out the buffered run followed by a tag. */
  lemma {:induction false} WriteLayout(out: seq<Token>, text: seq<Token>, t: Token)
    requires forall i :: 0 <= i < |text| ==> text[i].IsText()
    ensures Layout(out + FlushRun(text) + [t]) == Layout(out) + Layout(text) + UnitsOf(t)
  {
    BufferLayout(out + FlushRun(text), t);
    LayoutConcat(out, FlushRun(text));
    FlushRunLayout(text);
  }

  /** What the fold loop keeps: the tokens written plus the buffer read the same as the input. */
  lemma {:induction false} FoldStateLayout(s: seq<Token>)
    ensures Layout(FoldState(s).0) + Layout(FoldState(s).1) == Layout(s)
    decreases |s|
  {
    if |s| > 0 {
      var init := s[..|s| - 1];
      var t := s[|s| - 1];
      FoldStateLayout(init);
      FoldStateStep(s);
      assert init + [t] == s;
      var out := FoldState(init).0;
      var text := FoldState(init).1;
      if t.IsText() {
        BufferStep(out, text, init, t);
      } else {
        FoldStateShape(init);
        WriteStep(out, text, init, t);
      }
    }
  }

  /** A text token goes to the buffer: the layout grows by its characters on both sides. */
  lemma BufferStep(out: seq<Token>, text: seq<Token>, init: seq<Token>, t: Token)
    requires Layout(out) + Layout(text) == Layout(init)
    ensures Layout(out) + Layout(text + [t]) == Layout(init + [t])
  {
    BufferLayout(text, t);
    BufferLayout(init, t);
    Associative(Layout(out), Layout(text), UnitsOf(t));
  }

  /** Any other token flushes the buffer and is written out after it. */
  lemma WriteStep(out: seq<Token>, text: seq<Token>, init: seq<Token>, t: Token)
    requires forall i :: 0 <= i < |text| ==> text[i].IsText()
    requires Layout(out) + Layout(text) == Layout(init)
    ensures Layout(out + FlushRun(text) + [t]) + Layout([]) == Layout(init + [t])
  {
    WriteLayout(out, text, t);
    BufferLayout(init, t);
    assert Layout(out + FlushRun(text) + [t]) + Layout([]) == Layout(out + FlushRun(text) + [t]);
  }

  /** A sequence with no two text tokens side by side is left as it is. */
  lemma {:induction false} FoldTextKeepsFolded(s: seq<Token>)
    requires NoAdjacentText(s)
    ensures FoldState(s).0 + FoldState(s).1 == s && |FoldState(s).1| <= 1
    ensures FoldText(s) == s
    decreases |s|
  {
    if |s| > 0 {
      var init := s[..|s| - 1];
      FoldTextKeepsFolded(init);
      if |s| > 1 && s[|s| - 1].IsText() {
        assert !s[|s| - 2].IsText();
        FoldStateShape(init);
        assert init[|init| - 1] == s[|s| - 2];
      }
    }
  }
}

=== FILE: text_only.dfy ===
/**
 * `TextOnlyProcessor`: diffs two lists of plain items. The common prefix and suffix are
 * matched outright (the private `Slicer`), and only the middle goes to a diff algorithm.
 */
module TextOnly {
  import opened Tokens
  import opened Operations
  import opened CommonSubsequence
  import Hirschberg

  /** The first `n` items of `a` and `b` are equal. */
  predicate CommonPrefix<T(==)>(a: seq<T>, b: seq<T>, n: nat) {
    n <= |a| && n <= |b| && a[..n] == b[..n]
  }

  /** The last `n` items of `a` and `b` are equal. */
  predicate CommonSuffix<T(==)>(a: seq<T>, b: seq<T>, n: nat) {
    n <= |a| && n <= |b| && a[|a| - n..] == b[|b| - n..]
  }

  /** Slicer.computeStart: the length of the longest common prefix. */
  method ComputeStart<T(==)>(a: seq<T>, b: seq<T>) returns (r: nat)
    ensures CommonPrefix(a, b, r)
    ensures r < |a| && r < |b| ==> a[r] != b[r]
  {
    r := 0;
    while r < |a| && r < |b|
      invariant CommonPrefix(a, b, r)
    {
      if b[r] == a[r] {
        assert a[..r + 1] == a[..r] + [a[r]] && b[..r + 1] == b[..r] + [b[r]];
        r := r + 1;
      } else {
        break;
      }
    }
  }

  /**
   * Slicer.sliceEnd: the length of the longest common suffix that leaves the first
   * `start` items of both lists alone.
   */
  method SliceEnd<T(==)>(a: seq<T>, b: seq<T>, start: nat) returns (r: nat)
    ensures CommonSuffix(a, b, r)
    ensures r == 0 || (start + r <= |a| && start + r <= |b|)
    ensures start + r < |a| && start + r < |b| ==> a[|a| - 1 - r] != b[|b| - 1 - r]
  {
    r := 0;
    while start + r < |a| && start + r < |b|
      invariant CommonSuffix(a, b, r)
      invariant r == 0 || (start + r <= |a| && start + r <= |b|)
    {
      if a[|a| - 1 - r] == b[|b| - 1 - r] {
        assert a[|a| - (r + 1)..] == [a[|a| - 1 - r]] + a[|a| - r..];
        assert b[|b| - (r + 1)..] == [b[|b| - 1 - r]] + b[|b| - r..];
        r := r + 1;
      } else {
        break;
      }
    }
  }

  /** Slicer.analyze: the prefix and suffix lengths; together they never exceed either list. */
  method Analyze<T(==)>(a: seq<T>, b: seq<T>) returns (startCount: nat, endCount: nat)
    ensures CommonPrefix(a, b, startCount) && CommonSuffix(a, b, endCount)
    ensures startCount + endCount <= |a| && startCount + endCount <= |b|
    ensures startCount < |a| && startCount < |b| ==> a[startCount] != b[startCount]
  {
    startCount := ComputeStart(a, b);
    endCount := SliceEnd(a, b, startCount);
  }

  /** Matching every item of `s` against itself aligns `s` with `s`. */
  lemma {:induction false} AllMatchAligns<T>(s: seq<T>, keepA: bool)
    ensures Aligns(Same, Hirschberg.AllAs(MATCH, s), s, s, keepA)
    ensures Count(Hirschberg.AllAs(MATCH, s), MATCH) == |s|
    decreases |s|
  {
    if |s| > 0 {
      assert Hirschberg.AllAs(MATCH, s)[1..] == Hirschberg.AllAs(MATCH, s[1..]);
      AllMatchAligns(s[1..], keepA);
    }
  }

  /** The middle of the diff: INS then DEL when one side is empty, else the Hirschberg diff. */
  method DiffMiddle<T(==)>(subA: seq<T>, subB: seq<T>) returns (ops: seq<Operation<T>>)
    ensures Aligns(Same, ops, subA, subB, false)
    ensures Count(ops, MATCH) == Lcs(Same, subA, subB)
    ensures |subA| == 0 || |subB| == 0 ==> ops == Hirschberg.AllAs(INS, subB) + Hirschberg.AllAs(DEL, subA)
  {
    if |subA| == 0 || |subB| == 0 {
      ops := Hirschberg.AllAs(INS, subB) + Hirschberg.AllAs(DEL, subA);
      Hirschberg.AllAsAligns(Same, subB, false);
      Hirschberg.AllAsAligns(Same, subA, false);
      AlignsConcat(Same, Hirschberg.AllAs(INS, subB), Hirschberg.AllAs(DEL, subA), [], subA, subB, [], false);
      assert [] + subA == subA && subB + [] == subB;
      CountConcat(Hirschberg.AllAs(INS, subB), Hirschberg.AllAs(DEL, subA), MATCH);
    } else {
      ops := Hirschberg.AlgorithmC(Same, subA, subB, false);
    }
  }

  /**
   * TextOnlyProcessor.diff: with an empty side, INS of all of `to` then DEL of all of
   * `from`; otherwise MATCH of the common prefix, the middle diff, MATCH of the common
   * suffix. The result rebuilds both lists and keeps a longest common subsequence.
   */
  method Diff<T(==)>(from: seq<T>, to: seq<T>) returns (ops: seq<Operation<T>>)
    ensures Aligns(Same, ops, from, to, false)
    ensures Generate(ops, false) == from && Generate(ops, true) == to
    ensures Count(ops, MATCH) == Lcs(Same, from, to)
    ensures |from| == 0 || |to| == 0 ==> ops == Hirschberg.AllAs(INS, to) + Hirschberg.AllAs(DEL, from)
    ensures |from| > 0 && |to| > 0 && from[0] == to[0] ==> ops[0] == Operation(MATCH, from[0])
  {
    if |from| == 0 || |to| == 0 {
      ops := DiffMiddle(from, to);
    } else {
      var startCount, endCount := Analyze(from, to);
      var prefix := from[..startCount];
      var suffix := from[|from| - endCount..];
      var subA := from[startCount..|from| - endCount];
      var subB := to[startCount..|to| - endCount];
      var middle := DiffMiddle(subA, subB);
      ops := Hirschberg.AllAs(MATCH, prefix) + middle + Hirschberg.AllAs(MATCH, suffix);
      SlicesAlign(from, to, startCount, endCount, middle);
      SlicesCount(from, to, startCount, endCount, middle);
      if from[0] == to[0] {
        assert startCount > 0;
      }
    }
    AlignsReconstructs(Same, ops, from, to);
    SimilarUnderEquality(from, Generate(ops, false));
  }

  /** MATCH of the common prefix, an alignment of the middles, MATCH of the common suffix align the whole lists. */
  lemma SlicesAlign<T>(from: seq<T>, to: seq<T>, s: nat, e: nat, middle: seq<Operation<T>>)
    requires CommonPrefix(from, to, s) && CommonSuffix(from, to, e)
    requires s + e <= |from| && s + e <= |to|
    requires Aligns(Same, middle, from[s..|from| - e], to[s..|to| - e], false)
    ensures Aligns(Same, Hirschberg.AllAs(MATCH, from[..s]) + middle + Hirschberg.AllAs(MATCH, from[|from| - e..]), from, to, false)
  {
    var prefix, suffix := from[..s], from[|from| - e..];
    var subA, subB := from[s..|from| - e], to[s..|to| - e];
    AllMatchAligns(prefix, false);
    AllMatchAligns(suffix, false);
    AlignsConcat(Same, Hirschberg.AllAs(MATCH, prefix), middle, prefix, subA, prefix, subB, false);
    AlignsConcat(Same, Hirschberg.AllAs(MATCH, prefix) + middle, Hirschberg.AllAs(MATCH, suffix),
                 prefix + subA, suffix, prefix + subB, suffix, false);
    Rejoin(from, s, e);
    Rejoin(to, s, e);
  }

  /** A list is its first `s` items, its middle and its last `e` items. */
  lemma Rejoin<T>(x: seq<T>, s: nat, e: nat)
    requires s + e <= |x|
    ensures x[..s] + x[s..|x| - e] + x[|x| - e..] == x
  {
  }

  /** The matches of such a diff add up to the LCS length of the whole lists. */
  lemma SlicesCount<T>(from: seq<T>, to: seq<T>, s: nat, e: nat, middle: seq<Operation<T>>)
    requires CommonPrefix(from, to, s) && CommonSuffix(from, to, e)
    requires s + e <= |from| && s + e <= |to|
    requires Count(middle, MATCH) == Lcs(Same, from[s..|from| - e], to[s..|to| - e])
    ensures Count(Hirschberg.AllAs(MATCH, from[..s]) + middle + Hirschberg.AllAs(MATCH, from[|from| - e..]), MATCH)
            == Lcs(Same, from, to)
  {
    var prefix, suffix := from[..s], from[|from| - e..];
    AllMatchAligns(prefix, false);
    AllMatchAligns(suffix, false);
    CountConcat(Hirschberg.AllAs(MATCH, prefix), middle, MATCH);
    CountConcat(Hirschberg.AllAs(MATCH, prefix) + middle, Hirschberg.AllAs(MATCH, suffix), MATCH);
    SlicesLcs(from, to, s, e);
  }

  /** The LCS of the whole lists is the common prefix, the LCS of the middles and the common suffix. */
  lemma SlicesLcs<T>(from: seq<T>, to: seq<T>, s: nat, e: nat)
    requires CommonPrefix(from, to, s) && CommonSuffix(from, to, e)
    requires s + e <= |from| && s + e <= |to|
    ensures Lcs(Same, from, to) == s + Lcs(Same, from[s..|from| - e], to[s..|to| - e]) + e
  {
    PrefixSame(from, to, s);
    CommonPrefixLcs(Same, from, to, s);
    var restA, restB := from[s..], to[s..];
    SuffixSame(from, to, s, e);
    CommonSuffixLcs(Same, restA, restB, e);
    assert restA[..|restA| - e] == from[s..|from| - e];
    assert restB[..|restB| - e] == to[s..|to| - e];
  }

  /** The common prefix, item by item. */
  lemma PrefixSame<T>(from: seq<T>, to: seq<T>, s: nat)
    requires CommonPrefix(from, to, s)
    ensures forall k :: 0 <= k < s ==> Same(from[k], to[k])
  {
    forall k | 0 <= k < s ensures Same(from[k], to[k]) {
      assert from[k] == from[..s][k] && to[k] == to[..s][k];
    }
  }

  /** The common suffix survives cutting off the common prefix. */
  lemma SuffixSame<T>(from: seq<T>, to: seq<T>, s: nat, e: nat)
    requires CommonSuffix(from, to, e)
    requires s + e <= |from| && s + e <= |to|
    ensures forall i | |from| - s - e <= i < |from| - s :: Same(from[s..][i], to[s..][i - |from| + |to|])
  {
    forall i | |from| - s - e <= i < |from| - s ensures Same(from[s..][i], to[s..][i - |from| + |to|]) {
      assert from[s..][i] == from[|from| - e..][s + i - (|from| - e)];
      assert to[s..][i - |from| + |to|] == to[|to| - e..][s + i - (|from| - e)];
    }
  }
}

=== FILE: token_list_slicer.dfy ===
/**
 * `TokenListSlicer`: cuts the common start and end off two token lists before an XML
 * diff, but only at points where the common part is a run of whole top-level branches
 * (the element depth is 0 or 1 there), so that the middle stays diffable as XML.
 */
module TokenSlicing {
  import opened Tokens
  import opened Operations
  import Hirschberg

  /** The change in element depth a token makes, read left to right. */
  function Delta(t: Token): int {
    if t.Start? then 1 else if t.End? then -1 else 0
  }

  /** The running depth at the end of `s`: start tags minus end tags. */
  function Depth(s: seq<Token>): int {
    if |s| == 0 then 0 else Depth(s[..|s| - 1]) + Delta(s[|s| - 1])
  }

  /** The depth read right to left, as the end slicer counts it: end tags minus start tags. */
  function EndDepth(s: seq<Token>): int {
    if |s| == 0 then 0 else EndDepth(s[1..]) - Delta(s[0])
  }

  /** The last `n` tokens of `s`. */
  function LastN(s: seq<Token>, n: nat): (r: seq<Token>)
    requires n <= |s|
    ensures |r| == n && s == s[..|s| - n] + r
  {
    s[|s| - n..]
  }

  /** The end depth of the last `n` tokens of `s`, accumulated from the end as sliceEnd does. */
  function SuffixDepth(s: seq<Token>, n: nat): int
    requires n <= |s|
  {
    if n == 0 then 0 else SuffixDepth(s, n - 1) - Delta(s[|s| - n])
  }

  /** Accumulating from the end gives the end depth of the last `n` tokens. */
  lemma {:induction false} SuffixDepthIsEndDepth(s: seq<Token>, n: nat)
    requires n <= |s|
    ensures SuffixDepth(s, n) == EndDepth(LastN(s, n))
  {
    if n > 0 {
      SuffixDepthIsEndDepth(s, n - 1);
      assert LastN(s, n)[1..] == LastN(s, n - 1);
    }
  }

  /** Depth 0 or 1: whole branches under the document element. */
  predicate Shallow(d: int) { d == 0 || d == 1 }

  /** The first `n` tokens of `b` equal those of `a`. */
  predicate AgreeUpTo(a: seq<Token>, b: seq<Token>, n: nat) {
    n <= |a| && n <= |b| && forall k :: 0 <= k < n ==> Equals(b[k], a[k])
  }

  /** The last `n` tokens of `a` equal those of `b`. */
  predicate AgreeAtEnd(a: seq<Token>, b: seq<Token>, n: nat) {
    n <= |a| && n <= |b| && forall i :: |a| - n <= i < |a| ==> Equals(a[i], b[i - |a| + |b|])
  }

  /**
   * computeStart: the longest common prefix that ends at depth 0 or 1, or 0 when no such
   * prefix is non-empty.
   */
  method ComputeStart(a: seq<Token>, b: seq<Token>) returns (r: nat)
    ensures AgreeUpTo(a, b, r)
    ensures r == 0 || Shallow(Depth(a[..r]))
    ensures forall c :: r < c && AgreeUpTo(a, b, c) ==> !Shallow(Depth(a[..c]))
  {
    var toBeRemoved := 0;
    var depth := 0;
    var counter := 0;
    while counter < |a| && counter < |b|
      invariant AgreeUpTo(a, b, counter)
      invariant depth == Depth(a[..counter])
      invariant toBeRemoved <= counter
      invariant toBeRemoved == 0 || Shallow(Depth(a[..toBeRemoved]))
      invariant forall c :: toBeRemoved < c <= counter ==> !Shallow(Depth(a[..c]))
    {
      var token := a[counter];
      if Equals(b[counter], token) {
        assert a[..counter + 1][..counter] == a[..counter];
        counter := counter + 1;
        if token.Start? {
          depth := depth + 1;
        } else if token.End? {
          depth := depth - 1;
        }
        if depth == 1 || depth == 0 {
          toBeRemoved := counter;
        }
      } else {
        break;
      }
    }
    assert counter == |a| || counter == |b| || !Equals(b[counter], a[counter]);
    r := toBeRemoved;
  }

  /**
   * sliceEnd: the longest common suffix that stops at depth 0 or 1 counted from the end
   * and leaves the first `start` tokens of both lists alone, or 0.
   */
  method SliceEnd(a: seq<Token>, b: seq<Token>, start: nat) returns (r: nat)
    ensures AgreeAtEnd(a, b, r)
    ensures r == 0 || (start + r <= |a| && start + r <= |b|)
    ensures r == 0 || Shallow(SuffixDepth(a, r))
    ensures forall c :: r < c && start + c <= |a| && start + c <= |b| && AgreeAtEnd(a, b, c) ==>
              !Shallow(SuffixDepth(a, c))
  {
    var depth := 0;
    var toBeRemoved := 0;
    var counter := 0;
    while start + counter < |a| && start + counter < |b|
      invariant AgreeAtEnd(a, b, counter)
      invariant counter == 0 || (start + counter <= |a| && start + counter <= |b|)
      invariant depth == SuffixDepth(a, counter)
      invariant toBeRemoved <= counter
      invariant toBeRemoved == 0 || Shallow(SuffixDepth(a, toBeRemoved))
      invariant forall c :: toBeRemoved < c <= counter ==> !Shallow(SuffixDepth(a, c))
    {
      var token := a[|a| - 1 - counter];
      if Equals(token, b[|b| - 1 - counter]) {
        EndStep(a, b, counter);
        counter := counter + 1;
        if token.End? {
          depth := depth + 1;
        } else if token.Start? {
          depth := depth - 1;
        }
        if depth == 1 || depth == 0 {
          toBeRemoved := counter;
        }
      } else {
        break;
      }
    }
    if start + counter < |a| && start + counter < |b| {
      EndStops(a, b, counter);
    }
    r := toBeRemoved;
  }

  /** A disagreement `n` tokens from the end rules out every longer common suffix. */
  lemma EndStops(a: seq<Token>, b: seq<Token>, n: nat)
    requires n < |a| && n < |b| && !Equals(a[|a| - 1 - n], b[|b| - 1 - n])
    ensures forall c :: n < c ==> !AgreeAtEnd(a, b, c)
  {
    var i := |a| - 1 - n;
    assert i - |a| + |b| == |b| - 1 - n;
    assert !Equals(a[i], b[i - |a| + |b|]);
    forall c | n < c ensures !AgreeAtEnd(a, b, c) {
      assert |a| - c <= i < |a|;
    }
  }

  /** One more agreeing token at the end extends the agreement. */
  lemma EndStep(a: seq<Token>, b: seq<Token>, n: nat)
    requires AgreeAtEnd(a, b, n) && n < |a| && n < |b|
    requires Equals(a[|a| - 1 - n], b[|b| - 1 - n])
    ensures AgreeAtEnd(a, b, n + 1)
  {
  }

  /** What computeStart returns: the longest common prefix ending at depth 0 or 1, or 0. */
  ghost predicate IsStart(a: seq<Token>, b: seq<Token>, r: nat) {
    && AgreeUpTo(a, b, r)
    && (r == 0 || Shallow(Depth(a[..r])))
    && forall c :: r < c && AgreeUpTo(a, b, c) ==> !Shallow(Depth(a[..c]))
  }

  /** What sliceEnd returns after a start of `start` tokens: the longest shallow common suffix clear of it, or 0. */
  ghost predicate IsEnd(a: seq<Token>, b: seq<Token>, start: nat, r: nat) {
    && AgreeAtEnd(a, b, r)
    && (r == 0 || (start + r <= |a| && start + r <= |b|))
    && (r == 0 || Shallow(SuffixDepth(a, r)))
    && forall c :: r < c && start + c <= |a| && start + c <= |b| && AgreeAtEnd(a, b, c) ==>
         !Shallow(SuffixDepth(a, c))
  }

  /** The slicer's counts are determined by the two lists: there is one start and, after it, one end. */
  lemma SlicingUnique(a: seq<Token>, b: seq<Token>, s1: nat, e1: nat, s2: nat, e2: nat)
    requires IsStart(a, b, s1) && IsEnd(a, b, s1, e1)
    requires IsStart(a, b, s2) && IsEnd(a, b, s2, e2)
    ensures s1 == s2 && e1 == e2
  {
  }

  /** analyze: the start and end counts; the sliced start and end never overlap. */
  method Analyze(a: seq<Token>, b: seq<Token>) returns (startCount: nat, endCount: nat)
    ensures AgreeUpTo(a, b, startCount) && AgreeAtEnd(a, b, endCount)
    ensures startCount + endCount <= |a| && startCount + endCount <= |b|
    ensures startCount == 0 || Shallow(Depth(a[..startCount]))
    ensures endCount == 0 || Shallow(SuffixDepth(a, endCount))
    ensures IsStart(a, b, startCount) && IsEnd(a, b, startCount, endCount)
  {
    startCount := ComputeStart(a, b);
    endCount := SliceEnd(a, b, startCount);
  }

  /** getSubSequence1 / getSubSequence2: what is left between the sliced start and end. */
  function SubSequence(s: seq<Token>, startCount: nat, endCount: nat): (r: seq<Token>)
    requires startCount + endCount <= |s|
    ensures |r| == |s| - startCount - endCount
    ensures s == s[..startCount] + r + s[|s| - endCount..]
  {
    s[startCount..|s| - endCount]
  }

  /** handleStart: the sliced start, as MATCH operations on the first list's tokens. */
  function HandleStart(a: seq<Token>, startCount: nat): (r: seq<Event>)
    requires startCount <= |a|
    ensures Generate(r, true) == a[..startCount] && Generate(r, false) == a[..startCount]
    ensures Count(r, MATCH) == |r| == startCount
  {
    AllMatch(a[..startCount])
  }

  /** handleEnd: the sliced end, as MATCH operations on the first list's tokens. */
  function HandleEnd(a: seq<Token>, endCount: nat): (r: seq<Event>)
    requires endCount <= |a|
    ensures Generate(r, true) == a[|a| - endCount..] && Generate(r, false) == a[|a| - endCount..]
    ensures Count(r, MATCH) == |r| == endCount
  {
    AllMatch(a[|a| - endCount..])
  }

  type Event = Operation<Token>

  /** Every token of `s` as a MATCH. */
  function AllMatch(s: seq<Token>): (r: seq<Event>)
    ensures r == Hirschberg.AllAs(MATCH, s)
    ensures Generate(r, true) == s && Generate(r, false) == s && Count(r, MATCH) == |s|
    decreases |s|
  {
    if |s| == 0 then []
    else
      var r := [Operation(MATCH, s[0])] + AllMatch(s[1..]);
      assert r[1..] == AllMatch(s[1..]);
      r
  }
}

=== FILE: tokens.dfy ===
/**
 * The token model of Diff-X: the closed set of XML tokens both documents are linearised
 * into, the edit operators, and the Java equality, matching and hash codes of the tokens.
 */
module Tokens {
  import opened Outcomes

  /** The edit operator attached to a token in a diff. */
  datatype Operator = MATCH | INS | DEL {
    /** INS and DEL swap; MATCH stays MATCH. */
    function Flip(): (r: Operator)
      ensures r.MATCH? <==> this.MATCH?
      ensures this != MATCH ==> r != this
    {
      match this
      case MATCH => MATCH
      case INS => DEL
      case DEL => INS
    }
  }

  /** Flipping twice gives the operator back. */
  lemma FlipInvolutive(op: Operator)
    ensures op.Flip().Flip() == op
  {
  }

  /** The identity of an opening tag: namespace URI and local name. */
  datatype StartTag = StartTag(uri: string, name: string)

  /**
   * An XML token. `End` keeps the start tag it closes; `Element` is a folded element
   * (start tag, closing tag, content); `TextList` is a run of text tokens folded together;
   * `Other` stands for comments and processing instructions.
   */
  datatype Token =
    | Start(tag: StartTag)
    | End(open: StartTag)
    | Attribute(uri: string, name: string, value: string)
    | Text(chars: string)
    | IgnorableSpace(chars: string)
    | TextList(parts: seq<Token>)
    | Element(start: StartTag, close: StartTag, content: seq<Token>)
    | Other(kind: string, data: string)
  {
    /** Whether the token is a text token (its Java type is TEXT). */
    predicate IsText() {
      Text? || IgnorableSpace? || TextList?
    }
  }

  /** The characters of a text token; non-text tokens have none. */
  function Characters(t: Token): string
  {
    match t
    case Text(c) => c
    case IgnorableSpace(c) => c
    case TextList(parts) => ConcatCharacters(parts)
    case _ => ""
  }

  /** The characters of a list of tokens, concatenated in order. */
  function ConcatCharacters(ts: seq<Token>): string
    decreases ts
  {
    if |ts| == 0 then "" else ConcatCharacters(ts[..|ts| - 1]) + Characters(ts[|ts| - 1])
  }

  /** `Character.isWhitespace` of Java, over the characters it accepts. */
  predicate IsWhitespaceChar(c: char) {
    || c == ' ' || c == '\t' || c == '\n' || c == '\r'
    || c == '\U{000B}' || c == '\U{000C}'
    || ('\U{001C}' <= c <= '\U{001F}')
    || c == '\U{1680}' || ('\U{2000}' <= c <= '\U{2006}') || ('\U{2008}' <= c <= '\U{200A}')
    || c == '\U{2028}' || c == '\U{2029}' || c == '\U{205F}' || c == '\U{3000}'
  }

  /**
   * `isWhitespace()` of a token: an ignorable space always is; another text token is when
   * every character is whitespace; no other token is.
   */
  predicate IsWhitespace(t: Token)
    ensures IsWhitespace(t) ==> t.IsText()
    ensures t.IsText() && Characters(t) == "" ==> IsWhitespace(t)
  {
    if t.IgnorableSpace? then true
    else t.IsText() && forall i :: 0 <= i < |Characters(t)| ==> IsWhitespaceChar(Characters(t)[i])
  }

  /** `EndElementToken.match(StartElementToken)`: false for null, else same URI and name. */
  predicate MatchesStart(open: StartTag, start: Option<StartTag>) {
    start.Some? && start.value.uri == open.uri && start.value.name == open.name
  }

  /** The end token that closes `tag` (`new XMLEndElement(tag)`). */
  function EndOf(tag: StartTag): (r: Token)
    ensures r.End? && MatchesStart(r.open, Some(tag))
  {
    End(tag)
  }

  /**
   * The part of a token that Java `equals` looks at: the characters of an ignorable space
   * and the closing tag of a folded element are blanked, inside text lists and element
   * content too.
   */
  function Normal(t: Token): (r: Token)
    decreases t
  {
    match t
    case IgnorableSpace(_) => IgnorableSpace("")
    case TextList(ps) => TextList(seq(|ps|, i requires 0 <= i < |ps| => Normal(ps[i])))
    case Element(s, _, cs) => Element(s, s, seq(|cs|, i requires 0 <= i < |cs| => Normal(cs[i])))
    case _ => t
  }

  /** Two text lists have the same normal form exactly when their parts do, one by one. */
  lemma NormalParts(ps: seq<Token>, qs: seq<Token>)
    ensures Normal(TextList(ps)) == Normal(TextList(qs)) <==>
              |ps| == |qs| && forall i :: 0 <= i < |ps| ==> Normal(ps[i]) == Normal(qs[i])
  {
    var np, nq := Normal(TextList(ps)).parts, Normal(TextList(qs)).parts;
    assert |np| == |ps| && forall i :: 0 <= i < |ps| ==> np[i] == Normal(ps[i]);
    assert |nq| == |qs| && forall i :: 0 <= i < |qs| ==> nq[i] == Normal(qs[i]);
    if |ps| == |qs| && forall i :: 0 <= i < |ps| ==> Normal(ps[i]) == Normal(qs[i]) {
      assert np == nq;
    }
  }

  /** Two folded elements with the same start tag have the same normal form exactly when their contents do, one by one. */
  lemma NormalContent(s: StartTag, c: StartTag, d: StartTag, ps: seq<Token>, qs: seq<Token>)
    ensures Normal(Element(s, c, ps)) == Normal(Element(s, d, qs)) <==>
              |ps| == |qs| && forall i :: 0 <= i < |ps| ==> Normal(ps[i]) == Normal(qs[i])
  {
    var np, nq := Normal(Element(s, c, ps)).content, Normal(Element(s, d, qs)).content;
    assert |np| == |ps| && forall i :: 0 <= i < |ps| ==> np[i] == Normal(ps[i]);
    assert |nq| == |qs| && forall i :: 0 <= i < |qs| ==> nq[i] == Normal(qs[i]);
    if |ps| == |qs| && forall i :: 0 <= i < |ps| ==> Normal(ps[i]) == Normal(qs[i]) {
      assert np == nq;
    }
  }

  /**
   * Java `equals` between tokens. Any two ignorable spaces are equal whatever their
   * characters; end tags compare URI and name; text compares characters; a folded element
   * compares its start tag and its content token by token.
   */
  predicate Equals(a: Token, b: Token)
    ensures Equals(a, b) <==> Normal(a) == Normal(b)
    decreases a
  {
    match a
    case Start(t) => b.Start? && b.tag == t
    case End(o) => b.End? && b.open.uri == o.uri && b.open.name == o.name
    case Attribute(u, n, v) => b.Attribute? && b.uri == u && b.name == n && b.value == v
    case Text(c) => b.Text? && b.chars == c
    case IgnorableSpace(_) => b.IgnorableSpace?
    case TextList(ps) =>
      if b.TextList? then
        NormalParts(ps, b.parts);
        |b.parts| == |ps| && forall i :: 0 <= i < |ps| ==> Equals(ps[i], b.parts[i])
      else false
    case Element(s, c, cs) =>
      if b.Element? && b.start == s then
        NormalContent(s, c, b.close, cs, b.content);
        |b.content| == |cs| && forall i :: 0 <= i < |cs| ==> Equals(cs[i], b.content[i])
      else false
    case Other(k, d) => b == a
  }

  /** Equals is reflexive, being the equality of normal forms. */
  lemma EqualsReflexive(a: Token)
    ensures Equals(a, a)
  {
  }

  /** Equals is symmetric, being the equality of normal forms. */
  lemma EqualsSymmetric(a: Token, b: Token)
    requires Equals(a, b)
    ensures Equals(b, a)
  {
  }

  /** Equals is transitive, being the equality of normal forms. */
  lemma EqualsTransitive(a: Token, b: Token, c: Token)
    requires Equals(a, b) && Equals(b, c)
    ensures Equals(a, c)
  {
  }

  // Java int arithmetic ----------------------------------------------------------------

  const TWO_TO_THE_31: int := 0x8000_0000
  const TWO_TO_THE_32: int := 0x1_0000_0000

  /** A Java `int`: a 32-bit two's complement value. */
  predicate IsInt32(x: int) {
    -TWO_TO_THE_31 <= x < TWO_TO_THE_31
  }

  /** Reduces an unbounded integer to the Java `int` it wraps around to. */
  function Wrap32(x: int): (r: int)
    ensures IsInt32(r)
    ensures (r - x) % TWO_TO_THE_32 == 0
    ensures IsInt32(x) ==> r == x
  {
    (x + TWO_TO_THE_31) % TWO_TO_THE_32 - TWO_TO_THE_31
  }

  /**
   * The UTF-16 code units of one character: the character itself below U+10000, otherwise
   * its high and low surrogates.
   */
  function CodeUnits(c: char): (r: seq<int>)
    ensures 1 <= |r| <= 2 && (|r| == 1 <==> c as int < 0x1_0000)
    ensures forall k :: 0 <= k < |r| ==> 0 <= r[k] < 0x1_0000
    ensures |r| == 1 ==> r[0] == c as int
    ensures |r| == 2 ==> && 0xD800 <= r[0] < 0xDC00 && 0xDC00 <= r[1] < 0xE000
                         && 0x1_0000 + (r[0] - 0xD800) * 0x400 + (r[1] - 0xDC00) == c as int
  {
    var v := c as int;
    if v < 0x1_0000 then [v] else [0xD800 + (v - 0x1_0000) / 0x400, 0xDC00 + (v - 0x1_0000) % 0x400]
  }

  /** The UTF-16 encoding of a string, the `char`s a Java string holds. */
  function Utf16(s: string): (r: seq<int>)
    decreases |s|
  {
    if |s| == 0 then [] else Utf16(s[..|s| - 1]) + CodeUnits(s[|s| - 1])
  }

  /** h = 31 * h + u over the code units, wrapping at 32 bits. */
  function UnitsHash(units: seq<int>): (r: int)
    ensures IsInt32(r)
    decreases |units|
  {
    if |units| == 0 then 0 else Wrap32(31 * UnitsHash(units[..|units| - 1]) + units[|units| - 1])
  }

  /** `String.hashCode`: the polynomial hash of the string's UTF-16 code units. */
  function StringHash(s: string): (r: int)
    ensures IsInt32(r)
  {
    UnitsHash(Utf16(s))
  }

  /**
   * Appending a character below U+10000 takes one step of the hash; appending one above
   * takes two, one per surrogate.
   */
  lemma StringHashAppend(s: string, c: char)
    ensures c as int < 0x1_0000 ==> StringHash(s + [c]) == Wrap32(31 * StringHash(s) + c as int)
    ensures c as int >= 0x1_0000 ==>
              StringHash(s + [c]) == Wrap32(31 * Wrap32(31 * StringHash(s) + CodeUnits(c)[0]) + CodeUnits(c)[1])
  {
    if c as int >= 0x1_0000 {
      StringHashAppendPair(s, c);
    } else {
      StringHashAppendUnit(s, c);
    }
  }

  lemma StringHashAppendUnit(s: string, c: char)
    requires c as int < 0x1_0000
    ensures StringHash(s + [c]) == Wrap32(31 * StringHash(s) + c as int)
  {
    Utf16Append(s, c);
    UnitsHashAppend(Utf16(s), c as int);
  }

  lemma StringHashAppendPair(s: string, c: char)
    requires c as int >= 0x1_0000
    ensures StringHash(s + [c]) == Wrap32(31 * Wrap32(31 * StringHash(s) + CodeUnits(c)[0]) + CodeUnits(c)[1])
  {
    Utf16AppendPair(s, c);
    UnitsHashTwo(Utf16(s), CodeUnits(c)[0], CodeUnits(c)[1]);
  }

  /** Above U+FFFF a character appends its high and then its low surrogate. */
  lemma Utf16AppendPair(s: string, c: char)
    requires c as int >= 0x1_0000
    ensures Utf16(s + [c]) == Utf16(s) + [CodeUnits(c)[0]] + [CodeUnits(c)[1]]
  {
    Utf16Append(s, c);
    var cu := CodeUnits(c);
    assert cu == [cu[0]] + [cu[1]];
  }

  /** Two more code units take two steps of the hash. */
  lemma UnitsHashTwo(units: seq<int>, x: int, y: int)
    ensures UnitsHash(units + [x] + [y]) == Wrap32(31 * Wrap32(31 * UnitsHash(units) + x) + y)
  {
    UnitsHashAppend(units, x);
    UnitsHashAppend(units + [x], y);
  }

  /** The code units of a string with one more character end in that character's units. */
  lemma Utf16Append(s: string, c: char)
    ensures Utf16(s + [c]) == Utf16(s) + CodeUnits(c)
  {
    assert (s + [c])[..|s + [c]| - 1] == s;
  }

  /** One more code unit takes one step of the hash. */
  lemma UnitsHashAppend(units: seq<int>, x: int)
    ensures UnitsHash(units + [x]) == Wrap32(31 * UnitsHash(units) + x)
  {
    assert (units + [x])[..|units|] == units;
  }

  /** A character outside the basic plane hashes through its surrogate pair, as Java does: "\uD83D\uDE00" gives 1772899. */
  lemma StringHashSurrogatePair()
    ensures CodeUnits('\U{1F600}') == [0xD83D, 0xDE00]
    ensures StringHash("\U{1F600}") == 31 * 0xD83D + 0xDE00 == 1772899
  {
    assert "\U{1F600}"[..0] == [];
    assert Utf16("\U{1F600}") == [0xD83D, 0xDE00];
    assert [0xD83D, 0xDE00][..1] == [0xD83D];
    assert [0xD83D][..0] == [];
  }

  /** `XMLStartElement.hashCode`: 107, then times 13 plus the URI hash, then times 13 plus the name hash. */
  function StartHash(t: StartTag): (r: int)
    ensures IsInt32(r)
  {
    Wrap32(Wrap32(Wrap32(107 * 13) + StringHash(t.uri)) * 13 + StringHash(t.name))
  }

  /** The hash code of an ignorable space is the constant 71. */
  const IGNORABLE_SPACE_HASH: int := 71

  /**
   * `hashCode()` of the tokens whose classes define it: start tags, end tags (89 plus the
   * open element's hash) and ignorable spaces. Other classes are not part of this model.
   */
  function HashCode(t: Token): (r: Option<int>)
    ensures r.Some? <==> t.Start? || t.End? || t.IgnorableSpace?
    ensures r.Some? ==> IsInt32(r.value)
  {
    match t
    case Start(tag) => Some(StartHash(tag))
    case End(o) => Some(Wrap32(89 + StartHash(o)))
    case IgnorableSpace(_) => Some(IGNORABLE_SPACE_HASH)
    case _ => None
  }

  /** Equal tokens have equal hash codes, and every hash code is a Java int. */
  lemma HashCodeConsistent(a: Token, b: Token)
    requires Equals(a, b) && HashCode(a).Some?
    ensures HashCode(b) == HashCode(a)
    ensures IsInt32(HashCode(a).value)
  {
    if a.End? {
      assert b.open == a.open;
    }
  }

  /** A start tag and its end tag are never equal and never hash alike: the shift by 89 never wraps back to 0. */
  lemma StartEndHashesDiffer(o: StartTag)
    ensures !Equals(Start(o), End(o))
    ensures HashCode(End(o)).value != HashCode(Start(o)).value
  {
    var h := StartHash(o);
    assert (Wrap32(89 + h) - (89 + h)) % TWO_TO_THE_32 == 0;
  }
}

=== FILE: whitespace_stripper.dfy ===
/**
 * `WhitespaceStrippers`: removal of whitespace text inside chosen elements.
 *
 * The stripper keeps a set of start tags. Walking a token list, it tracks the open
 * elements on a stack; a whitespace text token is dropped when the innermost open element
 * is one of the chosen tags, and every other token is kept. An end token pops the stack
 * whatever element it closes, and popping an empty stack throws.
 */
module WhitespaceStrippers {
  import opened Outcomes
  import opened Tokens
  import opened Namespaces

  // Configuration ---------------------------------------------------------------------------

  /** The elements to ignore: the named elements in the namespace `ns`. */
  function ElementsToIgnore(ns: Namespace, names: seq<string>): (r: set<StartTag>)
    ensures forall t :: t in r <==> t.uri == ns.uri && t.name in names
  {
    set name | name in names :: StartTag(ns.uri, name)
  }

  /** The elements to ignore when they are named without a namespace. */
  function ElementsToIgnoreByName(names: seq<string>): (r: set<StartTag>)
    ensures forall t :: t in r <==> t.uri == "" && t.name in names
  {
    ElementsToIgnore(NO_NAMESPACE, names)
  }

  // Reference definition --------------------------------------------------------------------

  /** The open elements after one token, or `None` when an end token finds none open. */
  function Step(context: seq<StartTag>, t: Token): Option<seq<StartTag>>
  {
    match t
    case Start(tag) => Some(context + [tag])
    case End(_) => if |context| == 0 then None else Some(context[..|context| - 1])
    case _ => Some(context)
  }

  /** The open elements, innermost last, after the tokens `s`; `None` once an end token found none open. */
  function Context(s: seq<Token>): Option<seq<StartTag>>
    decreases |s|
  {
    if |s| == 0 then Some([])
    else match Context(s[..|s| - 1])
      case None => None
      case Some(c) => Step(c, s[|s| - 1])
  }

  /** A token is dropped when it is whitespace text and the innermost open element is ignored. */
  predicate Ignorable(ignore: set<StartTag>, context: seq<StartTag>, t: Token) {
    t.IsText() && |context| > 0 && context[|context| - 1] in ignore && IsWhitespace(t)
  }

  /** The tokens of `s` that are not ignorable where they occur, in order. */
  function Kept(ignore: set<StartTag>, s: seq<Token>): seq<Token>
    requires Context(s).Some?
    decreases |s|
  {
    if |s| == 0 then []
    else
      var init := s[..|s| - 1];
      assert Context(init).Some?;
      Kept(ignore, init) + (if Ignorable(ignore, Context(init).value, s[|s| - 1]) then [] else [s[|s| - 1]])
  }

  /** Once an end token has found no element open, the walk stays failed. */
  lemma {:induction false} FailureStays(s: seq<Token>, k: nat)
    requires k <= |s| && Context(s[..k]).None?
    ensures Context(s).None?
    decreases |s| - k
  {
    if k < |s| {
      assert s[..k + 1][..k] == s[..k];
      FailureStays(s, k + 1);
    } else {
      assert s[..k] == s;
    }
  }

  // The walk --------------------------------------------------------------------------------

  /**
   * strip: the tokens of `tokens` without the ignorable whitespace, or the exception of an end
   * token that pops an empty context.
   */
  method Strip(ignore: set<StartTag>, tokens: seq<Token>) returns (r: Result<seq<Token>>)
    ensures r.Success? <==> Context(tokens).Some?
    ensures r.Success? ==> r.value == Kept(ignore, tokens)
    ensures r.Failure? ==> r.error == NoSuchElement
  {
    var context: seq<StartTag> := [];
    var ignorableContext := false;
    var stripped: seq<Token> := [];
    var i := 0;
    while i < |tokens|
      invariant 0 <= i <= |tokens|
      invariant Context(tokens[..i]) == Some(context)
      invariant ignorableContext == (|context| > 0 && context[|context| - 1] in ignore)
      invariant stripped == Kept(ignore, tokens[..i])
    {
      var token := tokens[i];
      assert tokens[..i + 1][..i] == tokens[..i];
      var keep := true;
      if token.Start? {
        context := context + [token.tag];
        ignorableContext := token.tag in ignore;
      } else if token.End? {
        if |context| == 0 {
          FailureStays(tokens, i + 1);
          return Failure(NoSuchElement);
        }
        context := context[..|context| - 1];
        ignorableContext := |context| > 0 && context[|context| - 1] in ignore;
      } else if token.IsText() && ignorableContext && IsWhitespace(token) {
        keep := false;
      }
      if keep {
        stripped := stripped + [token];
      }
      i := i + 1;
    }
    assert tokens[..i] == tokens;
    r := Success(stripped);
  }

  // Properties ------------------------------------------------------------------------------

  /** The tokens that are not whitespace text, in order. */
  function Solid(s: seq<Token>): seq<Token>
    decreases |s|
  {
    if |s| == 0 then []
    else Solid(s[..|s| - 1]) + (if s[|s| - 1].IsText() && IsWhitespace(s[|s| - 1]) then [] else [s[|s| - 1]])
  }

  /** The tokens that are not text, in order. */
  function NonText(s: seq<Token>): seq<Token>
    decreases |s|
  {
    if |s| == 0 then [] else NonText(s[..|s| - 1]) + (if s[|s| - 1].IsText() then [] else [s[|s| - 1]])
  }

  /** `x` is `y` with some tokens removed, the rest in order. */
  predicate IsSubsequence(x: seq<Token>, y: seq<Token>)
    decreases |y|
  {
    if |x| == 0 then true
    else if |y| == 0 then false
    else if x[|x| - 1] == y[|y| - 1] then IsSubsequence(x[..|x| - 1], y[..|y| - 1])
    else IsSubsequence(x, y[..|y| - 1])
  }

  /** Appending a token to the longer list keeps a subsequence. */
  lemma {:induction false} SubsequenceExtend(x: seq<Token>, y: seq<Token>, t: Token)
    requires IsSubsequence(x, y)
    ensures IsSubsequence(x, y + [t])
    decreases |x| + |y|, 1
  {
    var y' := y + [t];
    assert y'[..|y'| - 1] == y;
    if |x| > 0 && x[|x| - 1] == t {
      SubsequenceDropLast(x, y);
    }
  }

  /** Dropping the last token of the shorter list keeps a subsequence. */
  lemma {:induction false} SubsequenceDropLast(x: seq<Token>, y: seq<Token>)
    requires |x| > 0 && IsSubsequence(x, y)
    ensures IsSubsequence(x[..|x| - 1], y)
    decreases |x| + |y|, 0
  {
    assert |y| > 0;
    var y' := y[..|y| - 1];
    assert y' + [y[|y| - 1]] == y;
    if x[|x| - 1] == y[|y| - 1] {
      SubsequenceExtend(x[..|x| - 1], y', y[|y| - 1]);
    } else {
      SubsequenceDropLast(x, y');
      SubsequenceExtend(x[..|x| - 1], y', y[|y| - 1]);
    }
  }

  /** The stripped list is the input with some tokens removed and the rest in their order. */
  lemma {:induction false} KeptIsSubsequence(ignore: set<StartTag>, s: seq<Token>)
    requires Context(s).Some?
    ensures IsSubsequence(Kept(ignore, s), s)
    decreases |s|
  {
    if |s| > 0 {
      var init, t := s[..|s| - 1], s[|s| - 1];
      assert Context(init).Some?;
      KeptIsSubsequence(ignore, init);
      var k := Kept(ignore, init);
      if Ignorable(ignore, Context(init).value, t) {
        assert Kept(ignore, s) == k + [] == k;
      } else {
        assert Kept(ignore, s) == k + [t];
      }
      if Ignorable(ignore, Context(init).value, t) {
        SubsequenceExtend(k, init, t);
      } else {
        var x := k + [t];
        assert x[..|x| - 1] == k && x[|x| - 1] == t;
      }
      assert init + [t] == s;
    }
  }

  /** Only whitespace text is dropped: apart from whitespace text, the stripped list is the input. */
  lemma {:induction false} KeptDropsOnlyWhitespace(ignore: set<StartTag>, s: seq<Token>)
    requires Context(s).Some?
    ensures Solid(Kept(ignore, s)) == Solid(s)
    decreases |s|
  {
    if |s| > 0 {
      var init, t := s[..|s| - 1], s[|s| - 1];
      assert Context(init).Some?;
      KeptDropsOnlyWhitespace(ignore, init);
      var k := Kept(ignore, init);
      if Ignorable(ignore, Context(init).value, t) {
        assert Kept(ignore, s) == k + [] == k;
      } else {
        assert Kept(ignore, s) == k + [t];
      }
      if !Ignorable(ignore, Context(init).value, t) {
        var x := k + [t];
        assert x[..|x| - 1] == k && x[|x| - 1] == t;
      }
    }
  }

  /** Every token that is not text is kept, in order. */
  lemma {:induction false} KeptKeepsNonText(ignore: set<StartTag>, s: seq<Token>)
    requires Context(s).Some?
    ensures NonText(Kept(ignore, s)) == NonText(s)
    decreases |s|
  {
    if |s| > 0 {
      var init, t := s[..|s| - 1], s[|s| - 1];
      assert Context(init).Some?;
      KeptKeepsNonText(ignore, init);
      var k := Kept(ignore, init);
      if Ignorable(ignore, Context(init).value, t) {
        assert Kept(ignore, s) == k + [] == k;
      } else {
        assert Kept(ignore, s) == k + [t];
      }
      if !Ignorable(ignore, Context(init).value, t) {
        var x := k + [t];
        assert x[..|x| - 1] == k && x[|x| - 1] == t;
      }
    }
  }

  /** Dropping text leaves the open elements as they were. */
  lemma {:induction false} KeptSameContext(ignore: set<StartTag>, s: seq<Token>)
    requires Context(s).Some?
    ensures Context(Kept(ignore, s)) == Context(s)
    decreases |s|
  {
    if |s| > 0 {
      var init, t := s[..|s| - 1], s[|s| - 1];
      assert Context(init).Some?;
      KeptSameContext(ignore, init);
      var k := Kept(ignore, init);
      if Ignorable(ignore, Context(init).value, t) {
        assert Kept(ignore, s) == k + [] == k;
      } else {
        assert Kept(ignore, s) == k + [t];
      }
      if !Ignorable(ignore, Context(init).value, t) {
        var x := k + [t];
        assert x[..|x| - 1] == k && x[|x| - 1] == t;
      }
    }
  }

  /** Stripping twice strips nothing more: no ignorable whitespace is left. */
  lemma {:induction false} KeptIdempotent(ignore: set<StartTag>, s: seq<Token>)
    requires Context(s).Some?
    ensures Context(Kept(ignore, s)).Some?
    ensures Kept(ignore, Kept(ignore, s)) == Kept(ignore, s)
    decreases |s|
  {
    KeptSameContext(ignore, s);
    if |s| > 0 {
      var init, t := s[..|s| - 1], s[|s| - 1];
      assert Context(init).Some?;
      KeptIdempotent(ignore, init);
      KeptSameContext(ignore, init);
      var k := Kept(ignore, init);
      if Ignorable(ignore, Context(init).value, t) {
        assert Kept(ignore, s) == k + [] == k;
      } else {
        assert Kept(ignore, s) == k + [t];
      }
      if !Ignorable(ignore, Context(init).value, t) {
        var x := k + [t];
        assert x[..|x| - 1] == k && x[|x| - 1] == t;
      }
    }
  }

  /** With nothing to ignore, every token is kept. */
  lemma {:induction false} KeptNothingIgnored(s: seq<Token>)
    requires Context(s).Some?
    ensures Kept({}, s) == s
    decreases |s|
  {
    if |s| > 0 {
      var init := s[..|s| - 1];
      assert Context(init).Some?;
      KeptNothingIgnored(init);
      assert init + [s[|s| - 1]] == s;
    }
  }

  /** The default stripper ignores no element: strip returns its input, unless an end token is unmatched. */
  method StripNothingIgnored(tokens: seq<Token>) returns (r: Result<seq<Token>>)
    ensures Context(tokens).Some? ==> r == Success(tokens)
    ensures Context(tokens).None? ==> r == Failure(NoSuchElement)
  {
    r := Strip({}, tokens);
    if r.Success? {
      KeptNothingIgnored(tokens);
    }
  }

  // Examples --------------------------------------------------------------------------------

  /** One more token: one more step of the context, and the token kept unless ignorable. */
  lemma KeptSnoc(ignore: set<StartTag>, s: seq<Token>, t: Token)
    requires Context(s).Some?
    ensures Context(s + [t]) == Step(Context(s).value, t)
    ensures Context(s + [t]).Some? ==>
              Kept(ignore, s + [t]) == Kept(ignore, s) + (if Ignorable(ignore, Context(s).value, t) then [] else [t])
  {
    assert (s + [t])[..|s|] == s;
  }

  /** One more token, with the context and the kept tokens before and after it given. */
  lemma KeptStep(ignore: set<StartTag>, s: seq<Token>, t: Token,
                 c: seq<StartTag>, k: seq<Token>, c2: seq<StartTag>, k2: seq<Token>)
    requires Context(s) == Some(c) && Kept(ignore, s) == k
    requires Step(c, t) == Some(c2)
    requires k2 == k + (if Ignorable(ignore, c, t) then [] else [t])
    ensures Context(s + [t]) == Some(c2) && Kept(ignore, s + [t]) == k2
  {
    KeptSnoc(ignore, s, t);
  }

  /** The first half of `InnermostDecides`: opening `a` then `b`, with space in each. */
  lemma InnermostOpening(ignore: set<StartTag>, a: StartTag, b: StartTag, sp: Token)
    requires a in ignore && b !in ignore
    requires sp.IsText() && IsWhitespace(sp)
    ensures Context([Start(a), sp, Start(b), sp]) == Some([a, b])
    ensures Kept(ignore, [Start(a), sp, Start(b), sp]) == [Start(a), Start(b), sp]
  {
    var s0: seq<Token> := [];
    var s1 := s0 + [Start(a)];
    var s2 := s1 + [sp];
    var s3 := s2 + [Start(b)];
    var s4 := s3 + [sp];
    assert Context(s0) == Some([]) && Kept(ignore, s0) == [];
    assert [] + [a] == [a] && [] + [Start(a)] == [Start(a)];
    KeptStep(ignore, s0, Start(a), [], [], [a], [Start(a)]);
    KeptStep(ignore, s1, sp, [a], [Start(a)], [a], [Start(a)]);
    assert [a] + [b] == [a, b] && [Start(a)] + [Start(b)] == [Start(a), Start(b)];
    KeptStep(ignore, s2, Start(b), [a], [Start(a)], [a, b], [Start(a), Start(b)]);
    KeptStep(ignore, s3, sp, [a, b], [Start(a), Start(b)], [a, b], [Start(a), Start(b), sp]);
    assert s4 == [Start(a), sp, Start(b), sp];
  }

  /**
   * Only the innermost element decides: whitespace directly inside an ignored `a` goes, the same
   * whitespace inside a kept `b` within `a` stays, and so does whitespace after `a` is closed.
   */
  lemma InnermostDecides(ignore: set<StartTag>, a: StartTag, b: StartTag, sp: Token)
    requires a in ignore && b !in ignore
    requires sp.IsText() && IsWhitespace(sp)
    ensures var s := [Start(a), sp, Start(b), sp, End(b), sp, End(a), sp];
            Context(s) == Some([]) &&
            Kept(ignore, s) == [Start(a), Start(b), sp, End(b), End(a), sp]
  {
    InnermostOpening(ignore, a, b, sp);
    var s4: seq<Token> := [Start(a), sp, Start(b), sp];
    var s5 := s4 + [End(b)];
    var s6 := s5 + [sp];
    var s7 := s6 + [End(a)];
    var s8 := s7 + [sp];
    var k4: seq<Token> := [Start(a), Start(b), sp];
    assert [a, b][..1] == [a];
    KeptStep(ignore, s4, End(b), [a, b], k4, [a], k4 + [End(b)]);
    KeptStep(ignore, s5, sp, [a], k4 + [End(b)], [a], k4 + [End(b)]);
    assert [a][..0] == [] && k4 + [End(b)] + [End(a)] == k4 + [End(b), End(a)];
    KeptStep(ignore, s6, End(a), [a], k4 + [End(b)], [], k4 + [End(b), End(a)]);
    assert k4 + [End(b), End(a)] + [sp] == k4 + [End(b), End(a), sp];
    KeptStep(ignore, s7, sp, [], k4 + [End(b), End(a)], [], k4 + [End(b), End(a), sp]);
    assert s8 == [Start(a), sp, Start(b), sp, End(b), sp, End(a), sp];
    assert k4 + [End(b), End(a), sp] == [Start(a), Start(b), sp, End(b), End(a), sp];
  }

  /** An end token with no element open makes strip throw. */
  lemma UnmatchedEndFails()
    ensures Context([Text(" "), End(StartTag("", "a"))]).None?
  {
    var s := [Text(" "), End(StartTag("", "a"))];
    assert s[..1] == [Text(" ")] && s[..1][..0] == [];
  }
}
